=== FILE: README.md ===
# sentry-migr8 codemods, modelled in Dafny

sentry-migr8 migrates JavaScript and TypeScript projects from version 7 of the Sentry SDKs to
version 8. It does this by running a series of jscodeshift transforms over the user's files.
This project models the tree-to-tree behaviour of those transforms and proves what they promise.

A file is an immutable syntax tree (`Ast.Node`), and a program is a sequence of top-level
statements. An import is a source package plus a list of specifiers: named, namespace or
default. A `require` declaration binds an identifier or an object pattern. Every transform is a
pure function from a file's source text (for the textual pre-checks) and its tree to an
`Outcome`:
- `Unchanged`: the transform returned `undefined`;
- `Changed(program)`;
- `Failed`: the transform throws.

The modules follow the repository:

- `Normaliser` holds the shared helpers of `src/utils/jscodeshift.cjs`:
  - the textual SDK check;
  - the init-call locator;
  - retargeting imports and `require` calls from one package to another;
  - the specifier dedupe and the statement dedupe, with its namespace and named branches;
  - the map-driven renaming of imports and call sites.
- `PackageMove` is the retarget-then-dedupe composition shared by the replay and
  integrations import rules.
- One module per transform: `Integrations`, `ConfigureScope`, `Hub`, `ConvertEnums`,
  `ReplayConfig`, `TracingConfig`, `NodeExports`, `NodeInstrument`, `TracingImports`,
  `HubImports`, `ReplayImports`, `IntegrationsImports`, `SvelteConfig`, `NextjsWrappers`,
  `UtilExports`, `MigrationComments`.
- `Dom` runs a transform on each `<script>` block of a `.vue` or `.svelte` document. A transform's
  answer for one text is new text, `undefined`, or a thrown error (`Dom.Answer`).
- `PackageJson` detects the installed SDK from a manifest.
- `Ast`, `Paths`, `Seqs`, `Text` and `Wrappers` are supporting definitions:
  - the tree and its bottom-up rewrite `Map`, which stands for a jscodeshift `find(...).forEach(...)` pass;
  - node addresses, which stand for jscodeshift `NodePath`s;
  - sequence filters;
  - ASCII text search;
  - `Option`.

Where the source's behaviour depends on something it cannot see, that thing is a parameter:
- a node's printed text (`show`);
- the unseen `modifyImports` helper (`Hub.ImportFixer`);
- whether a file exists next to the one being rewritten (`siblingExists`).

Where the source is evidently wrong, the code as written and the corrected code are both
modelled, and the rest of the model uses the corrected version (see "## Findings"):
- `Normaliser.DedupeImportedIdentifiers` and `ConvertEnums.Remove` take an `intended` flag;
  everything that calls them passes `true`.
- `TracingImports.TracingRule`, `HubImports.HubImportsRule`, `SvelteConfig.WrapDefaultExport`
  and `SvelteConfig.SvelteConfigRule` take the same flag: `false` is the program as written,
  `true` the corrected one.
- `SvelteConfig` has `InsertAfterEach` (as written) and `InsertAfterFirst` (corrected).

## Model

| member | source | states |
|---|---|---|
| PackageJson.GetPackageVersion | src/utils/package-json.js:59-61 | no manifest gives no version; a non-empty `dependencies` entry wins, anything else falls through to the `devDependencies` entry |
| PackageJson.HasPackageInstalledTables | src/utils/package-json.js:50-52 | a package counts as installed exactly when its `dependencies` entry is non-empty or it has any `devDependencies` entry, an empty string included |
| PackageJson.FindInstalledPackageFromList | src/utils/package-json.js:33-43 | the result is the first listed name with a non-empty version, paired with that version; nothing is found exactly when no listed name has one |
| PackageJson.FindPrefersEarlier | src/utils/package-json.js:33-43 | when one of the first k names is installed, the package found is among the first k |
| PackageJson.MetaFrameworkFirst | src/utils/package-json.js:1-20 | an installed meta-framework SDK (Gatsby, Next.js, Remix, SvelteKit) is chosen over every framework and base SDK |
| PackageJson.FrameworkBeforeBase | src/utils/package-json.js:1-20 | an installed framework SDK is chosen over `@sentry/browser` and `@sentry/node` |
| Dom.ParseScriptTagContents | src/utils/dom.cjs:9-17 | a page the parser rejects has no scripts; otherwise the script contents in document order |
| Dom.ReplaceScripts | src/utils/dom.cjs:29-35 | the page keeps its length, the kind of every segment and all markup |
| Dom.ReplaceScriptsBlocks | src/utils/dom.cjs:30-35 | the page keeps its number of scripts, and script i gets `newContents[i]` when that is a string and keeps its text otherwise, including when the list runs out |
| Dom.ReplaceNothing | src/utils/dom.cjs:30-35 | replacing every script by `undefined` leaves the page as it was |
| Dom.ReplaceWithOwn | src/utils/dom.cjs:26-36 | putting back the parsed script contents leaves the page as it was (parse/replace round trip) |
| Dom.ReplaceScriptTagContents | src/utils/dom.cjs:26-40 | a page the parser rejects gives `undefined`; otherwise the printed page with the scripts replaced |
| Dom.WrapJscodeshift | src/utils/dom.cjs:54-62 | a file not ending in `.vue` or `.svelte` goes to the callback whole; otherwise the callback runs on every script in order, the file throws exactly when the callback throws on one of them, and otherwise the page is put back together with each script's new text, or is `undefined` if it cannot be parsed |
| Dom.MapBlocks | src/utils/dom.cjs:57 | mapping the callback over the scripts gives nothing exactly when the callback throws on one of them, and otherwise each script's answer, in order |
| Dom.WrapBlocks | src/utils/dom.cjs:55-58 | in a host file the markup and the number of scripts are kept, and every script holds the callback's answer for its old text, or its old text when the callback answered `undefined` |
| Dom.WrapUnchanged | src/utils/dom.cjs:55-58 | a callback that never answers with a string leaves every script as it was |
| MigrationComments.MethodCommentsShape | src/transformers/addMigrationComments/transform.cjs:22-39 | exactly four call names get a note, and `startTransaction` and `startChild` share theirs |
| MigrationComments.BareCallMarker | src/transformers/addMigrationComments/transform.cjs:41-56 | a node gets at most one marker from the search for bare calls |
| MigrationComments.MemberCallMarker | src/transformers/addMigrationComments/transform.cjs:58-76 | a node gets at most one marker from the search for member calls |
| MigrationComments.NewHubMarker | src/transformers/addMigrationComments/transform.cjs:78-93 | a node gets at most one marker from the search for `new Hub` |
| MigrationComments.MarkersSound | src/transformers/addMigrationComments/transform.cjs:41-93 | every marker names a node one of the three searches looks for, with the note that node calls for |
| MigrationComments.MarkersComplete | src/transformers/addMigrationComments/transform.cjs:41-93 | every node of the tree that one of the searches looks for gets its marker with its note |
| MigrationComments.AddMigrationComments | src/transformers/addMigrationComments/transform.cjs:41-100 | the script is unchanged, with no markers, exactly when nothing is marked; otherwise every statement, declaration or property gains the notes due at it and the markers say which node called for which note |
| MigrationComments.AddNotes | src/transformers/addMigrationComments/transform.cjs:53 | a holder keeps its notes in front, gains every due note, gains nothing else, and never carries a note twice when it did not before |
| MigrationComments.AddNotesSaturated | src/transformers/addMigrationComments/transform.cjs:53 | notes that are all there already add nothing |
| MigrationComments.NoteAt | src/transformers/addMigrationComments/transform.cjs:53 | only a statement, declaration or property changes, and only its notes: it gains each note due at it once, after the ones it had |
| MigrationComments.DueKept | src/transformers/addMigrationComments/transform.cjs:53 | placing notes at a node does not change which notes are due there |
| MigrationComments.NoteRuleEstablishes | src/transformers/addMigrationComments/transform.cjs:41-93 | once a node's subtrees carry their notes, placing the notes at the node leaves the whole tree carrying them |
| MigrationComments.NoteRuleFixes | src/transformers/addMigrationComments/transform.cjs:41-93 | a node that already carries its notes is left alone |
| MigrationComments.PlaceAllIdempotent | src/transformers/addMigrationComments/transform.cjs:41-93 | after placement every holder carries every note due at it, and placing the notes again changes nothing |
| MigrationComments.AddMigrationCommentsIdempotent | src/transformers/addMigrationComments/transform.cjs:41-100 | running the rule on its own output gives the same file back: no note is added twice |
| MigrationComments.NoteOnStatement | src/transformers/addMigrationComments/transform.cjs:41-56 | `startTransaction();` gets the span note on its statement |
| MigrationComments.AddMigrationCommentsFile | src/transformers/addMigrationComments/transform.cjs:12-17 | the rule never throws on a file, host files included; a file other than `.vue` or `.svelte` gets no output exactly when none of its nodes is marked |
| Normaliser.NamedGateImpliesAnyGate | src/utils/jscodeshift.cjs:11-17 | a file whose text imports or requires a particular `@sentry/` package (case-insensitively, either quote) also passes the default `@sentry/(.+)` gate |
| Normaliser.AnyFromNamed | src/utils/jscodeshift.cjs:11-17 | a quoted scoped package name at a position is a match of the default pattern at that same position: the name after `@sentry/` is non-empty and stays on one line |
| Normaliser.InitExpression | src/utils/jscodeshift.cjs:27-46 | `Sentry.init()` calls win whenever one exists; bare `init()` calls are used only when the file mentions a Sentry import or require and there is no `Sentry.init()`; the result is absent exactly when neither applies |
| Normaliser.RetargetRequire | src/utils/jscodeshift.cjs:58-69 | a one-argument string `require(old)` now requires the new package; any other node is left as it is |
| Normaliser.RewriteCjsRequires | src/utils/jscodeshift.cjs:58-71 | the flag is true exactly when the file required the old package; afterwards no `require(old)` remains anywhere (old ≠ new) and the file keeps its length |
| Normaliser.RetargetLeavesNoOld | src/utils/jscodeshift.cjs:58-69 | the bottom-up retargeting pass leaves no `require(old)` in any statement |
| Normaliser.RetargetCreatesNoMatch | src/utils/jscodeshift.cjs:309-312 | retargeting children cannot make a call newly match `require(pkg)`: the string argument is only ever replaced whole |
| Normaliser.RetargetRoundTrip | src/utils/jscodeshift.cjs:58-69 | retargeting `a` to `b` and then `b` to `a` gives back the same subtree when it did not already require `b` |
| Normaliser.RewriteCjsRequiresRoundTrip | src/utils/jscodeshift.cjs:58-71 | the two-way require rewrite is the identity on files that did not require the target package |
| Normaliser.RewriteCjsRequiresKeepsImports | src/utils/jscodeshift.cjs:58-71 | retargeting requires never adds, drops or edits a top-level import declaration |
| Normaliser.ImportPositions | src/utils/jscodeshift.cjs:86-92 | lists exactly the positions of the imports of a package, strictly increasing, that is in document order |
| Normaliser.RewriteEsmImports | src/utils/jscodeshift.cjs:83-94 | every import of the old package now comes from the new one with the same specifiers, every other statement is untouched, and the returned positions are exactly the retargeted ones, in document order |
| Normaliser.RewriteEsmImportsRoundTrip | src/utils/jscodeshift.cjs:83-94 | retargeting imports `a`→`b`→`a` restores a file that imported nothing from `b` |
| Normaliser.DedupeScan | src/utils/jscodeshift.cjs:108-126 | the scan as written keeps a subsequence of the specifiers and never loses the first occurrence of a name it has not already seen |
| Normaliser.DedupeKeys | src/utils/jscodeshift.cjs:108-126 | the intended scan keeps a subsequence, keeps the first occurrence of every name, and leaves no name twice when every element has a name |
| Normaliser.DedupeKeysComplete | src/utils/jscodeshift.cjs:96-99 | de-duplicating keeps exactly the same set of names and leaves each of them once |
| Normaliser.DedupeKeysThree | src/utils/jscodeshift.cjs:96-99 | three imports of `a` leave exactly one under the intended scan |
| Normaliser.DedupeScanDistinct | src/utils/jscodeshift.cjs:108-126 | with no repeated and no already-seen name the scan changes nothing |
| Normaliser.DedupeScanSkips | src/utils/jscodeshift.cjs:112-126 | as written, `{ a, a, a }` leaves `{ a, a }`: the specifier that slides into a removed one's place is stepped over by `pos++` |
| Normaliser.Scan | src/utils/jscodeshift.cjs:112-126 | either scan keeps a subsequence with every name's first occurrence; the intended one leaves no repeated name |
| Normaliser.DedupeImportedIdentifiers | src/utils/jscodeshift.cjs:105-174 | imports of other packages are untouched; each import of the package keeps a subsequence of its specifiers that still holds the first occurrence of every local name, and under the intended scan no name twice when all specifiers are named; each destructuring `require` of the package likewise keeps a subsequence of its properties with the first occurrence of every key |
| Normaliser.DedupeImportedIdentifiersRepeats | src/utils/jscodeshift.cjs:105-129 | the whole pass as written leaves `import { a, a }` from `import { a, a, a }`; as intended it leaves `import { a }` |
| Normaliser.QualifyUsesComplete | src/utils/jscodeshift.cjs:216-223 | after qualifying, every expression identifier with the absorbed name sits under a member expression |
| Normaliser.QualifyAll | src/utils/jscodeshift.cjs:214-223 | qualifying a list of names keeps the file's length and statement kinds |
| Normaliser.RenameUnderComplete | src/utils/jscodeshift.cjs:244-253 | after renaming, no member expression or qualified type name refers to the old namespace alias |
| Normaliser.RewritesKeepImports | src/utils/jscodeshift.cjs:216-253 | the identifier rewrites leave every import declaration as it was and turn no statement into an import |
| Normaliser.QualifyAllKeepsImports | src/utils/jscodeshift.cjs:214-223 | qualifying several names leaves the import declarations as they were |
| Normaliser.Kept | src/utils/jscodeshift.cjs:209-227 | the specifiers that stay in a folded declaration are exactly the aliased named, namespace and default ones |
| Normaliser.Absorbed | src/utils/jscodeshift.cjs:209-215 | the absorbed names are exactly the imported names of the un-aliased named specifiers |
| Normaliser.FirstWhere | src/utils/jscodeshift.cjs:193 | the chosen position is the first at or after the start that qualifies, and none qualifies when there is no result |
| Normaliser.MergeNamed | src/utils/jscodeshift.cjs:260-291 | after the named branch only one non-namespace import of the package remains, holding its own specifiers and then the donated ones; the multiset of all the package's specifiers is unchanged and no other statement moves |
| Normaliser.QualifyUsesQualified | src/utils/jscodeshift.cjs:216-223 | qualifying one more name keeps every already qualified name qualified |
| Normaliser.QualifyAllQualified | src/utils/jscodeshift.cjs:206-228 | qualifying a list of names qualifies all of them and keeps the earlier ones qualified |
| Normaliser.RenameUnderQualified | src/utils/jscodeshift.cjs:244-253 | renaming a namespace alias to the SDK namespace does not unqualify any other name |
| Normaliser.QualifyExprIds | src/utils/jscodeshift.cjs:216-223 | qualifying introduces no expression identifier other than the namespace and the name, both under a member expression |
| Normaliser.RenameExprIds | src/utils/jscodeshift.cjs:244-253 | renaming introduces no expression identifier other than the SDK namespace in member or qualified-name position |
| Normaliser.FoldImport | src/utils/jscodeshift.cjs:206-254 | folding one import keeps only its non-absorbed specifiers, leaves every other import as it was, and drops the declaration when it is empty or is a lone namespace import renamed to the SDK namespace |
| Normaliser.FoldImportQualified | src/utils/jscodeshift.cjs:206-228 | after folding one import its absorbed names are qualified and the earlier ones stay qualified |
| Normaliser.FoldFrom | src/utils/jscodeshift.cjs:206-255 | processing the remaining imports in document order establishes the fold invariant for the whole file: each folded import reduced to its kept specifiers, every absorbed name qualified |
| Normaliser.Without | src/utils/jscodeshift.cjs:231 | removing the dropped positions keeps exactly the statements at the other positions |
| Normaliser.FoldIntoNamespace | src/utils/jscodeshift.cjs:195-258 | the namespace branch keeps the namespace import and every import of another package, brings in no foreign import, leaves each remaining import of the package without un-aliased named specifiers, and qualifies every absorbed name |
| Normaliser.DedupeImportStatements | src/utils/jscodeshift.cjs:186-292 | with neither a lone namespace import nor a named import nothing changes; an empty namespace name bails out; otherwise the named branch or the namespace branch decides, each with its guarantees |
| Normaliser.DedupeForeignImports | src/utils/jscodeshift.cjs:186-187 | merging the imports of one package neither drops nor introduces an import of any other package |
| Normaliser.DedupeKeepsStatements | src/utils/jscodeshift.cjs:186-292 | when the package has no lone namespace import, merging its imports keeps every statement that is not an import |
| Normaliser.RenameSpec | src/utils/jscodeshift.cjs:382-403 | a named specifier has its imported and its local name replaced through the map; a specifier of another kind is kept |
| Normaliser.RenameSpecs | src/utils/jscodeshift.cjs:382-403 | every specifier of the declaration is renamed, in place |
| Normaliser.RenameImported | src/utils/jscodeshift.cjs:380-451 | imports of other packages stay; imports of the package get every named specifier renamed; each destructuring `require` of the package gets every property renamed in place; only declarations change |
| Normaliser.RenamePatPropKeys | src/utils/jscodeshift.cjs:426-447 | a destructured property with an identifier key has its key renamed whatever its value is, an identifier value is renamed too, a rest element or computed key is kept, and with no chained replacements the result needs no more renaming |
| Normaliser.RenamePropsFresh | src/utils/jscodeshift.cjs:426-451 | with no chained replacements, no property kept from the renamed pattern still carries a name the map wants replaced |
| Normaliser.RenamedFresh | src/utils/jscodeshift.cjs:388-401 | with no replacement that is itself replaced, a renamed name never needs renaming again |
| Normaliser.RenameSpecsFresh | src/utils/jscodeshift.cjs:380-453 | after renaming and de-duplicating, no named specifier still carries a name the map wants replaced |
| Normaliser.ReplaceImported | src/utils/jscodeshift.cjs:374-456 | returns true exactly when the file passes the gate for the package and changes nothing otherwise; foreign imports stay; the package's imports end with renamed, de-duplicated specifiers none of which still needs renaming; its destructuring `require`s keep a subsequence of the renamed properties, none of which still needs renaming |
| Normaliser.CallRenameEstablishesFresh | src/utils/jscodeshift.cjs:329-356 | renaming one node bottom-up leaves it without a stale bare call or member access |
| Normaliser.RenameCallsComplete | src/utils/jscodeshift.cjs:329-356 | with no chained replacements, no bare call or member access is left that the map still wants renamed |
| Normaliser.RenameCallsIdempotent | src/utils/jscodeshift.cjs:329-356 | with no chained replacements, renaming calls twice is renaming once |
| Normaliser.RenameCallsChained | src/utils/jscodeshift.cjs:329-341 | with a chained map `a→b, b→c` a call `a()` becomes `b()`, not `c()`: one pass is not a closure |
| Normaliser.BindingEditsKeepFresh | src/utils/jscodeshift.cjs:374-456 | a pass that edits only import specifiers and destructuring patterns creates no stale call or member access |
| Normaliser.ReplaceImportedKeepsCalls | src/utils/jscodeshift.cjs:359 | the imported-name pass run after the call pass does not undo it |
| Normaliser.ReplaceFunctionCalls | src/utils/jscodeshift.cjs:322-362 | returns true exactly when the file passes the gate and changes nothing otherwise; foreign imports stay; with no chained replacements no call, member access or imported name still needs renaming |
| ReplayConfig.ConvertSelector | src/transformers/replayConfig/transform.cjs:140-142 | a selector splits at every comma into at least one comma-free entry, with no trimming, and the entries joined by commas give back the selector |
| ReplayConfig.ConvertClassName | src/transformers/replayConfig/transform.cjs:148-150 | an empty class name contributes nothing, any other name exactly one class selector `.name` |
| ReplayConfig.UnhandledProperty | src/transformers/replayConfig/transform.cjs:38-111 | a property with another key, or with a value that is neither an array nor a string, is not consumed |
| ReplayConfig.MergeIsConcat | src/transformers/replayConfig/transform.cjs:182-190 | whether the first added array is adopted as is or arrays are concatenated, merging yields the existing entries followed by the added ones |
| ReplayConfig.FoldEntries | src/transformers/replayConfig/transform.cjs:38-112 | after all properties are processed, each of `block`, `ignore` and `mask` holds exactly the entries aimed at it, in property order, and no others |
| ReplayConfig.FormOf | src/transformers/replayConfig/transform.cjs:158-173 | `new X.Replay()` is preferred; `new Replay()` is used only when there is no member form; nothing is chosen exactly when neither occurs |
| ReplayConfig.StripComplete | src/transformers/replayConfig/transform.cjs:56-108 | inside a processed expression no object literal keeps a property the rule consumes |
| ReplayConfig.Additions | src/transformers/replayConfig/transform.cjs:122-130 | at most three properties are appended, each an array with at least one entry |
| ReplayConfig.AdditionsOrder | src/transformers/replayConfig/transform.cjs:122-130 | the appended properties are exactly the non-empty lists, in the order block, ignore, mask |
| ReplayConfig.Finish | src/transformers/replayConfig/transform.cjs:115-131 | only a first argument that is an object literal is extended, by appending the lists; any other expression is left as it is |
| ReplayConfig.ReplayAtShape | src/transformers/replayConfig/transform.cjs:37-131 | a processed construction ends with the object's unconsumed properties followed by the non-empty lists, and nothing before the lists is a consumed property |
| ReplayConfig.ReplayConfigRule | src/transformers/replayConfig/transform.cjs:15-35 | the file is unchanged exactly when there is no `Replay` construction or the text mentions none of the legacy option names in any letter case; the rule fails exactly when a chosen construction has no arguments |
| PackageMove.MovePackage | src/transformers/rewriteReplayImports/transform.cjs:35-44 | after retargeting, merging and retargeting requires, no import or require of the old package is left, whenever it differs from the SDK |
| PackageMove.MoveWithoutImports | src/transformers/rewriteReplayImports/transform.cjs:36-41 | with no import of the old package no merge happens: imports are untouched and only requires are retargeted |
| PackageMove.MoveKeepsForeignImports | src/transformers/rewriteIntegrationsImports/transform.cjs:31-40 | every import of a package other than the two involved survives the move |
| PackageMove.RetargetedSpecs | src/utils/jscodeshift.cjs:83-94 | retargeting moves the old package's specifiers to the new one: the new package's specifiers are the union, as a multiset, of both |
| PackageMove.MoveMergesNamed | src/transformers/rewriteIntegrationsImports/transform.cjs:31-40 | with a named import of the old package and no lone namespace import, the moved file has exactly one import of the SDK other than namespace imports, holding every specifier both packages' imports had |
| ReplayImports.ReplayImportsRule | src/transformers/rewriteReplayImports/transform.cjs:23-48 | the file is unchanged exactly when no SDK is chosen or its text neither imports nor requires `@sentry/replay`; otherwise no import or require of it is left |
| IntegrationsImports.IntegrationsImportsRule | src/transformers/rewriteIntegrationsImports/transform.cjs:18-44 | the file is unchanged exactly when its text does not mention `@sentry/integrations` or no SDK is known; otherwise no import or require of it is left |
| Integrations.ClassesDistinct | src/transformers/integrations/transform.cjs:8-45 | no integration class is listed twice |
| Integrations.FunctionsDistinct | src/transformers/integrations/transform.cjs:8-47 | no two classes share a factory function |
| Integrations.Initials | src/transformers/integrations/transform.cjs:8-45 | every class name starts with an upper-case letter and every factory name with a lower-case one |
| Integrations.FactoriesAreNotClasses | src/transformers/integrations/transform.cjs:5-47 | no factory name is a class name, and none is `Integrations` |
| Integrations.IntegrationMapShape | src/transformers/integrations/transform.cjs:8-47 | the table maps 32 classes one-to-one onto factories, and no factory is itself a key, so one renaming pass is final |
| Integrations.NewToCallAt | src/transformers/integrations/transform.cjs:78-153 | `new A.Integrations.C(…)` becomes `A.c(…)`, `new C(…)` becomes `c(…)` and `new A.C(…)` becomes `A.c(…)` for a known class `C`; anything else is left as it is |
| Integrations.OtherMiddleStays | src/transformers/integrations/transform.cjs:104-106 | a three-part constructor whose middle name is not `Integrations` is not rewritten |
| Integrations.RewriteNewsComplete | src/transformers/integrations/transform.cjs:78-153 | after the three searches no `new` of a known class remains in any of the three forms |
| Integrations.RewriteNewsIdempotent | src/transformers/integrations/transform.cjs:78-153 | running the class-to-factory searches again changes nothing |
| Integrations.RewriteNewsKeepsImports | src/transformers/integrations/transform.cjs:78-153 | the searches keep the file's length and leave import declarations alone |
| Integrations.ImportBindingAt | src/transformers/integrations/transform.cjs:165-194 | a binding is reported only for an import of the SDK, and it is the non-empty local name of the first `Integrations` specifier |
| Integrations.PatternBindings | src/transformers/integrations/transform.cjs:210-227 | every name reported comes from an `Integrations: V` property with a non-empty `V` |
| Integrations.IntegrationsBinding | src/transformers/integrations/transform.cjs:162-230 | the chosen name, when there is one, was bound to `Integrations` by an SDK import or an SDK require (the last one found wins) |
| Integrations.FlattenFactoryAt | src/transformers/integrations/transform.cjs:233-261 | `V.fn(…)` with a known factory becomes `fn(…)` with the same arguments; anything else stays |
| Integrations.FlattenFactoryComplete | src/transformers/integrations/transform.cjs:233-261 | no `V.fn()` call of a known factory is left |
| Integrations.FlattenFactoryIdempotent | src/transformers/integrations/transform.cjs:233-261 | flattening twice is flattening once |
| Integrations.FactoriesUsed | src/transformers/integrations/transform.cjs:163-258 | lists each factory called through the binding exactly once, and exactly those, all of them known factories |
| Integrations.FactoryNameFromCall | src/transformers/integrations/transform.cjs:253-256 | a recorded call names a known factory |
| Integrations.FixImportSpecs | src/transformers/integrations/transform.cjs:265-282 | the import keeps its named non-`Integrations` specifiers in order, drops every other specifier, and then binds each used factory once, adding it only when no specifier already binds that name |
| Integrations.FixImports | src/transformers/integrations/transform.cjs:265-282 | only import declarations are edited; every other statement is left as it is |
| Integrations.FixPatternProps | src/transformers/integrations/transform.cjs:287-317 | the destructuring keeps, in order, every property with an identifier key other than `Integrations` (whether its value is an identifier, a default or a nested pattern) and adds a shorthand property for each used factory whose key is not already present |
| Integrations.FixRequireAt | src/transformers/integrations/transform.cjs:287-317 | every declarator of a declaration requiring the SDK is fixed; other statements are left alone |
| Integrations.IntegrationsRule | src/transformers/integrations/transform.cjs:63-321 | a file without any Sentry import or require is unchanged; it throws exactly when it has one and constructs an inherited object property name (`constructor`, `toString`, …) in one of the three searched forms; otherwise without an SDK only class constructions are rewritten, imports are untouched, and no known `new` is left; with an SDK no import of the SDK still binds `Integrations`, and, unless the merge left a namespace import of the SDK, no known `new` is left and no known `V.fn()` on the `Integrations` binding either |
| Integrations.IntegrationsAnswer | src/transformers/integrations/transform.cjs:68-74 | the rule's callback answers `undefined` exactly when the text has no Sentry import or require, and throws exactly when it has one and constructs an inherited name |
| Integrations.IntegrationsFile | src/transformers/integrations/transform.cjs:68 | run through the script-block wrapper, a `.vue` or `.svelte` file throws exactly when one of its script blocks makes the rule throw, whatever the other blocks give; any other file throws exactly when its own text does |
| Integrations.WithSdkUnbinds | src/transformers/integrations/transform.cjs:263-282 | after the SDK steps no import declaration of the SDK binds `Integrations`: the fix drops it and the merge of the SDK imports does not bring it back |
| Integrations.WithSdkNoNew | src/transformers/integrations/transform.cjs:114-321 | a program without a known `new` keeps none through the import renames, the factory flattening, the import and require fixes and the merge, unless the merge left a namespace import of the SDK |
| Integrations.WithSdkNoFactoryCall | src/transformers/integrations/transform.cjs:163-321 | once an `Integrations` binding of the SDK is found, no `V.fn()` call of a known factory on it is left after the remaining steps, unless the merge left a namespace import of the SDK |
| Integrations.InheritedNotMapped | src/transformers/integrations/transform.cjs:8-47 | no name the rule throws on is a class the table rewrites |
| Integrations.ConstructorFails | src/transformers/integrations/transform.cjs:81-111 | `new Sentry.Integrations.constructor()` makes the rule throw |
| ConvertEnums.SeverityMembersDistinct | src/transformers/convertEnums/transform.cjs:24-31 | the severity members are distinct |
| ConvertEnums.SpanStatusMembersDistinct | src/transformers/convertEnums/transform.cjs:4-22 | the span-status members are distinct |
| ConvertEnums.ValuesNonEmpty | src/transformers/convertEnums/transform.cjs:4-31 | every enum value is a non-empty string, so the `if (newValue)` test never rejects a known member |
| ConvertEnums.TablesShape | src/transformers/convertEnums/transform.cjs:4-36 | the tables have six severities and seventeen span statuses, none mapped to the empty string |
| ConvertEnums.EnumAt | src/transformers/convertEnums/transform.cjs:67-99 | `E.M` or `Sentry.E.M` with `E` one of the two enums and `M` a known member becomes the member's string value; anything else stays |
| ConvertEnums.UnknownMemberStays | src/transformers/convertEnums/transform.cjs:103-106 | an access of an unknown member is left as a member expression |
| ConvertEnums.ConvertMembersComplete | src/transformers/convertEnums/transform.cjs:67-107 | no known member access survives the pass, and a second pass changes nothing |
| ConvertEnums.StatusMeaning | src/transformers/convertEnums/transform.cjs:62-107 | an enum ends `no` exactly when an unknown member was read, `yes` exactly when only known members were read, `unused` exactly when it was not read at all, whatever the order |
| ConvertEnums.StatusSticky | src/transformers/convertEnums/transform.cjs:100-105 | once `no`, further accesses never change the status |
| ConvertEnums.ToRemove | src/transformers/convertEnums/transform.cjs:109 | the enums to remove are exactly the known enums whose status ended `yes` |
| ConvertEnums.RemovedIff | src/transformers/convertEnums/transform.cjs:62-112 | an enum is removed exactly when the file reads one of its known members and never an unknown one |
| ConvertEnums.RemoveScan | src/transformers/convertEnums/transform.cjs:134-148 | the scan as written keeps a subsequence and keeps every named element whose name is not listed |
| ConvertEnums.RemoveKeys | src/transformers/convertEnums/transform.cjs:134-148 | the intended scan keeps a subsequence, keeps every unlisted name, and when every element is named keeps no listed name |
| ConvertEnums.RemoveScanSkips | src/transformers/convertEnums/transform.cjs:143-147 | as written, `{ Severity, SpanStatus }` with both listed keeps `SpanStatus`: the specifier sliding into the removed one's place is stepped over |
| ConvertEnums.RemoveKeysBoth | src/transformers/convertEnums/transform.cjs:143-147 | the intended scan removes both |
| ConvertEnums.WithoutEmptied | src/transformers/convertEnums/transform.cjs:193-197 | the statement list keeps, in order, every statement except emptied Sentry require declarations |
| ConvertEnums.RemoveRequireAt | src/transformers/convertEnums/transform.cjs:158-199 | only the first declarator's pattern of a Sentry require is scanned; a statement list loses its emptied require declarations; anything else stays |
| ConvertEnums.RemoveImportAt | src/transformers/convertEnums/transform.cjs:130-155 | imports of other packages stay; a `@sentry/` import keeps its scanned specifiers or disappears when none are left |
| ConvertEnums.RemoveImportsKeepsOthers | src/transformers/convertEnums/transform.cjs:130-155 | every statement that is not a `@sentry/` import survives the import step, and every surviving `@sentry/` import is a non-empty scan of an original import |
| ConvertEnums.IntendedImportRemoval | src/transformers/convertEnums/transform.cjs:130-155 | with the intended scan a `@sentry/` import of named specifiers keeps none of the listed names and all of the others, and disappears only when every name was listed |
| ConvertEnums.ConvertEnumsRule | src/transformers/convertEnums/transform.cjs:48-117 | a file without a Sentry import or require is unchanged; otherwise members are converted and no known member access is left, and the removal runs with the corrected scan (`RemoveImportedIdentifiers(ids, true, …)`; as written the scan keeps the specifier after a removed one, see `RemoveScanSkips`): every `@sentry/` import and require keeps a name of an enum to remove only behind an element the scan stops at, and every unlisted named specifier of a `@sentry/` import survives |
| ConvertEnums.RemoveKeysStops | src/transformers/convertEnums/transform.cjs:134-148 | the corrected scan keeps a listed name only behind an element without a name, where the scan stops |
| ConvertEnums.RemovalKeepsAbsent | src/transformers/convertEnums/transform.cjs:130-199 | removing identifiers creates no identifier or member expression: it edits import specifiers, destructuring patterns and statement lists only |
| ConvertEnums.RemovedImportsStopped | src/transformers/convertEnums/transform.cjs:130-155 | each top-level `@sentry/` import left by the corrected removal keeps a listed name only behind a default or namespace specifier |
| ConvertEnums.RemovedRequiresStopped | src/transformers/convertEnums/transform.cjs:158-199 | each `@sentry/` require declaration left by the corrected removal, at any depth, keeps a listed name only behind a property whose value is no identifier |
| ConvertEnums.RemovalKeepsUnlisted | src/transformers/convertEnums/transform.cjs:130-155 | a named specifier of a `@sentry/` import whose local name is not listed is still imported from the same package afterwards |
| ConvertEnums.ConvertKeepsImports | src/transformers/convertEnums/transform.cjs:67-107 | the member conversion hands every top-level import through unchanged |
| ConfigureScope.ImportRenamesNoChains | src/transformers/configureScope/transform.cjs:164 | renaming `configureScope` to `getCurrentScope` in imports is final after one pass |
| ConfigureScope.SingleExpression | src/transformers/configureScope/transform.cjs:188-217 | a body counts as a single call exactly when it is a call `s.m(…)` on the scope parameter, or a block of one expression statement holding such a call |
| ConfigureScope.Accessor | src/transformers/configureScope/transform.cjs:123-125 | `getScope` is chosen exactly when the printed callee object contains "hub" in any letter case, `getCurrentScope` exactly otherwise |
| ConfigureScope.BareAt | src/transformers/configureScope/transform.cjs:45-95 | only a bare `configureScope` call with an inlinable callback is rewritten, against `getCurrentScope()` |
| ConfigureScope.MemberAt | src/transformers/configureScope/transform.cjs:98-160 | only `obj.configureScope` with an inlinable callback is rewritten, against `obj.getScope()` or `obj.getCurrentScope()` as the accessor decides |
| ConfigureScope.OtherCallbackStays | src/transformers/configureScope/transform.cjs:50-60 | a call whose first argument is not a function with an identifier parameter is left alone by both passes |
| ConfigureScope.BareSingleCall | src/transformers/configureScope/transform.cjs:68-81 | `configureScope(s => s.m(args))` and the one-statement block form become `getCurrentScope().m(args)` |
| ConfigureScope.BareBlock | src/transformers/configureScope/transform.cjs:83-94 | a longer block body becomes a block that first declares the scope variable as `getCurrentScope()` and then runs the old statements, unchanged and in order |
| ConfigureScope.NonCallBodyStays | src/transformers/configureScope/transform.cjs:83-85 | an expression body that is not a scope call is left as it is by both passes |
| ConfigureScope.InlineBareComplete | src/transformers/configureScope/transform.cjs:45-95 | after the bare pass no inlinable `configureScope(…)` call is left, and a second pass changes nothing |
| ConfigureScope.InlineMemberComplete | src/transformers/configureScope/transform.cjs:98-160 | after the member pass no inlinable `obj.configureScope(…)` call is left, and a second pass changes nothing |
| ConfigureScope.ConfigureScopeRule | src/transformers/configureScope/transform.cjs:27-169 | the file is unchanged exactly when it has no Sentry import or require or does not mention `configureScope`; otherwise both passes run, the SDK's imports are renamed only when an SDK is known, no inlinable `obj.configureScope(…)` is left, and no inlinable bare `configureScope(…)` is left unless the member pass had a call to rewrite |
| ConfigureScope.MemberPassIdle | src/transformers/configureScope/transform.cjs:98-160 | without an inlinable `obj.configureScope(…)` call the member pass changes nothing |
| ConfigureScope.RenameKeepsNoInlinable | src/transformers/configureScope/transform.cjs:162-166 | renaming the imported `configureScope` creates no inlinable call of either form |
| ConfigureScope.MemberPassExposesBare | src/transformers/configureScope/transform.cjs:45-160 | `configureScope(s => hub.configureScope(t => {}))` passes the bare pass unchanged, and the member pass then leaves an inlinable bare call behind |
| Hub.HubMethodsShape | src/transformers/hub/transform.cjs:21-38 | every method keeps its name except `getScope`, which becomes `getCurrentScope`; `getCurrentHub`, `bindClient`, `pushScope` and `popScope` have no replacement |
| Hub.FlattenAt | src/transformers/hub/transform.cjs:47-63 | a call of a known method on a variable whose name contains "hub", or on `getCurrentHub()`, becomes a call of the replacement with the same arguments; anything else stays |
| Hub.FlattenComplete | src/transformers/hub/transform.cjs:47-72 | after the first pass no call of a known method on a hub object is left |
| Hub.FlattenIdempotent | src/transformers/hub/transform.cjs:47-72 | running the first pass twice is running it once |
| Hub.MethodsUsed | src/transformers/hub/transform.cjs:42-62 | lists, without repetition, exactly the replacement names the first pass calls |
| Hub.NamespaceFlattenAt | src/transformers/hub/transform.cjs:75-103 | `NS.getCurrentHub().m(…)` with a known method becomes `NS.m'(…)` with the same arguments; anything else stays |
| Hub.NamespaceFlattenComplete | src/transformers/hub/transform.cjs:75-111 | after the second pass no `NS.getCurrentHub().m(…)` with a known method is left |
| Hub.NamespaceFlattenIdempotent | src/transformers/hub/transform.cjs:75-111 | running the second pass twice is running it once |
| Hub.HubRule | src/transformers/hub/transform.cjs:17-124 | the file is unchanged, with no markers, exactly when neither pass finds a hub call; every marker carries the migration message and sits on a call whose method has no replacement, and every such call of either shape gets one (`HubMarkersExact`); imports are fixed and merged only when an SDK is known |
| Hub.HubMarkersExact | src/transformers/hub/transform.cjs:47-111 | a node is marked exactly when it is a hub call of the first shape in the file, or of the second shape after the first pass, whose method has no replacement |
| Hub.MarkersAreUnmapped | src/transformers/hub/transform.cjs:64-70 | markers are only placed on hub calls the passes could not rewrite |
| Hub.NoHubNoMarkers | src/transformers/hub/transform.cjs:113-115 | a file with no hub call of either shape gets no marker |
| HubImports.SplitImport | src/transformers/rewriteHubImports/transform.cjs:63-82 | a named hub import becomes an `@sentry/core` import of the core-only specifiers followed by an SDK import of the rest, each present only when non-empty and in the original relative order; the core import comes first exactly when some specifier is core-only, and together they hold exactly the original specifiers |
| HubImports.SplitMembers | src/transformers/rewriteHubImports/transform.cjs:63-80 | each produced import is non-empty, all named, a subsequence of the original, and entirely core or entirely SDK |
| HubImports.SplitSpecs | src/transformers/rewriteHubImports/transform.cjs:63-80 | the two produced imports together hold the original specifiers, as a multiset |
| HubImports.PieceFacts | src/transformers/rewriteHubImports/transform.cjs:53-83 | a statement that is not a named hub import is kept; a split never yields another hub import, keeps the specifiers, and leaves the non-import statements as they were |
| HubImports.SplitHubImports | src/transformers/rewriteHubImports/transform.cjs:53-83 | after the first pass no all-named hub import is left, every other statement is still there, the import specifiers are the same multiset, non-import statements are unchanged and in order, and the flag is set exactly when a core import was created |
| HubImports.RetargetNamespaces | src/transformers/rewriteHubImports/transform.cjs:86-97 | every lone namespace import of the hub package now imports `@sentry/core`, nothing else changes, and the flag is set exactly when there was one |
| HubImports.SplitKeepsNamespaces | src/transformers/rewriteHubImports/transform.cjs:53-97 | the first pass neither creates nor removes lone namespace imports of the hub package |
| HubImports.HubImportsRule | src/transformers/rewriteHubImports/transform.cjs:32-114 | the file is unchanged exactly when no SDK is chosen or it neither imports nor requires `@sentry/hub`; `@sentry/core` is asked for exactly when a split created a core import, a namespace import was retargeted, or a hub require was rewritten; as written, once a split or a retarget happened the requires are left as they were; otherwise, and always when corrected, no hub require remains; the only hub imports left are original ones mixing a default or namespace specifier with others |
| HubImports.BeforeRequiresKeepsStatements | src/transformers/rewriteHubImports/transform.cjs:53-100 | without a lone namespace import of the hub package, splitting, retargeting and both merges keep every statement that is not an import |
| HubImports.AsWrittenKeepsHubRequire | src/transformers/rewriteHubImports/transform.cjs:99-105 | as written, a file whose named hub import is split keeps its `require('@sentry/hub')`; corrected, none is left |
| HubImports.HubImportsSurvive | src/transformers/rewriteHubImports/transform.cjs:99-105 | the hub imports left after both merges and the require rewrite are original imports the first two passes skipped |
| HubImports.MergesKeepHubImports | src/transformers/rewriteHubImports/transform.cjs:99-100 | merging the SDK and core imports brings in no hub import |
| UtilExports.ReplaceGlobalComplete | src/transformers/utilExports/transform.cjs:30-57 | after its pass no `getGlobalObject()` call of that shape is left |
| UtilExports.ReplaceGlobalKeeps | src/transformers/utilExports/transform.cjs:30-57 | a file without such a call goes through the pass unchanged |
| UtilExports.HarmlessKeepsNoGlobal | src/transformers/utilExports/transform.cjs:59-72 | a pass that only renames bindings and leaves no new calls does not bring back a `getGlobalObject` call |
| UtilExports.ReplaceImportedNoGlobal | src/transformers/utilExports/transform.cjs:70-72 | renaming the imports afterwards leaves no `getGlobalObject` call where there was none |
| UtilExports.SwapAt | src/transformers/utilExports/transform.cjs:60-68 | every identifier `a` held directly by a node becomes `b`, and its children are untouched |
| UtilExports.RenameIdentifiersComplete | src/transformers/utilExports/transform.cjs:59-68 | no identifier `timestampWithMs` is left once it was renamed |
| UtilExports.RenameIdentifiersKeeps | src/transformers/utilExports/transform.cjs:59-68 | a file without the identifier goes through the renaming unchanged |
| UtilExports.ImportsToReplace | src/transformers/utilExports/transform.cjs:27-72 | the import renames hold `getGlobalObject` exactly when a call was replaced, `timestampWithMs` exactly when an identifier was renamed, and are empty exactly when neither happened |
| UtilExports.UtilExportsRule | src/transformers/utilExports/transform.cjs:16-80 | the file is unchanged exactly when it fails the `@sentry/utils` gate and holds no `getGlobalObject` call and no `timestampWithMs`; otherwise no `getGlobalObject` call of either shape is left |
| UtilExports.SeverityRenamed | src/transformers/utilExports/transform.cjs:4-72 | in a file that passes the `@sentry/utils` gate the rule changes the file and leaves no call `severityFromString(…)` and no member access `x.severityFromString` |
| UtilExports.KeepsFreshMap | src/transformers/utilExports/transform.cjs:30-68 | a pass that only turns nodes into non-calls keeps a tree free of `severityFromString` uses |
| NextjsWrappers.Repeats | src/transformers/nextjsWrapperMethods/transform.cjs:5-15 | the table's first eight keys are distinct and its ninth entry repeats the third with the same replacement |
| NextjsWrappers.EntriesAgree | src/transformers/nextjsWrapperMethods/transform.cjs:5-15 | every entry of the table, the repeated one included, is what the map says |
| NextjsWrappers.FunctionMapShape | src/transformers/nextjsWrapperMethods/transform.cjs:5-15 | the table maps eight distinct old names one-to-one onto new names, none of which is an old name, so one renaming pass is final |
| NextjsWrappers.Letters | src/transformers/nextjsWrapperMethods/transform.cjs:5-15 | every old name starts `wi` (`with…`) and every new one `wr` (`wrap…`) |
| NextjsWrappers.NextjsWrappersRule | src/transformers/nextjsWrapperMethods/transform.cjs:33-44 | the file is unchanged exactly when it neither imports nor requires `@sentry/nextjs`; otherwise no bare call or member access of an old name is left, the package's imports name no old wrapper, and other imports stay |
| NextjsWrappers.CallRenamesIdempotent | src/transformers/nextjsWrapperMethods/transform.cjs:33-44 | renaming the call sites a second time changes nothing |
| NextjsWrappers.OtherNamesUntouched | src/utils/jscodeshift.cjs:329-356 | a file without a call or member access of an old name is not changed by the call renaming |
| SvelteConfig.NamespaceName | src/transformers/rewriteSvelteConfig/transform.cjs:25-33 | the namespace name is the first specifier's local name of the first SDK import holding a namespace specifier, absent when there is no such import or the name is empty |
| SvelteConfig.PruneAt | src/transformers/rewriteSvelteConfig/transform.cjs:37-49 | after one node is pruned it lists no preprocessor call (through the namespace when there is one, bare otherwise), keeps its kind, gains no child, and is unchanged when it listed none |
| SvelteConfig.PruneCalls | src/transformers/rewriteSvelteConfig/transform.cjs:37-49 | no list anywhere in the pruned file holds a preprocessor call and no top-level statement is one; a file without one is unchanged; a default export exists afterwards exactly when it did before |
| SvelteConfig.PruneNothing | src/transformers/rewriteSvelteConfig/transform.cjs:45-48 | removing the calls from a tree that has none leaves it as it was |
| SvelteConfig.PruneKeepsDefault | src/transformers/rewriteSvelteConfig/transform.cjs:45-54 | removing the calls neither creates nor loses the top-level default export the wrapping looks for |
| SvelteConfig.InsertAfterEach | src/transformers/rewriteSvelteConfig/transform.cjs:75-79 | as written, the SDK gains one binding of `withSentryConfig` per SDK import, and no other statement changes |
| SvelteConfig.InsertAfterFirst | src/transformers/rewriteSvelteConfig/transform.cjs:75-79 | as intended, the SDK gains exactly one binding of `withSentryConfig` when it is imported at all, and no other statement changes |
| SvelteConfig.DropPreprocessorImports | src/transformers/rewriteSvelteConfig/transform.cjs:81-89 | the SDK specifiers afterwards are exactly the old ones without the named preprocessor import, in order; no SDK import is left empty; other statements are untouched |
| SvelteConfig.DropKeepsWrapper | src/transformers/rewriteSvelteConfig/transform.cjs:81-89 | dropping the preprocessor specifiers never removes a binding of `withSentryConfig` |
| SvelteConfig.WrapperImports | src/transformers/rewriteSvelteConfig/transform.cjs:75-89 | once the wrapper import is added, the SDK binds `withSentryConfig` exactly once more, no longer imports the preprocessor and has no empty import; nothing else changes |
| SvelteConfig.WrapperImportsAsWritten | src/transformers/rewriteSvelteConfig/transform.cjs:75-89 | as written, the SDK binds `withSentryConfig` once more per SDK import, no longer imports the preprocessor and has no empty import; nothing else changes |
| SvelteConfig.AsWrittenBindsTwice | src/transformers/rewriteSvelteConfig/transform.cjs:75-79 | with two SDK imports, the insertion as written binds `withSentryConfig` twice while the intended one binds it once |
| SvelteConfig.WrapDefaultExport | src/transformers/rewriteSvelteConfig/transform.cjs:53-90 | a declaration whose printed text already calls `withSentryConfig(` leaves the file alone; otherwise the export wraps the old declaration and only SDK imports also change; without a namespace the preprocessor is no longer imported and no SDK import is empty, and the name gains one binding per SDK import as written, exactly one when corrected |
| SvelteConfig.SvelteConfigRule | src/transformers/rewriteSvelteConfig/transform.cjs:13-92 | a file is unchanged exactly when it neither imports nor requires the SDK; otherwise it fails exactly when it has no default export; a changed file is the pruned file with its first default export wrapped, as written or corrected |
| TracingConfig.IntegrationNews | src/transformers/tracingConfig/transform.cjs:53-68 | the constructions looked at are all `new X.name(…)` when the file has one, otherwise all `new name(…)`; the list is empty exactly when the file has neither form |
| TracingConfig.IntegrationNewsComplete | src/transformers/tracingConfig/transform.cjs:53-68 | every construction of the preferred form is among those looked at |
| TracingConfig.PropsIn | src/transformers/tracingConfig/transform.cjs:79-90 | every property found inside a construction is a `tracePropagationTargets` or `tracingOrigins` property lying inside a construction of one of the three integrations |
| TracingConfig.PropsOf | src/transformers/tracingConfig/transform.cjs:28-41 | the properties of `BrowserTracing`, `Http` and `Undici`, looked up in that order, are all tracing properties inside such a construction |
| TracingConfig.Candidates | src/transformers/tracingConfig/transform.cjs:79-90 | every property offered to the init call is a tracing property of an object literal inside one of the integrations |
| TracingConfig.OnlyTracingIntegrations | src/transformers/tracingConfig/transform.cjs:29-41 | a property offered to the init call always lies inside a construction of one of the three integrations |
| TracingConfig.Pushed | src/transformers/tracingConfig/transform.cjs:107 | the init call keeps its callee and other arguments, its options keep their properties, and it gains `tracePropagationTargets` with the moved value at the end |
| TracingConfig.TracingConfigRule | src/transformers/tracingConfig/transform.cjs:13-44 | a file without an init call is unchanged; the rule throws exactly when there is a property to move and an init call without arguments; a file without a property to move is printed back as it was |
| TracingConfig.NothingMoves | src/transformers/tracingConfig/transform.cjs:91-105 | when every init call already has `tracePropagationTargets` or takes no object literal, the file comes back as it was |
| TracingConfig.RuleMoves | src/transformers/tracingConfig/transform.cjs:33-43 | with a property to move and every init call given arguments, the result is the move of the first property found |
| TracingConfig.MovedIntoInit | src/transformers/tracingConfig/transform.cjs:91-107 | every init call that accepts ends with the moved value, unchanged, as the last property of its options, after all the properties it had |
| TracingConfig.RemovedFromIntegration | src/transformers/tracingConfig/transform.cjs:107-108 | once some init call has accepted, the object literal the property came from loses exactly that property and nothing else |
| TracingConfig.MovedIntoResult | src/transformers/tracingConfig/transform.cjs:91-108 | in the final file, an init call that accepted has the moved value as its last option after all the options it had, unless its options are the object the property was taken from or inside it |
| NodeExports.LiftComplete | src/transformers/nodeExports/transform.cjs:28-43 | after the first pass no `Sentry.Handlers.extractRequestData` is left anywhere in the file |
| NodeExports.LiftKeeps | src/transformers/nodeExports/transform.cjs:28-43 | a file without `Sentry.Handlers.extractRequestData` goes through the first pass untouched |
| NodeExports.LiftIdempotent | src/transformers/nodeExports/transform.cjs:28-43 | running the first pass twice is the same as running it once |
| NodeExports.FlattenComplete | src/transformers/nodeExports/transform.cjs:49-64 | after the second pass no `Handlers.extractRequestData` is left anywhere in the file |
| NodeExports.FlattenKeeps | src/transformers/nodeExports/transform.cjs:49-64 | a file without `Handlers.extractRequestData` goes through the second pass untouched |
| NodeExports.FlattenIdempotent | src/transformers/nodeExports/transform.cjs:49-64 | running the second pass twice is the same as running it once |
| NodeExports.RenameComplete | src/transformers/nodeExports/transform.cjs:66-103 | after the type pass neither `Handlers.ExpressRequest` nor `Sentry.Handlers.ExpressRequest` is left |
| NodeExports.RenameIdempotent | src/transformers/nodeExports/transform.cjs:66-103 | running the type pass twice is the same as running it once |
| NodeExports.AddName | src/transformers/nodeExports/transform.cjs:47 | adding to the insertion-ordered set keeps the earlier names in order, holds exactly the old names plus the new one, and never duplicates |
| NodeExports.ScanFileMeaning | src/transformers/nodeExports/transform.cjs:45-103 | the loops decide that `Handlers` may be dropped exactly when no member of it other than `extractRequestData` is used, and schedule `extractRequestData` when it was used, then `PolymorphicRequest` when the `Handlers.ExpressRequest` type was, each at most once |
| NodeExports.FixImport | src/transformers/nodeExports/transform.cjs:105-126 | only an `@sentry/node` import whose first specifier is an un-aliased `Handlers` changes: it loses that specifier when it may go and gains one named specifier per scheduled name at the end, with nothing else added or lost |
| NodeExports.KeyIndex | src/transformers/nodeExports/transform.cjs:149-162 | the index is that of the first destructured property keyed `Handlers`, and -1 exactly when there is none |
| NodeExports.FixRequire | src/transformers/nodeExports/transform.cjs:128-176 | only a destructuring `require('@sentry/node')` changes: it loses its first `Handlers` property when that may go, keeps every other property in order, and gains one shorthand property per scheduled name at the end |
| NodeExports.NodeExportsRule | src/transformers/nodeExports/transform.cjs:15-180 | a file is unchanged exactly when it neither imports nor requires `@sentry/node`; the rule never fails, and keeps the number of top-level statements |
| NodeExports.NodeExportsComplete | src/transformers/nodeExports/transform.cjs:28-103 | a rewritten file uses neither `Handlers.extractRequestData` nor either spelling of the `ExpressRequest` type |
| NodeInstrument.ExtTailMeaning | src/transformers/nodeInstrumentFile/transform.cjs:31 | the anchored tail of the file-name pattern matches exactly word characters, one dot, then at least one word character to the end |
| NodeInstrument.LastIndexOf | src/transformers/nodeInstrumentFile/transform.cjs:48 | the index is of the last occurrence of the character, or -1 when there is none |
| NodeInstrument.Extname | src/transformers/nodeInstrumentFile/transform.cjs:48-51 | the extension is empty or a dot followed by neither dots nor separators, and it ends the file name |
| NodeInstrument.UsedMonotone | src/transformers/nodeInstrumentFile/transform.cjs:233-241 | a name used in a file stays used in any file holding at least the same identifier occurrences |
| NodeInstrument.Sweep | src/transformers/nodeInstrumentFile/transform.cjs:126-150 | a statement-by-statement pass keeps the statements already done and produces at most one statement for each remaining one |
| NodeInstrument.SweepSettled | src/transformers/nodeInstrumentFile/transform.cjs:126-150 | a pass leaves the file as it is exactly when every step, shown the file as it is, would leave its statement alone |
| NodeInstrument.SweepOutside | src/transformers/nodeInstrumentFile/transform.cjs:126-150 | a pass that only touches statements of one kind keeps all other statements, in their order |
| NodeInstrument.ImportStepSettled | src/transformers/nodeInstrumentFile/transform.cjs:126-149 | an import survives its step unchanged exactly when it is a side-effect import or every specifier is used outside a specifier of its own kind |
| NodeInstrument.PruneImportsFixed | src/transformers/nodeInstrumentFile/transform.cjs:125-151 | removing unused imports leaves the file as it is exactly when every specifier of every import is used |
| NodeInstrument.KeepDeclaratorsSettled | src/transformers/nodeInstrumentFile/transform.cjs:180-214 | the declarators of a require declaration survive unchanged exactly when each one is used in the file as it stands |
| NodeInstrument.DeclaratorStep | src/transformers/nodeInstrumentFile/transform.cjs:193-211 | a destructuring declarator keeps all its properties exactly when it counts as used |
| NodeInstrument.RequireStepSettled | src/transformers/nodeInstrumentFile/transform.cjs:172-221 | a require declaration survives its step unchanged exactly when all its declarators are used |
| NodeInstrument.PruneRequiresFixed | src/transformers/nodeInstrumentFile/transform.cjs:159-222 | removing unused requires leaves the file as it is exactly when every declarator of every require declaration is used |
| NodeInstrument.PruneOutside | src/transformers/nodeInstrumentFile/transform.cjs:92-93 | the two pruning passes keep every statement other than imports and variable declarations, in order |
| NodeInstrument.RemoveTopLevel | src/transformers/nodeInstrumentFile/transform.cjs:110 | removing an init call that is a top-level statement of its own removes that whole statement and nothing else |
| NodeInstrument.InstrumentFileShape | src/transformers/nodeInstrumentFile/transform.cjs:61-93 | the new file ends with the init call as a statement, and every other statement it has is an import or a declaration |
| NodeInstrument.AppFileShape | src/transformers/nodeInstrumentFile/transform.cjs:101-113 | the source file starts with the import or require of `./instrument` and keeps every statement that is not pruned |
| NodeInstrument.InstrumentRule | src/transformers/nodeInstrumentFile/transform.cjs:14-117 | the file is skipped exactly when the SDK is not `@sentry/node` or not used, the file name looks like a bootstrap file, there is no init call, or `instrument` with the file's extension already exists next to it |
| NodeInstrument.InstrumentRuleSplits | src/transformers/nodeInstrumentFile/transform.cjs:47-115 | when the file is split, the new file is named `instrument` plus the extension and ends with the init call, and the source file starts with the bootstrap statement |
| TracingImports.AbsorbedNames | src/transformers/rewriteTracingImports/transform.cjs:109-116 | the names qualified for a tracing import are exactly the imported names of its named specifiers that have no alias |
| TracingImports.Leftover | src/transformers/rewriteTracingImports/transform.cjs:109-121 | the specifiers a corrected fold keeps are exactly those it does not qualify |
| TracingImports.NamespaceLocal | src/transformers/rewriteTracingImports/transform.cjs:103 | the namespace name is bound by a namespace specifier of the declaration |
| TracingImports.QualifyEverywhereComplete | src/transformers/rewriteTracingImports/transform.cjs:115-119 | after an imported name is qualified, every expression use of it is the property of a member expression |
| TracingImports.QualifyEverywhereExprIds | src/transformers/rewriteTracingImports/transform.cjs:117-118 | qualifying a name adds no identifier use other than the namespace and the name under a member expression |
| TracingImports.QualifyEachQualified | src/transformers/rewriteTracingImports/transform.cjs:107-121 | names qualified before stay qualified, and every name of the list becomes qualified |
| TracingImports.Apply | src/transformers/rewriteTracingImports/transform.cjs:120-172 | carrying out the edits keeps exactly the unedited statements plus the replacements; a deleted statement is gone |
| TracingImports.FirstAt | src/transformers/rewriteTracingImports/transform.cjs:98-103 | the import found is the first import of the SDK with the wanted property outside the skipped positions, and none exists when nothing is found |
| TracingImports.FoldDonor | src/transformers/rewriteTracingImports/transform.cjs:107-143 | folding a tracing import into the namespace keeps every import in place and deletes its declaration exactly when it qualified a name or renamed a use of its namespace alias |
| TracingImports.FoldDonorQualified | src/transformers/rewriteTracingImports/transform.cjs:107-121 | after a fold, names qualified before and the names it absorbed are all qualified, except the namespace itself |
| TracingImports.FoldFrom | src/transformers/rewriteTracingImports/transform.cjs:107-144 | folding the tracing imports one after another in document order keeps the fold's invariant: the edits touch only tracing imports, and the names folded so far are qualified |
| TracingImports.DonatedHas | src/transformers/rewriteTracingImports/transform.cjs:159-171 | every specifier of a retargeted import without a namespace specifier is among those the named branch hands to the merge target |
| TracingImports.MergeEdits | src/transformers/rewriteTracingImports/transform.cjs:159-174 | the named branch deletes every retargeted import that has no namespace, and the merge target gets its own specifiers followed by all donated ones; if the target is itself retargeted, it is deleted |
| TracingImports.Dedupe | src/transformers/rewriteTracingImports/transform.cjs:97-176 | imports of other packages are untouched; with neither a namespace nor a named target nothing changes; after the namespace branch every folded name is qualified; corrected, no specifier is lost unless it was folded away, and the namespace import stays |
| TracingImports.TracingRule | src/transformers/rewriteTracingImports/transform.cjs:7-25 | the file changes exactly when an SDK is chosen; afterwards the tracing package is neither imported nor required, and imports of other packages are untouched |
| TracingImports.Merged | src/transformers/rewriteTracingImports/transform.cjs:12-17 | retargeting and the dedupe keep every import of a package other than the SDK |
| TracingImports.NoImportsOnlyRequires | src/transformers/rewriteTracingImports/transform.cjs:15-19 | without a tracing import the dedupe does not run and only the `require` calls are retargeted |
| TracingImports.CjsKeepsImports | src/transformers/rewriteTracingImports/transform.cjs:34-44 | retargeting `require` calls keeps every import declaration and the SDK's specifiers |
| TracingImports.RetargetedSpecifier | src/transformers/rewriteTracingImports/transform.cjs:73-84 | after retargeting, an import of either package imports from the SDK with the same specifiers, and it is listed as retargeted exactly when it came from the tracing package |
| TracingImports.IntendedKeepsSpecifiers | src/transformers/rewriteTracingImports/transform.cjs:107-121 | with the corrected dedupe, an aliased or default specifier of the SDK or tracing imports is never lost, unless it is a lone namespace import |
| TracingImports.IntendedKeepsAllWithoutNamespace | src/transformers/rewriteTracingImports/transform.cjs:147-173 | with the corrected dedupe and no namespace import of the SDK, every specifier of either package survives the merge |
| TracingImports.IntendedKeepsNamespaceImport | src/transformers/rewriteTracingImports/transform.cjs:98-143 | with the corrected dedupe, a namespace import of the SDK stays, so the namespace every rewritten use refers to stays bound |
| TracingImports.AsWrittenDropsOnlyImport | src/transformers/rewriteTracingImports/transform.cjs:147-173 | as written, a file whose only import is `import { BrowserTracing } from '@sentry/tracing'` loses it entirely; corrected, it keeps the retargeted import |
| TracingImports.AsWrittenUnbindsNamespace | src/transformers/rewriteTracingImports/transform.cjs:98-143 | as written, `import * as Tracing from '@sentry/tracing'` used as `Tracing.addExtensionMethods()` loses its import and nothing binds `Tracing`; corrected, the retargeted namespace import stays |
| TracingImports.AsWrittenDropsAliased | src/transformers/rewriteTracingImports/transform.cjs:107-121 | as written, qualifying `A` from `import { A, B as C }` deletes the whole declaration and the binding `C` is lost; corrected, `B as C` stays imported from the SDK |

## Left out

- Parsing and printing (jscodeshift, recast, the babel parser, node-html-parser) are not modelled. A file's text and its tree are separate inputs. Where a transform looks at printed text, the printer is the parameter `show`. Quote style, whitespace and formatting are not modelled.
- The command-line interface, prompts, the transform registry, the runner, telemetry, package-manager calls and manifest I/O are not modelled: they are user interaction, process control and I/O. The `index.js` gate "no SDK chosen, nothing to do" is modelled as `sdk == ""` giving `Unchanged` in `TracingImports.TracingRule`, `HubImports.HubImportsRule`, `ReplayImports.ReplayImportsRule` and `IntegrationsImports.IntegrationsImportsRule`. Other rules read the SDK only where their transform reads `options.sentry.sdk`.
- File-system effects of the bootstrap rule (`existsSync`, `writeFileSync`) are not modelled. Whether `instrument<ext>` exists is the input `siblingExists`, and the new file is an output of `NodeInstrument.InstrumentRule`.
- `addTodoComment` and `modifyImports` are not part of this model (they are required from `src/utils/jscodeshift.cjs` but not defined there):
  - in the migration-comments rule a note is placed on the nearest enclosing statement, declaration or property, and only when that node does not carry it yet (`MigrationComments.NoteAt`); this stands for the comment `addTodoComment` attaches;
  - `modifyImports` is the parameter `Hub.ImportFixer`.
- MigrationComments.AddMigrationComments:
  - the notes a node gains follow the document order of the calls below it, not the order of the three searches;
  - a marked call with no statement, declaration or property between it and its top-level statement (for example directly under `export default`) gets no note in the tree, only its marker.
- `isServerSdk` (used by the replay-imports entry point to skip server SDKs) is not part of this model: only the entry point's "no SDK chosen" test is modelled, in `ReplayImports.ReplayImportsRule`.
- General regular expressions are not modelled. The SDK pre-check and the instrument file-name pattern are explicit string predicates for literal package names. Case-insensitive matching folds ASCII letters only, and `toLocaleLowerCase` in the hub rule is ASCII lower-casing.
- Identifiers are rewritten only where the tree model has identifier nodes: expressions, member properties, type names and object keys. The utility-exports renaming (`UtilExports.SwapAt`) also rewrites the names held by import specifiers, declarator patterns and property keys, as its `find(j.Identifier)` does. The tracing-imports rule's `root.find(j.Identifier)` also reaches identifiers in specifiers and patterns, and the model does not follow it there.
- A destructured property whose value is not a plain identifier (`{ a = 1 }`, `{ a: { b } }`) is kept with its key only: the names bound inside its value are not modelled, so renaming and de-duplication look at its key alone.
- Only top-level import declarations are merged, split and pruned. Imports nested in other statements are not recognised as imports.
- Computed member access (`a[b]`) is not distinguished from `a.b`.
- The log messages of the transforms and the Sentry telemetry calls in `addMigrationComments` are not modelled.
- Normaliser.DedupeImportedIdentifiers: the first-occurrence guarantee is stated for the scan as written. Full uniqueness is proved only for the corrected scan, because the scan as written does not give it (see "## Findings").
- Dom.WrapJscodeshift: the transforms other than the migration-comments and integrations rules are modelled on the tree of one script, not through the wrapper. Of those, the ones that can throw (`ReplayConfig`, `SvelteConfig`, `TracingConfig`) are not run by the wrapper in the source either. For a host file, the wrapper's contract (`Dom.WrapJscodeshift`) says what becomes of every transform's answers.
- ReplayImports.ReplayImportsRule and IntegrationsImports.IntegrationsImportsRule: the statement dedupe runs only when an ESM import was retargeted, as in the source; requires are never deduped.
- Hub.HubRule:
  - the markers come back as a list of the calls they belong to; they are not placed in the tree as `MigrationComments.PlaceAll` places the migration notes, because the rule's contract is about which calls are marked;
  - a hub caller is classified by its identifier's name only;
  - the contract says nothing about what `modifyImports` does with the names it is given.
- SvelteConfig.PruneCalls:
  - preprocessor calls are removed from arrays, argument lists and block statements;
  - a call in a single-node position (an object property value, a return value) is not removed, because the model has no form for the hole its removal leaves;
  - a statement list other than a block or the program is not pruned.
- SvelteConfig.NamespaceName: as in the source, the name is that of the first specifier of the namespace import found, which need not be the namespace specifier itself.
- SvelteConfig.SvelteConfigRule: a file that only requires the SDK gets no `withSentryConfig` import, as in the source.
- TracingConfig.TracingConfigRule:
  - only the first tracing property found moves, since after it every init call either has `tracePropagationTargets` or rejected it;
  - when two init calls accept, the property is removed from the integration once;
  - the moved value is a copy, not a shared node.
- NodeInstrument.InstrumentRule and NodeInstrument.RemoveCall:
  - the init call is removed from the source file only when it is a bare expression statement at the top level or in a block, and then its statement goes with it; anywhere else (`const client = Sentry.init(…)`, an argument) the call is kept, where `remove()` would take it out;
  - the two pruning passes look at top-level statements only;
  - they are not idempotent in general, and no such claim is made.
- NodeExports.NodeExportsComplete: the guarantee is about `Handlers.extractRequestData` and the two `ExpressRequest` spellings. `Sentry.Handlers.extractRequestData` is removed by the first pass, but the second pass is not proved unable to recreate it from a computed member.
- UtilExports.UtilExportsRule: `timestampWithMs` is proved absent right after its renaming pass. Its absence is not proved again after the import renames that follow. The `severityFromString` renaming is stated for call sites and member accesses (`UtilExports.SeverityRenamed`); its import specifiers follow `Normaliser.ReplaceFunctionCalls`.
- ConfigureScope.ConfigureScopeRule: the passes rewrite bottom-up, while `find(...).forEach` visits outer calls first; for a `configureScope` call nested in the callback of another the two rewrites happen in the other order, and the model makes no claim that the results agree.
- ConfigureScope.ConfigureScopeRule: no inlinable bare `configureScope(…)` is promised only when the member pass finds nothing to rewrite. The member pass runs second and can expose a bare call: `configureScope(s => hub.configureScope(t => {}))` leaves one, as in the source (`ConfigureScope.MemberPassExposesBare`).
- Integrations.IntegrationsRule: when the merge of the SDK imports leaves a namespace import (`import * as NS`), the merge qualifies and renames identifiers, and the absence of known `new`s and of `V.fn()` calls is not proved for that case.
- ReplayConfig.ReplayConfigRule: a handled property nested inside another handled array (`block: [{ mask: ['x'] }]`) is stripped by the source from the adopted array node; the model adopts the entries as collected, without that stripping.
- ConvertEnums.RemoveImportedIdentifiers: an emptied `require` declaration is dropped from the program and from blocks only; one in another statement list stays.
- Ast.OtherKey: every key that is not a plain identifier (computed keys, string and number keys) is one form, so rules that look for a key by name never match such a key.
- TracingImports.TracingRule: a file whose rewrite leaves the tree as it was is still reported as changed, where jscodeshift treats printed text equal to the input as no change.
- NextjsWrappers.NextjsWrappersRule: idempotence is proved for the call-site renaming (`NextjsWrappers.CallRenamesIdempotent`) and follows for the table (`NextjsWrappers.FunctionMapShape`). It is not proved for the rule as a whole.

## Findings

| source | as written | input that shows it | evidently intended | confidence | as-written member | corrected member |
|---|---|---|---|---|---|---|
| src/utils/jscodeshift.cjs:112-126 | after a duplicate specifier is spliced out, the index still advances, so the specifier that moved into its place is never examined | `import { a, a, a } from '@sentry/react'` keeps `{ a, a }` | each local name is imported once | high, not executed | Normaliser.DedupeImportedIdentifiersRepeats | Normaliser.DedupeKeysComplete |
| src/transformers/convertEnums/transform.cjs:136-148 | the same skip after a splice: the specifier after a removed enum is never examined | `import { Severity, SpanStatus } from '@sentry/browser'` with both enums converted keeps `SpanStatus` | every listed enum binding is removed | high, not executed | ConvertEnums.RemoveScanSkips | ConvertEnums.IntendedImportRemoval |
| src/transformers/rewriteSvelteConfig/transform.cjs:75-79 | `insertAfter` on the collection of all SDK imports inserts `import { withSentryConfig }` after each of them | `import { componentTrackingPreprocessor } from '@sentry/svelte'; import { init } from '@sentry/svelte'` binds `withSentryConfig` twice | the wrapper is imported once | medium, not executed | SvelteConfig.AsWrittenBindsTwice | SvelteConfig.WrapperImports |
| src/transformers/rewriteTracingImports/transform.cjs:147-173 | the merge target is looked up after the retargeting, so a retargeted import can be its own target; it is then appended to itself and deleted | `import { BrowserTracing } from '@sentry/tracing'` as the only import leaves no import at all | the retargeted import stays when there is nothing to merge it into | high, not executed | TracingImports.AsWrittenDropsOnlyImport | TracingImports.IntendedKeepsAllWithoutNamespace |
| src/transformers/rewriteTracingImports/transform.cjs:98-143 | the SDK namespace is looked up after the retargeting, so a retargeted namespace import supplies it; its own uses are renamed to itself and the declaration is deleted | `import * as Tracing from '@sentry/tracing'; Tracing.addExtensionMethods()` leaves `Tracing` unbound | the namespace import of the SDK that the uses now refer to stays | high, not executed | TracingImports.AsWrittenUnbindsNamespace | TracingImports.IntendedKeepsNamespaceImport |
| src/transformers/rewriteTracingImports/transform.cjs:107-121 | once one un-aliased specifier is qualified, the whole tracing declaration is deleted, including the aliased specifiers the filter meant to keep | `import * as Sentry from '@sentry/browser'; import { A, B as C } from '@sentry/tracing'` loses the binding `C` | aliased specifiers survive, as the comment at line 112 says | high, not executed | TracingImports.AsWrittenDropsAliased | TracingImports.IntendedKeepsSpecifiers |
| src/transformers/rewriteHubImports/transform.cjs:105 | `shouldInstallCore \|\| rewriteCjsRequires(…)` short-circuits, so once a split or a namespace retarget has set the flag the hub `require`s are never rewritten | `import { makeSession } from '@sentry/hub'; const h = require('@sentry/hub');` keeps `require('@sentry/hub')` | every hub `require` becomes a core `require`, as the comment at lines 102-104 says | medium, not executed | HubImports.AsWrittenKeepsHubRequire | HubImports.HubImportsRule |

=== FILE: ast.dfy ===
/**
 * The subset of the Babel/jscodeshift syntax tree that the codemods inspect,
 * with a generic view of every node's children so that a find-and-replace
 * pass can be written once.
 */
module Ast {

  /** One specifier of an `import` declaration. */
  datatype Spec =
    | Named(imported: string, local: string)   // import { imported as local }
    | Namespace(local: string)                 // import * as local
    | Default(local: string)                   // import local

  /** One property of an object destructuring pattern `const { key: value } = …`. */
  datatype PatProp =
    | KeyValue(key: string, value: string)     // shorthand `{ a }` is KeyValue("a", "a")
    | KeyPattern(key: string)                  // `{ a = 1 }`, `{ a: { b } }`: the value is no identifier
    | OtherPatProp                             // rest element, computed key

  /** An `ObjectProperty` whose key is an identifier, whatever its value. */
  predicate Keyed(pp: PatProp) {
    pp.KeyValue? || pp.KeyPattern?
  }

  /** The binding side of a variable declarator. */
  datatype Pattern = PId(name: string) | PObj(props: seq<PatProp>) | OtherPattern

  /** The key of an object-literal property. */
  datatype Key = IdKey(name: string) | OtherKey

  /**
   * Expressions and statements. `notes` holds the comments a codemod attached to
   * the node; only statements and object properties carry them.
   */
  datatype Node =
    | Id(name: string)
    | Str(text: string)
    | Member(obj: Node, prop: Node)
    | Call(callee: Node, args: seq<Node>)
    | New(callee: Node, args: seq<Node>)
    | Arr(elems: seq<Node>)
    | Obj(props: seq<Node>)
    | Prop(key: Key, value: Node, notes: seq<string>)
    | Func(params: seq<Node>, body: Node)
    | TSQualified(left: Node, right: Node)
    | TypeRef(typeName: Node)
    | Other(kids: seq<Node>)
    | Import(source: string, specs: seq<Spec>)
    | VarDecl(decls: seq<Node>, notes: seq<string>)
    | Declarator(id: Pattern, init: Node)
    | ExprStmt(expr: Node, notes: seq<string>)
    | Block(stmts: seq<Node>)
    | ExportDefault(decl: Node)
    | Stmt(kids: seq<Node>, notes: seq<string>)

  type Program = seq<Node>

  /**
   * A request to put a comment above the statement holding `site`; where exactly the comment
   * lands is up to the comment helper, which is not part of this model.
   */
  datatype Marker = Marker(site: Node, message: string)

  /** What a codemod returns for one file: `undefined`, new source, or a thrown error. */
  datatype Outcome = Unchanged | Changed(prog: Program) | Failed

  /** The node types an identifier's parent can have. */
  datatype Kind =
    | KProgram | KIdentifier | KString | KMember | KCall | KNew | KArray | KObject
    | KProperty | KFunction | KQualified | KTypeRef | KOther | KImport
    | KImportSpecifier | KImportDefault | KImportNamespace | KVarDecl | KDeclarator
    | KExprStmt | KBlock | KExportDefault | KStmt

  function KindOf(n: Node): Kind {
    match n
    case Id(_) => KIdentifier
    case Str(_) => KString
    case Member(_, _) => KMember
    case Call(_, _) => KCall
    case New(_, _) => KNew
    case Arr(_) => KArray
    case Obj(_) => KObject
    case Prop(_, _, _) => KProperty
    case Func(_, _) => KFunction
    case TSQualified(_, _) => KQualified
    case TypeRef(_) => KTypeRef
    case Other(_) => KOther
    case Import(_, _) => KImport
    case VarDecl(_, _) => KVarDecl
    case Declarator(_, _) => KDeclarator
    case ExprStmt(_, _) => KExprStmt
    case Block(_) => KBlock
    case ExportDefault(_) => KExportDefault
    case Stmt(_, _) => KStmt
  }

  /** Object literals are the nodes of their type. */
  lemma {:induction false} KindObj(a: Node)
    ensures KindOf(a) == KObject <==> a.Obj?
  {
  }

  function SpecKind(s: Spec): Kind {
    match s
    case Named(_, _) => KImportSpecifier
    case Namespace(_) => KImportNamespace
    case Default(_) => KImportDefault
  }

  /** The child nodes of `n`, left to right. */
  function Children(n: Node): (cs: seq<Node>)
    ensures forall c :: c in cs ==> c < n
  {
    match n
    case Id(_) => []
    case Str(_) => []
    case Member(o, p) => [o, p]
    case Call(f, a) => [f] + a
    case New(f, a) => [f] + a
    case Arr(e) => e
    case Obj(ps) => ps
    case Prop(_, v, _) => [v]
    case Func(ps, b) => ps + [b]
    case TSQualified(l, r) => [l, r]
    case TypeRef(t) => [t]
    case Other(k) => k
    case Import(_, _) => []
    case VarDecl(ds, _) => ds
    case Declarator(_, i) => [i]
    case ExprStmt(e, _) => [e]
    case Block(b) => b
    case ExportDefault(d) => [d]
    case Stmt(k, _) => k
  }

  /** The children of an object literal are its properties. */
  lemma {:induction false} ObjChildren(n: Node)
    requires n.Obj?
    ensures Children(n) == n.props
  {
  }

  /** The children of a member expression are its object and its property. */
  lemma {:induction false} MemberChildren(n: Node)
    requires n.Member?
    ensures Children(n) == [n.obj, n.prop]
  {
  }

  /** The children of a call are its callee followed by its arguments. */
  lemma {:induction false} CallChildren(n: Node)
    requires n.Call?
    ensures Children(n) == [n.callee] + n.args
  {
  }

  /** `n` with its children replaced by `cs`, everything else kept. */
  function WithChildren(n: Node, cs: seq<Node>): (r: Node)
    requires |cs| == |Children(n)|
    ensures Children(r) == cs
    ensures KindOf(r) == KindOf(n)
  {
    match n
    case Id(_) => n
    case Str(_) => n
    case Member(_, _) => Member(cs[0], cs[1])
    case Call(_, a) => Call(cs[0], cs[1..])
    case New(_, a) => New(cs[0], cs[1..])
    case Arr(_) => Arr(cs)
    case Obj(_) => Obj(cs)
    case Prop(k, _, ns) => Prop(k, cs[0], ns)
    case Func(ps, _) => Func(cs[..|ps|], cs[|ps|])
    case TSQualified(_, _) => TSQualified(cs[0], cs[1])
    case TypeRef(_) => TypeRef(cs[0])
    case Other(_) => Other(cs)
    case Import(_, _) => n
    case VarDecl(_, ns) => VarDecl(cs, ns)
    case Declarator(p, _) => Declarator(p, cs[0])
    case ExprStmt(_, ns) => ExprStmt(cs[0], ns)
    case Block(_) => Block(cs)
    case ExportDefault(_) => ExportDefault(cs[0])
    case Stmt(_, ns) => Stmt(cs, ns)
  }

  lemma {:induction false} RebuildSame(n: Node)
    ensures WithChildren(n, Children(n)) == n
  {
  }

  lemma {:induction false} RebuildTwice(n: Node, a: seq<Node>, b: seq<Node>)
    requires |a| == |Children(n)| && |b| == |Children(n)|
    ensures WithChildren(WithChildren(n, a), b) == WithChildren(n, b)
  {
  }

  /** Concatenation of a sequence of sequences. */
  function Concat<T>(ss: seq<seq<T>>): seq<T> {
    if |ss| == 0 then [] else ss[0] + Concat(ss[1..])
  }

  /**
   * A find-and-replace pass: `f` is applied to every node after its children
   * have been rewritten (so a replacement is never revisited).
   */
  function Map(f: Node -> Node, n: Node): Node {
    var cs := Children(n);
    f(WithChildren(n, seq(|cs|, i requires 0 <= i < |cs| => Map(f, cs[i]))))
  }

  /** One step of a pass: the rule sees the node once its children have been through the pass. */
  lemma {:induction false} MapStep(f: Node -> Node, n: Node) returns (w: Node)
    ensures KindOf(w) == KindOf(n) && |Children(w)| == |Children(n)|
    ensures forall i :: 0 <= i < |Children(n)| ==> Children(w)[i] == Map(f, Children(n)[i])
    ensures Map(f, n) == f(w)
    ensures (w.Call? <==> n.Call?) && (w.Obj? <==> n.Obj?) && (w.Member? <==> n.Member?)
  {
    var cs := Children(n);
    w := WithChildren(n, seq(|cs|, i requires 0 <= i < |cs| => Map(f, cs[i])));
  }

  /** A pass that restores every child and leaves the node itself alone restores the node. */
  lemma {:induction false} MapRestores(g: Node -> Node, n: Node, a: seq<Node>)
    requires |a| == |Children(n)|
    requires forall i :: 0 <= i < |a| ==> Map(g, a[i]) == Children(n)[i]
    requires g(n) == n
    ensures Map(g, WithChildren(n, a)) == n
  {
    var y := WithChildren(n, a);
    var ms := seq(|a|, i requires 0 <= i < |a| => Map(g, a[i]));
    assert ms == Children(n);
    assert Map(g, y) == g(WithChildren(y, ms));
    RebuildTwice(n, a, ms);
    RebuildSame(n);
  }

  /** A pass whose rule also sees the type of the node's parent. */
  function MapIn(f: (Node, Kind) -> Node, n: Node, parent: Kind): Node {
    var cs := Children(n);
    f(WithChildren(n, seq(|cs|, i requires 0 <= i < |cs| => MapIn(f, cs[i], KindOf(n)))), parent)
  }

  function MapProgram(f: Node -> Node, p: Program): Program {
    seq(|p|, i requires 0 <= i < |p| => Map(f, p[i]))
  }

  function MapInProgram(f: (Node, Kind) -> Node, p: Program): Program {
    seq(|p|, i requires 0 <= i < |p| => MapIn(f, p[i], KProgram))
  }

  /** Every node of the tree rooted at `n` satisfies `q`. */
  predicate Every(q: Node -> bool, n: Node) {
    q(n) && forall i :: 0 <= i < |Children(n)| ==> Every(q, Children(n)[i])
  }

  /** Some node of the tree rooted at `n` satisfies `q`. */
  predicate Exists(q: Node -> bool, n: Node) {
    q(n) || exists i :: 0 <= i < |Children(n)| && Exists(q, Children(n)[i])
  }

  predicate EveryIn(q: Node -> bool, p: Program) {
    forall i :: 0 <= i < |p| ==> Every(q, p[i])
  }

  predicate ExistsIn(q: Node -> bool, p: Program) {
    exists i :: 0 <= i < |p| && Exists(q, p[i])
  }

  /** What `g` reports for each node of the tree, in pre-order (jscodeshift's `find` order). */
  function Collect<T>(g: Node -> seq<T>, n: Node): seq<T> {
    var cs := Children(n);
    g(n) + Concat(seq(|cs|, i requires 0 <= i < |cs| => Collect(g, cs[i])))
  }

  function CollectIn<T>(g: Node -> seq<T>, p: Program): seq<T> {
    Concat(seq(|p|, i requires 0 <= i < |p| => Collect(g, p[i])))
  }

  /** `f` leaves every node satisfying `q` as it is. */
  ghost predicate Fixes(f: Node -> Node, q: Node -> bool) {
    forall x :: q(x) ==> f(x) == x
  }

  /** A rule that fixes every node of a tree fixes the whole tree. */
  lemma {:induction false} MapKeeps(f: Node -> Node, q: Node -> bool, n: Node)
    requires Fixes(f, q) && Every(q, n)
    ensures Map(f, n) == n
  {
    var cs := Children(n);
    var ms := seq(|cs|, i requires 0 <= i < |cs| => Map(f, cs[i]));
    forall i | 0 <= i < |cs|
      ensures ms[i] == cs[i]
    {
      MapKeeps(f, q, cs[i]);
    }
    assert ms == cs;
    RebuildSame(n);
  }

  /** `f` yields a tree satisfying `q` everywhere whenever the children it is given do. */
  ghost predicate Establishes(f: Node -> Node, q: Node -> bool) {
    forall x: Node :: (forall i :: 0 <= i < |Children(x)| ==> Every(q, Children(x)[i])) ==> Every(q, f(x))
  }

  /** A pass whose rule establishes `q` leaves a tree satisfying `q` everywhere. */
  lemma {:induction false} MapEstablishes(f: Node -> Node, q: Node -> bool, n: Node)
    requires Establishes(f, q)
    ensures Every(q, Map(f, n))
  {
    var cs := Children(n);
    var ms := seq(|cs|, i requires 0 <= i < |cs| => Map(f, cs[i]));
    forall i | 0 <= i < |cs|
      ensures Every(q, ms[i])
    {
      MapEstablishes(f, q, cs[i]);
    }
    var y := WithChildren(n, ms);
    assert Children(y) == ms;
  }

  /**
   * A pass is idempotent when every replacement it makes, built over children
   * it would not touch again, is itself left alone.
   */
  /** A pass whose rule establishes a property it fixes is idempotent. */
  lemma {:induction false} MapIdempotent(f: Node -> Node, q: Node -> bool, n: Node)
    requires Establishes(f, q) && Fixes(f, q)
    ensures Map(f, Map(f, n)) == Map(f, n)
  {
    MapEstablishes(f, q, n);
    MapKeeps(f, q, Map(f, n));
  }

  /** One identifier of the tree: its name and the type of its parent node. */
  datatype Occ = Occ(name: string, parent: Kind)

  /** The identifiers a node holds directly in non-node positions (specifiers, patterns, keys). */
  function OwnOccurrences(n: Node, parent: Kind): set<Occ> {
    match n
    case Id(x) => {Occ(x, parent)}
    case Import(_, specs) =>
      (set i | 0 <= i < |specs| :: Occ(specs[i].local, SpecKind(specs[i])))
      + (set i | 0 <= i < |specs| && specs[i].Named? :: Occ(specs[i].imported, KImportSpecifier))
    case Declarator(PId(x), _) => {Occ(x, KDeclarator)}
    case Declarator(PObj(ps), _) =>
      (set i | 0 <= i < |ps| && Keyed(ps[i]) :: Occ(ps[i].key, KProperty))
      + (set i | 0 <= i < |ps| && ps[i].KeyValue? :: Occ(ps[i].value, KProperty))
    case Prop(IdKey(k), _, _) => {Occ(k, KProperty)}
    case _ => {}
  }

  /** Every identifier of the tree rooted at `n`, whose parent has type `parent`. */
  function Occurrences(n: Node, parent: Kind): set<Occ> {
    var cs := Children(n);
    OwnOccurrences(n, parent)
    + (set i, o | 0 <= i < |cs| && o in Occurrences(cs[i], KindOf(n)) :: o)
  }

  function ProgramOccurrences(p: Program): set<Occ> {
    set i, o | 0 <= i < |p| && o in Occurrences(p[i], KProgram) :: o
  }

  /** A tree where every node satisfies `q` has no node satisfying `r` when `q` excludes `r`. */
  lemma {:induction false} EveryNotExists(q: Node -> bool, r: Node -> bool, n: Node)
    requires forall x :: q(x) ==> !r(x)
    requires Every(q, n)
    ensures !Exists(r, n)
  {
    forall i | 0 <= i < |Children(n)|
      ensures !Exists(r, Children(n)[i])
    {
      EveryNotExists(q, r, Children(n)[i]);
    }
  }

  /** The identifier nodes of the tree rooted at `n`, whose parent has type `parent`. */
  function ExprIds(n: Node, parent: Kind): set<Occ> {
    var cs := Children(n);
    (if n.Id? then {Occ(n.name, parent)} else {})
    + (set i, o | 0 <= i < |cs| && o in ExprIds(cs[i], KindOf(n)) :: o)
  }

  function ProgramExprIds(p: Program): set<Occ> {
    set i, o | 0 <= i < |p| && o in ExprIds(p[i], KProgram) :: o
  }

  /** Every node of the tree satisfies `q`, given the type of its parent. */
  predicate EveryUnder(q: (Node, Kind) -> bool, n: Node, parent: Kind) {
    q(n, parent) && forall i :: 0 <= i < |Children(n)| ==> EveryUnder(q, Children(n)[i], KindOf(n))
  }

  /** The context-aware form of `Establishes`. */
  ghost predicate EstablishesUnder(f: (Node, Kind) -> Node, q: (Node, Kind) -> bool) {
    forall x: Node, k: Kind ::
      (forall i :: 0 <= i < |Children(x)| ==> EveryUnder(q, Children(x)[i], KindOf(x))) ==> EveryUnder(q, f(x, k), k)
  }

  lemma {:induction false} MapInEstablishes(f: (Node, Kind) -> Node, q: (Node, Kind) -> bool, n: Node, parent: Kind)
    requires EstablishesUnder(f, q)
    ensures EveryUnder(q, MapIn(f, n, parent), parent)
  {
    var cs := Children(n);
    var ms := seq(|cs|, i requires 0 <= i < |cs| => MapIn(f, cs[i], KindOf(n)));
    forall i | 0 <= i < |cs|
      ensures EveryUnder(q, ms[i], KindOf(n))
    {
      MapInEstablishes(f, q, cs[i], KindOf(n));
    }
    var y := WithChildren(n, ms);
    assert Children(y) == ms && KindOf(y) == KindOf(n);
  }

  /** When every node satisfies `q`, so does every identifier occurrence. */
  lemma {:induction false} EveryUnderIds(q: (Node, Kind) -> bool, n: Node, parent: Kind)
    requires EveryUnder(q, n, parent)
    ensures forall o :: o in ExprIds(n, parent) ==> q(Id(o.name), o.parent)
  {
    var cs := Children(n);
    forall i | 0 <= i < |cs|
      ensures forall o :: o in ExprIds(cs[i], KindOf(n)) ==> q(Id(o.name), o.parent)
    {
      EveryUnderIds(q, cs[i], KindOf(n));
    }
  }

  /** A context-aware rule that only rewrites identifiers leaves an import declaration alone. */
  lemma {:induction false} MapInKeepsImport(f: (Node, Kind) -> Node, n: Node, parent: Kind)
    requires n.Import?
    requires forall k :: f(n, k) == n
    ensures MapIn(f, n, parent) == n
  {
    var cs := Children(n);
    assert cs == [];
    var ms := seq(|cs|, i requires 0 <= i < |cs| => MapIn(f, cs[i], KindOf(n)));
    assert ms == [];
    RebuildSame(n);
  }

  /** A pass over a node without children applies the rule once. */
  lemma {:induction false} MapLeaf(f: Node -> Node, n: Node)
    requires Children(n) == []
    ensures Map(f, n) == f(n)
  {
    RebuildSame(n);
  }

  /**
   * A context-aware rule that rewrites identifiers only, each into a tree whose identifiers
   * are the one it replaced or belong to `extra`, adds no identifier outside `extra`.
   */
  lemma {:induction false} MapInExprIds(f: (Node, Kind) -> Node, n: Node, parent: Kind, extra: set<Occ>)
    requires forall x: Node, k: Kind :: !x.Id? ==> f(x, k) == x
    requires forall x: string, k: Kind :: ExprIds(f(Id(x), k), k) <= {Occ(x, k)} + extra
    ensures ExprIds(MapIn(f, n, parent), parent) <= ExprIds(n, parent) + extra
  {
    var cs := Children(n);
    var ms := seq(|cs|, i requires 0 <= i < |cs| => MapIn(f, cs[i], KindOf(n)));
    forall i | 0 <= i < |cs|
      ensures ExprIds(ms[i], KindOf(n)) <= ExprIds(cs[i], KindOf(n)) + extra
    {
      MapInExprIds(f, cs[i], KindOf(n), extra);
    }
    var y := WithChildren(n, ms);
    if n.Id? {
      assert y == n;
    } else {
      NotIdKind(n, y);
      assert MapIn(f, n, parent) == y;
      ChildIdsCover(n, y, parent, extra);
    }
  }

  lemma {:induction false} NotIdKind(n: Node, y: Node)
    requires !n.Id? && KindOf(y) == KindOf(n)
    ensures !y.Id?
  {
  }

  /** An occurrence under a node that is not an identifier comes from one of its children. */
  lemma {:induction false} ExprIdsFromChild(n: Node, parent: Kind, o: Occ) returns (i: nat)
    requires !n.Id? && o in ExprIds(n, parent)
    ensures i < |Children(n)| && o in ExprIds(Children(n)[i], KindOf(n))
  {
    var cs := Children(n);
    i :| 0 <= i < |cs| && o in ExprIds(cs[i], KindOf(n));
  }

  /** An occurrence under a child is an occurrence under the node. */
  lemma {:induction false} ExprIdsOfChild(n: Node, parent: Kind, i: nat, o: Occ)
    requires i < |Children(n)| && o in ExprIds(Children(n)[i], KindOf(n))
    ensures o in ExprIds(n, parent)
  {
  }

  lemma {:induction false} ChildIdsCover(n: Node, y: Node, parent: Kind, extra: set<Occ>)
    requires !y.Id? && KindOf(y) == KindOf(n) && |Children(y)| == |Children(n)|
    requires forall i :: 0 <= i < |Children(n)| ==>
      ExprIds(Children(y)[i], KindOf(n)) <= ExprIds(Children(n)[i], KindOf(n)) + extra
    ensures ExprIds(y, parent) <= ExprIds(n, parent) + extra
  {
    forall o | o in ExprIds(y, parent)
      ensures o in ExprIds(n, parent) + extra
    {
      var i := ExprIdsFromChild(y, parent, o);
      if o !in extra {
        ExprIdsOfChild(n, parent, i, o);
      }
    }
  }

  /** The program-wide form of `MapInExprIds`. */
  lemma {:induction false} MapInProgramExprIds(f: (Node, Kind) -> Node, p: Program, extra: set<Occ>)
    requires forall x: Node, k: Kind :: !x.Id? ==> f(x, k) == x
    requires forall x: string, k: Kind :: ExprIds(f(Id(x), k), k) <= {Occ(x, k)} + extra
    ensures ProgramExprIds(MapInProgram(f, p)) <= ProgramExprIds(p) + extra
  {
    var r := MapInProgram(f, p);
    forall o | o in ProgramExprIds(r)
      ensures o in ProgramExprIds(p) + extra
    {
      var i :| 0 <= i < |r| && o in ExprIds(r[i], KProgram);
      MapInExprIds(f, p[i], KProgram, extra);
    }
  }

  lemma {:induction false} ConcatHas<T>(ss: seq<seq<T>>, v: T)
    ensures v in Concat(ss) <==> exists i :: 0 <= i < |ss| && v in ss[i]
  {
    if |ss| > 0 {
      ConcatHas(ss[1..], v);
      assert forall i :: 1 <= i < |ss| ==> ss[i] == ss[1..][i - 1];
    }
  }

  /** The values `Collect` reports: the node's own, then those of each child's subtree in turn. */
  lemma {:induction false} CollectUnfold<T>(g: Node -> seq<T>, n: Node)
    ensures var cs := Children(n);
      Collect(g, n) == g(n) + Concat(seq(|cs|, i requires 0 <= i < |cs| => Collect(g, cs[i])))
  {
  }

  /** A value reported under some child is reported by the node. */
  lemma {:induction false} CollectFromChild<T>(g: Node -> seq<T>, n: Node, i: nat, v: T)
    requires i < |Children(n)| && v in Collect(g, Children(n)[i])
    ensures v in Collect(g, n)
  {
    var cs := Children(n);
    var ss := seq(|cs|, i requires 0 <= i < |cs| => Collect(g, cs[i]));
    CollectUnfold(g, n);
    assert v in ss[i];
    ConcatHas(ss, v);
  }

  /** A value the node reports comes from the node itself or from one of its children. */
  lemma {:induction false} CollectToChild<T>(g: Node -> seq<T>, n: Node, v: T) returns (i: nat)
    requires v in Collect(g, n) && v !in g(n)
    ensures i < |Children(n)| && v in Collect(g, Children(n)[i])
  {
    var cs := Children(n);
    var ss := seq(|cs|, i requires 0 <= i < |cs| => Collect(g, cs[i]));
    CollectUnfold(g, n);
    ConcatHas(ss, v);
    i :| 0 <= i < |ss| && v in ss[i];
  }

  lemma {:induction false} CollectHasSound<T>(g: Node -> seq<T>, q: Node -> bool, v: T, n: Node)
    requires forall x :: v in g(x) ==> q(x)
    requires v in Collect(g, n)
    ensures Exists(q, n)
  {
    if v !in g(n) {
      var i := CollectToChild(g, n, v);
      CollectHasSound(g, q, v, Children(n)[i]);
    }
  }

  lemma {:induction false} CollectHasComplete<T>(g: Node -> seq<T>, q: Node -> bool, v: T, n: Node)
    requires forall x :: q(x) ==> v in g(x)
    requires Exists(q, n)
    ensures v in Collect(g, n)
  {
    var cs := Children(n);
    if q(n) {
      CollectUnfold(g, n);
    } else {
      var i :| 0 <= i < |cs| && Exists(q, cs[i]);
      CollectHasComplete(g, q, v, cs[i]);
      CollectFromChild(g, n, i, v);
    }
  }

  /** `v` is reported by `Collect` iff some node of the tree reports it (`q` says which do). */
  lemma {:induction false} CollectHas<T>(g: Node -> seq<T>, q: Node -> bool, v: T, n: Node)
    requires forall x :: q(x) <==> v in g(x)
    ensures v in Collect(g, n) <==> Exists(q, n)
  {
    if v in Collect(g, n) {
      CollectHasSound(g, q, v, n);
    }
    if Exists(q, n) {
      CollectHasComplete(g, q, v, n);
    }
  }

  lemma {:induction false} CollectInHas<T>(g: Node -> seq<T>, q: Node -> bool, v: T, p: Program)
    requires forall x :: q(x) <==> v in g(x)
    ensures v in CollectIn(g, p) <==> ExistsIn(q, p)
  {
    var ss := seq(|p|, i requires 0 <= i < |p| => Collect(g, p[i]));
    ConcatHas(ss, v);
    forall i | 0 <= i < |p|
      ensures v in ss[i] <==> Exists(q, p[i])
    {
      CollectHas(g, q, v, p[i]);
    }
  }

  /** When every list accepts only values `keep` accepts, so does their concatenation. */
  lemma {:induction false} ConcatAll<T>(ss: seq<seq<T>>, keep: T -> bool)
    requires forall i, v :: 0 <= i < |ss| && v in ss[i] ==> keep(v)
    ensures forall v :: v in Concat(ss) ==> keep(v)
  {
    forall v | v in Concat(ss)
      ensures keep(v)
    {
      ConcatHas(ss, v);
    }
  }

  /** When `g` only ever reports values `keep` accepts, so does `Collect`. */
  lemma {:induction false} CollectAll<T>(g: Node -> seq<T>, keep: T -> bool, n: Node)
    requires forall x, v :: v in g(x) ==> keep(v)
    ensures forall v :: v in Collect(g, n) ==> keep(v)
  {
    var cs := Children(n);
    var ss := seq(|cs|, i requires 0 <= i < |cs| => Collect(g, cs[i]));
    CollectUnfold(g, n);
    forall i | 0 <= i < |ss|
      ensures forall v :: v in ss[i] ==> keep(v)
    {
      CollectAll(g, keep, cs[i]);
    }
    ConcatAll(ss, keep);
  }

  lemma {:induction false} CollectInAll<T>(g: Node -> seq<T>, keep: T -> bool, p: Program)
    requires forall x, v :: v in g(x) ==> keep(v)
    ensures forall v :: v in CollectIn(g, p) ==> keep(v)
  {
    var ss := seq(|p|, i requires 0 <= i < |p| => Collect(g, p[i]));
    forall v | v in CollectIn(g, p)
      ensures keep(v)
    {
      ConcatHas(ss, v);
      var i :| 0 <= i < |ss| && v in ss[i];
      CollectAll(g, keep, p[i]);
    }
  }

  /**
   * Some value `keep` accepts is reported by `Collect` iff some node of the tree reports one
   * (`q` says which nodes do).
   */
  lemma {:induction false} CollectSome<T>(g: Node -> seq<T>, keep: T -> bool, q: Node -> bool, n: Node)
    requires forall x :: q(x) <==> exists v :: v in g(x) && keep(v)
    ensures (exists v :: v in Collect(g, n) && keep(v)) <==> Exists(q, n)
  {
    if v :| v in Collect(g, n) && keep(v) {
      CollectSomeFound(g, keep, q, n, v);
    }
    if Exists(q, n) {
      var v := CollectSomeReported(g, keep, q, n);
    }
  }

  /** A reported value `keep` accepts comes from a node where `q` holds. */
  lemma {:induction false} CollectSomeFound<T>(g: Node -> seq<T>, keep: T -> bool, q: Node -> bool, n: Node, v: T)
    requires forall x, w :: w in g(x) && keep(w) ==> q(x)
    requires v in Collect(g, n) && keep(v)
    ensures Exists(q, n)
  {
    var cs := Children(n);
    var ss := seq(|cs|, i requires 0 <= i < |cs| => Collect(g, cs[i]));
    CollectUnfold(g, n);
    if v in g(n) {
      assert q(n);
    } else {
      ConcatHas(ss, v);
      var i :| 0 <= i < |ss| && v in ss[i];
      CollectSomeFound(g, keep, q, cs[i], v);
      assert Exists(q, cs[i]);
    }
  }

  /** A node where `q` holds gets a value `keep` accepts reported. */
  lemma {:induction false} CollectSomeReported<T>(g: Node -> seq<T>, keep: T -> bool, q: Node -> bool, n: Node) returns (v: T)
    requires forall x :: q(x) ==> exists w :: w in g(x) && keep(w)
    requires Exists(q, n)
    ensures v in Collect(g, n) && keep(v)
  {
    var cs := Children(n);
    var ss := seq(|cs|, i requires 0 <= i < |cs| => Collect(g, cs[i]));
    CollectUnfold(g, n);
    if q(n) {
      v :| v in g(n) && keep(v);
    } else {
      var i :| 0 <= i < |cs| && Exists(q, cs[i]);
      v := CollectSomeReported(g, keep, q, cs[i]);
      assert v in ss[i];
      ConcatHas(ss, v);
    }
  }


  lemma {:induction false} CollectInSome<T>(g: Node -> seq<T>, keep: T -> bool, q: Node -> bool, p: Program)
    requires forall x :: q(x) <==> exists v :: v in g(x) && keep(v)
    ensures (exists v :: v in CollectIn(g, p) && keep(v)) <==> ExistsIn(q, p)
  {
    var ss := seq(|p|, i requires 0 <= i < |p| => Collect(g, p[i]));
    forall i | 0 <= i < |p|
      ensures (exists v :: v in ss[i] && keep(v)) <==> Exists(q, p[i])
    {
      CollectSome(g, keep, q, p[i]);
    }
    if v :| v in CollectIn(g, p) && keep(v) {
      ConcatHas(ss, v);
      var i :| 0 <= i < |ss| && v in ss[i];
      assert Exists(q, p[i]);
    }
    if ExistsIn(q, p) {
      var i :| 0 <= i < |p| && Exists(q, p[i]);
      var v :| v in ss[i] && keep(v);
      ConcatHas(ss, v);
      assert v in CollectIn(g, p);
    }
  }

  /**
   * A rule that never produces a node `keep` accepts unless it left its input alone cannot
   * have produced a tree made of such nodes: the pass found that tree already in place.
   */
  lemma {:induction false} MapReflects(f: Node -> Node, keep: Node -> bool, c: Node, t: Node)
    requires forall x :: keep(f(x)) ==> f(x) == x
    requires Every(keep, t) && Map(f, c) == t
    ensures c == t
  {
    var cs := Children(c);
    EveryParts(keep, t);
    var w := MapStep(f, c);
    assert f(w) == t;
    assert w == t;
    forall i | 0 <= i < |cs|
      ensures Map(f, cs[i]) == cs[i]
    {
      MapReflects(f, keep, cs[i], Children(t)[i]);
    }
    MapFixedChildren(f, c);
  }

  /** A node whose children the pass returns unchanged meets the rule as it is. */
  lemma {:induction false} MapFixedChildren(f: Node -> Node, c: Node)
    requires forall i :: 0 <= i < |Children(c)| ==> Map(f, Children(c)[i]) == Children(c)[i]
    ensures Map(f, c) == f(c)
  {
    var cs := Children(c);
    assert seq(|cs|, i requires 0 <= i < |cs| => Map(f, cs[i])) == cs;
    RebuildSame(c);
  }

  lemma {:induction false} EveryParts(q: Node -> bool, t: Node)
    requires Every(q, t)
    ensures q(t) && forall i :: 0 <= i < |Children(t)| ==> Every(q, Children(t)[i])
  {
  }

  /** No child subtree of `x` holds a node satisfying `bad`. */
  predicate ChildrenClean(bad: Node -> bool, x: Node) {
    forall i :: 0 <= i < |Children(x)| ==> !Exists(bad, Children(x)[i])
  }

  /** `f` introduces no `bad` node below the one it returns. */
  ghost predicate KeepsClean(f: Node -> Node, bad: Node -> bool) {
    forall x :: ChildrenClean(bad, x) ==> ChildrenClean(bad, f(x))
  }

  lemma {:induction false} RootNotBad(f: Node -> Node, keep: Node -> bool, bad: Node -> bool, n: Node)
    requires forall x :: keep(f(x)) ==> f(x) == x
    requires forall x :: bad(x) ==> Every(keep, x)
    ensures bad(Map(f, n)) ==> bad(n)
  {
    if bad(Map(f, n)) {
      MapReflects(f, keep, n, Map(f, n));
    }
  }

  /**
   * A pass whose rule cannot build a `bad` node (every `bad` node is made of nodes the rule
   * only ever returns unchanged, and the rule adds no `bad` node below its result) keeps a
   * tree free of `bad` nodes.
   */
  lemma {:induction false} MapKeepsAbsent(f: Node -> Node, keep: Node -> bool, bad: Node -> bool, n: Node)
    requires forall x :: keep(f(x)) ==> f(x) == x
    requires forall x :: bad(x) ==> Every(keep, x)
    requires KeepsClean(f, bad)
    requires !Exists(bad, n)
    ensures !Exists(bad, Map(f, n))
  {
    var cs := Children(n);
    var ms := seq(|cs|, i requires 0 <= i < |cs| => Map(f, cs[i]));
    forall i | 0 <= i < |cs|
      ensures !Exists(bad, ms[i])
    {
      MapKeepsAbsent(f, keep, bad, cs[i]);
    }
    var y := WithChildren(n, ms);
    assert ChildrenClean(bad, y);
    assert ChildrenClean(bad, f(y));
    RootNotBad(f, keep, bad, n);
  }

  lemma {:induction false} MapProgramKeepsAbsent(f: Node -> Node, keep: Node -> bool, bad: Node -> bool, p: Program)
    requires forall x :: keep(f(x)) ==> f(x) == x
    requires forall x :: bad(x) ==> Every(keep, x)
    requires KeepsClean(f, bad)
    requires !ExistsIn(bad, p)
    ensures !ExistsIn(bad, MapProgram(f, p))
  {
    forall i | 0 <= i < |p|
      ensures !Exists(bad, MapProgram(f, p)[i])
    {
      MapKeepsAbsent(f, keep, bad, p[i]);
    }
  }

  /** Identifiers and member expressions: what a callee is built from. */
  function IdOrMember(): Node -> bool {
    (x: Node) => x.Id? || x.Member?
  }

  /**
   * `bad` is decided by a node's type and its first child, and that child is built from `keep`
   * nodes only: a `new` or a call judged by its callee.
   */
  ghost predicate DecidedByHead(bad: Node -> bool, keep: Node -> bool) {
    && (forall x :: bad(x) ==> |Children(x)| > 0 && Every(keep, Children(x)[0]))
    && (forall x, cs :: |cs| == |Children(x)| && |cs| > 0 && cs[0] == Children(x)[0] && bad(WithChildren(x, cs)) ==> bad(x))
  }

  /**
   * A pass whose rule never builds a `bad` node nor a `keep` node of its own, and adds no `bad`
   * node below its result, keeps a tree free of `bad` nodes decided by their heads.
   */
  lemma {:induction false} MapKeepsAbsentHead(f: Node -> Node, keep: Node -> bool, bad: Node -> bool, n: Node)
    requires forall x :: keep(f(x)) ==> f(x) == x
    requires forall x :: bad(f(x)) ==> f(x) == x
    requires KeepsClean(f, bad)
    requires DecidedByHead(bad, keep)
    requires !Exists(bad, n)
    ensures !Exists(bad, Map(f, n))
  {
    var cs := Children(n);
    var ms := seq(|cs|, i requires 0 <= i < |cs| => Map(f, cs[i]));
    forall i | 0 <= i < |cs|
      ensures !Exists(bad, ms[i])
    {
      MapKeepsAbsentHead(f, keep, bad, cs[i]);
    }
    var y := WithChildren(n, ms);
    assert Map(f, n) == f(y);
    assert ChildrenClean(bad, y);
    assert ChildrenClean(bad, f(y));
    HeadReflects(f, keep, bad, n);
  }

  /** A `bad` node out of the pass was already `bad` going in. */
  lemma {:induction false} HeadReflects(f: Node -> Node, keep: Node -> bool, bad: Node -> bool, n: Node)
    requires forall x :: keep(f(x)) ==> f(x) == x
    requires forall x :: bad(f(x)) ==> f(x) == x
    requires DecidedByHead(bad, keep)
    ensures bad(Map(f, n)) ==> bad(n)
  {
    var cs := Children(n);
    var ms := seq(|cs|, i requires 0 <= i < |cs| => Map(f, cs[i]));
    var y := WithChildren(n, ms);
    assert Map(f, n) == f(y);
    if bad(f(y)) {
      assert Every(keep, ms[0]);
      MapReflects(f, keep, cs[0], ms[0]);
    }
  }

  lemma {:induction false} MapProgramKeepsAbsentHead(f: Node -> Node, keep: Node -> bool, bad: Node -> bool, p: Program)
    requires forall x :: keep(f(x)) ==> f(x) == x
    requires forall x :: bad(f(x)) ==> f(x) == x
    requires KeepsClean(f, bad)
    requires DecidedByHead(bad, keep)
    requires !ExistsIn(bad, p)
    ensures !ExistsIn(bad, MapProgram(f, p))
  {
    forall i | 0 <= i < |p|
      ensures !Exists(bad, MapProgram(f, p)[i])
    {
      MapKeepsAbsentHead(f, keep, bad, p[i]);
    }
  }

  /** An identifier, `a.b` or `a.b.c` is made of identifiers and member expressions. */
  lemma {:induction false} IdPathEvery(c: Node)
    requires c.Id? || (c.Member? && c.prop.Id? && (c.obj.Id? || (c.obj.Member? && c.obj.obj.Id? && c.obj.prop.Id?)))
    ensures Every(IdOrMember(), c)
  {
    var keep := IdOrMember();
    if c.Member? {
      assert Every(keep, c.prop);
      if c.obj.Member? {
        assert Every(keep, c.obj.obj) && Every(keep, c.obj.prop);
        assert Children(c.obj) == [c.obj.obj, c.obj.prop];
      }
      assert Every(keep, c.obj);
      assert Children(c) == [c.obj, c.prop];
    }
  }

  /** A tree without an `r` node satisfies everything that holds wherever `r` fails. */
  lemma {:induction false} NotExistsEvery(q: Node -> bool, r: Node -> bool, n: Node)
    requires forall x :: !r(x) ==> q(x)
    requires !Exists(r, n)
    ensures Every(q, n)
  {
    forall i | 0 <= i < |Children(n)|
      ensures Every(q, Children(n)[i])
    {
      NotExistsEvery(q, r, Children(n)[i]);
    }
  }

  /**
   * A pass that adds no `bad` node below its result, and whose output is `bad` only where its
   * input was, keeps a tree free of `bad` nodes.
   */
  lemma {:induction false} MapKeepsAbsentReflecting(f: Node -> Node, bad: Node -> bool, n: Node)
    requires KeepsClean(f, bad)
    requires forall x :: bad(Map(f, x)) ==> bad(x)
    requires !Exists(bad, n)
    ensures !Exists(bad, Map(f, n))
  {
    var cs := Children(n);
    var w := MapStep(f, n);
    forall i | 0 <= i < |cs|
      ensures !Exists(bad, Children(w)[i])
    {
      MapKeepsAbsentReflecting(f, bad, cs[i]);
    }
    assert ChildrenClean(bad, w);
  }

  lemma {:induction false} MapProgramKeepsAbsentReflecting(f: Node -> Node, bad: Node -> bool, p: Program)
    requires KeepsClean(f, bad)
    requires forall x :: bad(Map(f, x)) ==> bad(x)
    requires !ExistsIn(bad, p)
    ensures !ExistsIn(bad, MapProgram(f, p))
  {
    forall i | 0 <= i < |p|
      ensures !Exists(bad, MapProgram(f, p)[i])
    {
      MapKeepsAbsentReflecting(f, bad, p[i]);
    }
  }

  /** A property every node has holds throughout any tree. */
  lemma {:induction false} EveryAlways(q: Node -> bool, n: Node)
    requires forall x :: q(x)
    ensures Every(q, n)
  {
    forall i | 0 <= i < |Children(n)|
      ensures Every(q, Children(n)[i])
    {
      EveryAlways(q, Children(n)[i]);
    }
  }
}

=== FILE: configurescope.dfy ===
/**
 * The configureScope rule: `configureScope(scope => …)` callbacks are inlined
 * against the current scope.
 */
module ConfigureScope {
  import opened Wrappers
  import opened Ast
  import opened Text
  import opened Normaliser

  const CurrentScope := "getCurrentScope"

  /** The import rename applied when an SDK is known. */
  const ImportRenames: map<string, string> := map["configureScope" := CurrentScope]

  lemma {:induction false} ImportRenamesNoChains()
    ensures NoChains(ImportRenames)
  {
    assert forall x :: x in ImportRenames ==> ImportRenames[x] == CurrentScope;
  }

  /** The scope parameter of a callback: a function whose first parameter is a non-empty identifier. */
  function ScopeParam(cb: Node): Option<string> {
    if cb.Func? && |cb.params| > 0 && cb.params[0].Id? && cb.params[0].name != "" then Some(cb.params[0].name)
    else None
  }

  /** A call of a method of the scope parameter `s`: `s.m(…)`. */
  predicate IsScopeCall(e: Node, s: string) {
    e.Call? && e.callee.Member? && e.callee.obj == Id(s)
  }

  /**
   * The single call a callback body consists of: the body itself when it is a call, or the
   * one expression statement of a one-statement block; kept only when it is `s.m(…)`.
   */
  function SingleExpression(body: Node, s: string): (r: Option<Node>)
    ensures r.Some? ==> IsScopeCall(r.value, s)
    ensures r.Some? <==>
      || (body.Call? && IsScopeCall(body, s))
      || (body.Block? && |body.stmts| == 1 && body.stmts[0].ExprStmt? && IsScopeCall(body.stmts[0].expr, s))
    ensures r.Some? && body.Call? ==> r.value == body
  {
    var e :=
      if body.Call? then Some(body)
      else if body.Block? && |body.stmts| == 1 && body.stmts[0].ExprStmt? && body.stmts[0].expr.Call? then
        Some(body.stmts[0].expr)
      else None;
    if e.Some? && IsScopeCall(e.value, s) then e else None
  }

  /** The callback argument of a `configureScope` call, when it qualifies: a function with a scope parameter. */
  predicate HasScopeCallback(n: Node) {
    n.Call? && |n.args| > 0 && ScopeParam(n.args[0]).Some?
  }

  /**
   * The rewrite of a call with a scope callback, `scope` being the expression that gives the
   * scope: a single `s.m(args)` becomes `scope.m(args)`; otherwise a block body becomes
   * `{ const s = scope; …body }`; otherwise nothing changes.
   */
  function Inline(n: Node, scope: Node): (r: Node)
    requires HasScopeCallback(n)
  {
    var cb := n.args[0];
    var s := ScopeParam(cb).value;
    match SingleExpression(cb.body, s)
    case Some(e) => Call(Member(scope, e.callee.prop), e.args)
    case None =>
      if cb.body.Block? then Block([VarDecl([Declarator(PId(s), scope)], [])] + cb.body.stmts)
      else n
  }

  /** A callback the inlining changes: its body is a single scope call, or a block. */
  predicate Inlinable(n: Node) {
    HasScopeCallback(n) && (SingleExpression(n.args[0].body, ScopeParam(n.args[0]).value).Some? || n.args[0].body.Block?)
  }

  /** `configureScope(cb)` with an inlinable callback. */
  predicate IsBareConfigureScope(n: Node) {
    n.Call? && n.callee == Id("configureScope") && Inlinable(n)
  }

  /** `obj.configureScope(cb)` with an inlinable callback. */
  predicate IsMemberConfigureScope(n: Node) {
    n.Call? && n.callee.Member? && n.callee.prop == Id("configureScope") && Inlinable(n)
  }

  function CurrentScopeCall(): Node {
    Call(Id(CurrentScope), [])
  }

  function BareAt(n: Node): (r: Node)
    ensures !IsBareConfigureScope(n) ==> r == n
    ensures IsBareConfigureScope(n) ==> r == Inline(n, CurrentScopeCall())
  {
    if IsBareConfigureScope(n) then Inline(n, CurrentScopeCall()) else n
  }

  /**
   * The accessor a member call is inlined against: `getScope` when the printed object mentions
   * a hub in any letter case, `getCurrentScope` otherwise. `show` prints a node.
   */
  function Accessor(show: Node -> string, obj: Node): (r: string)
    ensures r == "getScope" <==> ContainsCI(show(obj), "hub")
    ensures r == CurrentScope <==> !ContainsCI(show(obj), "hub")
  {
    if ContainsCI(show(obj), "hub") then "getScope" else CurrentScope
  }

  function MemberAt(show: Node -> string, n: Node): (r: Node)
    ensures !IsMemberConfigureScope(n) ==> r == n
    ensures IsMemberConfigureScope(n) ==>
      r == Inline(n, Member(n.callee.obj, Call(Id(Accessor(show, n.callee.obj)), [])))
  {
    if IsMemberConfigureScope(n) then Inline(n, Member(n.callee.obj, Call(Id(Accessor(show, n.callee.obj)), [])))
    else n
  }

  /** A callback that is no function, or has no identifier parameter, stays: `configureScope(orig)`. */
  lemma {:induction false} OtherCallbackStays(show: Node -> string, n: Node)
    requires n.Call? && !HasScopeCallback(n)
    ensures BareAt(n) == n && MemberAt(show, n) == n
  {
  }

  /** `configureScope(s => s.m(args))`, and the one-statement block form, become `getCurrentScope().m(args)`. */
  lemma {:induction false} BareSingleCall(n: Node)
    requires n.Call? && n.callee == Id("configureScope") && HasScopeCallback(n)
    requires var s := ScopeParam(n.args[0]).value;
      SingleExpression(n.args[0].body, s).Some?
    ensures var e := SingleExpression(n.args[0].body, ScopeParam(n.args[0]).value).value;
      BareAt(n) == Call(Member(CurrentScopeCall(), e.callee.prop), e.args)
  {
  }

  /** A longer block body becomes a block that declares the scope and then runs the old statements in order. */
  lemma {:induction false} BareBlock(n: Node)
    requires n.Call? && n.callee == Id("configureScope") && HasScopeCallback(n)
    requires SingleExpression(n.args[0].body, ScopeParam(n.args[0]).value).None?
    requires n.args[0].body.Block?
    ensures var s := ScopeParam(n.args[0]).value;
      && BareAt(n) == Block([VarDecl([Declarator(PId(s), CurrentScopeCall())], [])] + n.args[0].body.stmts)
      && BareAt(n).stmts[1..] == n.args[0].body.stmts
  {
  }

  /** An expression body that is no scope call is left as it is. */
  lemma {:induction false} NonCallBodyStays(show: Node -> string, n: Node)
    requires HasScopeCallback(n)
    requires SingleExpression(n.args[0].body, ScopeParam(n.args[0]).value).None?
    requires !n.args[0].body.Block?
    ensures BareAt(n) == n && MemberAt(show, n) == n
  {
  }

  function BareRule(): Node -> Node {
    n => BareAt(n)
  }

  function MemberRule(show: Node -> string): Node -> Node {
    n => MemberAt(show, n)
  }

  function NoBare(): Node -> bool {
    n => !IsBareConfigureScope(n)
  }

  function Bare(): Node -> bool {
    n => IsBareConfigureScope(n)
  }

  function NoMember(): Node -> bool {
    n => !IsMemberConfigureScope(n)
  }

  function MemberForm(): Node -> bool {
    n => IsMemberConfigureScope(n)
  }

  /** `scope.m(args)` keeps a property that `s.m(args)` and `scope` have. */
  lemma {:induction false} InlineCallEvery(q: Node -> bool, e: Node, scope: Node)
    requires e.Call? && e.callee.Member? && Every(q, e) && Every(q, scope)
    requires q(Call(Member(scope, e.callee.prop), e.args)) && q(Member(scope, e.callee.prop))
    ensures Every(q, Call(Member(scope, e.callee.prop), e.args))
  {
    assert Every(q, e.callee.prop) by {
      assert Children(e)[0] == e.callee;
      assert Children(e.callee)[1] == e.callee.prop;
    }
    var callee := Member(scope, e.callee.prop);
    assert Every(q, callee) by {
      assert Children(callee) == [scope, e.callee.prop];
    }
    var r := Call(callee, e.args);
    assert Children(r) == [callee] + e.args;
    assert forall i :: 1 <= i < |Children(r)| ==> Children(r)[i] == Children(e)[i];
  }

  /** `{ const s = scope; ...stmts }` keeps a property that the block and `scope` have. */
  lemma {:induction false} InlineBlockEvery(q: Node -> bool, body: Node, s: string, scope: Node)
    requires body.Block? && Every(q, body) && Every(q, scope)
    requires q(Block([VarDecl([Declarator(PId(s), scope)], [])] + body.stmts))
    requires q(Declarator(PId(s), scope)) && q(VarDecl([Declarator(PId(s), scope)], []))
    ensures Every(q, Block([VarDecl([Declarator(PId(s), scope)], [])] + body.stmts))
  {
    var d := Declarator(PId(s), scope);
    assert Every(q, d) by {
      assert Children(d) == [scope];
    }
    var v := VarDecl([d], []);
    assert Every(q, v) by {
      assert Children(v) == [d];
    }
    var r := Block([v] + body.stmts);
    assert forall i :: 1 <= i < |Children(r)| ==> Children(r)[i] == Children(body)[i - 1];
  }

  /**
   * What the inlined code is made of: the scope expression, a call or declaration wrapped
   * around it, and parts of the callback. A property `q` of all those parts holds throughout.
   */
  lemma {:induction false} InlineEvery(q: Node -> bool, n: Node, scope: Node)
    requires Inlinable(n)
    requires forall i :: 0 <= i < |Children(n)| ==> Every(q, Children(n)[i])
    requires Every(q, scope)
    requires forall x: Node :: x.Call? && x.callee.Member? && q(x) ==> q(Call(Member(scope, x.callee.prop), x.args))
    requires forall x: Node :: q(Member(scope, x))
    requires forall ss: seq<Node> :: q(Block(ss))
    requires forall v: string :: q(Declarator(PId(v), scope)) && q(VarDecl([Declarator(PId(v), scope)], []))
    ensures Every(q, Inline(n, scope))
  {
    var cb := n.args[0];
    assert Every(q, cb) by {
      assert Children(n)[1] == cb;
    }
    assert Every(q, cb.body) by {
      assert Children(cb)[|cb.params|] == cb.body;
    }
    var s := ScopeParam(cb).value;
    match SingleExpression(cb.body, s)
    case Some(e) =>
      assert Every(q, e) by {
        if !cb.body.Call? {
          assert Children(cb.body)[0] == cb.body.stmts[0];
          assert Children(cb.body.stmts[0])[0] == e;
        }
      }
      InlineCallEvery(q, e, scope);
    case None =>
      InlineBlockEvery(q, cb.body, s, scope);
  }

  lemma {:induction false} BareEstablishes()
    ensures Establishes(BareRule(), NoBare())
    ensures Fixes(BareRule(), NoBare())
  {
    var q := NoBare();
    var scope := CurrentScopeCall();
    assert Every(q, scope) by {
      assert Children(scope) == [Id(CurrentScope)];
    }
    forall x: Node | forall i :: 0 <= i < |Children(x)| ==> Every(q, Children(x)[i])
      ensures Every(q, BareAt(x))
    {
      if IsBareConfigureScope(x) {
        InlineEvery(q, x, scope);
      }
    }
  }

  lemma {:induction false} MemberEstablishes(show: Node -> string)
    ensures Establishes(MemberRule(show), NoMember())
    ensures Fixes(MemberRule(show), NoMember())
  {
    var q := NoMember();
    forall x: Node | forall i :: 0 <= i < |Children(x)| ==> Every(q, Children(x)[i])
      ensures Every(q, MemberAt(show, x))
    {
      if IsMemberConfigureScope(x) {
        var obj := x.callee.obj;
        var scope := Member(obj, Call(Id(Accessor(show, obj)), []));
        assert Every(q, obj) by {
          assert Children(x)[0] == x.callee;
          assert Children(x.callee)[0] == obj;
        }
        assert Every(q, scope) by {
          var get := Call(Id(Accessor(show, obj)), []);
          assert Children(get) == [Id(Accessor(show, obj))];
          assert Children(scope) == [obj, get];
        }
        InlineEvery(q, x, scope);
      }
    }
  }

  /** The bare pass, each call inlined after the calls inside it. */
  function InlineBare(p: Program): Program {
    MapProgram(BareRule(), p)
  }

  function InlineMember(show: Node -> string, p: Program): Program {
    MapProgram(MemberRule(show), p)
  }

  /** No inlinable `configureScope(…)` is left after the bare pass, and a second pass changes nothing. */
  lemma {:induction false} InlineBareComplete(p: Program)
    ensures !ExistsIn(Bare(), InlineBare(p))
    ensures InlineBare(InlineBare(p)) == InlineBare(p)
  {
    BareEstablishes();
    forall i | 0 <= i < |p|
      ensures !Exists(Bare(), InlineBare(p)[i])
      ensures InlineBare(InlineBare(p))[i] == InlineBare(p)[i]
    {
      MapEstablishes(BareRule(), NoBare(), p[i]);
      EveryNotExists(NoBare(), Bare(), InlineBare(p)[i]);
      MapIdempotent(BareRule(), NoBare(), p[i]);
    }
  }

  /** Likewise for `obj.configureScope(…)`. */
  lemma {:induction false} InlineMemberComplete(show: Node -> string, p: Program)
    ensures !ExistsIn(MemberForm(), InlineMember(show, p))
    ensures InlineMember(show, InlineMember(show, p)) == InlineMember(show, p)
  {
    MemberEstablishes(show);
    forall i | 0 <= i < |p|
      ensures !Exists(MemberForm(), InlineMember(show, p)[i])
      ensures InlineMember(show, InlineMember(show, p))[i] == InlineMember(show, p)[i]
    {
      MapEstablishes(MemberRule(show), NoMember(), p[i]);
      EveryNotExists(NoMember(), MemberForm(), InlineMember(show, p)[i]);
      MapIdempotent(MemberRule(show), NoMember(), p[i]);
    }
  }

  /** The member pass changes nothing in a tree without an inlinable member call. */
  lemma {:induction false} MemberPassIdle(show: Node -> string, q: Program)
    ensures !ExistsIn(MemberForm(), q) ==> InlineMember(show, q) == q
  {
    if !ExistsIn(MemberForm(), q) {
      MemberEstablishes(show);
      forall i | 0 <= i < |q|
        ensures InlineMember(show, q)[i] == q[i]
      {
        NotExistsEvery(NoMember(), MemberForm(), q[i]);
        MapKeeps(MemberRule(show), NoMember(), q[i]);
      }
    }
  }

  /** A call out of a binding edit has the edited callee and arguments of the call it came from. */
  lemma {:induction false} CallReflects(f: Node -> Node, n: Node)
    requires forall x :: MapsAlike(f, x)
    requires Map(f, n).Call?
    ensures n.Call? && Map(f, n).callee == Map(f, n.callee) && |Map(f, n).args| == |n.args|
    ensures forall i :: 0 <= i < |n.args| ==> Map(f, n).args[i] == Map(f, n.args[i])
  {
    var t := Map(f, n);
    assert MapsAlike(f, n);
    CallChildren(t);
    CallChildren(n);
    forall i | 0 <= i < |n.args|
      ensures t.args[i] == Map(f, n.args[i])
    {
      assert Children(t)[i + 1] == t.args[i] && Children(n)[i + 1] == n.args[i];
    }
  }

  /** A callback out of a binding edit has the scope parameter and the edited body of the one it came from. */
  lemma {:induction false} CallbackReflects(f: Node -> Node, cb: Node)
    requires forall x :: MapsAlike(f, x)
    requires ScopeParam(Map(f, cb)).Some?
    ensures ScopeParam(cb) == ScopeParam(Map(f, cb)) && Map(f, cb).body == Map(f, cb.body)
  {
    var tc := Map(f, cb);
    assert MapsAlike(f, cb);
    assert Children(tc)[0] == tc.params[0] && Children(cb)[0] == cb.params[0];
    assert MapsAlike(f, cb.params[0]);
    assert Children(tc)[|tc.params|] == tc.body && Children(cb)[|cb.params|] == cb.body;
  }

  /** A scope call out of a binding edit was a scope call on the same parameter. */
  lemma {:induction false} ScopeCallReflects(f: Node -> Node, e: Node, s: string)
    requires forall x :: MapsAlike(f, x)
    ensures IsScopeCall(Map(f, e), s) ==> IsScopeCall(e, s)
  {
    if IsScopeCall(Map(f, e), s) {
      CallReflects(f, e);
      var c := e.callee;
      assert MapsAlike(f, c);
      MemberChildren(Map(f, c));
      MemberChildren(c);
      assert MapsAlike(f, c.obj);
    }
  }

  /**
   * A callback that a binding edit leaves inlinable was inlinable before: the edit keeps the
   * callee, the callback's parameter and the type and scope call of its body.
   */
  lemma {:induction false} InlinableReflects(f: Node -> Node, n: Node)
    requires forall x :: MapsAlike(f, x)
    requires Map(f, n).Call? && Inlinable(Map(f, n))
    ensures n.Call? && Inlinable(n) && Map(f, n).callee == Map(f, n.callee)
  {
    CallReflects(f, n);
    var cb := n.args[0];
    CallbackReflects(f, cb);
    BodyReflects(f, cb.body, ScopeParam(cb).value);
  }

  /** A body out of a binding edit that is a block or a single scope call was one before. */
  lemma {:induction false} BodyReflects(f: Node -> Node, body: Node, s: string)
    requires forall x :: MapsAlike(f, x)
    ensures SingleExpression(Map(f, body), s).Some? || Map(f, body).Block? ==>
      SingleExpression(body, s).Some? || body.Block?
  {
    assert MapsAlike(f, body);
    ScopeCallReflects(f, body, s);
  }

  lemma {:induction false} BareReflects(f: Node -> Node, n: Node)
    requires forall x :: MapsAlike(f, x)
    ensures Bare()(Map(f, n)) ==> Bare()(n)
  {
    if IsBareConfigureScope(Map(f, n)) {
      InlinableReflects(f, n);
      assert MapsAlike(f, n.callee);
    }
  }

  lemma {:induction false} MemberFormReflects(f: Node -> Node, n: Node)
    requires forall x :: MapsAlike(f, x)
    ensures MemberForm()(Map(f, n)) ==> MemberForm()(n)
  {
    var t := Map(f, n);
    if IsMemberConfigureScope(t) {
      InlinableReflects(f, n);
      assert MapsAlike(f, n.callee);
      assert Children(t.callee)[1] == t.callee.prop && Children(n.callee)[1] == n.callee.prop;
      assert MapsAlike(f, n.callee.prop);
    }
  }

  /** A binding edit makes no callback inlinable. */
  lemma {:induction false} EditsKeepNoInlinable(f: Node -> Node, p: Program)
    requires EditsBindingsOnly(f)
    ensures !ExistsIn(Bare(), p) ==> !ExistsIn(Bare(), MapProgram(f, p))
    ensures !ExistsIn(MemberForm(), p) ==> !ExistsIn(MemberForm(), MapProgram(f, p))
  {
    EditsKeepClean(f, Bare());
    EditsKeepClean(f, MemberForm());
    EditsMapAlike(f);
    forall x
      ensures Bare()(Map(f, x)) ==> Bare()(x)
      ensures MemberForm()(Map(f, x)) ==> MemberForm()(x)
    {
      BareReflects(f, x);
      MemberFormReflects(f, x);
    }
    if !ExistsIn(Bare(), p) {
      MapProgramKeepsAbsentReflecting(f, Bare(), p);
    }
    if !ExistsIn(MemberForm(), p) {
      MapProgramKeepsAbsentReflecting(f, MemberForm(), p);
    }
  }

  /** Renaming the imported `configureScope` makes no callback inlinable. */
  lemma {:induction false} RenameKeepsNoInlinable(src: string, sdk: string, p: Program)
    ensures var r := ReplaceImported(src, sdk, ImportRenames, p).0;
      && (!ExistsIn(Bare(), p) ==> !ExistsIn(Bare(), r))
      && (!ExistsIn(MemberForm(), p) ==> !ExistsIn(MemberForm(), r))
  {
    ReplaceImportedEdits(src, sdk, ImportRenames, p);
    if HasImportOrRequire(src, sdk) {
      var f, g := RenameImportedRule(sdk, ImportRenames), DedupeIdentifiersRule(sdk, true);
      EditsKeepNoInlinable(f, p);
      EditsKeepNoInlinable(g, MapProgram(f, p));
    }
  }

  /**
   * The member pass runs after the bare pass, so it can expose a bare call:
   * `configureScope(s => hub.configureScope(t => {}))` passes the bare pass unchanged, and the
   * member pass turns the callback body into the block `{ const t = hub.getScope(); }`, which
   * leaves an inlinable `configureScope(s => { … })`.
   */
  lemma {:induction false} MemberPassExposesBare(show: Node -> string)
    ensures var inner := Call(Member(Id("hub"), Id("configureScope")), [Func([Id("t")], Block([]))]);
      var p := [ExprStmt(Call(Id("configureScope"), [Func([Id("s")], inner)]), [])];
      && InlineBare(p) == p
      && ExistsIn(Bare(), InlineMember(show, InlineBare(p)))
  {
    var cb := Func([Id("t")], Block([]));
    var inner := Call(Member(Id("hub"), Id("configureScope")), [cb]);
    var fn := Func([Id("s")], inner);
    var outer := Call(Id("configureScope"), [fn]);
    WitnessBareIdle(cb, inner, fn, outer, [ExprStmt(outer, [])]);
    WitnessMemberExposes(show, cb, inner, fn, outer, [ExprStmt(outer, [])]);
  }

  /** The bare pass leaves a node that is no call as it is. */
  lemma {:induction false} BareSkipsNonCall(x: Node)
    requires !x.Call?
    ensures BareRule()(x) == x
  {
  }

  /** The member pass leaves a node that is no call as it is. */
  lemma {:induction false} NonCallFixed(show: Node -> string, x: Node)
    requires !x.Call?
    ensures MemberRule(show)(x) == x
  {
  }

  lemma {:induction false} WitnessBareIdle(cb: Node, inner: Node, fn: Node, outer: Node, p: Program)
    requires cb == Func([Id("t")], Block([]))
    requires inner == Call(Member(Id("hub"), Id("configureScope")), [cb])
    requires fn == Func([Id("s")], inner)
    requires outer == Call(Id("configureScope"), [fn])
    requires p == [ExprStmt(outer, [])]
    ensures InlineBare(p) == p
  {
    BareKeepsInner(inner);
    BareKeepsOuter(inner, fn, outer);
    BareSkipsNonCall(p[0]);
    MapLeafStmt(BareRule(), p[0]);
  }

  /** A callback-shaped argument `t => {}`: one identifier parameter and an empty block. */
  ghost predicate EmptyCallback(cb: Node)
  {
    cb.Func? && |cb.params| == 1 && cb.params[0].Id? && cb.body == Block([])
  }

  /** A member call `a.b(t => {})`. */
  ghost predicate MemberCallOnEmpty(inner: Node)
  {
    && inner.Call? && inner.callee.Member? && inner.callee.obj.Id? && inner.callee.prop.Id?
    && |inner.args| == 1 && EmptyCallback(inner.args[0])
  }

  lemma {:induction false} BareKeepsInner(inner: Node)
    requires MemberCallOnEmpty(inner)
    ensures Map(BareRule(), inner) == inner
  {
    var cb := inner.args[0];
    BareSkipsNonCall(inner.callee.obj);
    BareSkipsNonCall(inner.callee.prop);
    BareSkipsNonCall(inner.callee);
    BareSkipsNonCall(cb.params[0]);
    BareSkipsNonCall(cb.body);
    BareSkipsNonCall(cb);
    WitnessLeavesFixed(BareRule(), inner.callee, cb);
    BareInnerFixed(inner);
  }

  lemma {:induction false} BareKeepsOuter(inner: Node, fn: Node, outer: Node)
    requires inner.Call? && inner.callee.Member? && inner.callee.obj == Id("hub")
    requires Map(BareRule(), inner) == inner
    requires fn == Func([Id("s")], inner)
    requires outer == Call(Id("configureScope"), [fn])
    ensures Map(BareRule(), outer) == outer
  {
    BareSkipsNonCall(fn.params[0]);
    BareSkipsNonCall(fn);
    CallbackFixed(BareRule(), fn);
    OuterNotBare(inner, fn, outer);
    BareSkipsNonCall(outer.callee);
    CallFixed(BareRule(), outer);
  }

  /** An identifier member `a.b` and a callback `t => {}` go through a pass that keeps their nodes unchanged. */
  lemma {:induction false} WitnessLeavesFixed(g: Node -> Node, callee: Node, cb: Node)
    requires callee.Member? && callee.obj.Id? && callee.prop.Id? && EmptyCallback(cb)
    requires g(callee.obj) == callee.obj && g(callee.prop) == callee.prop && g(callee) == callee
    requires g(cb.params[0]) == cb.params[0] && g(cb.body) == cb.body && g(cb) == cb
    ensures Map(g, callee) == callee && Map(g, cb) == cb
  {
    MapLeaf(g, callee.obj);
    MapLeaf(g, callee.prop);
    MemberChildren(callee);
    MapFixedChildren(g, callee);
    MapLeaf(g, cb.params[0]);
    MapLeaf(g, cb.body);
    assert Children(cb) == [cb.params[0], cb.body];
    MapFixedChildren(g, cb);
  }

  lemma {:induction false} WitnessMemberExposes(show: Node -> string, cb: Node, inner: Node, fn: Node, outer: Node, p: Program)
    requires cb == Func([Id("t")], Block([]))
    requires inner == Call(Member(Id("hub"), Id("configureScope")), [cb])
    requires fn == Func([Id("s")], inner)
    requires outer == Call(Id("configureScope"), [fn])
    requires p == [ExprStmt(outer, [])]
    ensures ExistsIn(Bare(), InlineMember(show, p))
  {
    MemberPassOnWitness(show, cb, inner, fn, outer);
    var w := MapStep(MemberRule(show), p[0]);
    assert Children(p[0]) == [outer];
    NonCallFixed(show, w);
    assert InlineMember(show, p)[0] == w;
    var m := Map(MemberRule(show), outer);
    assert Children(w)[0] == m;
    assert Exists(Bare(), m) by {
      assert Bare()(m);
    }
    assert Exists(Bare(), w);
  }

  /** A statement whose expression the pass keeps is kept. */
  lemma {:induction false} MapLeafStmt(g: Node -> Node, stmt: Node)
    requires stmt.ExprStmt? && Map(g, stmt.expr) == stmt.expr && g(stmt) == stmt
    ensures Map(g, stmt) == stmt
  {
    assert Children(stmt) == [stmt.expr];
    MapFixedChildren(g, stmt);
  }

  /** The bare pass leaves `hub.configureScope(t => {})` as it is: its callee is no identifier. */
  lemma {:induction false} BareInnerFixed(inner: Node)
    requires inner.Call? && inner.callee.Member? && |inner.args| == 1
    requires Map(BareRule(), inner.callee) == inner.callee && Map(BareRule(), inner.args[0]) == inner.args[0]
    ensures Map(BareRule(), inner) == inner
  {
    OneArgCallMapped(BareRule(), inner);
    BareSkipsMemberCall(inner);
  }

  /** The bare pass leaves a call on a member expression as it is. */
  lemma {:induction false} BareSkipsMemberCall(n: Node)
    requires n.Call? && n.callee.Member?
    ensures BareRule()(n) == n
  {
  }


  /** The outer call of the witness is not inlinable: its callback body is a call on another object. */
  lemma {:induction false} OuterNotBare(inner: Node, fn: Node, outer: Node)
    requires inner.Call? && inner.callee.Member? && inner.callee.obj == Id("hub")
    requires fn == Func([Id("s")], inner)
    requires outer == Call(Id("configureScope"), [fn])
    ensures BareRule()(outer) == outer
  {
    assert SingleExpression(inner, "s").None?;
  }

  /** A one-parameter callback whose body the pass keeps is kept. */
  lemma {:induction false} CallbackFixed(g: Node -> Node, fn: Node)
    requires fn.Func? && |fn.params| == 1 && Children(fn.params[0]) == [] && Map(g, fn.body) == fn.body
    requires g(fn.params[0]) == fn.params[0] && g(fn) == fn
    ensures Map(g, fn) == fn
  {
    MapLeaf(g, fn.params[0]);
    assert Children(fn) == [fn.params[0], fn.body];
    MapFixedChildren(g, fn);
  }

  /** A call on an identifier with one argument the pass keeps, and which the rule skips, is kept. */
  lemma {:induction false} CallFixed(g: Node -> Node, outer: Node)
    requires outer.Call? && outer.callee.Id? && |outer.args| == 1 && Map(g, outer.args[0]) == outer.args[0]
    requires g(outer.callee) == outer.callee && g(outer) == outer
    ensures Map(g, outer) == outer
  {
    MapLeaf(g, outer.callee);
    CallChildren(outer);
    MapFixedChildren(g, outer);
  }

  /** The member pass on the witness: the inner call becomes a block, and the outer call is left bare. */
  lemma {:induction false} MemberPassOnWitness(show: Node -> string, cb: Node, inner: Node, fn: Node, outer: Node)
    requires cb == Func([Id("t")], Block([]))
    requires inner == Call(Member(Id("hub"), Id("configureScope")), [cb])
    requires fn == Func([Id("s")], inner)
    requires outer == Call(Id("configureScope"), [fn])
    ensures IsBareConfigureScope(Map(MemberRule(show), outer))
  {
    var block := WitnessInner(show, cb, inner);
    WitnessFunc(show, inner, fn, block);
    WitnessOuter(show, fn, outer, block);
  }

  lemma {:induction false} WitnessInner(show: Node -> string, cb: Node, inner: Node) returns (block: Node)
    requires cb == Func([Id("t")], Block([]))
    requires inner == Call(Member(Id("hub"), Id("configureScope")), [cb])
    ensures block == Map(MemberRule(show), inner) && block.Block?
  {
    MemberKeepsParts(show, inner);
    InlineBlockBody(inner);
    block := Map(MemberRule(show), inner);
  }

  /** The member pass keeps the callee and the callback of `a.b(t => {})`, and then rewrites the call itself. */
  lemma {:induction false} MemberKeepsParts(show: Node -> string, inner: Node)
    requires MemberCallOnEmpty(inner)
    ensures Map(MemberRule(show), inner) == MemberRule(show)(inner)
  {
    MemberKeepsLeaves(show, inner.callee, inner.args[0]);
    OneArgCallMapped(MemberRule(show), inner);
  }

  /** A pass that keeps the callee and the one argument of a call applies its rule to the call as it is. */
  lemma {:induction false} OneArgCallMapped(g: Node -> Node, c: Node)
    requires c.Call? && |c.args| == 1 && Map(g, c.callee) == c.callee && Map(g, c.args[0]) == c.args[0]
    ensures Map(g, c) == g(c)
  {
    CallChildren(c);
    MapFixedChildren(g, c);
  }

  lemma {:induction false} MemberKeepsLeaves(show: Node -> string, callee: Node, cb: Node)
    requires callee.Member? && callee.obj.Id? && callee.prop.Id? && EmptyCallback(cb)
    ensures Map(MemberRule(show), callee) == callee && Map(MemberRule(show), cb) == cb
  {
    NonCallFixed(show, callee.obj);
    NonCallFixed(show, callee.prop);
    NonCallFixed(show, callee);
    NonCallFixed(show, cb.params[0]);
    NonCallFixed(show, cb.body);
    NonCallFixed(show, cb);
    WitnessLeavesFixed(MemberRule(show), callee, cb);
  }

  /** A member call whose callback body is a block of other statements is inlined as a block. */
  lemma {:induction false} InlineBlockBody(n: Node)
    requires n.Call? && n.callee.Member? && n.callee.prop == Id("configureScope")
    requires HasScopeCallback(n) && n.args[0].body == Block([])
    ensures IsMemberConfigureScope(n)
    ensures forall scope :: Inline(n, scope).Block?
  {
  }

  lemma {:induction false} WitnessFunc(show: Node -> string, inner: Node, fn: Node, block: Node)
    requires fn == Func([Id("s")], inner)
    requires block == Map(MemberRule(show), inner) && block.Block?
    ensures Map(MemberRule(show), fn) == Func([Id("s")], block)
  {
    NonCallFixed(show, fn.params[0]);
    FuncMapped(MemberRule(show), fn);
    NonCallFixed(show, Func([Id("s")], block));
  }

  /** A pass that keeps the one parameter of a function applies its rule to the function of the mapped body. */
  lemma {:induction false} FuncMapped(g: Node -> Node, fn: Node)
    requires fn.Func? && |fn.params| == 1 && Children(fn.params[0]) == [] && g(fn.params[0]) == fn.params[0]
    ensures Map(g, fn) == g(Func(fn.params, Map(g, fn.body)))
  {
    MapLeaf(g, fn.params[0]);
    var w := MapStep(g, fn);
    assert Children(fn) == [fn.params[0], fn.body];
    assert KindOf(w) == KFunction && w.Func?;
    assert Children(w) == w.params + [w.body];
    assert w.params == [fn.params[0]] == fn.params;
  }


  lemma {:induction false} WitnessOuter(show: Node -> string, fn: Node, outer: Node, block: Node)
    requires outer == Call(Id("configureScope"), [fn])
    requires Map(MemberRule(show), fn) == Func([Id("s")], block) && block.Block?
    ensures IsBareConfigureScope(Map(MemberRule(show), outer))
  {
    var wo := OuterMapped(show, outer);
    OuterStaysBare(show, wo, block);
  }

  /** The member pass over a call on an identifier applies the rule to the call of its mapped arguments. */
  lemma {:induction false} OuterMapped(show: Node -> string, outer: Node) returns (wo: Node)
    requires outer.Call? && outer.callee.Id? && |outer.args| == 1
    ensures wo == Call(outer.callee, [Map(MemberRule(show), outer.args[0])])
    ensures Map(MemberRule(show), outer) == MemberRule(show)(wo)
  {
    var f := MemberRule(show);
    NonCallFixed(show, outer.callee);
    MapLeaf(f, outer.callee);
    wo := MapStep(f, outer);
    CallChildren(outer);
    CallChildren(wo);
  }

  /** `configureScope(s => { … })` is inlinable, and the member pass leaves it alone. */
  lemma {:induction false} OuterStaysBare(show: Node -> string, wo: Node, block: Node)
    requires wo == Call(Id("configureScope"), [Func([Id("s")], block)]) && block.Block?
    ensures IsBareConfigureScope(MemberRule(show)(wo))
  {
  }


  /**
   * The rule on one script: unchanged unless the text has a Sentry import or require and
   * mentions `configureScope`; otherwise both passes run, and with an SDK its imported
   * `configureScope` becomes `getCurrentScope`.
   */
  function ConfigureScopeRule(src: string, sdk: string, show: Node -> string, p: Program): (r: Outcome)
    ensures r == Unchanged <==> !HasSentryImportOrRequire(src) || !Contains(src, "configureScope")
    ensures r != Unchanged ==> r.Changed?
    ensures r != Unchanged && sdk == "" ==> r.prog == InlineMember(show, InlineBare(p))
    ensures r != Unchanged && sdk != "" ==>
      r.prog == ReplaceImported(src, sdk, ImportRenames, InlineMember(show, InlineBare(p))).0
    ensures r.Changed? ==> !ExistsIn(MemberForm(), r.prog)
    ensures r.Changed? && !ExistsIn(MemberForm(), InlineBare(p)) ==> !ExistsIn(Bare(), r.prog)
  {
    if !HasSentryImportOrRequire(src) || !Contains(src, "configureScope") then Unchanged
    else
      var q := InlineMember(show, InlineBare(p));
      InlineBareComplete(p);
      InlineMemberComplete(show, InlineBare(p));
      MemberPassIdle(show, InlineBare(p));
      RenameKeepsNoInlinable(src, sdk, q);
      if sdk == "" then Changed(q) else Changed(ReplaceImported(src, sdk, ImportRenames, q).0)
  }
}

=== FILE: convertenums.dfy ===
/**
 * The enum rule: members of the removed `Severity` and `SpanStatus` enums become
 * their string values, and an enum no longer referenced is dropped from imports
 * and requires.
 */
module ConvertEnums {
  import opened Wrappers
  import opened Ast
  import opened Text
  import opened Seqs
  import opened Normaliser

  const SeverityMembers: seq<string> := ["Fatal", "Error", "Warning", "Log", "Info", "Debug"]
  const SeverityValues: seq<string> := ["fatal", "error", "warning", "log", "info", "debug"]

  const SpanStatusMembers: seq<string> := [
    "Ok", "DeadlineExceeded", "Unauthenticated", "PermissionDenied", "NotFound", "ResourceExhausted",
    "InvalidArgument", "Unimplemented", "Unavailable", "InternalError", "UnknownError", "Cancelled",
    "AlreadyExists", "FailedPrecondition", "Aborted", "OutOfRange", "DataLoss"
  ]
  const SpanStatusValues: seq<string> := [
    "ok", "deadline_exceeded", "unauthenticated", "permission_denied", "not_found", "resource_exhausted",
    "invalid_argument", "unimplemented", "unavailable", "internal_error", "unknown_error", "cancelled",
    "already_exists", "failed_precondition", "aborted", "out_of_range", "data_loss"
  ]

  const SeverityMap: map<string, string> := ZipMap(SeverityMembers, SeverityValues)
  const SpanStatusMap: map<string, string> := ZipMap(SpanStatusMembers, SpanStatusValues)

  /** The enums the rule knows, in the order their removal is considered. */
  const Enums: seq<string> := ["Severity", "SpanStatus"]

  lemma {:induction false} SeverityMembersDistinct()
    ensures NoDuplicates(SeverityMembers)
  {
  }

  lemma {:induction false} SpanStatusMembersDistinct()
    ensures NoDuplicates(SpanStatusMembers)
  {
  }

  /** Every value is a non-empty string, so a replacement is always made. */
  lemma {:induction false} ValuesNonEmpty()
    ensures forall j :: 0 <= j < |SeverityValues| ==> SeverityValues[j] != ""
    ensures forall j :: 0 <= j < |SpanStatusValues| ==> SpanStatusValues[j] != ""
  {
  }

  /** Six severities and seventeen span statuses, none mapped to the empty string. */
  lemma {:induction false} TablesShape()
    ensures |SeverityMap| == 6 && |SpanStatusMap| == 17
    ensures forall m :: m in SeverityMap ==> SeverityMap[m] != ""
    ensures forall m :: m in SpanStatusMap ==> SpanStatusMap[m] != ""
  {
    SeverityMembersDistinct();
    SpanStatusMembersDistinct();
    ValuesNonEmpty();
    ZipMapSize(SeverityMembers, SeverityValues);
    ZipMapSize(SpanStatusMembers, SpanStatusValues);
    ZipMapValues(SeverityMembers, SeverityValues);
    ZipMapValues(SpanStatusMembers, SpanStatusValues);
  }

  /** The member table of an enum. */
  function Table(e: string): map<string, string>
    requires e in Enums
  {
    if e == "Severity" then SeverityMap else SpanStatusMap
  }

  /** The enum a member access reads from: `E.M` for any identifier `E`, or `Sentry.E.M`. */
  function EnumKey(obj: Node): Option<string> {
    if obj.Id? then Some(obj.name)
    else if obj.Member? && obj.obj == Id("Sentry") && obj.prop.Id? then Some(obj.prop.name)
    else None
  }

  /** A member access on one of the two enums, known member or not. */
  predicate IsEnumAccess(n: Node) {
    n.Member? && n.prop.Id? && EnumKey(n.obj).Some? && EnumKey(n.obj).value in Enums
  }

  predicate IsKnownMember(n: Node) {
    IsEnumAccess(n) && n.prop.name in Table(EnumKey(n.obj).value)
  }

  /** A known member becomes its string value; nothing else changes. */
  function EnumAt(n: Node): (r: Node)
    ensures IsKnownMember(n) ==> r == Str(Table(EnumKey(n.obj).value)[n.prop.name])
    ensures !IsKnownMember(n) ==> r == n
  {
    if IsKnownMember(n) then Str(Table(EnumKey(n.obj).value)[n.prop.name]) else n
  }

  /** `Severity.Trace` and the like stay member expressions. */
  lemma {:induction false} UnknownMemberStays(n: Node)
    requires IsEnumAccess(n) && n.prop.name !in Table(EnumKey(n.obj).value)
    ensures EnumAt(n) == n
  {
  }

  function EnumRule(): Node -> Node {
    n => EnumAt(n)
  }

  function NoKnownMember(): Node -> bool {
    n => !IsKnownMember(n)
  }

  function KnownMember(): Node -> bool {
    n => IsKnownMember(n)
  }

  function ConvertMembers(p: Program): Program {
    MapProgram(EnumRule(), p)
  }

  /** A node the pass changes becomes a string literal, which has no children. */
  lemma {:induction false} EnumAtShape(n: Node)
    ensures EnumAt(n) == n || (EnumAt(n).Str? && Children(EnumAt(n)) == [])
  {
  }

  lemma {:induction false} EnumStep(x: Node)
    requires forall i :: 0 <= i < |Children(x)| ==> Every(NoKnownMember(), Children(x)[i])
    ensures Every(NoKnownMember(), EnumAt(x))
  {
    EnumAtShape(x);
    if EnumAt(x) == x {
      assert !IsKnownMember(x);
    } else {
      assert !IsKnownMember(EnumAt(x));
    }
  }

  lemma {:induction false} EnumEstablishes()
    ensures Establishes(EnumRule(), NoKnownMember())
    ensures Fixes(EnumRule(), NoKnownMember())
  {
    forall x: Node | forall i :: 0 <= i < |Children(x)| ==> Every(NoKnownMember(), Children(x)[i])
      ensures Every(NoKnownMember(), EnumAt(x))
    {
      EnumStep(x);
    }
  }

  /** No known member access survives the pass, and a second pass changes nothing. */
  lemma {:induction false} ConvertMembersComplete(p: Program)
    ensures !ExistsIn(KnownMember(), ConvertMembers(p))
    ensures ConvertMembers(ConvertMembers(p)) == ConvertMembers(p)
  {
    EnumEstablishes();
    forall i | 0 <= i < |p|
      ensures !Exists(KnownMember(), ConvertMembers(p)[i])
      ensures ConvertMembers(ConvertMembers(p))[i] == ConvertMembers(p)[i]
    {
      MapEstablishes(EnumRule(), NoKnownMember(), p[i]);
      EveryNotExists(NoKnownMember(), KnownMember(), ConvertMembers(p)[i]);
      MapIdempotent(EnumRule(), NoKnownMember(), p[i]);
    }
  }

  // ---------------------------------------------------------------------------
  // Which enums to remove

  /** Whether an enum's binding can go: not seen, seen with known members only, or seen with an unknown one. */
  datatype Use = Unused | Yes | No

  /** One enum access: the enum and whether its member is known. */
  datatype Access = Access(name: string, known: bool)

  function AccessAt(n: Node): (r: seq<Access>)
    ensures |r| <= 1
  {
    if IsEnumAccess(n) then [Access(EnumKey(n.obj).value, IsKnownMember(n))] else []
  }

  /** Every enum access of the tree, in document order. */
  function Accesses(p: Program): seq<Access> {
    CollectIn(AccessAt, p)
  }

  /** A known member moves the status to `Yes` unless it is already `No`; an unknown one to `No`. */
  function Step(u: Use, known: bool): Use {
    if !known then No else if u == No then No else Yes
  }

  /** The status of enum `e` after the accesses `accs`, one after the other. */
  function Status(accs: seq<Access>, e: string): Use {
    if |accs| == 0 then Unused
    else
      var before := Status(accs[..|accs| - 1], e);
      var last := accs[|accs| - 1];
      if last.name == e then Step(before, last.known) else before
  }

  /** The status depends only on which accesses happened, not on their order. */
  lemma {:induction false} StatusMeaning(accs: seq<Access>, e: string)
    ensures Status(accs, e) == No <==> Access(e, false) in accs
    ensures Status(accs, e) == Yes <==> Access(e, true) in accs && Access(e, false) !in accs
    ensures Status(accs, e) == Unused <==> Access(e, true) !in accs && Access(e, false) !in accs
  {
    if |accs| > 0 {
      var init := accs[..|accs| - 1];
      StatusMeaning(init, e);
      assert accs == init + [accs[|accs| - 1]];
    }
  }

  /** Once `No`, always `No`. */
  lemma {:induction false} StatusSticky(accs: seq<Access>, more: seq<Access>, e: string)
    requires Status(accs, e) == No
    ensures Status(accs + more, e) == No
  {
    StatusMeaning(accs, e);
    StatusMeaning(accs + more, e);
  }

  /** The enums whose status ended `Yes`, in the order of `Enums`. */
  function ToRemove(accs: seq<Access>): (r: seq<string>)
    ensures forall e :: e in r <==> e in Enums && Status(accs, e) == Yes
  {
    var r := Filter(Enums, e => Status(accs, e) == Yes);
    SubseqMembers(r, Enums);
    r
  }

  /** An access of `e` with a known (or unknown) member. */
  function AccessOf(e: string, known: bool): Node -> bool {
    n => IsEnumAccess(n) && EnumKey(n.obj).value == e && IsKnownMember(n) == known
  }

  /**
   * An enum is removed exactly when the file reads one of its known members and never an
   * unknown one.
   */
  lemma {:induction false} RemovedIff(p: Program, e: string)
    requires e in Enums
    ensures e in ToRemove(Accesses(p)) <==> ExistsIn(AccessOf(e, true), p) && !ExistsIn(AccessOf(e, false), p)
  {
    StatusMeaning(Accesses(p), e);
    CollectInHas(AccessAt, AccessOf(e, true), Access(e, true), p);
    CollectInHas(AccessAt, AccessOf(e, false), Access(e, false), p);
  }

  // ---------------------------------------------------------------------------
  // Removing bindings

  /**
   * The removal scan over one declaration's specifiers or properties: it stops at the
   * first element without a name, drops an element whose name is listed, and then steps
   * over the element that slid into its place.
   */
  function RemoveScan<T>(s: seq<T>, key: T -> Option<string>, ids: seq<string>): (r: seq<T>)
    ensures IsSubseq(r, s)
    ensures forall x :: x in s && key(x).Some? && key(x).value !in ids ==> x in r
    ensures |s| > 0 && r == [] ==> key(s[0]).Some?
    decreases |s|
  {
    if |s| == 0 then []
    else if key(s[0]).None? then
      SubseqRefl(s);
      s
    else if key(s[0]).value in ids then
      if |s| == 1 then []
      else
        var rest := RemoveScan(s[2..], key, ids);
        assert s[1..] == [s[1]] + s[2..];
        SubseqCons(s[1], rest, s[2..]);
        SubseqSkip(s[0], [s[1]] + rest, s[1..]);
        assert s == [s[0]] + [s[1]] + s[2..];
        [s[1]] + rest
    else
      var rest := RemoveScan(s[1..], key, ids);
      SubseqCons(s[0], rest, s[1..]);
      assert s == [s[0]] + s[1..];
      [s[0]] + rest
  }

  /** The scan as intended: the element that takes a dropped one's place is examined too. */
  function RemoveKeys<T>(s: seq<T>, key: T -> Option<string>, ids: seq<string>): (r: seq<T>)
    ensures IsSubseq(r, s)
    ensures forall x :: x in s && key(x).Some? && key(x).value !in ids ==> x in r
    ensures (forall i :: 0 <= i < |s| ==> key(s[i]).Some?) ==>
      forall j :: 0 <= j < |r| ==> key(r[j]).Some? && key(r[j]).value !in ids
    ensures |s| > 0 && r == [] ==> key(s[0]).Some?
    decreases |s|
  {
    if |s| == 0 then []
    else if key(s[0]).None? then
      SubseqRefl(s);
      s
    else if key(s[0]).value in ids then
      var rest := RemoveKeys(s[1..], key, ids);
      SubseqSkip(s[0], rest, s[1..]);
      assert s == [s[0]] + s[1..];
      assert forall x :: x in s && x != s[0] ==> x in s[1..];
      rest
    else
      var rest := RemoveKeys(s[1..], key, ids);
      SubseqCons(s[0], rest, s[1..]);
      assert s == [s[0]] + s[1..];
      [s[0]] + rest
  }

  /** Adjacent `Severity, SpanStatus` both listed: the scan as written keeps `SpanStatus`. */
  lemma {:induction false} RemoveScanSkips()
    ensures var s := [Named("Severity", "Severity"), Named("SpanStatus", "SpanStatus")];
      RemoveScan(s, SpecKey, Enums) == [Named("SpanStatus", "SpanStatus")]
  {
    var s := [Named("Severity", "Severity"), Named("SpanStatus", "SpanStatus")];
    assert s[2..] == [];
  }

  /** The intended scan drops both. */
  lemma {:induction false} RemoveKeysBoth()
    ensures var s := [Named("Severity", "Severity"), Named("SpanStatus", "SpanStatus")];
      RemoveKeys(s, SpecKey, Enums) == []
  {
    var s := [Named("Severity", "Severity"), Named("SpanStatus", "SpanStatus")];
    assert s[1..][1..] == [];
  }

  /** The scan of the model's choice: as written, or as intended. */
  function Remove<T>(s: seq<T>, key: T -> Option<string>, ids: seq<string>, intended: bool): (r: seq<T>)
    ensures IsSubseq(r, s)
    ensures forall x :: x in s && key(x).Some? && key(x).value !in ids ==> x in r
    ensures |s| > 0 && r == [] ==> key(s[0]).Some?
  {
    if intended then RemoveKeys(s, key, ids) else RemoveScan(s, key, ids)
  }

  /** The local name a destructured property binds, when its value is an identifier. */
  function ValueKey(pp: PatProp): Option<string> {
    if pp.KeyValue? then Some(pp.value) else None
  }

  /** A package of the `@sentry/` scope. */
  predicate IsSentryPackage(pkg: string) {
    StartsWith(pkg, "@sentry/")
  }

  /** `const { … } = require(…)` whose first declarator requires some `@sentry/` package. */
  predicate IsSentryRequireDecl(n: Node) {
    && n.VarDecl? && |n.decls| > 0 && n.decls[0].Declarator? && n.decls[0].id.PObj?
    && n.decls[0].init.Call? && n.decls[0].init.callee == Id("require")
    && exists k :: 0 <= k < |n.decls[0].init.args| && n.decls[0].init.args[k].Str?
         && IsSentryPackage(n.decls[0].init.args[k].text)
  }

  /** A Sentry require declaration whose pattern has no properties left. */
  predicate IsEmptied(n: Node) {
    IsSentryRequireDecl(n) && n.decls[0].id.props == []
  }

  function WithoutEmptied(ns: seq<Node>): (r: seq<Node>)
    ensures forall j :: 0 <= j < |r| ==> !IsEmptied(r[j])
    ensures forall x :: x in ns && !IsEmptied(x) ==> x in r
    ensures IsSubseq(r, ns)
  {
    var keep := x => !IsEmptied(x);
    FilterSubseq(ns, keep);
    Filter(ns, keep)
  }

  /**
   * One node of the require pass: a Sentry require declaration has its pattern scanned, and
   * a statement list loses the declarations left without properties.
   */
  function RemoveRequireAt(ids: seq<string>, intended: bool, n: Node): (r: Node)
    ensures IsSentryRequireDecl(n) ==>
      var d := n.decls[0];
      r == VarDecl([Declarator(PObj(Remove(d.id.props, ValueKey, ids, intended)), d.init)] + n.decls[1..], n.notes)
    ensures n.Block? ==> r == Block(WithoutEmptied(n.stmts))
    ensures !IsSentryRequireDecl(n) && !n.Block? ==> r == n
  {
    if IsSentryRequireDecl(n) then
      var d := n.decls[0];
      VarDecl([Declarator(PObj(Remove(d.id.props, ValueKey, ids, intended)), d.init)] + n.decls[1..], n.notes)
    else if n.Block? then Block(WithoutEmptied(n.stmts))
    else n
  }

  /** One top-level import: scanned when it is of a `@sentry/` package; `None` when left empty. */
  function RemoveImportAt(ids: seq<string>, intended: bool, n: Node): (r: Option<Node>)
    ensures !(n.Import? && IsSentryPackage(n.source)) ==> r == Some(n)
    ensures n.Import? && IsSentryPackage(n.source) ==>
      var specs := Remove(n.specs, SpecKey, ids, intended);
      r == if specs == [] then None else Some(Import(n.source, specs))
  {
    if n.Import? && IsSentryPackage(n.source) then
      var specs := Remove(n.specs, SpecKey, ids, intended);
      if specs == [] then None else Some(Import(n.source, specs))
    else Some(n)
  }

  function RemoveImports(ids: seq<string>, intended: bool, p: Program): (r: Program)
    ensures |r| <= |p|
  {
    if |p| == 0 then []
    else
      match RemoveImportAt(ids, intended, p[0])
      case None => RemoveImports(ids, intended, p[1..])
      case Some(n) => [n] + RemoveImports(ids, intended, p[1..])
  }

  /**
   * `removeImportedIdentifiers`: named specifiers and destructured properties whose local name
   * is listed are dropped from `@sentry/` imports and requires, and emptied declarations go.
   */
  function RemoveImportedIdentifiers(ids: seq<string>, intended: bool, p: Program): Program {
    WithoutEmptied(MapProgram(RequireRule(ids, intended), RemoveImports(ids, intended, p)))
  }

  function RequireRule(ids: seq<string>, intended: bool): Node -> Node {
    n => RemoveRequireAt(ids, intended, n)
  }

  /** Imports of other packages pass through the import step in order. */
  lemma {:induction false} RemoveImportsKeepsOthers(ids: seq<string>, intended: bool, p: Program)
    ensures forall n :: n in p && !(n.Import? && IsSentryPackage(n.source)) ==> n in RemoveImports(ids, intended, p)
    ensures forall n :: n in RemoveImports(ids, intended, p) && n.Import? && IsSentryPackage(n.source) ==>
      n.specs != [] && exists x :: x in p && x.Import? && x.source == n.source && n.specs == Remove(x.specs, SpecKey, ids, intended)
  {
    if |p| > 0 {
      RemoveImportsKeepsOthers(ids, intended, p[1..]);
      assert forall n :: n in p ==> n == p[0] || n in p[1..];
    }
  }

  /**
   * With the intended scan, a `@sentry/` import of named specifiers only keeps none of the
   * listed names and every other one.
   */
  lemma {:induction false} IntendedImportRemoval(ids: seq<string>, n: Node)
    requires n.Import? && IsSentryPackage(n.source)
    requires forall i :: 0 <= i < |n.specs| ==> n.specs[i].Named?
    ensures RemoveImportAt(ids, true, n).Some? ==>
      var specs := RemoveImportAt(ids, true, n).value.specs;
      && (forall j :: 0 <= j < |specs| ==> specs[j].local !in ids)
      && (forall sp :: sp in n.specs && sp.local !in ids ==> sp in specs)
    ensures RemoveImportAt(ids, true, n).None? ==> forall i :: 0 <= i < |n.specs| ==> n.specs[i].local in ids
  {
    var specs := RemoveKeys(n.specs, SpecKey, ids);
    if specs == [] {
      forall i | 0 <= i < |n.specs|
        ensures n.specs[i].local in ids
      {
        assert n.specs[i] in n.specs;
      }
    }
  }

  // ---------------------------------------------------------------------------
  // What the removal leaves behind

  /**
   * A listed name survives in `s` only behind an element without a name, where the scan
   * stops (a default or namespace specifier, a property whose value is no identifier).
   */
  predicate Stopped<T>(s: seq<T>, key: T -> Option<string>, ids: seq<string>) {
    forall j :: 0 <= j < |s| && key(s[j]).Some? && key(s[j]).value in ids ==>
      exists i :: 0 <= i < j && key(s[i]).None?
  }

  /** The intended scan keeps a listed name only past the point where it stopped. */
  lemma {:induction false} RemoveKeysStops<T>(s: seq<T>, key: T -> Option<string>, ids: seq<string>)
    ensures Stopped(RemoveKeys(s, key, ids), key, ids)
    decreases |s|
  {
    if |s| > 0 && key(s[0]).None? {
      forall j | 0 <= j < |s| && key(s[j]).Some? && key(s[j]).value in ids
        ensures exists i :: 0 <= i < j && key(s[i]).None?
      {
        assert 0 < j && key(s[0]).None?;
      }
    } else if |s| > 0 {
      RemoveKeysStops(s[1..], key, ids);
      if key(s[0]).value !in ids {
        var rest := RemoveKeys(s[1..], key, ids);
        var r := [s[0]] + rest;
        forall j | 0 <= j < |r| && key(r[j]).Some? && key(r[j]).value in ids
          ensures exists i :: 0 <= i < j && key(r[i]).None?
        {
          assert j > 0 && r[j] == rest[j - 1];
          var i :| 0 <= i < j - 1 && key(rest[i]).None?;
          assert r[i + 1] == rest[i];
        }
      }
    }
  }

  /** A `@sentry/` require declaration keeps a listed property only where the scan stopped. */
  function RequireStopped(ids: seq<string>): Node -> bool {
    (n: Node) => IsSentryRequireDecl(n) ==> Stopped(n.decls[0].id.props, ValueKey, ids)
  }

  /** Every node out of the import step is an input statement or an import. */
  lemma {:induction false} RemoveImportsFrom(ids: seq<string>, intended: bool, p: Program)
    ensures forall n :: n in RemoveImports(ids, intended, p) ==> n in p || n.Import?
  {
    if |p| > 0 {
      RemoveImportsFrom(ids, intended, p[1..]);
    }
  }

  /** Every import the import step keeps, it keeps in the output. */
  lemma {:induction false} RemoveImportsHas(ids: seq<string>, intended: bool, p: Program)
    ensures forall n :: n in p && RemoveImportAt(ids, intended, n).Some? ==>
      RemoveImportAt(ids, intended, n).value in RemoveImports(ids, intended, p)
  {
    if |p| > 0 {
      RemoveImportsHas(ids, intended, p[1..]);
      assert forall n :: n in p ==> n == p[0] || n in p[1..];
    }
  }

  /** The require pass hands back an import only as it was. */
  lemma {:induction false} RequirePassImport(ids: seq<string>, intended: bool, n: Node)
    ensures Map(RequireRule(ids, intended), n).Import? ==> Map(RequireRule(ids, intended), n) == n
    ensures n.Import? ==> Map(RequireRule(ids, intended), n) == n
  {
    var f := RequireRule(ids, intended);
    var w := MapStep(f, n);
    if n.Import? || f(w).Import? {
      assert KindOf(w) == KindOf(n) && n.Import?;
      MapLeaf(f, n);
    }
  }

  /** No statement of the import step holds a `bad` node its input did not. */
  lemma {:induction false} RemoveImportsKeepsAbsent(ids: seq<string>, intended: bool, bad: Node -> bool, p: Program)
    requires forall x :: bad(x) ==> Every(IdOrMember(), x)
    requires !ExistsIn(bad, p)
    ensures !ExistsIn(bad, RemoveImports(ids, intended, p))
  {
    var q := RemoveImports(ids, intended, p);
    RemoveImportsFrom(ids, intended, p);
    forall i | 0 <= i < |q|
      ensures !Exists(bad, q[i])
    {
      if q[i] !in p {
        assert Children(q[i]) == [] && !bad(q[i]);
      }
    }
  }

  /** The require pass builds no identifier or member expression, and adds no `bad` node below one. */
  lemma {:induction false} RequirePassKeepsClean(ids: seq<string>, intended: bool, bad: Node -> bool)
    requires forall x :: bad(x) ==> Every(IdOrMember(), x)
    ensures forall x :: IdOrMember()(RequireRule(ids, intended)(x)) ==> RequireRule(ids, intended)(x) == x
    ensures KeepsClean(RequireRule(ids, intended), bad)
  {
    var f := RequireRule(ids, intended);
    forall x | ChildrenClean(bad, x)
      ensures ChildrenClean(bad, f(x))
    {
      if IsSentryRequireDecl(x) {
        assert f(x).decls[1..] == x.decls[1..];
        assert IsPatternEdit(x, f(x));
        PatternEditClean(bad, x, f(x));
      } else if x.Block? {
        BlockFilterChildren(x, f(x));
      }
    }
  }

  /** The statements of a block that loses emptied declarations are statements it had. */
  lemma {:induction false} BlockFilterChildren(x: Node, y: Node)
    requires x.Block? && y == Block(WithoutEmptied(x.stmts))
    ensures forall i :: 0 <= i < |Children(y)| ==> exists k :: 0 <= k < |Children(x)| && Children(y)[i] == Children(x)[k]
  {
    SubseqMembers(y.stmts, x.stmts);
    assert Children(x) == x.stmts && Children(y) == y.stmts;
    forall i | 0 <= i < |Children(y)|
      ensures exists k :: 0 <= k < |Children(x)| && Children(y)[i] == Children(x)[k]
    {
      assert Children(y)[i] in x.stmts;
    }
  }

  /** Removing identifiers adds no `bad` node made only of identifiers and member expressions. */
  lemma {:induction false} RemovalKeepsAbsent(ids: seq<string>, intended: bool, bad: Node -> bool, p: Program)
    requires forall x :: bad(x) ==> Every(IdOrMember(), x)
    requires !ExistsIn(bad, p)
    ensures !ExistsIn(bad, RemoveImportedIdentifiers(ids, intended, p))
  {
    var q := RemoveImports(ids, intended, p);
    RemoveImportsKeepsAbsent(ids, intended, bad, p);
    RequirePassKeepsClean(ids, intended, bad);
    MapProgramKeepsAbsent(RequireRule(ids, intended), IdOrMember(), bad, q);
    var m := MapProgram(RequireRule(ids, intended), q);
    var r := WithoutEmptied(m);
    SubseqMembers(r, m);
    forall i | 0 <= i < |r|
      ensures !Exists(bad, r[i])
    {
      assert r[i] in m;
    }
  }

  /** A top-level `@sentry/` import left by the intended removal keeps listed names only where the scan stopped. */
  lemma {:induction false} RemovedImportsStopped(ids: seq<string>, p: Program)
    ensures forall x :: x in RemoveImportedIdentifiers(ids, true, p) && x.Import? && IsSentryPackage(x.source) ==>
      Stopped(x.specs, SpecKey, ids)
  {
    var f := RequireRule(ids, true);
    var q := RemoveImports(ids, true, p);
    var m := MapProgram(f, q);
    var r := WithoutEmptied(m);
    SubseqMembers(r, m);
    RemoveImportsKeepsOthers(ids, true, p);
    forall x | x in r && x.Import? && IsSentryPackage(x.source)
      ensures Stopped(x.specs, SpecKey, ids)
    {
      var i :| 0 <= i < |m| && m[i] == x;
      RequirePassImport(ids, true, q[i]);
      assert q[i] == x && x in q;
      var y :| y in p && y.Import? && y.source == x.source && x.specs == Remove(y.specs, SpecKey, ids, true);
      RemoveKeysStops(y.specs, SpecKey, ids);
    }
  }

  /** The intended require pass leaves every `@sentry/` require declaration stopped. */
  lemma {:induction false} RequireRuleEstablishes(ids: seq<string>)
    ensures Establishes(RequireRule(ids, true), RequireStopped(ids))
  {
    var f := RequireRule(ids, true);
    var q := RequireStopped(ids);
    forall x: Node | forall i :: 0 <= i < |Children(x)| ==> Every(q, Children(x)[i])
      ensures Every(q, f(x))
    {
      if IsSentryRequireDecl(x) {
        RequireDeclStopped(ids, x);
      } else if x.Block? {
        BlockFilterChildren(x, f(x));
      }
    }
  }

  lemma {:induction false} RequireDeclStopped(ids: seq<string>, x: Node)
    requires IsSentryRequireDecl(x)
    requires forall i :: 0 <= i < |Children(x)| ==> Every(RequireStopped(ids), Children(x)[i])
    ensures Every(RequireStopped(ids), RemoveRequireAt(ids, true, x))
  {
    var q := RequireStopped(ids);
    var d := x.decls[0];
    var nd := Declarator(PObj(RemoveKeys(d.id.props, ValueKey, ids)), d.init);
    var y := RemoveRequireAt(ids, true, x);
    assert y == VarDecl([nd] + x.decls[1..], x.notes);
    RemoveKeysStops(d.id.props, ValueKey, ids);
    assert Children(x) == x.decls && Children(x)[0] == d;
    assert Every(q, d) && Children(d) == [d.init];
    assert Children(nd) == [d.init];
    forall i | 0 <= i < |Children(y)|
      ensures Every(q, Children(y)[i])
    {
      if i > 0 {
        assert Children(y)[i] == x.decls[i] == Children(x)[i];
      }
    }
    assert IsSentryRequireDecl(y);
  }

  /** Every `@sentry/` require declaration left by the intended removal, at any depth, is stopped. */
  lemma {:induction false} RemovedRequiresStopped(ids: seq<string>, p: Program)
    ensures EveryIn(RequireStopped(ids), RemoveImportedIdentifiers(ids, true, p))
  {
    var f := RequireRule(ids, true);
    var m := MapProgram(f, RemoveImports(ids, true, p));
    var r := WithoutEmptied(m);
    SubseqMembers(r, m);
    RequireRuleEstablishes(ids);
    forall j | 0 <= j < |r|
      ensures Every(RequireStopped(ids), r[j])
    {
      var i :| 0 <= i < |m| && m[i] == r[j];
      MapEstablishes(f, RequireStopped(ids), RemoveImports(ids, true, p)[i]);
    }
  }

  /** A named specifier of a `@sentry/` import whose local name is not listed survives the removal. */
  lemma {:induction false} RemovalKeepsUnlisted(ids: seq<string>, intended: bool, p: Program)
    ensures forall x, sp ::
      (x in p && x.Import? && IsSentryPackage(x.source) && sp in x.specs && SpecKey(sp).Some? && SpecKey(sp).value !in ids) ==>
      exists y :: y in RemoveImportedIdentifiers(ids, intended, p) && y.Import? && y.source == x.source && sp in y.specs
  {
    var f := RequireRule(ids, intended);
    var q := RemoveImports(ids, intended, p);
    var m := MapProgram(f, q);
    RemoveImportsHas(ids, intended, p);
    forall x, sp | x in p && x.Import? && IsSentryPackage(x.source) && sp in x.specs
      && SpecKey(sp).Some? && SpecKey(sp).value !in ids
      ensures exists y :: y in RemoveImportedIdentifiers(ids, intended, p) && y.Import? && y.source == x.source && sp in y.specs
    {
      var y := RemoveImportAt(ids, intended, x).value;
      var i :| 0 <= i < |q| && q[i] == y;
      RequirePassImport(ids, intended, y);
      assert m[i] == y && !IsEmptied(y);
    }
  }

  /** The member pass hands top-level imports through unchanged. */
  lemma {:induction false} ConvertKeepsImports(p: Program)
    ensures forall x :: x in p && x.Import? ==> x in ConvertMembers(p)
  {
    forall x | x in p && x.Import?
      ensures x in ConvertMembers(p)
    {
      var i :| 0 <= i < |p| && p[i] == x;
      MapLeaf(EnumRule(), x);
      assert ConvertMembers(p)[i] == x;
    }
  }

  // ---------------------------------------------------------------------------
  // The rule

  /**
   * The rule on one file: unchanged without a Sentry import or require; otherwise known
   * members become strings and the enums whose status ended `Yes` lose their bindings.
   */
  function ConvertEnumsRule(src: string, p: Program): (r: Outcome)
    ensures r == Unchanged <==> !HasSentryImportOrRequire(src)
    ensures r != Unchanged ==> r.Changed?
    ensures r != Unchanged && ToRemove(Accesses(p)) == [] ==> r.prog == ConvertMembers(p)
    ensures r != Unchanged && ToRemove(Accesses(p)) != [] ==>
      r.prog == RemoveImportedIdentifiers(ToRemove(Accesses(p)), true, ConvertMembers(p))
    ensures r.Changed? ==> !ExistsIn(KnownMember(), r.prog)
    ensures r.Changed? ==>
      var ids := ToRemove(Accesses(p));
      && (forall x :: x in r.prog && x.Import? && IsSentryPackage(x.source) ==> Stopped(x.specs, SpecKey, ids))
      && EveryIn(RequireStopped(ids), r.prog)
      && (forall x, sp ::
            (x in p && x.Import? && IsSentryPackage(x.source) && sp in x.specs && SpecKey(sp).Some? && SpecKey(sp).value !in ids) ==>
            exists y :: y in r.prog && y.Import? && y.source == x.source && sp in y.specs)
  {
    if !HasSentryImportOrRequire(src) then Unchanged
    else
      var q := ConvertMembers(p);
      var ids := ToRemove(Accesses(p));
      ConvertMembersComplete(p);
      ConvertKeepsImports(p);
      if ids == [] then
        NothingListedStopped(q);
        Changed(q)
      else
        KnownMemberIsPath();
        RemovalKeepsAbsent(ids, true, KnownMember(), q);
        RemovedImportsStopped(ids, q);
        RemovedRequiresStopped(ids, q);
        RemovalKeepsUnlisted(ids, true, q);
        Changed(RemoveImportedIdentifiers(ids, true, q))
  }

  /** A known member access is `E.M` or `Sentry.E.M`: identifiers and member expressions only. */
  lemma {:induction false} KnownMemberIsPath()
    ensures forall x :: KnownMember()(x) ==> Every(IdOrMember(), x)
  {
    forall x | KnownMember()(x)
      ensures Every(IdOrMember(), x)
    {
      IdPathEvery(x);
    }
  }

  /** With no name listed, every declaration is stopped. */
  lemma {:induction false} NothingListedStopped(p: Program)
    ensures EveryIn(RequireStopped([]), p)
  {
    forall i | 0 <= i < |p|
      ensures Every(RequireStopped([]), p[i])
    {
      EveryAlways(RequireStopped([]), p[i]);
    }
  }
}

=== FILE: dom.dfy ===
/**
 * The script-block wrapper: `.vue` and `.svelte` files are rewritten one
 * `<script>` block at a time, every other file as a whole.
 *
 * The HTML parser and printer are not part of this model. A parsed page is a
 * sequence of segments, and the parser and printer are parameters; a parser
 * that throws is one that returns `None`.
 */
module Dom {
  import opened Wrappers
  import opened Text

  /** A piece of a host page: markup, or the text inside one `<script>` element. */
  datatype Segment = Markup(text: string) | Script(content: string)

  type Page = seq<Segment>

  type Parser = string -> Option<Page>

  type Printer = Page -> string

  /** The script contents of a page, in document order (`querySelectorAll('script')`). */
  function Scripts(page: Page): (r: seq<string>)
    ensures |r| <= |page|
  {
    if |page| == 0 then []
    else (if page[0].Script? then [page[0].content] else []) + Scripts(page[1..])
  }

  /** The script contents of the source page; none when it cannot be parsed. */
  function ParseScriptTagContents(parse: Parser, source: string): (r: seq<string>)
    ensures parse(source).None? ==> r == []
    ensures parse(source).Some? ==> r == Scripts(parse(source).value)
  {
    match parse(source)
    case None => []
    case Some(page) => Scripts(page)
  }

  /**
   * The page with its script blocks replaced in order by `contents`: a block whose new
   * content is `None` (or that has no new content left) keeps its text.
   */
  function ReplaceScripts(page: Page, contents: seq<Option<string>>): (r: Page)
    ensures |r| == |page|
    ensures forall i :: 0 <= i < |page| ==> (r[i].Script? <==> page[i].Script?)
    ensures forall i :: 0 <= i < |page| && page[i].Markup? ==> r[i] == page[i]
  {
    if |page| == 0 then []
    else if page[0].Script? then
      var next := if contents == [] then None else contents[0];
      var rest := if contents == [] then [] else contents[1..];
      [if next.Some? then Script(next.value) else page[0]] + ReplaceScripts(page[1..], rest)
    else [page[0]] + ReplaceScripts(page[1..], contents)
  }

  /** The content a script block has after replacement. */
  function Replaced(before: string, contents: seq<Option<string>>, i: nat): string {
    if i < |contents| && contents[i].Some? then contents[i].value else before
  }

  /** Block `i` gets `contents[i]` when that is a string, and keeps its text otherwise. */
  lemma {:induction false} ReplaceScriptsBlocks(page: Page, contents: seq<Option<string>>)
    ensures |Scripts(ReplaceScripts(page, contents))| == |Scripts(page)|
    ensures forall i :: 0 <= i < |Scripts(page)| ==>
      Scripts(ReplaceScripts(page, contents))[i] == Replaced(Scripts(page)[i], contents, i)
  {
    if |page| > 0 {
      var r := ReplaceScripts(page, contents);
      if page[0].Script? {
        var rest := if contents == [] then [] else contents[1..];
        ReplaceScriptsBlocks(page[1..], rest);
        ScriptBlockStep(page, contents, rest);
      } else {
        ReplaceScriptsBlocks(page[1..], contents);
        assert r[1..] == ReplaceScripts(page[1..], contents);
      }
    }
  }

  /** A page that starts with a script block: its block takes the first content, the rest the others. */
  lemma {:induction false} ScriptBlockStep(page: Page, contents: seq<Option<string>>, rest: seq<Option<string>>)
    requires |page| > 0 && page[0].Script?
    requires rest == if contents == [] then [] else contents[1..]
    requires |Scripts(ReplaceScripts(page[1..], rest))| == |Scripts(page[1..])|
    requires forall i :: 0 <= i < |Scripts(page[1..])| ==>
      Scripts(ReplaceScripts(page[1..], rest))[i] == Replaced(Scripts(page[1..])[i], rest, i)
    ensures |Scripts(ReplaceScripts(page, contents))| == |Scripts(page)|
    ensures forall i :: 0 <= i < |Scripts(page)| ==>
      Scripts(ReplaceScripts(page, contents))[i] == Replaced(Scripts(page)[i], contents, i)
  {
    var r := ReplaceScripts(page, contents);
    var tail := ReplaceScripts(page[1..], rest);
    assert r[1..] == tail;
    ScriptsCons(r);
    ScriptsCons(page);
    forall i | 0 <= i < |Scripts(page)|
      ensures Scripts(r)[i] == Replaced(Scripts(page)[i], contents, i)
    {
      if i > 0 {
        assert Scripts(r)[i] == Scripts(tail)[i - 1];
        ReplacedShift(Scripts(page)[i], contents, rest, i);
      }
    }
  }

  lemma {:induction false} ScriptsCons(page: Page)
    requires |page| > 0 && page[0].Script?
    ensures Scripts(page) == [page[0].content] + Scripts(page[1..])
  {
  }

  lemma {:induction false} ReplacedShift(before: string, contents: seq<Option<string>>, rest: seq<Option<string>>, i: nat)
    requires i > 0 && rest == if contents == [] then [] else contents[1..]
    ensures Replaced(before, rest, i - 1) == Replaced(before, contents, i)
  {
  }

  /** Replacing every block by `undefined` leaves the page as it was. */
  lemma {:induction false} ReplaceNothing(page: Page, contents: seq<Option<string>>)
    requires forall i :: 0 <= i < |contents| ==> contents[i].None?
    ensures ReplaceScripts(page, contents) == page
  {
    if |page| > 0 {
      var rest := if page[0].Script? && |contents| > 0 then contents[1..] else contents;
      ReplaceNothing(page[1..], rest);
    }
  }

  /** Replacing every block by its own text leaves the page as it was. */
  lemma {:induction false} ReplaceWithOwn(page: Page)
    ensures ReplaceScripts(page, Own(Scripts(page))) == page
  {
    if |page| > 0 {
      var rest := Own(Scripts(page[1..]));
      if page[0].Script? {
        assert Own(Scripts(page)) == [Some(page[0].content)] + rest;
        assert Own(Scripts(page))[1..] == rest;
      } else {
        assert Scripts(page) == Scripts(page[1..]);
      }
      ReplaceWithOwn(page[1..]);
    }
  }

  function Own(ss: seq<string>): (r: seq<Option<string>>)
    ensures |r| == |ss|
    ensures forall i :: 0 <= i < |ss| ==> r[i] == Some(ss[i])
  {
    if |ss| == 0 then [] else [Some(ss[0])] + Own(ss[1..])
  }

  /** The page printed with new block contents; `undefined` when it cannot be parsed. */
  function ReplaceScriptTagContents(parse: Parser, render: Printer, source: string, contents: seq<Option<string>>)
    : (r: Option<string>)
    ensures parse(source).None? ==> r.None?
    ensures parse(source).Some? ==> r == Some(render(ReplaceScripts(parse(source).value, contents)))
  {
    match parse(source)
    case None => None
    case Some(page) => Some(render(ReplaceScripts(page, contents)))
  }

  /** `.vue` and `.svelte` files hold their code in script blocks; "" stands for no file name. */
  predicate IsHostFile(fileName: string) {
    EndsWith(fileName, ".vue") || EndsWith(fileName, ".svelte")
  }

  /** What a callback gives for one text: new text, `undefined`, or a thrown error. */
  datatype Answer = Output(text: string) | Undefined | Threw {

    /** The new content for a block: a string when there is one. */
    function Given(): Option<string> {
      if Output? then Some(text) else None
    }
  }

  /**
   * Runs `callback` on the file, or on each script block of a host file, and gives the
   * result together with the texts the callback was run on, in order. The blocks are
   * mapped outside the `try` of `replaceScriptTagContents`, so a block whose callback
   * throws makes the whole file throw.
   */
  function WrapJscodeshift(parse: Parser, render: Printer, source: string, fileName: string,
                           callback: string -> Answer): (r: (Answer, seq<string>))
    ensures !IsHostFile(fileName) ==> r == (callback(source), [source])
    ensures IsHostFile(fileName) ==> r.1 == ParseScriptTagContents(parse, source)
    ensures IsHostFile(fileName) ==>
      (r.0.Threw? <==> exists i :: 0 <= i < |r.1| && callback(r.1[i]).Threw?)
    ensures IsHostFile(fileName) && parse(source).None? ==> r == (Undefined, [])
    ensures IsHostFile(fileName) && parse(source).Some? && !r.0.Threw? ==>
      var page := parse(source).value;
      r.0 == Output(render(ReplaceScripts(page, Results(callback, Scripts(page)))))
  {
    if IsHostFile(fileName) then
      var scripts := ParseScriptTagContents(parse, source);
      match MapBlocks(callback, scripts)
      case None => (Threw, scripts)
      case Some(contents) =>
        var out := ReplaceScriptTagContents(parse, render, source, contents);
        (if out.Some? then Output(out.value) else Undefined, scripts)
    else (callback(source), [source])
  }

  /**
   * `scripts.map(callback)`: the answers in order, or nothing when one of the calls
   * throws, since the error leaves the map.
   */
  function MapBlocks(callback: string -> Answer, scripts: seq<string>): (r: Option<seq<Option<string>>>)
    ensures r.None? <==> exists i :: 0 <= i < |scripts| && callback(scripts[i]).Threw?
    ensures r.Some? ==> r.value == Results(callback, scripts)
  {
    if |scripts| == 0 then Some([])
    else if callback(scripts[0]).Threw? then None
    else
      var rest := MapBlocks(callback, scripts[1..]);
      assert forall i :: 1 <= i < |scripts| ==> scripts[1..][i - 1] == scripts[i];
      if rest.None? then None else Some([callback(scripts[0]).Given()] + rest.value)
  }

  /** The new content each block is given, in order: the callback's answer when it is a string. */
  function Results(callback: string -> Answer, scripts: seq<string>): (r: seq<Option<string>>)
    ensures |r| == |scripts|
    ensures forall i :: 0 <= i < |scripts| ==> r[i] == callback(scripts[i]).Given()
  {
    if |scripts| == 0 then [] else [callback(scripts[0]).Given()] + Results(callback, scripts[1..])
  }

  /**
   * In a host file, the page keeps its shape and markup; each block holds the callback's
   * answer for its old text, or its old text when the callback answered `undefined`.
   */
  lemma {:induction false} WrapBlocks(parse: Parser, source: string, callback: string -> Answer)
    requires parse(source).Some?
    ensures var page := parse(source).value;
      var out := ReplaceScripts(page, Results(callback, Scripts(page)));
      && |out| == |page|
      && (forall i :: 0 <= i < |page| && page[i].Markup? ==> out[i] == page[i])
      && |Scripts(out)| == |Scripts(page)|
      && (forall i :: 0 <= i < |Scripts(page)| ==>
            Scripts(out)[i] == callback(Scripts(page)[i]).Given().GetOr(Scripts(page)[i]))
  {
    var page := parse(source).value;
    ReplaceScriptsBlocks(page, Results(callback, Scripts(page)));
  }

  /** A callback that never answers with a string leaves every block as it was. */
  lemma {:induction false} WrapUnchanged(parse: Parser, source: string, callback: string -> Answer)
    requires parse(source).Some?
    requires forall s :: !callback(s).Output?
    ensures ReplaceScripts(parse(source).value, Results(callback, Scripts(parse(source).value))) == parse(source).value
  {
    var page := parse(source).value;
    ReplaceNothing(page, Results(callback, Scripts(page)));
  }
}

=== FILE: hub.dfy ===
/**
 * The hub rule: calls on a hub object become calls of the top-level API, and hub
 * calls it cannot migrate are marked for the user.
 */
module Hub {
  import opened Ast
  import opened Text
  import opened Seqs
  import opened Normaliser

  /** The hub methods with a top-level replacement. */
  const HubMethods: map<string, string> := map[
    "withScope" := "withScope",
    "getClient" := "getClient",
    "getScope" := "getCurrentScope",
    "getIsolationScope" := "getIsolationScope",
    "captureException" := "captureException",
    "captureMessage" := "captureMessage",
    "captureEvent" := "captureEvent",
    "addBreadcrumb" := "addBreadcrumb",
    "setUser" := "setUser",
    "setTags" := "setTags",
    "setExtra" := "setExtra",
    "setContext" := "setContext",
    "getIntegration" := "getIntegration",
    "captureSession" := "captureSession",
    "startSession" := "startSession",
    "endSession" := "endSession"
  ]

  const HubMessage := "Could not automatically migrate - see https://github.com/getsentry/sentry-javascript/blob/develop/MIGRATION.md#deprecate-hub"

  /**
   * Every method keeps its name except `getScope`; `getCurrentHub` itself, `bindClient` and
   * the scope stack methods have no replacement.
   */
  lemma {:induction false} HubMethodsShape()
    ensures HubMethods["getScope"] == "getCurrentScope"
    ensures forall m :: m in HubMethods && m != "getScope" ==> HubMethods[m] == m
    ensures forall m :: m in HubMethods ==> HubMethods[m] != "getCurrentHub"
    ensures "getCurrentHub" !in HubMethods && "bindClient" !in HubMethods
    ensures "pushScope" !in HubMethods && "popScope" !in HubMethods
  {
  }

  // ---------------------------------------------------------------------------
  // First pass: `hub.m(…)` and `getCurrentHub().m(…)`

  /** A variable whose name contains "hub" in any case, or a bare `getCurrentHub(…)` call. */
  predicate IsHubCaller(c: Node) {
    || (c.Id? && Contains(Lower(c.name), "hub"))
    || (c.Call? && c.callee == Id("getCurrentHub"))
  }

  /** `c.m(…)` with an identifier method `m`. */
  predicate IsMethodCall(n: Node) {
    n.Call? && n.callee.Member? && n.callee.prop.Id?
  }

  function MethodOf(n: Node): string
    requires IsMethodCall(n)
  {
    n.callee.prop.name
  }

  predicate IsHubCall(n: Node) {
    IsMethodCall(n) && IsHubCaller(n.callee.obj)
  }

  predicate IsMappedHubCall(n: Node) {
    IsHubCall(n) && MethodOf(n) in HubMethods
  }

  function FlattenAt(n: Node): (r: Node)
    ensures IsMappedHubCall(n) ==> r == Call(Id(HubMethods[MethodOf(n)]), n.args)
    ensures !IsMappedHubCall(n) ==> r == n
  {
    if IsMappedHubCall(n) then Call(Id(HubMethods[MethodOf(n)]), n.args) else n
  }

  function FlattenRule(): Node -> Node {
    n => FlattenAt(n)
  }

  function UnflattenedHub(): Node -> bool {
    n => !IsMappedHubCall(n)
  }

  function MappedHubCall(): Node -> bool {
    n => IsMappedHubCall(n)
  }

  function HubCall(): Node -> bool {
    n => IsHubCall(n)
  }

  /** The first pass over the whole file. */
  function FlattenHubCalls(p: Program): Program {
    MapProgram(FlattenRule(), p)
  }

  lemma {:induction false} FlattenEstablishes()
    ensures Establishes(FlattenRule(), UnflattenedHub())
    ensures Fixes(FlattenRule(), UnflattenedHub())
  {
    var f, q := FlattenRule(), UnflattenedHub();
    forall x: Node | forall i :: 0 <= i < |Children(x)| ==> Every(q, Children(x)[i])
      ensures Every(q, f(x))
    {
      if IsMappedHubCall(x) {
        var leaf := Id(HubMethods[MethodOf(x)]);
        assert Every(q, leaf);
        assert Children(f(x)) == [leaf] + x.args;
        assert forall i :: 1 <= i < |Children(f(x))| ==> Children(f(x))[i] == Children(x)[i];
      }
    }
  }

  /** After the first pass no call on a hub object with a known method is left. */
  lemma {:induction false} FlattenComplete(p: Program)
    ensures !ExistsIn(MappedHubCall(), FlattenHubCalls(p))
  {
    FlattenEstablishes();
    forall i | 0 <= i < |p|
      ensures !Exists(MappedHubCall(), FlattenHubCalls(p)[i])
    {
      MapEstablishes(FlattenRule(), UnflattenedHub(), p[i]);
      EveryNotExists(UnflattenedHub(), MappedHubCall(), FlattenHubCalls(p)[i]);
    }
  }

  /** Running the first pass twice is running it once. */
  lemma {:induction false} FlattenIdempotent(p: Program)
    ensures FlattenHubCalls(FlattenHubCalls(p)) == FlattenHubCalls(p)
  {
    FlattenEstablishes();
    forall i | 0 <= i < |p|
      ensures FlattenHubCalls(FlattenHubCalls(p))[i] == FlattenHubCalls(p)[i]
    {
      MapIdempotent(FlattenRule(), UnflattenedHub(), p[i]);
    }
  }

  /** The top-level names the first pass calls, each once, in document order. */
  function MethodsUsed(p: Program): (r: seq<string>)
    ensures NoDuplicates(r)
    ensures forall x :: x in r <==> ExistsIn(MapsTo(x), p)
  {
    var g := (n: Node) => if IsMappedHubCall(n) then [HubMethods[MethodOf(n)]] else [];
    var r := Distinct(CollectIn(g, p));
    assert forall x :: x in r <==> ExistsIn(MapsTo(x), p) by {
      forall x
        ensures x in r <==> ExistsIn(MapsTo(x), p)
      {
        CollectInHas(g, MapsTo(x), x, p);
      }
    }
    r
  }

  /** A hub call the first pass turns into a call of `x`. */
  function MapsTo(x: string): Node -> bool {
    n => IsMappedHubCall(n) && HubMethods[MethodOf(n)] == x
  }

  // ---------------------------------------------------------------------------
  // Second pass: `NS.getCurrentHub(…).m(…)`

  predicate IsNamespacedHubCall(n: Node) {
    && IsMethodCall(n)
    && n.callee.obj.Call? && n.callee.obj.callee.Member?
    && n.callee.obj.callee.prop == Id("getCurrentHub")
    && n.callee.obj.callee.obj.Id?
  }

  predicate IsMappedNamespacedHubCall(n: Node) {
    IsNamespacedHubCall(n) && MethodOf(n) in HubMethods
  }

  function NamespaceFlattenAt(n: Node): (r: Node)
    ensures IsMappedNamespacedHubCall(n) ==>
      r == Call(Member(n.callee.obj.callee.obj, Id(HubMethods[MethodOf(n)])), n.args)
    ensures !IsMappedNamespacedHubCall(n) ==> r == n
  {
    if IsMappedNamespacedHubCall(n) then Call(Member(n.callee.obj.callee.obj, Id(HubMethods[MethodOf(n)])), n.args)
    else n
  }

  function NamespaceFlattenRule(): Node -> Node {
    n => NamespaceFlattenAt(n)
  }

  function UnflattenedNamespaced(): Node -> bool {
    n => !IsMappedNamespacedHubCall(n)
  }

  function MappedNamespacedHubCall(): Node -> bool {
    n => IsMappedNamespacedHubCall(n)
  }

  function NamespacedHubCall(): Node -> bool {
    n => IsNamespacedHubCall(n)
  }

  function FlattenNamespacedHubCalls(p: Program): Program {
    MapProgram(NamespaceFlattenRule(), p)
  }

  lemma {:induction false} NamespaceFlattenEstablishes()
    ensures Establishes(NamespaceFlattenRule(), UnflattenedNamespaced())
    ensures Fixes(NamespaceFlattenRule(), UnflattenedNamespaced())
  {
    var f, q := NamespaceFlattenRule(), UnflattenedNamespaced();
    forall x: Node | forall i :: 0 <= i < |Children(x)| ==> Every(q, Children(x)[i])
      ensures Every(q, f(x))
    {
      if IsMappedNamespacedHubCall(x) {
        var ns := x.callee.obj.callee.obj;
        var leaf := Id(HubMethods[MethodOf(x)]);
        assert Every(q, ns) && Every(q, leaf);
        var callee := Member(ns, leaf);
        assert Children(callee) == [ns, leaf];
        assert Every(q, callee);
        assert Children(f(x)) == [callee] + x.args;
        assert forall i :: 1 <= i < |Children(f(x))| ==> Children(f(x))[i] == Children(x)[i];
      }
    }
  }

  /** After the second pass no `NS.getCurrentHub().m(…)` with a known method is left. */
  lemma {:induction false} NamespaceFlattenComplete(p: Program)
    ensures !ExistsIn(MappedNamespacedHubCall(), FlattenNamespacedHubCalls(p))
  {
    NamespaceFlattenEstablishes();
    forall i | 0 <= i < |p|
      ensures !Exists(MappedNamespacedHubCall(), FlattenNamespacedHubCalls(p)[i])
    {
      MapEstablishes(NamespaceFlattenRule(), UnflattenedNamespaced(), p[i]);
      EveryNotExists(UnflattenedNamespaced(), MappedNamespacedHubCall(), FlattenNamespacedHubCalls(p)[i]);
    }
  }

  lemma {:induction false} NamespaceFlattenIdempotent(p: Program)
    ensures FlattenNamespacedHubCalls(FlattenNamespacedHubCalls(p)) == FlattenNamespacedHubCalls(p)
  {
    NamespaceFlattenEstablishes();
    forall i | 0 <= i < |p|
      ensures FlattenNamespacedHubCalls(FlattenNamespacedHubCalls(p))[i] == FlattenNamespacedHubCalls(p)[i]
    {
      MapIdempotent(NamespaceFlattenRule(), UnflattenedNamespaced(), p[i]);
    }
  }

  // ---------------------------------------------------------------------------
  // Markers and the rule

  /** A hub call of either shape whose method has no replacement gets a marker. */
  function HubMarkerOf(n: Node): seq<Marker> {
    if IsHubCall(n) && MethodOf(n) !in HubMethods then [Marker(n, HubMessage)] else []
  }

  function NamespacedHubMarkerOf(n: Node): seq<Marker> {
    if IsNamespacedHubCall(n) && MethodOf(n) !in HubMethods then [Marker(n, HubMessage)] else []
  }

  /** The import fixer: program, source, SDK, names to add, names to remove. */
  type ImportFixer = (Program, string, string, seq<string>, seq<string>) -> Program

  /**
   * The hub rule. `sdk` is "" when no SDK was chosen. The file is unchanged when it has no
   * hub call of either shape; otherwise the marker list names every call that could not be
   * migrated, and the import fixer runs only with an SDK.
   */
  function HubRule(src: string, sdk: string, fixImports: ImportFixer, p: Program): (r: (Outcome, seq<Marker>))
    ensures r.0 == Unchanged <==>
      !ExistsIn(HubCall(), p) && !ExistsIn(NamespacedHubCall(), FlattenHubCalls(p))
    ensures r.0 == Unchanged ==> r.1 == []
    ensures r.0 != Unchanged && sdk == "" ==>
      r.0 == Changed(FlattenNamespacedHubCalls(FlattenHubCalls(p)))
    ensures r.0 != Unchanged && sdk != "" ==>
      r.0 == Changed(DedupeImportStatements(sdk,
        fixImports(FlattenNamespacedHubCalls(FlattenHubCalls(p)), src, sdk, MethodsUsed(p), ["getCurrentHub"])))
    ensures forall m :: m in r.1 ==> m.message == HubMessage
    ensures forall m :: m in r.1 ==> !IsMappedHubCall(m.site) && !IsMappedNamespacedHubCall(m.site)
  {
    var q1 := FlattenHubCalls(p);
    var q2 := FlattenNamespacedHubCalls(q1);
    var changed := ExistsIn(HubCall(), p) || ExistsIn(NamespacedHubCall(), q1);
    var markers := CollectIn(HubMarkerOf, p) + CollectIn(NamespacedHubMarkerOf, q1);
    if !changed then
      assert markers == [] by { NoHubNoMarkers(p, q1); }
      (Unchanged, [])
    else
      assert forall m :: m in markers ==>
        m.message == HubMessage && !IsMappedHubCall(m.site) && !IsMappedNamespacedHubCall(m.site) by {
        MarkersAreUnmapped(p, q1);
      }
      (Changed(if sdk == "" then q2 else DedupeImportStatements(sdk, fixImports(q2, src, sdk, MethodsUsed(p), ["getCurrentHub"]))),
       markers)
  }

  lemma {:induction false} NoHubNoMarkers(p: Program, q: Program)
    requires !ExistsIn(HubCall(), p) && !ExistsIn(NamespacedHubCall(), q)
    ensures CollectIn(HubMarkerOf, p) + CollectIn(NamespacedHubMarkerOf, q) == []
  {
    var s := CollectIn(HubMarkerOf, p) + CollectIn(NamespacedHubMarkerOf, q);
    if s != [] {
      var m := s[0];
      CollectInHas(HubMarkerOf, n => m in HubMarkerOf(n), m, p);
      CollectInHas(NamespacedHubMarkerOf, n => m in NamespacedHubMarkerOf(n), m, q);
      NoneWhere(p, HubCall(), n => m in HubMarkerOf(n));
      NoneWhere(q, NamespacedHubCall(), n => m in NamespacedHubMarkerOf(n));
      assert false;
    }
  }

  /** No node satisfies `r` where no node satisfies `q` and `r` implies `q`. */
  lemma {:induction false} NoneWhere(p: Program, q: Node -> bool, r: Node -> bool)
    requires forall x :: r(x) ==> q(x)
    requires !ExistsIn(q, p)
    ensures !ExistsIn(r, p)
  {
    forall i | 0 <= i < |p|
      ensures !Exists(r, p[i])
    {
      ExistsWeaker(q, r, p[i]);
    }
  }

  lemma {:induction false} ExistsWeaker(q: Node -> bool, r: Node -> bool, n: Node)
    requires forall x :: r(x) ==> q(x)
    requires !Exists(q, n)
    ensures !Exists(r, n)
  {
    forall i | 0 <= i < |Children(n)|
      ensures !Exists(r, Children(n)[i])
    {
      ExistsWeaker(q, r, Children(n)[i]);
    }
  }

  lemma {:induction false} MarkersAreUnmapped(p: Program, q: Program)
    ensures forall m :: m in CollectIn(HubMarkerOf, p) + CollectIn(NamespacedHubMarkerOf, q) ==>
      m.message == HubMessage && !IsMappedHubCall(m.site) && !IsMappedNamespacedHubCall(m.site)
  {
    forall m | m in CollectIn(HubMarkerOf, p) + CollectIn(NamespacedHubMarkerOf, q)
      ensures m.message == HubMessage && !IsMappedHubCall(m.site) && !IsMappedNamespacedHubCall(m.site)
    {
      var r1 := (n: Node) => m in HubMarkerOf(n);
      var r2 := (n: Node) => m in NamespacedHubMarkerOf(n);
      CollectInHas(HubMarkerOf, r1, m, p);
      CollectInHas(NamespacedHubMarkerOf, r2, m, q);
      if m in CollectIn(HubMarkerOf, p) {
        var i :| 0 <= i < |p| && Exists(r1, p[i]);
        var x := Witness(r1, p[i]);
      } else {
        var i :| 0 <= i < |q| && Exists(r2, q[i]);
        var x := Witness(r2, q[i]);
      }
    }
  }

  /** A node of the tree where `q` holds. */
  lemma {:induction false} Witness(q: Node -> bool, n: Node) returns (x: Node)
    requires Exists(q, n)
    ensures q(x)
  {
    if q(n) {
      x := n;
    } else {
      var i :| 0 <= i < |Children(n)| && Exists(q, Children(n)[i]);
      x := Witness(q, Children(n)[i]);
    }
  }

  /** The node `n` itself. */
  function SameNode(n: Node): Node -> bool {
    x => x == n
  }

  /**
   * Both `addTodoComment` branches: a node is marked exactly when it is a hub call of the
   * first shape in the file, or of the second shape after the first pass, whose method has
   * no replacement.
   */
  lemma {:induction false} HubMarkersExact(src: string, sdk: string, fixImports: ImportFixer, p: Program, n: Node)
    ensures Marker(n, HubMessage) in HubRule(src, sdk, fixImports, p).1 <==>
      || (IsHubCall(n) && MethodOf(n) !in HubMethods && ExistsIn(SameNode(n), p))
      || (IsNamespacedHubCall(n) && MethodOf(n) !in HubMethods && ExistsIn(SameNode(n), FlattenHubCalls(p)))
  {
    var q1 := FlattenHubCalls(p);
    var markers := CollectIn(HubMarkerOf, p) + CollectIn(NamespacedHubMarkerOf, q1);
    if !(ExistsIn(HubCall(), p) || ExistsIn(NamespacedHubCall(), q1)) {
      NoHubNoMarkers(p, q1);
      if IsHubCall(n) && ExistsIn(SameNode(n), p) {
        NoneWhere(p, HubCall(), SameNode(n));
      }
      if IsNamespacedHubCall(n) && ExistsIn(SameNode(n), q1) {
        NoneWhere(q1, NamespacedHubCall(), SameNode(n));
      }
    } else {
      assert HubRule(src, sdk, fixImports, p).1 == markers;
      MarkedIn(HubMarkerOf, n => IsHubCall(n) && MethodOf(n) !in HubMethods, n, p);
      MarkedIn(NamespacedHubMarkerOf, n => IsNamespacedHubCall(n) && MethodOf(n) !in HubMethods, n, q1);
    }
  }

  /** A marker search reporting `n` where `u` holds finds `n` exactly when `n` is in the tree. */
  lemma {:induction false} MarkedIn(g: Node -> seq<Marker>, u: Node -> bool, n: Node, p: Program)
    requires forall x :: Marker(n, HubMessage) in g(x) <==> x == n && u(x)
    ensures Marker(n, HubMessage) in CollectIn(g, p) <==> u(n) && ExistsIn(SameNode(n), p)
  {
    var q := (x: Node) => x == n && u(x);
    CollectInHas(g, q, Marker(n, HubMessage), p);
    if ExistsIn(q, p) {
      var i :| 0 <= i < |p| && Exists(q, p[i]);
      var x := Witness(q, p[i]);
      if !ExistsIn(SameNode(n), p) {
        NoneWhere(p, SameNode(n), q);
      }
    }
    if u(n) && ExistsIn(SameNode(n), p) && !ExistsIn(q, p) {
      NoneWhere(p, q, SameNode(n));
    }
  }
}

=== FILE: hubimports.dfy ===
/**
 * The rule that retires `@sentry/hub`: named imports are split between `@sentry/core` (the
 * APIs only it exports) and the SDK package, lone namespace imports and requires move to
 * `@sentry/core`, and the rule reports whether the file now needs `@sentry/core`.
 */
module HubImports {
  import opened Seqs
  import opened Ast
  import opened Normaliser

  const HubPackage := "@sentry/hub"
  const CorePackage := "@sentry/core"

  /** The exports of the hub package that only `@sentry/core` still has. */
  const ApisOnlyInCore: seq<string> := [
    "getMainCarrier", "setHubOnCarrier", "SessionFlusher", "closeSession",
    "makeSession", "updateSession", "Carrier", "Layer"
  ]

  /** A specifier whose local name is one of the core-only APIs. */
  predicate InCore(sp: Spec) {
    sp.local in ApisOnlyInCore
  }

  predicate NotInCore(sp: Spec) {
    !InCore(sp)
  }

  /** An import whose specifiers are all named ones (an import without specifiers included). */
  predicate AllNamed(n: Node) {
    n.Import? && forall k :: 0 <= k < |n.specs| ==> n.specs[k].Named?
  }

  /** An import of the hub package that the first pass splits. */
  predicate IsSplitImport(n: Node) {
    IsImportOf(n, HubPackage) && AllNamed(n)
  }

  /** A lone namespace import of the hub package, which the second pass retargets. */
  predicate IsNamespaceHub(n: Node) {
    IsImportOf(n, HubPackage) && IsLoneNamespace(n)
  }

  /** Every specifier of every import of `p`, in document order. */
  function ImportSpecs(p: Program): seq<Spec> {
    if |p| == 0 then []
    else (if p[0].Import? then p[0].specs else []) + ImportSpecs(p[1..])
  }

  lemma {:induction false} ImportSpecsConcat(a: Program, b: Program)
    ensures ImportSpecs(a + b) == ImportSpecs(a) + ImportSpecs(b)
  {
    if |a| > 0 {
      assert (a + b)[0] == a[0] && (a + b)[1..] == a[1..] + b;
      ImportSpecsConcat(a[1..], b);
    } else {
      assert a + b == b;
    }
  }

  predicate NotImport(n: Node) {
    !n.Import?
  }

  /** An import of `@sentry/core` holding only specifiers `keep` picks. */
  predicate CoreGroupBy(x: Node, keep: Spec -> bool) {
    x.Import? && x.source == CorePackage && forall k :: 0 <= k < |x.specs| ==> keep(x.specs[k])
  }

  /** An import of `sdk` holding no specifier `keep` picks. */
  predicate SdkGroupBy(sdk: string, x: Node, keep: Spec -> bool) {
    x.Import? && x.source == sdk && forall k :: 0 <= k < |x.specs| ==> !keep(x.specs[k])
  }

  predicate CoreGroup(x: Node) {
    CoreGroupBy(x, InCore)
  }

  predicate SdkGroup(sdk: string, x: Node) {
    SdkGroupBy(sdk, x, InCore)
  }

  /** The two imports a split produces when `keep` picks the specifiers for `@sentry/core`. */
  function SplitBy(sdk: string, specs: seq<Spec>, keep: Spec -> bool, drop: Spec -> bool): Program {
    var core := Filter(specs, keep);
    var rest := Filter(specs, drop);
    (if |core| > 0 then [Import(CorePackage, core)] else []) + (if |rest| > 0 then [Import(sdk, rest)] else [])
  }

  /**
   * The replacement of one split import: an import of `@sentry/core` holding the core-only
   * specifiers, then an import of `sdk` holding the rest, each left out when it would be
   * empty. Each keeps the relative order of its specifiers.
   */
  function SplitImport(sdk: string, specs: seq<Spec>): (r: Program)
    requires forall k :: 0 <= k < |specs| ==> specs[k].Named?
    ensures forall x :: x in r ==> AllNamed(x) && |x.specs| > 0 && IsSubseq(x.specs, specs)
    ensures forall x :: x in r ==> CoreGroup(x) || SdkGroup(sdk, x)
    ensures (exists k :: 0 <= k < |specs| && InCore(specs[k])) <==> |r| > 0 && CoreGroup(r[0])
    ensures multiset(ImportSpecs(r)) == multiset(specs)
  {
    SplitMembers(sdk, specs, InCore, NotInCore);
    SplitFirst(sdk, specs, InCore, NotInCore);
    SplitSpecs(sdk, specs, InCore, NotInCore);
    SplitBy(sdk, specs, InCore, NotInCore)
  }

  lemma {:induction false} SplitMembers(sdk: string, specs: seq<Spec>, keep: Spec -> bool, drop: Spec -> bool)
    requires forall k :: 0 <= k < |specs| ==> specs[k].Named?
    requires forall sp :: drop(sp) == !keep(sp)
    ensures forall x :: x in SplitBy(sdk, specs, keep, drop) ==> AllNamed(x) && |x.specs| > 0 && IsSubseq(x.specs, specs)
    ensures forall x :: x in SplitBy(sdk, specs, keep, drop) ==> CoreGroupBy(x, keep) || SdkGroupBy(sdk, x, keep)
  {
    var core := Filter(specs, keep);
    var rest := Filter(specs, drop);
    var a := if |core| > 0 then [Import(CorePackage, core)] else [];
    var b := if |rest| > 0 then [Import(sdk, rest)] else [];
    assert SplitBy(sdk, specs, keep, drop) == a + b;
    SplitPart(CorePackage, specs, keep);
    SplitPart(sdk, specs, drop);
    forall x | x in a + b
      ensures AllNamed(x) && |x.specs| > 0 && IsSubseq(x.specs, specs)
      ensures CoreGroupBy(x, keep) || SdkGroupBy(sdk, x, keep)
    {
      if x in a {
        assert x == Import(CorePackage, core);
      } else {
        assert x == Import(sdk, rest);
        SdkPart(sdk, x, keep, drop);
      }
    }
  }

  lemma {:induction false} SdkPart(sdk: string, x: Node, keep: Spec -> bool, drop: Spec -> bool)
    requires forall sp :: drop(sp) == !keep(sp)
    requires x.Import? && x.source == sdk && forall k :: 0 <= k < |x.specs| ==> drop(x.specs[k])
    ensures SdkGroupBy(sdk, x, keep)
  {
  }

  /** The import holding the specifiers `keep` picks is named, in order, and holds only those. */
  lemma {:induction false} SplitPart(source: string, specs: seq<Spec>, keep: Spec -> bool)
    requires forall k :: 0 <= k < |specs| ==> specs[k].Named?
    ensures var x := Import(source, Filter(specs, keep));
      && AllNamed(x) && IsSubseq(x.specs, specs) && x.Import? && x.source == source
      && forall k :: 0 <= k < |x.specs| ==> keep(x.specs[k])
  {
    var part := Filter(specs, keep);
    FilterSubseq(specs, keep);
    forall k | 0 <= k < |part|
      ensures part[k].Named?
    {
      assert part[k] in specs;
    }
  }

  /** A subsequence of named specifiers holds only named specifiers. */
  lemma {:induction false} PartNamed(part: seq<Spec>, specs: seq<Spec>)
    requires IsSubseq(part, specs)
    requires forall k :: 0 <= k < |specs| ==> specs[k].Named?
    ensures forall k :: 0 <= k < |part| ==> part[k].Named?
  {
    SubseqMembers(part, specs);
    forall k | 0 <= k < |part|
      ensures part[k].Named?
    {
      assert part[k] in specs;
    }
  }

  lemma {:induction false} SplitFirst(sdk: string, specs: seq<Spec>, keep: Spec -> bool, drop: Spec -> bool)
    requires forall sp :: drop(sp) == !keep(sp)
    ensures var r := SplitBy(sdk, specs, keep, drop);
            (exists k :: 0 <= k < |specs| && keep(specs[k])) <==> |r| > 0 && CoreGroupBy(r[0], keep)
  {
    var core := Filter(specs, keep);
    var rest := Filter(specs, drop);
    var r := SplitBy(sdk, specs, keep, drop);
    if |core| > 0 {
      assert core[0] in specs;
    }
    if exists k :: 0 <= k < |specs| && keep(specs[k]) {
      var k :| 0 <= k < |specs| && keep(specs[k]);
      assert specs[k] in specs;
    }
    if |core| == 0 && |rest| > 0 {
      assert r[0] == Import(sdk, rest);
      assert rest[0] in rest;
    }
  }

  lemma {:induction false} SplitSpecs(sdk: string, specs: seq<Spec>, keep: Spec -> bool, drop: Spec -> bool)
    requires forall sp :: drop(sp) == !keep(sp)
    ensures multiset(ImportSpecs(SplitBy(sdk, specs, keep, drop))) == multiset(specs)
  {
    var core := Filter(specs, keep);
    var rest := Filter(specs, drop);
    var a := if |core| > 0 then [Import(CorePackage, core)] else [];
    var b := if |rest| > 0 then [Import(sdk, rest)] else [];
    FilterPartition(specs, keep, drop);
    ImportSpecsConcat(a, b);
    assert ImportSpecs(a) == core by {
      if |core| > 0 {
        assert a[1..] == [];
      }
    }
    assert ImportSpecs(b) == rest by {
      if |rest| > 0 {
        assert b[1..] == [];
      }
    }
  }

  /** What the first pass puts in place of one statement. */
  function Piece(sdk: string, x: Node): Program {
    if IsSplitImport(x) then SplitImport(sdk, x.specs) else [x]
  }

  lemma {:induction false} PieceFacts(sdk: string, x: Node)
    ensures forall y :: y in Piece(sdk, x) ==>
              || (y == x && !IsSplitImport(x))
              || (AllNamed(y) && |y.specs| > 0 && (y.source == CorePackage || y.source == sdk))
    ensures sdk != HubPackage ==> forall y :: y in Piece(sdk, x) ==> !IsSplitImport(y)
    ensures !IsSplitImport(x) ==> x in Piece(sdk, x)
    ensures multiset(ImportSpecs(Piece(sdk, x))) == multiset(ImportSpecs([x]))
    ensures Filter(Piece(sdk, x), NotImport) == Filter([x], NotImport)
  {
    var h := Piece(sdk, x);
    assert ImportSpecs([x]) == (if x.Import? then x.specs else []) by {
      assert [x][1..] == [];
    }
    if IsSplitImport(x) {
      var f := Filter(h, NotImport);
      SubseqMembers(f, h);
    }
  }

  /**
   * The first pass: every import of the hub package whose specifiers are all named is
   * replaced by its split (and so disappears when it has no specifiers). The flag is set
   * when a split produced an import of `@sentry/core`.
   */
  function SplitHubImports(sdk: string, p: Program): (r: (Program, bool))
    ensures sdk != HubPackage ==> forall x :: x in r.0 ==> !IsSplitImport(x)
    ensures forall x :: x in p && !IsSplitImport(x) ==> x in r.0
    ensures forall x :: x in r.0 ==>
              || (x in p && !IsSplitImport(x))
              || (AllNamed(x) && |x.specs| > 0 && (x.source == CorePackage || x.source == sdk))
    ensures multiset(ImportSpecs(r.0)) == multiset(ImportSpecs(p))
    ensures Filter(r.0, NotImport) == Filter(p, NotImport)
    ensures r.1 <==> CoreCreated(p)
    decreases |p|
  {
    if |p| == 0 then ([], false)
    else
      var rest := SplitHubImports(sdk, p[1..]);
      var head := Piece(sdk, p[0]);
      var created := IsSplitImport(p[0]) && exists k :: 0 <= k < |p[0].specs| && InCore(p[0].specs[k]);
      PieceFacts(sdk, p[0]);
      SplitConcat(head, rest.0);
      SplitCons(p);
      SplitConsOthers(p);
      SplitConsMembers(p);
      assert created || rest.1 <==> CoreCreated(p) by {
        CoreCreatedCons(p);
      }
      (head + rest.0, created || rest.1)
  }

  lemma {:induction false} SplitConcat(head: Program, rest: Program)
    ensures ImportSpecs(head + rest) == ImportSpecs(head) + ImportSpecs(rest)
    ensures Filter(head + rest, NotImport) == Filter(head, NotImport) + Filter(rest, NotImport)
  {
    ImportSpecsConcat(head, rest);
    FilterConcat(head, rest, NotImport);
  }

  lemma {:induction false} ImportSpecsOne(x: Node)
    ensures ImportSpecs([x]) == (if x.Import? then x.specs else [])
  {
    assert [x][1..] == [];
  }

  lemma {:induction false} SplitCons(p: Program)
    requires |p| > 0
    ensures ImportSpecs(p) == ImportSpecs([p[0]]) + ImportSpecs(p[1..])
  {
    ImportSpecsOne(p[0]);
  }

  lemma {:induction false} SplitConsOthers(p: Program)
    requires |p| > 0
    ensures Filter(p, NotImport) == Filter([p[0]], NotImport) + Filter(p[1..], NotImport)
  {
    FilterCons(p, NotImport);
    FilterOne(p[0], NotImport);
  }

  lemma {:induction false} SplitConsMembers(p: Program)
    requires |p| > 0
    ensures forall x :: x in p <==> x == p[0] || x in p[1..]
  {
    assert p == [p[0]] + p[1..];
  }

  lemma {:induction false} CoreCreatedCons(p: Program)
    requires |p| > 0
    ensures CoreCreated(p) <==>
              (IsSplitImport(p[0]) && exists k :: 0 <= k < |p[0].specs| && InCore(p[0].specs[k]))
              || CoreCreated(p[1..])
  {
    if CoreCreated(p[1..]) {
      var i, k :| 0 <= i < |p[1..]| && IsSplitImport(p[1..][i]) && 0 <= k < |p[1..][i].specs| && InCore(p[1..][i].specs[k]);
      assert p[i + 1] == p[1..][i];
    }
    if CoreCreated(p) {
      var i, k :| 0 <= i < |p| && IsSplitImport(p[i]) && 0 <= k < |p[i].specs| && InCore(p[i].specs[k]);
      if i > 0 {
        assert p[1..][i - 1] == p[i];
      }
    }
  }

  /**
   * The second pass: every lone namespace import of the hub package now imports
   * `@sentry/core`; the flag says whether there was one.
   */
  function RetargetNamespaces(p: Program): (r: (Program, bool))
    ensures |r.0| == |p|
    ensures forall x :: x in r.0 ==> !IsNamespaceHub(x)
    ensures forall i :: 0 <= i < |p| ==>
              r.0[i] == p[i] || (IsNamespaceHub(p[i]) && r.0[i] == Import(CorePackage, p[i].specs))
    ensures forall i :: 0 <= i < |p| && IsImportOf(r.0[i], HubPackage) ==> r.0[i] == p[i]
    ensures r.1 <==> exists i :: 0 <= i < |p| && IsNamespaceHub(p[i])
  {
    var q := seq(|p|, i requires 0 <= i < |p| => if IsNamespaceHub(p[i]) then Import(CorePackage, p[i].specs) else p[i]);
    (q, exists i :: 0 <= i < |p| && IsNamespaceHub(p[i]))
  }

  /** The program the require rewrite sees: both passes, then both merges. */
  function BeforeRequires(sdk: string, p: Program): Program {
    var q := RetargetNamespaces(SplitHubImports(sdk, p).0).0;
    DedupeImportStatements(CorePackage, DedupeImportStatements(sdk, q))
  }

  /** A file that does not need `@sentry/core` because of the first two passes. */
  predicate CoreCreated(p: Program) {
    exists i, k :: 0 <= i < |p| && IsSplitImport(p[i]) && 0 <= k < |p[i].specs| && InCore(p[i].specs[k])
  }

  predicate HasNamespaceHub(p: Program) {
    exists i :: 0 <= i < |p| && IsNamespaceHub(p[i])
  }

  /** The first pass neither creates nor removes lone namespace imports of the hub package. */
  lemma {:induction false} SplitKeepsNamespaces(sdk: string, p: Program)
    ensures HasNamespaceHub(SplitHubImports(sdk, p).0) <==> HasNamespaceHub(p)
  {
    var q := SplitHubImports(sdk, p).0;
    if HasNamespaceHub(p) {
      var i :| 0 <= i < |p| && IsNamespaceHub(p[i]);
      assert p[i] in p && !IsSplitImport(p[i]);
      var j :| 0 <= j < |q| && q[j] == p[i];
    }
    if HasNamespaceHub(q) {
      var j :| 0 <= j < |q| && IsNamespaceHub(q[j]);
      assert q[j] in q && !AllNamed(q[j]);
      var i :| 0 <= i < |p| && p[i] == q[j];
    }
  }

  /**
   * The rule on one script, with the flag that asks for `@sentry/core` to be installed.
   * With no SDK chosen the rule does not run (`index.js`), and files that neither import nor
   * require the hub package are unchanged. The flag is set
   * exactly when a split produced a core import, a namespace import was retargeted, or a
   * require of the hub package was rewritten. The flag is accumulated with a short-circuiting
   * `||`, so as written (`intended` false) the require rewrite only runs when neither import
   * pass fired; as intended it always runs. Whenever it runs and the SDK is not the hub
   * package, no require of the hub package remains. Every import of the hub package that
   * remains is one the file already had, with a default specifier or a namespace beside
   * other specifiers.
   */
  function HubImportsRule(src: string, sdk: string, p: Program, intended: bool): (r: (Outcome, bool))
    ensures r.0 == Unchanged <==> sdk == "" || !HasImportOrRequire(src, HubPackage)
    ensures r.0 != Unchanged ==> r.0.Changed?
    ensures r.0 == Unchanged ==> !r.1
    ensures r.0.Changed? ==>
              (r.1 <==> CoreCreated(p) || HasNamespaceHub(p) || ExistsIn(RequireOf(HubPackage), BeforeRequires(sdk, p)))
    ensures r.0.Changed? && !intended && (CoreCreated(p) || HasNamespaceHub(p)) ==> r.0.prog == BeforeRequires(sdk, p)
    ensures r.0.Changed? && sdk != HubPackage && (intended || !(CoreCreated(p) || HasNamespaceHub(p))) ==>
              !ExistsIn(RequireOf(HubPackage), r.0.prog)
    ensures r.0.Changed? && sdk != HubPackage ==>
              forall x :: x in r.0.prog && IsImportOf(x, HubPackage) ==> x in p && !AllNamed(x) && !IsLoneNamespace(x)
  {
    if sdk == "" || !HasImportOrRequire(src, HubPackage) then (Unchanged, false)
    else
      var split := SplitHubImports(sdk, p);
      var ns := RetargetNamespaces(split.0);
      var merged := DedupeImportStatements(CorePackage, DedupeImportStatements(sdk, ns.0));
      SplitKeepsNamespaces(sdk, p);
      if !intended && (split.1 || ns.1) then
        assert sdk != HubPackage ==> forall x :: x in merged && IsImportOf(x, HubPackage) ==>
                  x in p && !AllNamed(x) && !IsLoneNamespace(x) by {
          if sdk != HubPackage {
            HubImportsBefore(sdk, p);
          }
        }
        (Changed(merged), true)
      else
        var req := RewriteCjsRequires(HubPackage, CorePackage, merged);
        assert sdk != HubPackage ==> forall x :: x in req.0 && IsImportOf(x, HubPackage) ==>
                  x in p && !AllNamed(x) && !IsLoneNamespace(x) by {
          if sdk != HubPackage {
            HubImportsSurvive(sdk, p);
          }
        }
        (Changed(req.0), split.1 || ns.1 || req.1)
  }

  /** The hub imports left after both merges come from the first pass. */
  lemma {:induction false} HubImportsBefore(sdk: string, p: Program)
    requires sdk != HubPackage
    ensures forall x :: x in BeforeRequires(sdk, p) && IsImportOf(x, HubPackage) ==> x in p && !AllNamed(x) && !IsLoneNamespace(x)
  {
    var split := SplitHubImports(sdk, p).0;
    var ns := RetargetNamespaces(split).0;
    var m2 := BeforeRequires(sdk, p);
    MergesKeepHubImports(sdk, ns);
    assert m2 == DedupeImportStatements(CorePackage, DedupeImportStatements(sdk, ns));
    forall x | x in m2 && IsImportOf(x, HubPackage)
      ensures x in p && !AllNamed(x) && !IsLoneNamespace(x)
    {
      NamespacePassKeepsHubImports(split, x);
    }
  }

  /** The hub imports left after both merges and the require rewrite come from the first pass. */
  lemma {:induction false} HubImportsSurvive(sdk: string, p: Program)
    requires sdk != HubPackage
    ensures var r := RewriteCjsRequires(HubPackage, CorePackage, BeforeRequires(sdk, p)).0;
            forall x :: x in r && IsImportOf(x, HubPackage) ==> x in p && !AllNamed(x) && !IsLoneNamespace(x)
  {
    HubImportsBefore(sdk, p);
    RequireRewriteKeepsImports(HubPackage, CorePackage, BeforeRequires(sdk, p));
  }

  /** No import of `p` is a lone namespace import. */
  predicate NoLoneNamespaces(p: Program) {
    forall i :: 0 <= i < |p| && p[i].Import? ==> !IsLoneNamespace(p[i])
  }

  /**
   * Without lone namespace imports, the two import passes and both merges keep every
   * statement that is not an import, a require of the hub package among them.
   */
  lemma {:induction false} BeforeRequiresKeepsStatements(sdk: string, p: Program, x: Node)
    requires sdk != CorePackage && NoLoneNamespaces(p)
    requires x in p && !x.Import?
    ensures x in BeforeRequires(sdk, p)
  {
    var split := SplitHubImports(sdk, p).0;
    var ns := RetargetNamespaces(split).0;
    assert forall y :: y in split && y.Import? ==> !IsLoneNamespace(y) by {
      forall y | y in split && y.Import?
        ensures !IsLoneNamespace(y)
      {
        if y !in p {
          assert y.specs[0].Named?;
        }
      }
    }
    assert ns == split by {
      forall i | 0 <= i < |split|
        ensures ns[i] == split[i]
      {
        assert split[i] in split;
      }
    }
    var m1 := DedupeImportStatements(sdk, ns);
    DedupeKeepsStatements(sdk, ns, x);
    DedupeForeignImports(sdk, ns);
    assert forall y :: y in m1 && IsImportOf(y, CorePackage) ==> y in ns;
    DedupeKeepsStatements(CorePackage, m1, x);
  }

  /**
   * As written, a file whose hub imports are split into a core import keeps its requires of
   * the hub package: `import { makeSession } from '@sentry/hub'` beside
   * `const h = require('@sentry/hub')` leaves the require alone.
   */
  lemma {:induction false} AsWrittenKeepsHubRequire(src: string, sdk: string, p: Program, x: Node)
    requires HasImportOrRequire(src, HubPackage) && sdk != "" && sdk != CorePackage && sdk != HubPackage
    requires NoLoneNamespaces(p) && CoreCreated(p)
    requires x in p && !x.Import? && Exists(RequireOf(HubPackage), x)
    ensures ExistsIn(RequireOf(HubPackage), HubImportsRule(src, sdk, p, false).0.prog)
    ensures !ExistsIn(RequireOf(HubPackage), HubImportsRule(src, sdk, p, true).0.prog)
  {
    var q := HubImportsRule(src, sdk, p, false).0.prog;
    BeforeRequiresKeepsStatements(sdk, p, x);
    var i :| 0 <= i < |q| && q[i] == x;
  }

  /** The require rewrite brings in no import. */
  lemma {:induction false} RequireRewriteKeepsImports(a: string, b: string, q: Program)
    ensures forall x :: x in RewriteCjsRequires(a, b, q).0 && x.Import? ==> x in q
  {
    var r := RewriteCjsRequires(a, b, q).0;
    RewriteCjsRequiresKeepsImports(a, b, q);
    forall x | x in r && x.Import?
      ensures x in q
    {
      var j :| 0 <= j < |r| && r[j] == x;
      assert q[j] == x;
    }
  }

  /** The merges of the SDK and core imports leave hub imports alone. */
  lemma {:induction false} MergesKeepHubImports(sdk: string, ns: Program)
    requires sdk != HubPackage
    ensures forall x :: x in DedupeImportStatements(CorePackage, DedupeImportStatements(sdk, ns)) && IsImportOf(x, HubPackage) ==> x in ns
  {
    var m1 := DedupeImportStatements(sdk, ns);
    DedupeForeignImports(sdk, ns);
    DedupeForeignImports(CorePackage, m1);
  }

  lemma {:induction false} NamespacePassKeepsHubImports(split: Program, x: Node)
    requires x in RetargetNamespaces(split).0 && IsImportOf(x, HubPackage)
    ensures x in split && !IsLoneNamespace(x)
  {
    var ns := RetargetNamespaces(split).0;
    var i :| 0 <= i < |ns| && ns[i] == x;
    assert split[i] == x;
  }
}

=== FILE: integrations.dfy ===
/**
 * The integrations rule: integration classes become the factory functions that
 * replace them, and the `Integrations` namespace import is dissolved.
 */
module Integrations {
  import opened Wrappers
  import opened Ast
  import opened Seqs
  import opened Normaliser
  import Dom

  const IntegrationsPackage := "@sentry/integrations"

  /** The name of the namespace object the SDKs used to export their integrations under. */
  const IntegrationsKey := "Integrations"

  /** The integration classes of the browser SDK. */
  const BrowserClasses: seq<string> := [
    "BrowserTracing", "Replay", "Feedback", "Breadcrumbs", "TryCatch", "GlobalHandlers", "HttpContext"
  ]

  /** The integration classes of `@sentry/core`. */
  const CoreClasses: seq<string> := [
    "InboundFilters", "FunctionToString", "LinkedErrors", "ModuleMetadata", "RequestData"
  ]

  /** The integration classes of the pluggable integrations package. */
  const PluggableClasses: seq<string> := [
    "CaptureConsole", "Debug", "Dedupe", "ExtraErrorData", "ReportingObserver",
    "RewriteFrames", "SessionTiming", "ContextLines", "HttpClient"
  ]

  /** The integration classes of the Node SDK. */
  const NodeClasses: seq<string> := [
    "Console", "Http", "OnUncaughtException", "OnUnhandledRejection", "Modules", "Context",
    "LocalVariables", "Undici", "Spotlight", "Anr", "Hapi"
  ]

  /** The integration classes, browser, core, pluggable and Node ones. */
  const IntegrationClasses: seq<string> := BrowserClasses + CoreClasses + PluggableClasses + NodeClasses

  const BrowserFunctions: seq<string> := [
    "browserTracingIntegration", "replayIntegration", "feedbackIntegration", "breadcrumbsIntegration",
    "browserApiErrorsIntegration", "globalHandlersIntegration", "httpContextIntegration"
  ]

  const CoreFunctions: seq<string> := [
    "inboundFiltersIntegration", "functionToStringIntegration", "linkedErrorsIntegration",
    "moduleMetadataIntegration", "requestDataIntegration"
  ]

  const PluggableFunctions: seq<string> := [
    "captureConsoleIntegration", "debugIntegration", "dedupeIntegration", "extraErrorDataIntegration",
    "reportingObserverIntegration", "rewriteFramesIntegration", "sessionTimingIntegration",
    "contextLinesIntegration", "httpClientIntegration"
  ]

  const NodeFunctions: seq<string> := [
    "consoleIntegration", "httpIntegration", "onUncaughtExceptionIntegration", "onUnhandledRejectionIntegration",
    "modulesIntegration", "nodeContextIntegration", "localVariablesIntegration", "nodeFetchIntegration",
    "spotlightIntegration", "anrIntegration", "hapiIntegration"
  ]

  /** The factory replacing each class, at the same position. */
  const IntegrationFunctions: seq<string> := BrowserFunctions + CoreFunctions + PluggableFunctions + NodeFunctions

  /** Each class to its factory. */
  const IntegrationMap: map<string, string> := ZipMap(IntegrationClasses, IntegrationFunctions)

  predicate UpperInitial(s: string) {
    |s| > 0 && 'A' <= s[0] <= 'Z'
  }

  predicate LowerInitial(s: string) {
    |s| > 0 && 'a' <= s[0] <= 'z'
  }

  lemma {:induction false} ClassesDistinct()
    ensures NoDuplicates(IntegrationClasses)
  {
    ClassGroupsDistinct();
    ClassGroupsApart();
    NoDuplicatesBlocks(BrowserClasses, CoreClasses, PluggableClasses, NodeClasses);
  }

  lemma {:induction false} ClassGroupsDistinct()
    ensures NoDuplicates(BrowserClasses) && NoDuplicates(CoreClasses)
    ensures NoDuplicates(PluggableClasses) && NoDuplicates(NodeClasses)
  {
  }

  lemma {:induction false} ClassGroupsApart()
    ensures Disjoint(BrowserClasses, CoreClasses) && Disjoint(BrowserClasses, PluggableClasses)
    ensures Disjoint(BrowserClasses, NodeClasses) && Disjoint(CoreClasses, PluggableClasses)
    ensures Disjoint(CoreClasses, NodeClasses) && Disjoint(PluggableClasses, NodeClasses)
  {
  }

  lemma {:induction false} FunctionsDistinct()
    ensures NoDuplicates(IntegrationFunctions)
  {
    FunctionGroupsDistinct();
    FunctionGroupsApart();
    NoDuplicatesBlocks(BrowserFunctions, CoreFunctions, PluggableFunctions, NodeFunctions);
  }

  lemma {:induction false} FunctionGroupsDistinct()
    ensures NoDuplicates(BrowserFunctions) && NoDuplicates(CoreFunctions)
    ensures NoDuplicates(PluggableFunctions) && NoDuplicates(NodeFunctions)
  {
  }

  lemma {:induction false} FunctionGroupsApart()
    ensures Disjoint(BrowserFunctions, CoreFunctions) && Disjoint(BrowserFunctions, PluggableFunctions)
    ensures Disjoint(BrowserFunctions, NodeFunctions) && Disjoint(CoreFunctions, PluggableFunctions)
    ensures Disjoint(CoreFunctions, NodeFunctions) && Disjoint(PluggableFunctions, NodeFunctions)
  {
    BrowserFunctionsApart();
    OtherFunctionsApart();
  }

  lemma {:induction false} BrowserFunctionsApart()
    ensures Disjoint(BrowserFunctions, CoreFunctions) && Disjoint(BrowserFunctions, PluggableFunctions)
    ensures Disjoint(BrowserFunctions, NodeFunctions)
  {
  }

  lemma {:induction false} OtherFunctionsApart()
    ensures Disjoint(CoreFunctions, PluggableFunctions) && Disjoint(CoreFunctions, NodeFunctions)
    ensures Disjoint(PluggableFunctions, NodeFunctions)
  {
  }

  /** Classes are capitalised and factories are not. */
  lemma {:induction false} Initials()
    ensures forall i :: 0 <= i < |IntegrationClasses| ==> UpperInitial(IntegrationClasses[i])
    ensures forall i :: 0 <= i < |IntegrationFunctions| ==> LowerInitial(IntegrationFunctions[i])
  {
    ClassInitials();
    FunctionInitials();
  }

  lemma {:induction false} ClassInitials()
    ensures forall i :: 0 <= i < |IntegrationClasses| ==> UpperInitial(IntegrationClasses[i])
  {
  }

  lemma {:induction false} FunctionInitials()
    ensures forall i :: 0 <= i < |IntegrationFunctions| ==> LowerInitial(IntegrationFunctions[i])
  {
  }

  /** No factory name is a class name, nor the namespace key. */
  lemma {:induction false} FactoriesAreNotClasses()
    ensures forall j :: 0 <= j < |IntegrationFunctions| ==> IntegrationFunctions[j] !in IntegrationClasses
    ensures IntegrationsKey !in IntegrationFunctions
  {
    Initials();
    forall j | 0 <= j < |IntegrationFunctions|
      ensures IntegrationFunctions[j] !in IntegrationClasses
    {
      assert LowerInitial(IntegrationFunctions[j]);
    }
  }

  /** Thirty-two classes, no two sharing a factory, and no factory itself a class. */
  lemma {:induction false} IntegrationMapShape()
    ensures |IntegrationMap| == 32
    ensures forall a, b :: a in IntegrationMap && b in IntegrationMap && IntegrationMap[a] == IntegrationMap[b] ==> a == b
    ensures forall c :: c in IntegrationMap ==> IntegrationMap[c] !in IntegrationMap && IntegrationMap[c] in IntegrationFunctions
    ensures NoChains(IntegrationMap)
  {
    ClassesDistinct();
    FunctionsDistinct();
    FactoriesAreNotClasses();
    ZipMapSize(IntegrationClasses, IntegrationFunctions);
    ZipMapInjective(IntegrationClasses, IntegrationFunctions);
    ZipMapNoChains(IntegrationClasses, IntegrationFunctions);
  }

  // ---------------------------------------------------------------------------
  // `new` expressions

  /** `new A.B.C(…)` with three identifiers. */
  predicate IsQualifiedNew(n: Node) {
    && n.New? && n.callee.Member? && n.callee.prop.Id?
    && n.callee.obj.Member? && n.callee.obj.obj.Id? && n.callee.obj.prop.Id?
  }

  /** `new C(…)`. */
  predicate IsBareNew(n: Node) {
    n.New? && n.callee.Id?
  }

  /** `new A.C(…)`. */
  predicate IsMemberNew(n: Node) {
    n.New? && n.callee.Member? && n.callee.obj.Id? && n.callee.prop.Id?
  }

  /** `new A.Integrations.C(…)` with `C` a class of `m`. */
  predicate IsMappedQualifiedNew(m: map<string, string>, n: Node) {
    IsQualifiedNew(n) && n.callee.obj.prop.name == IntegrationsKey && n.callee.prop.name in m
  }

  /** A `new` of a class of `m`, in one of the three forms the rule rewrites. */
  predicate IsMappedNew(m: map<string, string>, n: Node) {
    || IsMappedQualifiedNew(m, n)
    || (IsBareNew(n) && n.callee.name in m)
    || (IsMemberNew(n) && n.callee.prop.name in m)
  }

  /**
   * The names a plain object literal inherits from `Object.prototype`. Looking one of them up
   * in the class table yields a function or an object rather than a factory name, and the
   * identifier builder rejects it.
   */
  const InheritedNames: set<string> := {
    "constructor", "__proto__", "__defineGetter__", "__defineSetter__", "__lookupGetter__",
    "__lookupSetter__", "hasOwnProperty", "isPrototypeOf", "propertyIsEnumerable",
    "toLocaleString", "toString", "valueOf"
  }

  /** A `new`, in one of the three rewritten forms, whose class name is found on the prototype. */
  predicate IsInheritedNew(n: Node) {
    || (IsQualifiedNew(n) && n.callee.obj.prop.name == IntegrationsKey && n.callee.prop.name in InheritedNames)
    || (IsBareNew(n) && n.callee.name in InheritedNames)
    || (IsMemberNew(n) && n.callee.prop.name in InheritedNames)
  }

  function InheritedNew(): Node -> bool {
    n => IsInheritedNew(n)
  }

  /**
   * No inherited name is a class of the table, so a `new` the rule fails on is never one it
   * rewrites.
   */
  lemma {:induction false} InheritedNotMapped(n: Node)
    ensures !(IsInheritedNew(n) && IsMappedNew(IntegrationMap, n))
  {
    ClassInitials();
    assert forall x :: x in InheritedNames ==> !UpperInitial(x);
  }

  /** `new Sentry.Integrations.constructor()` makes a file with a Sentry import fail. */
  lemma {:induction false} ConstructorFails(src: string, sdk: string)
    requires HasSentryImportOrRequire(src)
    ensures var n := New(Member(Member(Id("Sentry"), Id(IntegrationsKey)), Id("constructor")), []);
            IntegrationsRule(src, sdk, [ExprStmt(n, [])]) == Failed
  {
    var n := New(Member(Member(Id("Sentry"), Id(IntegrationsKey)), Id("constructor")), []);
    StatementHolds(n);
    assert [ExprStmt(n, [])][0] == ExprStmt(n, []);
  }

  lemma {:induction false} StatementHolds(n: Node)
    requires n == New(Member(Member(Id("Sentry"), Id(IntegrationsKey)), Id("constructor")), [])
    ensures Exists(InheritedNew(), ExprStmt(n, []))
  {
    assert "constructor" in InheritedNames;
    assert InheritedNew()(n);
    assert Exists(InheritedNew(), n);
    assert Children(ExprStmt(n, []))[0] == n;
  }

  /**
   * The three searches in one: they look at disjoint callee shapes made of identifiers only,
   * and each turns a `new` into a call, so no search sees another's work.
   */
  function NewToCallAt(m: map<string, string>, n: Node): (r: Node)
    ensures IsMappedQualifiedNew(m, n) ==>
      r == Call(Member(n.callee.obj.obj, Id(m[n.callee.prop.name])), n.args)
    ensures IsBareNew(n) && n.callee.name in m ==>
      r == Call(Id(m[n.callee.name]), n.args)
    ensures IsMemberNew(n) && n.callee.prop.name in m ==>
      r == Call(Member(n.callee.obj, Id(m[n.callee.prop.name])), n.args)
    ensures !IsMappedNew(m, n) ==> r == n
  {
    if IsMappedQualifiedNew(m, n) then
      Call(Member(n.callee.obj.obj, Id(m[n.callee.prop.name])), n.args)
    else if IsBareNew(n) && n.callee.name in m then
      Call(Id(m[n.callee.name]), n.args)
    else if IsMemberNew(n) && n.callee.prop.name in m then
      Call(Member(n.callee.obj, Id(m[n.callee.prop.name])), n.args)
    else n
  }

  /** Another middle name than `Integrations` is left alone: `new Sentry.SomethingElse.Span()`. */
  lemma {:induction false} OtherMiddleStays(n: Node)
    requires IsQualifiedNew(n) && n.callee.obj.prop.name != IntegrationsKey
    ensures NewToCallAt(IntegrationMap, n) == n
  {
  }

  function NewToCallRule(m: map<string, string>): Node -> Node {
    n => NewToCallAt(m, n)
  }

  function NoMappedNew(m: map<string, string>): Node -> bool {
    n => !IsMappedNew(m, n)
  }

  function MappedNew(m: map<string, string>): Node -> bool {
    n => IsMappedNew(m, n)
  }

  /** The class-to-factory pass over the whole tree. */
  function RewriteNews(m: map<string, string>, p: Program): Program {
    MapProgram(NewToCallRule(m), p)
  }

  lemma {:induction false} NewToCallEstablishes(m: map<string, string>)
    ensures Establishes(NewToCallRule(m), NoMappedNew(m))
    ensures Fixes(NewToCallRule(m), NoMappedNew(m))
  {
    forall x: Node | forall i :: 0 <= i < |Children(x)| ==> Every(NoMappedNew(m), Children(x)[i])
      ensures Every(NoMappedNew(m), NewToCallAt(m, x))
    {
      NewToCallEvery(m, x);
    }
  }

  /** The call a rewrite builds holds no known `new`, given that the old children held none. */
  lemma {:induction false} NewToCallEvery(m: map<string, string>, x: Node)
    requires forall i :: 0 <= i < |Children(x)| ==> Every(NoMappedNew(m), Children(x)[i])
    ensures Every(NoMappedNew(m), NewToCallAt(m, x))
  {
    var q := NoMappedNew(m);
    if IsMappedNew(m, x) {
      var y := NewToCallAt(m, x);
      assert Every(q, x.callee) by {
        assert Children(x)[0] == x.callee;
      }
      var callee := y.callee;
      assert Every(q, callee) by {
        if callee.Member? {
          assert Every(q, callee.obj) by {
            assert Children(x.callee)[0] == x.callee.obj;
            if IsMappedQualifiedNew(m, x) {
              assert Children(x.callee.obj)[0] == x.callee.obj.obj;
            }
          }
          assert Every(q, callee.prop);
          assert Children(callee) == [callee.obj, callee.prop];
        }
      }
      assert Children(y) == [callee] + x.args;
      assert forall i :: 1 <= i < |Children(y)| ==> Children(y)[i] == Children(x)[i];
    }
  }

  /** After the pass no `new` of a class of `m` is left, in any of the three forms. */
  lemma {:induction false} RewriteNewsComplete(m: map<string, string>, p: Program)
    ensures !ExistsIn(MappedNew(m), RewriteNews(m, p))
  {
    NewToCallEstablishes(m);
    forall i | 0 <= i < |p|
      ensures !Exists(MappedNew(m), RewriteNews(m, p)[i])
    {
      MapEstablishes(NewToCallRule(m), NoMappedNew(m), p[i]);
      EveryNotExists(NoMappedNew(m), MappedNew(m), RewriteNews(m, p)[i]);
    }
  }

  lemma {:induction false} RewriteNewsIdempotent(m: map<string, string>, p: Program)
    ensures RewriteNews(m, RewriteNews(m, p)) == RewriteNews(m, p)
  {
    NewToCallEstablishes(m);
    forall i | 0 <= i < |p|
      ensures RewriteNews(m, RewriteNews(m, p))[i] == RewriteNews(m, p)[i]
    {
      MapIdempotent(NewToCallRule(m), NoMappedNew(m), p[i]);
    }
  }

  /** Import declarations are not expressions: the pass leaves them as they are. */
  lemma {:induction false} RewriteNewsKeepsImports(m: map<string, string>, p: Program)
    ensures |RewriteNews(m, p)| == |p|
    ensures forall i :: 0 <= i < |p| && p[i].Import? ==> RewriteNews(m, p)[i] == p[i]
  {
    forall i | 0 <= i < |p| && p[i].Import?
      ensures RewriteNews(m, p)[i] == p[i]
    {
      MapLeaf(NewToCallRule(m), p[i]);
    }
  }

  // ---------------------------------------------------------------------------
  // The `Integrations` namespace binding

  function ImportedKey(sp: Spec): Option<string> {
    if sp.Named? then Some(sp.imported) else None
  }

  /** `import { Integrations as V } from sdk`: the `V` of the first such specifier, unless empty. */
  function ImportBindingAt(sdk: string, n: Node): (r: seq<string>)
    ensures |r| <= 1
    ensures r != [] ==>
      && IsImportOf(n, sdk) && r[0] != ""
      && Some(Named(IntegrationsKey, r[0])) == First(n.specs, ImportedKey, IntegrationsKey)
  {
    if IsImportOf(n, sdk) then
      match First(n.specs, ImportedKey, IntegrationsKey)
      case Some(sp) => if sp.local != "" then [sp.local] else []
      case None => []
    else []
  }

  /** A declaration one of whose declarators is `require(sdk)`. */
  predicate IsSdkRequireDecl(n: Node, sdk: string) {
    n.VarDecl? && exists j :: 0 <= j < |n.decls| && n.decls[j].Declarator? && RequiresPackage(n.decls[j].init, sdk)
  }

  /** The values bound to an `Integrations` key in one destructuring pattern. */
  function PatternBindings(props: seq<PatProp>): (r: seq<string>)
    ensures forall x :: x in r ==> x != "" && KeyValue(IntegrationsKey, x) in props
  {
    if |props| == 0 then []
    else
      (if props[0].KeyValue? && props[0].key == IntegrationsKey && props[0].value != "" then [props[0].value] else [])
      + PatternBindings(props[1..])
  }

  /** `const { Integrations: V } = require(sdk)`: every such `V` of every declarator, in order. */
  function RequireBindingsAt(sdk: string, n: Node): seq<string> {
    if IsSdkRequireDecl(n, sdk) then
      Concat(seq(|n.decls|, j requires 0 <= j < |n.decls| =>
        if n.decls[j].Declarator? && n.decls[j].id.PObj? then PatternBindings(n.decls[j].id.props) else []))
    else []
  }

  /** The name the `Integrations` object is bound to: the last binding found, imports first. */
  function IntegrationsBinding(sdk: string, p: Program): (r: string)
    ensures r != "" ==> r in CollectIn(n => ImportBindingAt(sdk, n), p) + CollectIn(n => RequireBindingsAt(sdk, n), p)
  {
    var names := CollectIn(n => ImportBindingAt(sdk, n), p) + CollectIn(n => RequireBindingsAt(sdk, n), p);
    if names == [] then "" else names[|names| - 1]
  }

  // ---------------------------------------------------------------------------
  // `Integrations.xxx()` calls

  /** `v.fn(…)` with `fn` a factory name. */
  predicate IsFactoryCallOn(v: string, n: Node) {
    n.Call? && n.callee.Member? && n.callee.obj == Id(v) && n.callee.prop.Id? && n.callee.prop.name in IntegrationFunctions
  }

  function FlattenFactoryAt(v: string, n: Node): (r: Node)
    ensures IsFactoryCallOn(v, n) ==> r == Call(Id(n.callee.prop.name), n.args)
    ensures !IsFactoryCallOn(v, n) ==> r == n
  {
    if IsFactoryCallOn(v, n) then Call(Id(n.callee.prop.name), n.args) else n
  }

  function FlattenFactoryRule(v: string): Node -> Node {
    n => FlattenFactoryAt(v, n)
  }

  function NoFactoryCallOn(v: string): Node -> bool {
    n => !IsFactoryCallOn(v, n)
  }

  function FactoryCallOn(v: string): Node -> bool {
    n => IsFactoryCallOn(v, n)
  }

  function FlattenFactoryCalls(v: string, p: Program): Program {
    MapProgram(FlattenFactoryRule(v), p)
  }

  lemma {:induction false} FlattenFactoryEstablishes(v: string)
    ensures Establishes(FlattenFactoryRule(v), NoFactoryCallOn(v))
    ensures Fixes(FlattenFactoryRule(v), NoFactoryCallOn(v))
  {
    var f, q := FlattenFactoryRule(v), NoFactoryCallOn(v);
    forall x: Node | forall i :: 0 <= i < |Children(x)| ==> Every(q, Children(x)[i])
      ensures Every(q, f(x))
    {
      if IsFactoryCallOn(v, x) {
        FlattenedCallEvery(v, x);
      }
    }
  }

  /** A flattened call whose arguments hold no factory call on `v` holds none either. */
  lemma {:induction false} FlattenedCallEvery(v: string, x: Node)
    requires IsFactoryCallOn(v, x)
    requires forall i :: 0 <= i < |Children(x)| ==> Every(NoFactoryCallOn(v), Children(x)[i])
    ensures Every(NoFactoryCallOn(v), FlattenFactoryAt(v, x))
  {
    var q := NoFactoryCallOn(v);
    var y := FlattenFactoryAt(v, x);
    var leaf := Id(x.callee.prop.name);
    assert Every(q, leaf);
    assert Children(y) == [leaf] + x.args;
    forall i | 0 <= i < |Children(y)|
      ensures Every(q, Children(y)[i])
    {
      if i > 0 {
        assert Children(y)[i] == Children(x)[i];
      }
    }
  }

  /** No `v.fn()` with a factory `fn` is left after the pass. */
  lemma {:induction false} FlattenFactoryComplete(v: string, p: Program)
    ensures !ExistsIn(FactoryCallOn(v), FlattenFactoryCalls(v, p))
  {
    FlattenFactoryEstablishes(v);
    forall i | 0 <= i < |p|
      ensures !Exists(FactoryCallOn(v), FlattenFactoryCalls(v, p)[i])
    {
      MapEstablishes(FlattenFactoryRule(v), NoFactoryCallOn(v), p[i]);
      EveryNotExists(NoFactoryCallOn(v), FactoryCallOn(v), FlattenFactoryCalls(v, p)[i]);
    }
  }

  lemma {:induction false} FlattenFactoryIdempotent(v: string, p: Program)
    ensures FlattenFactoryCalls(v, FlattenFactoryCalls(v, p)) == FlattenFactoryCalls(v, p)
  {
    FlattenFactoryEstablishes(v);
    forall i | 0 <= i < |p|
      ensures FlattenFactoryCalls(v, FlattenFactoryCalls(v, p))[i] == FlattenFactoryCalls(v, p)[i]
    {
      MapIdempotent(FlattenFactoryRule(v), NoFactoryCallOn(v), p[i]);
    }
  }

  /** A `v.fn()` call by factory name. */
  function CallsFactory(v: string, fn: string): Node -> bool {
    n => IsFactoryCallOn(v, n) && n.callee.prop.name == fn
  }

  function FactoryNameAt(v: string, n: Node): seq<string> {
    if IsFactoryCallOn(v, n) then [n.callee.prop.name] else []
  }

  /** The factories the pass calls, each once, in document order (`integrationsUsed`). */
  function FactoriesUsed(v: string, p: Program): (r: seq<string>)
    ensures NoDuplicates(r)
    ensures forall fn :: fn in r <==> ExistsIn(CallsFactory(v, fn), p)
    ensures forall fn :: fn in r ==> fn in IntegrationFunctions
  {
    var g := n => FactoryNameAt(v, n);
    var r := Distinct(CollectIn(g, p));
    assert forall fn :: fn in r <==> ExistsIn(CallsFactory(v, fn), p) by {
      forall fn
        ensures fn in r <==> ExistsIn(CallsFactory(v, fn), p)
      {
        CollectInHas(g, CallsFactory(v, fn), fn, p);
      }
    }
    assert forall fn :: fn in r ==> fn in IntegrationFunctions by {
      forall fn | fn in r
        ensures fn in IntegrationFunctions
      {
        CollectInHas(g, CallsFactory(v, fn), fn, p);
        var i :| 0 <= i < |p| && Exists(CallsFactory(v, fn), p[i]);
        FactoryNameFromCall(v, fn, p[i]);
      }
    }
    r
  }

  lemma {:induction false} FactoryNameFromCall(v: string, fn: string, n: Node)
    requires Exists(CallsFactory(v, fn), n)
    ensures fn in IntegrationFunctions
  {
    if !CallsFactory(v, fn)(n) {
      var i :| 0 <= i < |Children(n)| && Exists(CallsFactory(v, fn), Children(n)[i]);
      FactoryNameFromCall(v, fn, Children(n)[i]);
    }
  }

  // ---------------------------------------------------------------------------
  // Import and require fixups

  predicate KeepSpec(sp: Spec) {
    sp.Named? && sp.imported != IntegrationsKey
  }

  function Unaliased(x: string): Spec {
    Named(x, x)
  }

  /**
   * The specifiers of an import that named `Integrations`: every non-named specifier and the
   * `Integrations` one are dropped, then each used factory is added unless already bound.
   */
  function FixImportSpecs(specs: seq<Spec>, used: seq<string>): (r: seq<Spec>)
    requires IntegrationsKey !in used
    ensures |Filter(specs, KeepSpec)| <= |r| && r[..|Filter(specs, KeepSpec)|] == Filter(specs, KeepSpec)
    ensures forall j :: 0 <= j < |r| ==> r[j].Named? && r[j].imported != IntegrationsKey
    ensures forall sp :: sp in specs && KeepSpec(sp) ==> sp in r
    ensures forall fn :: fn in used ==> HasKey(r, SpecKey, fn)
    ensures forall j :: |Filter(specs, KeepSpec)| <= j < |r| ==>
      r[j].Named? && r[j].imported == r[j].local && r[j].local in used
      && forall k :: 0 <= k < j ==> SpecKey(r[k]) != Some(r[j].local)
  {
    var kept := Filter(specs, KeepSpec);
    var r := AppendAbsent(kept, used, SpecKey, Unaliased);
    FixedSpecs(specs, used, kept, r);
    r
  }

  lemma {:induction false} FixedSpecs(specs: seq<Spec>, used: seq<string>, kept: seq<Spec>, r: seq<Spec>)
    requires IntegrationsKey !in used
    requires kept == Filter(specs, KeepSpec)
    requires forall x :: SpecKey(Unaliased(x)) == Some(x)
    requires r == AppendAbsent(kept, used, SpecKey, Unaliased)
    ensures forall j :: 0 <= j < |r| ==> r[j].Named? && r[j].imported != IntegrationsKey
    ensures forall j :: |kept| <= j < |r| ==>
      r[j].Named? && r[j].imported == r[j].local && r[j].local in used
      && forall k :: 0 <= k < j ==> SpecKey(r[k]) != Some(r[j].local)
  {
    forall j | 0 <= j < |r|
      ensures r[j].Named? && r[j].imported != IntegrationsKey
    {
      if j < |kept| {
        assert r[j] == r[..|kept|][j] == kept[j];
      } else {
        assert r[j] == Unaliased(SpecKey(r[j]).value);
      }
    }
  }

  predicate HasIntegrationsSpec(n: Node) {
    n.Import? && exists j :: 0 <= j < |n.specs| && n.specs[j].Named? && n.specs[j].imported == IntegrationsKey
  }

  function FixImportAt(sdk: string, used: seq<string>, n: Node): Node
    requires IntegrationsKey !in used
  {
    if IsImportOf(n, sdk) && HasIntegrationsSpec(n) then Import(sdk, FixImportSpecs(n.specs, used)) else n
  }

  function FixImports(sdk: string, used: seq<string>, p: Program): (r: Program)
    requires IntegrationsKey !in used
    ensures |r| == |p|
    ensures forall i :: 0 <= i < |p| && p[i].Import? ==> r[i] == FixImportAt(sdk, used, p[i])
    ensures forall i :: 0 <= i < |p| && !p[i].Import? ==> r[i] == p[i]
  {
    seq(|p|, i requires 0 <= i < |p| => FixImportAt(sdk, used, p[i]))
  }

  predicate KeepProp(pp: PatProp) {
    Keyed(pp) && pp.key != IntegrationsKey
  }

  /** The key a destructured property reads. */
  function PropName(pp: PatProp): Option<string> {
    if Keyed(pp) then Some(pp.key) else None
  }

  function Shorthand(x: string): PatProp {
    KeyValue(x, x)
  }

  /** The require analogue: drop the `Integrations` key, add shorthand properties for absent keys. */
  function FixPatternProps(props: seq<PatProp>, used: seq<string>): (r: seq<PatProp>)
    requires IntegrationsKey !in used
    ensures |Filter(props, KeepProp)| <= |r| && r[..|Filter(props, KeepProp)|] == Filter(props, KeepProp)
    ensures forall j :: 0 <= j < |r| ==> Keyed(r[j]) && r[j].key != IntegrationsKey
    ensures forall pp :: pp in props && KeepProp(pp) ==> pp in r
    ensures forall fn :: fn in used ==> HasKey(r, PropName, fn)
    ensures forall j :: |Filter(props, KeepProp)| <= j < |r| ==>
      r[j].KeyValue? && r[j] == KeyValue(r[j].key, r[j].key) && r[j].key in used
      && forall k :: 0 <= k < j ==> PropName(r[k]) != Some(r[j].key)
  {
    var kept := Filter(props, KeepProp);
    var r := AppendAbsent(kept, used, PropName, Shorthand);
    FixedProps(props, used, kept, r);
    r
  }

  lemma {:induction false} FixedProps(props: seq<PatProp>, used: seq<string>, kept: seq<PatProp>, r: seq<PatProp>)
    requires IntegrationsKey !in used
    requires kept == Filter(props, KeepProp)
    requires forall x :: PropName(Shorthand(x)) == Some(x)
    requires r == AppendAbsent(kept, used, PropName, Shorthand)
    ensures forall j :: 0 <= j < |r| ==> Keyed(r[j]) && r[j].key != IntegrationsKey
    ensures forall j :: |kept| <= j < |r| ==>
      r[j].KeyValue? && r[j] == KeyValue(r[j].key, r[j].key) && r[j].key in used
      && forall k :: 0 <= k < j ==> PropName(r[k]) != Some(r[j].key)
  {
    forall j | 0 <= j < |r|
      ensures Keyed(r[j]) && r[j].key != IntegrationsKey
    {
      if j < |kept| {
        assert r[j] == r[..|kept|][j] == kept[j];
      } else {
        assert r[j] == Shorthand(PropName(r[j]).value);
      }
    }
  }

  function FixDeclarator(used: seq<string>, d: Node): Node
    requires IntegrationsKey !in used
  {
    if d.Declarator? && d.id.PObj? then Declarator(PObj(FixPatternProps(d.id.props, used)), d.init) else d
  }

  function FixRequireAt(sdk: string, used: seq<string>, n: Node): (r: Node)
    requires IntegrationsKey !in used
    ensures IsSdkRequireDecl(n, sdk) ==>
      r == VarDecl(seq(|n.decls|, j requires 0 <= j < |n.decls| => FixDeclarator(used, n.decls[j])), n.notes)
    ensures !IsSdkRequireDecl(n, sdk) ==> r == n
  {
    if IsSdkRequireDecl(n, sdk) then
      VarDecl(seq(|n.decls|, j requires 0 <= j < |n.decls| => FixDeclarator(used, n.decls[j])), n.notes)
    else n
  }

  function FixRequires(sdk: string, used: seq<string>, p: Program): Program
    requires IntegrationsKey !in used
  {
    MapProgram(n => FixRequireAt(sdk, used, n), p)
  }

  // ---------------------------------------------------------------------------
  // What the steps with an SDK leave behind

  /** Class names become factory names in the imports and requires of the SDK, then of the integrations package. */
  function ClassesRenamed(src: string, sdk: string, q: Program): Program {
    var q1 := ReplaceImported(src, sdk, IntegrationMap, q).0;
    ReplaceImported(src, IntegrationsPackage, IntegrationMap, q1).0
  }

  /** No import of `sdk` in `p` is a lone namespace import. */
  predicate NoNamespaceImport(sdk: string, p: Program) {
    forall x :: x in p && IsImportOf(x, sdk) ==> !IsLoneNamespace(x)
  }

  /** A known `new` is judged by its callee, which is made of identifiers and member expressions. */
  lemma {:induction false} MappedNewByHead(m: map<string, string>)
    ensures DecidedByHead(MappedNew(m), IdOrMember())
  {
    var keep := IdOrMember();
    forall x | MappedNew(m)(x)
      ensures |Children(x)| > 0 && Every(keep, Children(x)[0])
    {
      IdPathEvery(x.callee);
    }
  }

  /** A `v.fn(…)` factory call is judged by its callee. */
  lemma {:induction false} FactoryCallByHead(v: string)
    ensures DecidedByHead(FactoryCallOn(v), IdOrMember())
  {
    var bad := FactoryCallOn(v);
    forall x | bad(x)
      ensures |Children(x)| > 0 && Every(IdOrMember(), Children(x)[0])
    {
      assert Children(x)[0] == x.callee;
      IdPathEvery(x.callee);
    }
    forall x, cs | |cs| == |Children(x)| && |cs| > 0 && cs[0] == Children(x)[0] && bad(WithChildren(x, cs))
      ensures bad(x)
    {
      FactoryCallFromCallee(v, x, cs);
    }
  }

  /** Only a call has a factory call's shape, and a call's callee is its first child. */
  lemma {:induction false} FactoryCallFromCallee(v: string, x: Node, cs: seq<Node>)
    requires |cs| == |Children(x)| && |cs| > 0 && cs[0] == Children(x)[0]
    ensures IsFactoryCallOn(v, WithChildren(x, cs)) ==> IsFactoryCallOn(v, x)
  {
    if x.Call? {
      assert WithChildren(x, cs).callee == x.callee;
    }
  }

  /** Flattening `v.fn()` builds a call from a leaf and the call's arguments. */
  lemma {:induction false} FlattenKeepsCleanNoNew(v: string)
    ensures KeepsClean(FlattenFactoryRule(v), MappedNew(IntegrationMap))
  {
    var f, bad := FlattenFactoryRule(v), MappedNew(IntegrationMap);
    forall x | ChildrenClean(bad, x)
      ensures ChildrenClean(bad, f(x))
    {
      if IsFactoryCallOn(v, x) {
        FlattenedChildrenClean(v, x);
      }
    }
  }

  lemma {:induction false} FlattenedChildrenClean(v: string, x: Node)
    requires IsFactoryCallOn(v, x)
    requires ChildrenClean(MappedNew(IntegrationMap), x)
    ensures ChildrenClean(MappedNew(IntegrationMap), FlattenFactoryAt(v, x))
  {
    var bad, leaf := MappedNew(IntegrationMap), Id(x.callee.prop.name);
    assert FlattenFactoryAt(v, x) == Call(leaf, x.args);
    assert !Exists(bad, leaf) by {
      assert Children(leaf) == [];
      assert !bad(leaf);
    }
    CalleeSwapClean(bad, x, leaf);
  }

  /** Swapping a call's callee for a clean one keeps the call's children clean. */
  lemma {:induction false} CalleeSwapClean(bad: Node -> bool, x: Node, leaf: Node)
    requires x.Call?
    requires !Exists(bad, leaf)
    requires ChildrenClean(bad, x)
    ensures ChildrenClean(bad, Call(leaf, x.args))
  {
    var y := Call(leaf, x.args);
    forall i | 0 <= i < |Children(y)|
      ensures !Exists(bad, Children(y)[i])
    {
      if i == 0 {
        assert Children(y)[0] == leaf;
      } else {
        assert Children(y)[i] == x.args[i - 1] == Children(x)[i];
      }
    }
  }

  /** Flattening `v.fn()` builds calls only, so it keeps a tree free of known `new`s. */
  lemma {:induction false} FlattenKeepsNoNew(v: string, p: Program)
    requires !ExistsIn(MappedNew(IntegrationMap), p)
    ensures !ExistsIn(MappedNew(IntegrationMap), FlattenFactoryCalls(v, p))
  {
    FlattenKeepsCleanNoNew(v);
    MappedNewByHead(IntegrationMap);
    MapProgramKeepsAbsentHead(FlattenFactoryRule(v), IdOrMember(), MappedNew(IntegrationMap), p);
  }

  /** Editing import declarations keeps absent a node shape no import has. */
  lemma {:induction false} FixImportsKeepsAbsent(sdk: string, used: seq<string>, bad: Node -> bool, p: Program)
    requires IntegrationsKey !in used
    requires forall x: Node :: x.Import? ==> !bad(x)
    requires !ExistsIn(bad, p)
    ensures !ExistsIn(bad, FixImports(sdk, used, p))
  {
    var r := FixImports(sdk, used, p);
    forall i | 0 <= i < |r|
      ensures !Exists(bad, r[i])
    {
      if p[i].Import? {
        assert Children(r[i]) == [];
      }
    }
  }

  /** Editing require patterns keeps absent a head-decided shape no declaration or declarator has. */
  lemma {:induction false} FixRequiresKeepsAbsent(sdk: string, used: seq<string>, bad: Node -> bool, p: Program)
    requires IntegrationsKey !in used
    requires DecidedByHead(bad, IdOrMember())
    requires forall x: Node :: (x.VarDecl? || x.Declarator?) ==> !bad(x)
    requires !ExistsIn(bad, p)
    ensures !ExistsIn(bad, FixRequires(sdk, used, p))
  {
    var f := n => FixRequireAt(sdk, used, n);
    forall x | ChildrenClean(bad, x)
      ensures ChildrenClean(bad, f(x))
    {
      if IsSdkRequireDecl(x, sdk) {
        FixedRequireClean(sdk, used, bad, x);
      }
    }
    MapProgramKeepsAbsentHead(f, IdOrMember(), bad, p);
  }

  /** Fixing a require's declarators keeps their initialisers, so it keeps them clean. */
  lemma {:induction false} FixedRequireClean(sdk: string, used: seq<string>, bad: Node -> bool, x: Node)
    requires IntegrationsKey !in used
    requires IsSdkRequireDecl(x, sdk)
    requires forall y: Node :: y.Declarator? ==> !bad(y)
    requires ChildrenClean(bad, x)
    ensures ChildrenClean(bad, FixRequireAt(sdk, used, x))
  {
    var y := FixRequireAt(sdk, used, x);
    assert Children(x) == x.decls;
    assert Children(y) == y.decls;
    forall j | 0 <= j < |y.decls|
      ensures !Exists(bad, y.decls[j])
    {
      assert y.decls[j] == FixDeclarator(used, x.decls[j]);
      FixedDeclaratorClean(used, bad, x.decls[j]);
    }
  }

  lemma {:induction false} FixedDeclaratorClean(used: seq<string>, bad: Node -> bool, d: Node)
    requires IntegrationsKey !in used
    requires forall y: Node :: y.Declarator? ==> !bad(y)
    requires !Exists(bad, d)
    ensures !Exists(bad, FixDeclarator(used, d))
  {
    if d.Declarator? && d.id.PObj? {
      var e := Declarator(PObj(FixPatternProps(d.id.props, used)), d.init);
      assert FixDeclarator(used, d) == e;
      assert Children(d) == [d.init];
      assert !Exists(bad, d.init);
      assert Children(e) == [d.init];
    }
  }

  /** Fixing requires leaves every import declaration where it was and makes none. */
  lemma {:induction false} FixRequiresImports(sdk: string, used: seq<string>, p: Program, i: nat)
    requires IntegrationsKey !in used
    requires i < |p|
    ensures FixRequires(sdk, used, p)[i].Import? <==> p[i].Import?
    ensures p[i].Import? ==> FixRequires(sdk, used, p)[i] == p[i]
  {
    var f := n => FixRequireAt(sdk, used, n);
    if p[i].Import? {
      MapLeaf(f, p[i]);
    } else {
      var w := MapStep(f, p[i]);
    }
  }

  /** After fixing, no import of `sdk` binds `Integrations`. */
  lemma {:induction false} FixImportsUnbind(sdk: string, used: seq<string>, p: Program, x: Node)
    requires IntegrationsKey !in used
    requires x in FixImports(sdk, used, p) && IsImportOf(x, sdk)
    ensures !HasIntegrationsSpec(x)
  {
    var r := FixImports(sdk, used, p);
    var i :| 0 <= i < |r| && r[i] == x;
    assert p[i].Import?;
  }

  /** The package's specifiers come from its imports. */
  lemma {:induction false} PkgSpecsFrom(q: Program, pkg: string, sp: Spec) returns (x: Node)
    requires sp in PkgSpecs(q, pkg)
    ensures x in q && IsImportOf(x, pkg) && sp in x.specs
  {
    assert |q| > 0;
    if IsImportOf(q[0], pkg) && sp in q[0].specs {
      x := q[0];
    } else {
      x := PkgSpecsFrom(q[1..], pkg, sp);
    }
  }

  /** The factories the SDK step imports: those called on the `Integrations` binding, if any. */
  function UsedFactories(src: string, sdk: string, q: Program): (used: seq<string>)
    ensures IntegrationsKey !in used
  {
    var q2 := ClassesRenamed(src, sdk, q);
    var v := IntegrationsBinding(sdk, q2);
    FactoriesAreNotClasses();
    if v == "" then [] else FactoriesUsed(v, q2)
  }

  /** The tree the SDK step fixes imports in: class names renamed, then `v.fn()` flattened. */
  function Flattened(src: string, sdk: string, q: Program): Program {
    var q2 := ClassesRenamed(src, sdk, q);
    var v := IntegrationsBinding(sdk, q2);
    if v == "" then q2 else FlattenFactoryCalls(v, q2)
  }

  /** With an SDK, no import of the SDK still binds `Integrations`. */
  lemma {:induction false} WithSdkUnbinds(src: string, sdk: string, q: Program)
    ensures forall x :: x in WithSdk(src, sdk, q) && IsImportOf(x, sdk) ==> !HasIntegrationsSpec(x)
  {
    var used := UsedFactories(src, sdk, q);
    var fixed := FixImports(sdk, used, Flattened(src, sdk, q));
    var merged := DedupeImportStatements(sdk, fixed);
    var r := FixRequires(sdk, used, merged);
    DedupeSpecsFrom(sdk, fixed);
    forall x | x in r && IsImportOf(x, sdk)
      ensures !HasIntegrationsSpec(x)
    {
      var i :| 0 <= i < |r| && r[i] == x;
      FixRequiresImports(sdk, used, merged, i);
      if HasIntegrationsSpec(x) {
        var j :| 0 <= j < |x.specs| && x.specs[j].Named? && x.specs[j].imported == IntegrationsKey;
        assert x.specs[j] in x.specs;
        var y := PkgSpecsFrom(fixed, sdk, x.specs[j]);
        FixImportsUnbind(sdk, used, Flattened(src, sdk, q), y);
        assert false;
      }
    }
  }

  /**
   * The import fix, the merge and the require fix keep absent a head-decided shape that no
   * import, declaration or declarator has, unless the result imports the SDK as a lone namespace.
   */
  lemma {:induction false} ImportStepsKeepAbsent(sdk: string, used: seq<string>, bad: Node -> bool, t: Program)
    requires IntegrationsKey !in used
    requires DecidedByHead(bad, IdOrMember())
    requires forall x: Node :: (x.Import? || x.VarDecl? || x.Declarator?) ==> !bad(x)
    requires !ExistsIn(bad, t)
    ensures var r := FixRequires(sdk, used, DedupeImportStatements(sdk, FixImports(sdk, used, t)));
      NoNamespaceImport(sdk, r) ==> !ExistsIn(bad, r)
  {
    var fixed := FixImports(sdk, used, t);
    var merged := DedupeImportStatements(sdk, fixed);
    if NoNamespaceImport(sdk, FixRequires(sdk, used, merged)) {
      MergedWithoutNamespace(sdk, used, fixed);
      FixImportsKeepsAbsent(sdk, used, bad, t);
      DedupeKeepsAbsent(sdk, bad, fixed);
      FixRequiresKeepsAbsent(sdk, used, bad, merged);
    }
  }

  /**
   * With an SDK and a tree without known `new`s (as the class pass leaves it), the step leaves
   * none unless the result imports the SDK as a lone namespace.
   */
  lemma {:induction false} WithSdkNoNew(src: string, sdk: string, q: Program)
    requires !ExistsIn(MappedNew(IntegrationMap), q)
    ensures var r := WithSdk(src, sdk, q);
      NoNamespaceImport(sdk, r) ==> !ExistsIn(MappedNew(IntegrationMap), r)
  {
    MappedNewByHead(IntegrationMap);
    FlattenedKeepsNoNew(src, sdk, q);
    ImportStepsKeepAbsent(sdk, UsedFactories(src, sdk, q), MappedNew(IntegrationMap), Flattened(src, sdk, q));
  }

  /** Renaming the imported classes and flattening `v.fn()` calls make no known `new`. */
  lemma {:induction false} FlattenedKeepsNoNew(src: string, sdk: string, q: Program)
    requires !ExistsIn(MappedNew(IntegrationMap), q)
    ensures !ExistsIn(MappedNew(IntegrationMap), Flattened(src, sdk, q))
  {
    var bad := MappedNew(IntegrationMap);
    MappedNewByHead(IntegrationMap);
    var q1 := ReplaceImported(src, sdk, IntegrationMap, q).0;
    ReplaceImportedKeepsAbsent(src, sdk, IntegrationMap, bad, q);
    ReplaceImportedKeepsAbsent(src, IntegrationsPackage, IntegrationMap, bad, q1);
    var q2 := ClassesRenamed(src, sdk, q);
    var v := IntegrationsBinding(sdk, q2);
    if v != "" {
      FlattenKeepsNoNew(v, q2);
    }
  }

  /**
   * With an SDK whose `Integrations` binding is `v`, no `v.fn()` call is left unless the result
   * imports the SDK as a lone namespace.
   */
  lemma {:induction false} WithSdkNoFactoryCall(src: string, sdk: string, q: Program)
    ensures var r := WithSdk(src, sdk, q);
      var v := IntegrationsBinding(sdk, ClassesRenamed(src, sdk, q));
      NoNamespaceImport(sdk, r) && v != "" ==> !ExistsIn(FactoryCallOn(v), r)
  {
    var q2 := ClassesRenamed(src, sdk, q);
    var v := IntegrationsBinding(sdk, q2);
    if v != "" {
      FlattenFactoryComplete(v, q2);
      FactoryCallByHead(v);
      ImportStepsKeepAbsent(sdk, UsedFactories(src, sdk, q), FactoryCallOn(v), Flattened(src, sdk, q));
    }
  }

  /**
   * A merge that found a lone namespace import with a name keeps it, and fixing requires keeps
   * it too: a result without one was merged without folding.
   */
  lemma {:induction false} MergedWithoutNamespace(sdk: string, used: seq<string>, fixed: Program)
    requires IntegrationsKey !in used
    requires NoNamespaceImport(sdk, FixRequires(sdk, used, DedupeImportStatements(sdk, fixed)))
    ensures NamespaceImportIndex(fixed, sdk).Some? ==> NamespaceAlias(fixed[NamespaceImportIndex(fixed, sdk).value]) == ""
  {
    NamespaceKept(sdk, used, fixed);
  }

  lemma {:induction false} NamespaceKept(sdk: string, used: seq<string>, fixed: Program)
    requires IntegrationsKey !in used
    ensures NamespaceImportIndex(fixed, sdk).Some? && NamespaceAlias(fixed[NamespaceImportIndex(fixed, sdk).value]) != "" ==>
      !NoNamespaceImport(sdk, FixRequires(sdk, used, DedupeImportStatements(sdk, fixed)))
  {
    var merged := DedupeImportStatements(sdk, fixed);
    var r := FixRequires(sdk, used, merged);
    match NamespaceImportIndex(fixed, sdk)
    case Some(k) =>
      if NamespaceAlias(fixed[k]) != "" {
        assert fixed[k] in merged;
        var i :| 0 <= i < |merged| && merged[i] == fixed[k];
        FixRequiresImports(sdk, used, merged, i);
        assert r[i] in r;
      }
    case None =>
  }

  // ---------------------------------------------------------------------------
  // The rule

  /**
   * The steps taken with an SDK: class names in imports and requires of the SDK and of the
   * integrations package become factory names, `Integrations.fn()` calls lose the qualifier,
   * imports drop `Integrations` and gain the factories, the SDK imports are merged, and
   * requires are fixed like imports.
   */
  function WithSdk(src: string, sdk: string, q: Program): Program {
    var used := UsedFactories(src, sdk, q);
    FixRequires(sdk, used, DedupeImportStatements(sdk, FixImports(sdk, used, Flattened(src, sdk, q))))
  }

  /**
   * The rule on one script. Files without a Sentry import or require are unchanged. A file
   * with a `new` whose class name is inherited from `Object.prototype` fails, since the
   * lookup of that name gives no string; the replacements only touch `new`s of mapped
   * classes, so every search still meets such a `new`. Every other file is rewritten, and
   * its imports are touched only when an SDK was chosen.
   */
  function IntegrationsRule(src: string, sdk: string, p: Program): (r: Outcome)
    ensures r == Unchanged <==> !HasSentryImportOrRequire(src)
    ensures r == Failed <==> HasSentryImportOrRequire(src) && ExistsIn(InheritedNew(), p)
    ensures r.Changed? && sdk == "" ==>
      && r.prog == RewriteNews(IntegrationMap, p)
      && |r.prog| == |p|
      && (forall i :: 0 <= i < |p| && p[i].Import? ==> r.prog[i] == p[i])
      && !ExistsIn(MappedNew(IntegrationMap), r.prog)
    ensures r.Changed? && sdk != "" ==>
      && r.prog == WithSdk(src, sdk, RewriteNews(IntegrationMap, p))
      && (forall x :: x in r.prog && IsImportOf(x, sdk) ==> !HasIntegrationsSpec(x))
      && (NoNamespaceImport(sdk, r.prog) ==> !ExistsIn(MappedNew(IntegrationMap), r.prog))
      && (var v := IntegrationsBinding(sdk, ClassesRenamed(src, sdk, RewriteNews(IntegrationMap, p)));
          NoNamespaceImport(sdk, r.prog) && v != "" ==> !ExistsIn(FactoryCallOn(v), r.prog))
  {
    if !HasSentryImportOrRequire(src) then Unchanged
    else if ExistsIn(InheritedNew(), p) then Failed
    else
      var q := RewriteNews(IntegrationMap, p);
      RewriteNewsKeepsImports(IntegrationMap, p);
      RewriteNewsComplete(IntegrationMap, p);
      if sdk == "" then Changed(q)
      else
        WithSdkUnbinds(src, sdk, q);
        WithSdkNoNew(src, sdk, q);
        WithSdkNoFactoryCall(src, sdk, q);
        Changed(WithSdk(src, sdk, q))
  }

  /** A text the rule throws on: it has a Sentry import and constructs an inherited name. */
  predicate Throws(parseJs: string -> Program, s: string) {
    HasSentryImportOrRequire(s) && ExistsIn(InheritedNew(), parseJs(s))
  }

  /**
   * The rule's callback: a skipped text gives `undefined`, a changed one its printed tree.
   * `parseJs` and `printJs` stand for the JavaScript parser and printer.
   */
  function IntegrationsAnswer(parseJs: string -> Program, printJs: Program -> string, sdk: string, s: string)
    : (r: Dom.Answer)
    ensures r.Threw? <==> Throws(parseJs, s)
    ensures r.Undefined? <==> !HasSentryImportOrRequire(s)
  {
    match IntegrationsRule(s, sdk, parseJs(s))
    case Unchanged => Dom.Undefined
    case Changed(q) => Dom.Output(printJs(q))
    case Failed => Dom.Threw
  }

  /**
   * The rule on a file, through the script-block wrapper: a `.vue` or `.svelte` file throws
   * exactly when one of its script blocks does, whatever the other blocks give.
   */
  function IntegrationsFile(parse: Dom.Parser, render: Dom.Printer, parseJs: string -> Program,
                            printJs: Program -> string, sdk: string, source: string, fileName: string)
    : (r: Dom.Answer)
    ensures !Dom.IsHostFile(fileName) ==> (r.Threw? <==> Throws(parseJs, source))
    ensures Dom.IsHostFile(fileName) ==>
      var blocks := Dom.ParseScriptTagContents(parse, source);
      (r.Threw? <==> exists i :: 0 <= i < |blocks| && Throws(parseJs, blocks[i]))
  {
    Dom.WrapJscodeshift(parse, render, source, fileName, s => IntegrationsAnswer(parseJs, printJs, sdk, s)).0
  }
}

=== FILE: integrationsimports.dfy ===
/** The rule that moves `@sentry/integrations` imports and requires to the SDK package. */
module IntegrationsImports {
  import opened Ast
  import opened Normaliser
  import opened PackageMove

  const IntegrationsPackage := "@sentry/integrations"

  /**
   * The rule on one script (an absent SDK is the empty string). Files that neither import
   * nor require the integrations package, or runs without an SDK, are unchanged; in every
   * other file no import or require of the package is left once the SDK is another package.
   */
  function IntegrationsImportsRule(src: string, sdk: string, p: Program): (r: Outcome)
    ensures r == Unchanged <==> !HasImportOrRequire(src, IntegrationsPackage) || sdk == ""
    ensures r != Unchanged ==> r.Changed?
    ensures r.Changed? && sdk != IntegrationsPackage ==> Gone(r.prog, IntegrationsPackage)
  {
    if !HasImportOrRequire(src, IntegrationsPackage) || sdk == "" then Unchanged
    else Changed(MovePackage(IntegrationsPackage, sdk, p))
  }
}

=== FILE: migrationcomments.dfy ===
/**
 * The migration-comments rule: calls and constructions that have no automatic
 * migration are marked with a note saying what to use instead.
 */
module MigrationComments {
  import opened Wrappers
  import opened Ast
  import opened Dom
  import opened Seqs

  const SpanMessage := "Use `startInactiveSpan()` instead - see https://github.com/getsentry/sentry-javascript/blob/develop/docs/v8-new-performance-apis.md"
  const ClientMessage := "Use `setCurrentClient()` instead - see https://github.com/getsentry/sentry-javascript/blob/develop/docs/v8-initializing.md"
  const ActiveSpanMessage := "Use `getActiveSpan()` instead. If you use this only to start a child, use `startInactiveSpan({ onlyIfParent: true })` instead - see https://github.com/getsentry/sentry-javascript/blob/develop/docs/v8-new-performance-apis.md"
  const ScopeMessage := "Use `new Scope()` instead - see https://github.com/getsentry/sentry-javascript/blob/develop/docs/v8-initializing.md"

  /** The call names that get a note, and the note each gets. */
  const MethodComments: map<string, string> := map[
    "startTransaction" := SpanMessage,
    "startChild" := SpanMessage,
    "makeMain" := ClientMessage,
    "getActiveTransaction" := ActiveSpanMessage
  ]

  /** Four names: the two span starters share a note. */
  lemma {:induction false} MethodCommentsShape()
    ensures MethodComments.Keys == {"startTransaction", "startChild", "makeMain", "getActiveTransaction"}
    ensures MethodComments["startTransaction"] == MethodComments["startChild"]
    ensures |MethodComments| == 4
  {
  }

  /** The name a call is made by: a bare callee, or the property of a member callee. */
  function CalledName(n: Node): Option<string> {
    if n.Call? && n.callee.Id? then Some(n.callee.name)
    else if n.Call? && n.callee.Member? && n.callee.prop.Id? then Some(n.callee.prop.name)
    else None
  }

  /** First search: `name(…)`. */
  function BareCallMarker(n: Node): (r: seq<Marker>)
    ensures |r| <= 1
  {
    if n.Call? && n.callee.Id? && n.callee.name in MethodComments then [Marker(n, MethodComments[n.callee.name])]
    else []
  }

  /** Second search: `x.name(…)`, whatever `x` is. */
  function MemberCallMarker(n: Node): (r: seq<Marker>)
    ensures |r| <= 1
  {
    if n.Call? && n.callee.Member? && n.callee.prop.Id? && n.callee.prop.name in MethodComments then
      [Marker(n, MethodComments[n.callee.prop.name])]
    else []
  }

  /** `new Hub(…)` or `new x.Hub(…)`. */
  predicate IsNewHub(n: Node) {
    && n.New?
    && (n.callee == Id("Hub") || (n.callee.Member? && n.callee.prop == Id("Hub")))
  }

  /** Third search. */
  function NewHubMarker(n: Node): (r: seq<Marker>)
    ensures |r| <= 1
  {
    if IsNewHub(n) then [Marker(n, ScopeMessage)] else []
  }

  /** A node one of the three searches marks. */
  predicate IsMarkerSite(n: Node) {
    (CalledName(n).Some? && CalledName(n).value in MethodComments) || IsNewHub(n)
  }

  function MarkerSite(): Node -> bool {
    n => IsMarkerSite(n)
  }

  /** The test for being the node `x` itself, to say that `x` occurs in a tree. */
  function NodeIs(x: Node): Node -> bool {
    y => y == x
  }

  /** The markers of the three searches, one search after the other, each in document order. */
  function Markers(p: Program): seq<Marker> {
    CollectIn(BareCallMarker, p) + CollectIn(MemberCallMarker, p) + CollectIn(NewHubMarker, p)
  }

  /** The marker a node gets: the table's note for a named call, the `Scope` note for `new Hub`. */
  function NoteFor(n: Node): Option<string> {
    if CalledName(n).Some? && CalledName(n).value in MethodComments then Some(MethodComments[CalledName(n).value])
    else if IsNewHub(n) then Some(ScopeMessage)
    else None
  }

  /** Each marker names a marked node with the note that node calls for. */
  lemma {:induction false} MarkersSound(p: Program, m: Marker)
    requires m in Markers(p)
    ensures IsMarkerSite(m.site) && Some(m.message) == NoteFor(m.site)
    ensures ExistsIn(MarkerSite(), p)
  {
    if m in CollectIn(BareCallMarker, p) {
      BareCallSound();
      MarkerFrom(p, BareCallMarker, m);
    } else if m in CollectIn(MemberCallMarker, p) {
      MemberCallSound();
      MarkerFrom(p, MemberCallMarker, m);
    } else {
      NewHubSound();
      MarkerFrom(p, NewHubMarker, m);
    }
  }

  /** A search that only marks the node it is given, a marker site, with that node's note. */
  ghost predicate SoundSearch(g: Node -> seq<Marker>) {
    forall x, m :: m in g(x) ==> m.site == x && IsMarkerSite(x) && NoteFor(x) == Some(m.message)
  }

  lemma {:induction false} BareCallSound()
    ensures SoundSearch(BareCallMarker)
  {
    forall x, m | m in BareCallMarker(x)
      ensures m.site == x && IsMarkerSite(x) && NoteFor(x) == Some(m.message)
    {
      assert CalledName(x) == Some(x.callee.name);
    }
  }

  lemma {:induction false} MemberCallSound()
    ensures SoundSearch(MemberCallMarker)
  {
    forall x, m | m in MemberCallMarker(x)
      ensures m.site == x && IsMarkerSite(x) && NoteFor(x) == Some(m.message)
    {
      assert CalledName(x) == Some(x.callee.prop.name);
    }
  }

  lemma {:induction false} NewHubSound()
    ensures SoundSearch(NewHubMarker)
  {
    forall x, m | m in NewHubMarker(x)
      ensures m.site == x && IsMarkerSite(x) && NoteFor(x) == Some(m.message)
    {
      assert CalledName(x).None?;
    }
  }

  /** A marker one search reports comes from a node of the tree, which it names. */
  lemma {:induction false} MarkerFrom(p: Program, g: Node -> seq<Marker>, m: Marker)
    requires SoundSearch(g)
    requires m in CollectIn(g, p)
    ensures IsMarkerSite(m.site) && Some(m.message) == NoteFor(m.site)
    ensures ExistsIn(MarkerSite(), p)
  {
    var i, x := MarkerNode(p, g, m);
    assert m.site == x && IsMarkerSite(x) && NoteFor(x) == Some(m.message);
    SiteIn(p, i, x);
  }

  /** A marker a search reports was reported at a node of one of the statements. */
  lemma {:induction false} MarkerNode(p: Program, g: Node -> seq<Marker>, m: Marker) returns (i: nat, x: Node)
    requires m in CollectIn(g, p)
    ensures i < |p| && Exists(NodeIs(x), p[i]) && m in g(x)
  {
    var from := (n: Node) => m in g(n);
    CollectInHas(g, from, m, p);
    i :| 0 <= i < |p| && Exists(from, p[i]);
    x := SomeNode(from, p[i]);
  }

  /** A marker site of one of the statements is a marker site of the program. */
  lemma {:induction false} SiteIn(p: Program, i: nat, x: Node)
    requires i < |p| && Exists(NodeIs(x), p[i]) && IsMarkerSite(x)
    ensures ExistsIn(MarkerSite(), p)
  {
    ExistsStronger(NodeIs(x), MarkerSite(), p[i]);
  }

  /** Every node the searches look for is marked, with its note. */
  lemma {:induction false} MarkersComplete(p: Program, i: nat, n: Node)
    requires i < |p| && Exists(NodeIs(n), p[i])
    requires IsMarkerSite(n)
    ensures Marker(n, NoteFor(n).value) in Markers(p)
  {
    var m := Marker(n, NoteFor(n).value);
    var at := NodeIs(n);
    assert ExistsIn(at, p);
    if n.Call? && n.callee.Id? && n.callee.name in MethodComments {
      CollectInHas(BareCallMarker, x => m in BareCallMarker(x), m, p);
      FoundWhere(p, at, x => m in BareCallMarker(x));
    } else if n.Call? && n.callee.Member? && n.callee.prop.Id? && n.callee.prop.name in MethodComments {
      CollectInHas(MemberCallMarker, x => m in MemberCallMarker(x), m, p);
      FoundWhere(p, at, x => m in MemberCallMarker(x));
    } else {
      CollectInHas(NewHubMarker, x => m in NewHubMarker(x), m, p);
      FoundWhere(p, at, x => m in NewHubMarker(x));
    }
  }

  /** Where `q` holds somewhere and implies `r`, `r` holds somewhere. */
  lemma {:induction false} FoundWhere(p: Program, q: Node -> bool, r: Node -> bool)
    requires forall x :: q(x) ==> r(x)
    requires ExistsIn(q, p)
    ensures ExistsIn(r, p)
  {
    var i :| 0 <= i < |p| && Exists(q, p[i]);
    ExistsStronger(q, r, p[i]);
  }

  lemma {:induction false} ExistsStronger(q: Node -> bool, r: Node -> bool, n: Node)
    requires forall x :: q(x) ==> r(x)
    requires Exists(q, n)
    ensures Exists(r, n)
  {
    if !q(n) {
      var i :| 0 <= i < |Children(n)| && Exists(q, Children(n)[i]);
      ExistsStronger(q, r, Children(n)[i]);
    }
  }

  // ---------------------------------------------------------------------------
  // Placing the notes

  /** A node that carries notes: an expression statement, a declaration, a property, another statement. */
  predicate Holder(n: Node) {
    n.ExprStmt? || n.VarDecl? || n.Prop? || n.Stmt?
  }

  /** `n` with its notes replaced. */
  function WithNotes(n: Node, notes: seq<string>): (r: Node)
    requires Holder(n)
    ensures Holder(r) && r.notes == notes && Children(r) == Children(n) && KindOf(r) == KindOf(n)
  {
    if n.ExprStmt? then ExprStmt(n.expr, notes)
    else if n.VarDecl? then VarDecl(n.decls, notes)
    else if n.Prop? then Prop(n.key, n.value, notes)
    else Stmt(n.kids, notes)
  }

  /**
   * The notes due at `n`: that of `n` itself, then those of its subtrees in document order,
   * leaving out the subtrees of holders, which take their own.
   */
  function Due(n: Node): seq<string> {
    var cs := Children(n);
    (if NoteFor(n).Some? then [NoteFor(n).value] else [])
    + Concat(seq(|cs|, i requires 0 <= i < |cs| => if Holder(cs[i]) then [] else Due(cs[i])))
  }

  /** `notes` followed by each message of `msgs` it does not carry yet, once. */
  function AddNotes(notes: seq<string>, msgs: seq<string>): (r: seq<string>)
    ensures |notes| <= |r| && r[..|notes|] == notes
    ensures forall m :: m in msgs ==> m in r
    ensures forall m :: m in r ==> m in notes || m in msgs
    ensures NoDuplicates(notes) ==> NoDuplicates(r)
    decreases |msgs|
  {
    if |msgs| == 0 then notes
    else
      var next := if msgs[0] in notes then notes else notes + [msgs[0]];
      var r := AddNotes(next, msgs[1..]);
      assert msgs == [msgs[0]] + msgs[1..];
      assert r[..|notes|] == next[..|notes|] by {
        assert r[..|notes|] == r[..|next|][..|notes|];
      }
      assert NoDuplicates(notes) ==> NoDuplicates(next) by {
        if NoDuplicates(notes) && msgs[0] !in notes {
          forall i, j | 0 <= i < j < |next|
            ensures next[i] != next[j]
          {
            if j == |notes| {
              assert next[i] == notes[i];
            }
          }
        }
      }
      r
  }

  /** Messages a holder already carries add nothing. */
  lemma {:induction false} AddNotesSaturated(notes: seq<string>, msgs: seq<string>)
    requires forall m :: m in msgs ==> m in notes
    ensures AddNotes(notes, msgs) == notes
    decreases |msgs|
  {
    if |msgs| > 0 {
      assert msgs[0] in msgs;
      assert forall m :: m in msgs[1..] ==> m in msgs;
      AddNotesSaturated(notes, msgs[1..]);
    }
  }

  /** `n` with its notes replaced by themselves. */
  lemma {:induction false} WithOwnNotes(n: Node)
    requires Holder(n)
    ensures WithNotes(n, n.notes) == n
  {
  }

  /** A holder carries every note due at it; any other node is fine as it is. */
  predicate Saturated(n: Node) {
    Holder(n) ==> forall m :: m in Due(n) ==> m in n.notes
  }

  function SaturatedNode(): Node -> bool {
    n => Saturated(n)
  }

  /**
   * `addTodoComment` at one node, once the nodes below it are done: a holder gains the notes
   * due at it that it does not carry yet, after the ones it has; any other node stays.
   */
  function NoteAt(n: Node): (r: Node)
    ensures Children(r) == Children(n) && KindOf(r) == KindOf(n)
    ensures !Holder(n) ==> r == n
    ensures Holder(n) ==>
              && Holder(r) && |n.notes| <= |r.notes| && r.notes[..|n.notes|] == n.notes
              && (forall m :: m in Due(n) ==> m in r.notes)
              && (forall m :: m in r.notes ==> m in n.notes || m in Due(n))
              && (NoDuplicates(n.notes) ==> NoDuplicates(r.notes))
  {
    if Holder(n) then WithNotes(n, AddNotes(n.notes, Due(n))) else n
  }

  function NoteRule(): Node -> Node {
    n => NoteAt(n)
  }

  /** The whole tree: every holder gains the notes due at it. */
  function PlaceAll(p: Program): Program {
    MapProgram(NoteRule(), p)
  }

  /** Only the notes of a holder change, and the notes due at a holder do not depend on them. */
  lemma {:induction false} DueKept(n: Node)
    ensures Due(NoteAt(n)) == Due(n)
  {
    if Holder(n) {
      assert NoteFor(NoteAt(n)) == NoteFor(n);
    }
  }

  /** Placing the notes at a node whose subtrees are done leaves the whole tree done. */
  lemma {:induction false} NoteRuleEstablishes()
    ensures Establishes(NoteRule(), SaturatedNode())
  {
    var q := SaturatedNode();
    forall x: Node | forall i :: 0 <= i < |Children(x)| ==> Every(q, Children(x)[i])
      ensures Every(q, NoteAt(x))
    {
      DueKept(x);
      assert Saturated(NoteAt(x));
      assert Children(NoteAt(x)) == Children(x);
    }
  }

  /** A node that carries its notes already is left alone. */
  lemma {:induction false} NoteRuleFixes()
    ensures Fixes(NoteRule(), SaturatedNode())
  {
    forall x: Node | Saturated(x)
      ensures NoteAt(x) == x
    {
      if Holder(x) {
        AddNotesSaturated(x.notes, Due(x));
        WithOwnNotes(x);
      }
    }
  }

  /** Placing the notes a second time changes nothing: no note is ever added twice. */
  lemma {:induction false} PlaceAllIdempotent(p: Program)
    ensures PlaceAll(PlaceAll(p)) == PlaceAll(p)
    ensures forall i :: 0 <= i < |p| ==> Every(SaturatedNode(), PlaceAll(p)[i])
  {
    NoteRuleEstablishes();
    NoteRuleFixes();
    forall i | 0 <= i < |p|
      ensures Map(NoteRule(), Map(NoteRule(), p[i])) == Map(NoteRule(), p[i])
      ensures Every(SaturatedNode(), PlaceAll(p)[i])
    {
      MapIdempotent(NoteRule(), SaturatedNode(), p[i]);
      MapEstablishes(NoteRule(), SaturatedNode(), p[i]);
    }
  }

  /** `startTransaction();` carries the span note on its statement. */
  lemma {:induction false} NoteOnStatement()
    ensures PlaceAll([ExprStmt(Call(Id("startTransaction"), []), [])]) == [ExprStmt(Call(Id("startTransaction"), []), [SpanMessage])]
  {
    var st := ExprStmt(Call(Id("startTransaction"), []), []);
    StatementPlaced(st);
    assert MapProgram(NoteRule(), [st])[0] == Map(NoteRule(), st);
  }

  lemma {:induction false} CallPlaced(call: Node)
    requires call == Call(Id("startTransaction"), [])
    ensures Map(NoteRule(), call) == call
  {
    var id := Id("startTransaction");
    MapLeaf(NoteRule(), id);
    assert Children(call) == [id];
    MapFixedChildren(NoteRule(), call);
  }

  lemma {:induction false} StatementPlaced(st: Node)
    requires st == ExprStmt(Call(Id("startTransaction"), []), [])
    ensures Map(NoteRule(), st) == ExprStmt(Call(Id("startTransaction"), []), [SpanMessage])
  {
    var call := Call(Id("startTransaction"), []);
    CallPlaced(call);
    assert Children(st) == [call];
    MapFixedChildren(NoteRule(), st);
    StatementDue(st);
    assert AddNotes([], [SpanMessage]) == [SpanMessage] by {
      assert [SpanMessage][1..] == [];
    }
    assert NoteAt(st) == WithNotes(st, [SpanMessage]);
  }

  lemma {:induction false} StatementDue(st: Node)
    requires st == ExprStmt(Call(Id("startTransaction"), []), [])
    ensures Due(st) == [SpanMessage]
  {
    var call := Call(Id("startTransaction"), []);
    CallDue(call);
    assert NoteFor(st) == None;
    assert Children(st) == [call];
    var parts := seq(1, i requires 0 <= i < 1 => if Holder(Children(st)[i]) then [] else Due(Children(st)[i]));
    assert parts == [[SpanMessage]];
    assert Concat(parts) == [SpanMessage] by {
      assert parts[1..] == [];
    }
  }

  lemma {:induction false} CallDue(call: Node)
    requires call == Call(Id("startTransaction"), [])
    ensures Due(call) == [SpanMessage]
  {
    var id := Id("startTransaction");
    assert NoteFor(call) == Some(SpanMessage);
    assert Children(id) == [];
    assert Due(id) == [];
    assert Children(call) == [id];
    var parts := seq(1, i requires 0 <= i < 1 => if Holder(Children(call)[i]) then [] else Due(Children(call)[i]));
    assert parts == [[]];
    assert Concat(parts) == [] by {
      assert parts[1..] == [];
    }
  }

  /**
   * The rule on one script: every holder gains the notes due at it, and the markers say which
   * node called for which note; a script with nothing to mark is unchanged.
   */
  function AddMigrationComments(p: Program): (r: (Outcome, seq<Marker>))
    ensures r.0 == Unchanged <==> !ExistsIn(MarkerSite(), p)
    ensures r.0 != Unchanged ==> r.0 == Changed(PlaceAll(p)) && r.1 == Markers(p)
    ensures r.0 == Unchanged ==> r.1 == []
  {
    var ms := Markers(p);
    if ms == [] then
      assert !ExistsIn(MarkerSite(), p) by {
        if ExistsIn(MarkerSite(), p) {
          var i :| 0 <= i < |p| && Exists(MarkerSite(), p[i]);
          var n := SomeNode(MarkerSite(), p[i]);
          MarkersComplete(p, i, n);
          assert false;
        }
      }
      (Unchanged, [])
    else
      MarkersSound(p, ms[0]);
      (Changed(PlaceAll(p)), ms)
  }

  /** Re-running the rule on its own output adds no note: the file stays as it is. */
  lemma {:induction false} AddMigrationCommentsIdempotent(p: Program)
    ensures var r := AddMigrationComments(p).0;
            r.Changed? ==> AddMigrationComments(r.prog).0 in {Unchanged, r}
  {
    PlaceAllIdempotent(p);
  }

  /** A node of the tree where `q` holds, with its position. */
  lemma {:induction false} SomeNode(q: Node -> bool, n: Node) returns (x: Node)
    requires Exists(q, n)
    ensures q(x) && Exists(NodeIs(x), n)
  {
    if q(n) {
      x := n;
    } else {
      var i :| 0 <= i < |Children(n)| && Exists(q, Children(n)[i]);
      x := SomeNode(q, Children(n)[i]);
      assert Exists(NodeIs(x), Children(n)[i]);
    }
  }

  /**
   * The rule on a file: script blocks of `.vue` and `.svelte` files one by one, anything else
   * whole. `parseJs` and `printJs` stand for the JavaScript parser and printer.
   */
  function AddMigrationCommentsFile(parse: Parser, render: Printer, parseJs: string -> Program,
                                    printJs: (Program, seq<Marker>) -> string, source: string, fileName: string)
    : (r: Answer)
    ensures !r.Threw?
    ensures !IsHostFile(fileName) ==> (r.Undefined? <==> !ExistsIn(MarkerSite(), parseJs(source)))
  {
    WrapJscodeshift(parse, render, source, fileName, s =>
      var out := AddMigrationComments(parseJs(s));
      if out.0.Changed? then Output(printJs(out.0.prog, out.1)) else Undefined).0
  }
}

=== FILE: nextjswrappers.dfy ===
/** The Next.js rule: the `withSentry…` wrappers are renamed to their `wrap…WithSentry` successors. */
module NextjsWrappers {
  import opened Ast
  import opened Seqs
  import opened Normaliser
  import opened Paths

  const NextjsPackage := "@sentry/nextjs"

  /** The old wrapper names, as the table lists them (one of them twice). */
  const OldNames: seq<string> := [
    "withSentryAPI",
    "withSentryServerSideGetInitialProps",
    "withSentryServerSideAppGetInitialProps",
    "withSentryServerSideDocumentGetInitialProps",
    "withSentryServerSideErrorGetInitialProps",
    "withSentryGetServerSideProps",
    "withSentryGetStaticProps",
    "withSentry",
    "withSentryServerSideAppGetInitialProps"
  ]

  /** The new name of each entry, at the same position. */
  const NewNames: seq<string> := [
    "wrapApiHandlerWithSentry",
    "wrapGetInitialPropsWithSentry",
    "wrapAppGetInitialPropsWithSentry",
    "wrapDocumentGetInitialPropsWithSentry",
    "wrapErrorGetInitialPropsWithSentry",
    "wrapGetServerSidePropsWithSentry",
    "wrapGetStaticPropsWithSentry",
    "wrapApiWithSentry",
    "wrapAppGetInitialPropsWithSentry"
  ]

  /**
   * The table as a map. A JavaScript `Map` built from a list keeps the last entry of a
   * repeated key and `ZipMap` the first; `EntriesAgree` shows the choice does not matter.
   */
  const FunctionMap: map<string, string> := ZipMap(OldNames, NewNames)

  /** Old names start `wi…` (`with`) and new ones `wr…` (`wrap`). */
  predicate SecondLetter(s: string, c: char) {
    |s| > 1 && s[1] == c
  }

  /** The one repeated key is the third name again, with the same replacement. */
  lemma {:induction false} Repeats()
    ensures NoDuplicates(OldNames[..8])
    ensures OldNames[8] == OldNames[2] && NewNames[8] == NewNames[2]
  {
  }

  /** Every entry of the table, including the repeated one, is what the map says. */
  lemma {:induction false} EntriesAgree()
    ensures forall i :: 0 <= i < |OldNames| ==> OldNames[i] in FunctionMap && FunctionMap[OldNames[i]] == NewNames[i]
  {
    Repeats();
    var ks := OldNames[..8];
    forall i, j | 0 <= i < j < |OldNames| && OldNames[i] == OldNames[j]
      ensures NewNames[i] == NewNames[j]
    {
      if j < 8 || i != 2 {
        assert false;
      }
    }
    ZipMapEntries(OldNames, NewNames);
  }

  lemma {:induction false} FunctionMapSize()
    ensures |FunctionMap| == 8
  {
    Repeats();
    var ks := OldNames[..8];
    assert FunctionMap.Keys == set k | k in ks by {
      assert OldNames == ks + [OldNames[8]];
    }
    DistinctCard(ks);
  }

  lemma {:induction false} FirstEight()
    ensures NoDuplicates(NewNames[..8])
    ensures forall a :: a in OldNames ==> Position(OldNames, a) < 8
  {
    Repeats();
  }

  lemma {:induction false} FunctionMapInjective()
    ensures forall a, b :: a in FunctionMap && b in FunctionMap && FunctionMap[a] == FunctionMap[b] ==> a == b
  {
    FirstEight();
    forall a, b | a in FunctionMap && b in FunctionMap && FunctionMap[a] == FunctionMap[b]
      ensures a == b
    {
      var i, j := Position(OldNames, a), Position(OldNames, b);
      assert NewNames[..8][i] == NewNames[..8][j];
    }
  }

  lemma {:induction false} Letters()
    ensures forall i :: 0 <= i < |OldNames| ==> SecondLetter(OldNames[i], 'i')
    ensures forall i :: 0 <= i < |NewNames| ==> SecondLetter(NewNames[i], 'r')
  {
  }

  lemma {:induction false} FunctionMapFresh()
    ensures forall a :: a in FunctionMap ==> FunctionMap[a] !in FunctionMap && SecondLetter(FunctionMap[a], 'r')
  {
    Letters();
    assert forall k :: k in FunctionMap ==> SecondLetter(k, 'i') by {
      forall k | k in FunctionMap
        ensures SecondLetter(k, 'i')
      {
        assert OldNames[Position(OldNames, k)] == k;
      }
    }
    forall a | a in FunctionMap
      ensures SecondLetter(FunctionMap[a], 'r')
    {
      assert FunctionMap[a] == NewNames[Position(OldNames, a)];
    }
  }

  /** Eight distinct old names, no two sharing a new name, and no new name an old one. */
  lemma {:induction false} FunctionMapShape()
    ensures |FunctionMap| == 8
    ensures forall a, b :: a in FunctionMap && b in FunctionMap && FunctionMap[a] == FunctionMap[b] ==> a == b
    ensures forall a :: a in FunctionMap ==> FunctionMap[a] !in FunctionMap
    ensures NoChains(FunctionMap)
  {
    FunctionMapSize();
    FunctionMapInjective();
    FunctionMapFresh();
  }

  /**
   * The rule on one file: unchanged without an import or require of the Next.js SDK;
   * otherwise no bare call or member access of an old name is left, the SDK's imports name
   * no old wrapper, and imports of other packages stay as they were.
   */
  function NextjsWrappersRule(src: string, p: Program): (r: Outcome)
    ensures r == Unchanged <==> !HasImportOrRequire(src, NextjsPackage)
    ensures r != Unchanged ==> r.Changed?
    ensures r.Changed? ==> !ExistsIn(StaleUseOf(FunctionMap), r.prog)
    ensures r.Changed? ==> |r.prog| == |p|
    ensures r.Changed? ==> forall i :: 0 <= i < |p| && p[i].Import? && p[i].source != NextjsPackage ==> r.prog[i] == p[i]
    ensures r.Changed? ==> forall i :: 0 <= i < |p| && IsImportOf(p[i], NextjsPackage) ==>
      && IsImportOf(r.prog[i], NextjsPackage)
      && forall j :: 0 <= j < |r.prog[i].specs| && r.prog[i].specs[j].Named? ==>
           !Stale(FunctionMap, r.prog[i].specs[j].imported) && !Stale(FunctionMap, r.prog[i].specs[j].local)
  {
    FunctionMapShape();
    var r := ReplaceFunctionCalls(src, NextjsPackage, FunctionMap, p);
    if r.1 then Changed(r.0) else Unchanged
  }

  /** Renaming the call sites a second time changes nothing. */
  lemma {:induction false} CallRenamesIdempotent(p: Program)
    ensures RenameCalls(FunctionMap, RenameCalls(FunctionMap, p)) == RenameCalls(FunctionMap, p)
  {
    FunctionMapShape();
    RenameCallsIdempotent(FunctionMap, p);
  }

  /**
   * Calls and member accesses of names outside the table are left alone: a file without a
   * stale use is not changed by the call renaming at all.
   */
  lemma {:induction false} OtherNamesUntouched(p: Program)
    requires !ExistsIn(StaleUseOf(FunctionMap), p)
    ensures RenameCalls(FunctionMap, p) == p
  {
    CallRenameFixesFresh(FunctionMap);
    forall i | 0 <= i < |p|
      ensures RenameCalls(FunctionMap, p)[i] == p[i]
    {
      NoneEvery(FreshUse(FunctionMap), StaleUseOf(FunctionMap), p[i]);
      MapKeeps(CallRenameRule(FunctionMap), FreshUse(FunctionMap), p[i]);
    }
  }
}

=== FILE: nodeexports.dfy ===
/**
 * The Node exports rule: the `Handlers` namespace of `@sentry/node` goes away.
 * `Handlers.extractRequestData` becomes a top-level export, the `Handlers.ExpressRequest`
 * type becomes `PolymorphicRequest`, and the `Handlers` binding is dropped from the
 * import or require that brought it in once nothing else of it is used.
 */
module NodeExports {
  import opened Ast
  import opened Seqs
  import opened Normaliser

  const NodePackage := "@sentry/node"
  const HandlersName := "Handlers"
  const SentryName := "Sentry"
  const ExtractRequestData := "extractRequestData"
  const ExpressRequest := "ExpressRequest"
  const PolymorphicRequest := "PolymorphicRequest"

  // ---------------------------------------------------------------------------
  // First pass: `Sentry.Handlers.extractRequestData` becomes `Sentry.extractRequestData`

  /**
   * The only `Sentry.Handlers.x` the first pass rewrites; any other property of
   * `Sentry.Handlers` is found and left alone.
   */
  predicate IsSentryHandlersExtract(n: Node) {
    n.Member? && n.obj == Member(Id(SentryName), Id(HandlersName)) && n.prop == Id(ExtractRequestData)
  }

  function LiftAt(n: Node): Node {
    if IsSentryHandlersExtract(n) then Member(Id(SentryName), n.prop) else n
  }

  function LiftRule(): Node -> Node {
    n => LiftAt(n)
  }

  function SentryHandlersExtract(): Node -> bool {
    n => IsSentryHandlersExtract(n)
  }

  function NoSentryHandlersExtract(): Node -> bool {
    n => !IsSentryHandlersExtract(n)
  }

  function LiftSentryHandlers(p: Program): Program {
    MapProgram(LiftRule(), p)
  }

  lemma {:induction false} LiftEstablishes()
    ensures Establishes(LiftRule(), NoSentryHandlersExtract())
    ensures Fixes(LiftRule(), NoSentryHandlersExtract())
  {
    var f, q := LiftRule(), NoSentryHandlersExtract();
    forall x: Node | forall i :: 0 <= i < |Children(x)| ==> Every(q, Children(x)[i])
      ensures Every(q, f(x))
    {
      if IsSentryHandlersExtract(x) {
        assert Every(q, Id(SentryName));
        assert Every(q, Id(ExtractRequestData));
        assert Children(f(x)) == [Id(SentryName), Id(ExtractRequestData)];
      }
    }
  }

  /** After the first pass no `Sentry.Handlers.extractRequestData` is left. */
  lemma {:induction false} LiftComplete(p: Program)
    ensures !ExistsIn(SentryHandlersExtract(), LiftSentryHandlers(p))
  {
    LiftEstablishes();
    forall i | 0 <= i < |p|
      ensures !Exists(SentryHandlersExtract(), LiftSentryHandlers(p)[i])
    {
      MapEstablishes(LiftRule(), NoSentryHandlersExtract(), p[i]);
      EveryNotExists(NoSentryHandlersExtract(), SentryHandlersExtract(), LiftSentryHandlers(p)[i]);
    }
  }

  /** A file without `Sentry.Handlers.extractRequestData` goes through the first pass untouched. */
  lemma {:induction false} LiftKeeps(p: Program)
    requires EveryIn(NoSentryHandlersExtract(), p)
    ensures LiftSentryHandlers(p) == p
  {
    forall i | 0 <= i < |p|
      ensures LiftSentryHandlers(p)[i] == p[i]
    {
      MapKeeps(LiftRule(), NoSentryHandlersExtract(), p[i]);
    }
  }

  lemma {:induction false} LiftIdempotent(p: Program)
    ensures LiftSentryHandlers(LiftSentryHandlers(p)) == LiftSentryHandlers(p)
  {
    LiftEstablishes();
    forall i | 0 <= i < |p|
      ensures LiftSentryHandlers(LiftSentryHandlers(p))[i] == LiftSentryHandlers(p)[i]
    {
      MapIdempotent(LiftRule(), NoSentryHandlersExtract(), p[i]);
    }
  }

  // ---------------------------------------------------------------------------
  // Second pass: `Handlers.extractRequestData` becomes `extractRequestData`

  /** `Handlers.x` with an identifier property: the members the second pass looks at. */
  predicate IsHandlersMember(n: Node) {
    n.Member? && n.obj == Id(HandlersName) && n.prop.Id?
  }

  predicate IsHandlersExtract(n: Node) {
    IsHandlersMember(n) && n.prop.name == ExtractRequestData
  }

  /** A use of `Handlers` that keeps its binding alive. */
  predicate IsHandlersOther(n: Node) {
    IsHandlersMember(n) && n.prop.name != ExtractRequestData
  }

  function FlattenAt(n: Node): Node {
    if IsHandlersExtract(n) then Id(ExtractRequestData) else n
  }

  function FlattenRule(): Node -> Node {
    n => FlattenAt(n)
  }

  function HandlersExtract(): Node -> bool {
    n => IsHandlersExtract(n)
  }

  function NoHandlersExtract(): Node -> bool {
    n => !IsHandlersExtract(n)
  }

  function HandlersOther(): Node -> bool {
    n => IsHandlersOther(n)
  }

  function FlattenHandlers(p: Program): Program {
    MapProgram(FlattenRule(), p)
  }

  lemma {:induction false} FlattenEstablishes()
    ensures Establishes(FlattenRule(), NoHandlersExtract())
    ensures Fixes(FlattenRule(), NoHandlersExtract())
  {
    var f, q := FlattenRule(), NoHandlersExtract();
    forall x: Node | forall i :: 0 <= i < |Children(x)| ==> Every(q, Children(x)[i])
      ensures Every(q, f(x))
    {
      if IsHandlersExtract(x) {
        assert Every(q, Id(ExtractRequestData));
      }
    }
  }

  /** After the second pass no `Handlers.extractRequestData` is left. */
  lemma {:induction false} FlattenComplete(p: Program)
    ensures !ExistsIn(HandlersExtract(), FlattenHandlers(p))
  {
    FlattenEstablishes();
    forall i | 0 <= i < |p|
      ensures !Exists(HandlersExtract(), FlattenHandlers(p)[i])
    {
      MapEstablishes(FlattenRule(), NoHandlersExtract(), p[i]);
      EveryNotExists(NoHandlersExtract(), HandlersExtract(), FlattenHandlers(p)[i]);
    }
  }

  lemma {:induction false} FlattenKeeps(p: Program)
    requires EveryIn(NoHandlersExtract(), p)
    ensures FlattenHandlers(p) == p
  {
    forall i | 0 <= i < |p|
      ensures FlattenHandlers(p)[i] == p[i]
    {
      MapKeeps(FlattenRule(), NoHandlersExtract(), p[i]);
    }
  }

  lemma {:induction false} FlattenIdempotent(p: Program)
    ensures FlattenHandlers(FlattenHandlers(p)) == FlattenHandlers(p)
  {
    FlattenEstablishes();
    forall i | 0 <= i < |p|
      ensures FlattenHandlers(FlattenHandlers(p))[i] == FlattenHandlers(p)[i]
    {
      MapIdempotent(FlattenRule(), NoHandlersExtract(), p[i]);
    }
  }

  // ---------------------------------------------------------------------------
  // Third pass: the `ExpressRequest` type

  /** The type reference `Handlers.ExpressRequest`. */
  predicate IsHandlersType(n: Node) {
    n == TypeRef(TSQualified(Id(HandlersName), Id(ExpressRequest)))
  }

  /** The type reference `Sentry.Handlers.ExpressRequest`. */
  predicate IsSentryHandlersType(n: Node) {
    n == TypeRef(TSQualified(TSQualified(Id(SentryName), Id(HandlersName)), Id(ExpressRequest)))
  }

  predicate IsOldType(n: Node) {
    IsHandlersType(n) || IsSentryHandlersType(n)
  }

  /**
   * `Handlers.ExpressRequest` becomes the type reference `PolymorphicRequest`; the
   * `Sentry.` form is replaced by the bare qualified name `Sentry.PolymorphicRequest`
   * (no type reference around it), which prints the same.
   */
  function RenameAt(n: Node): Node {
    if IsHandlersType(n) then TypeRef(Id(PolymorphicRequest))
    else if IsSentryHandlersType(n) then TSQualified(Id(SentryName), Id(PolymorphicRequest))
    else n
  }

  function RenameRule(): Node -> Node {
    n => RenameAt(n)
  }

  function HandlersType(): Node -> bool {
    n => IsHandlersType(n)
  }

  function OldType(): Node -> bool {
    n => IsOldType(n)
  }

  function NoOldType(): Node -> bool {
    n => !IsOldType(n)
  }

  function RenameExpressTypes(p: Program): Program {
    MapProgram(RenameRule(), p)
  }

  lemma {:induction false} RenameEstablishes()
    ensures Establishes(RenameRule(), NoOldType())
    ensures Fixes(RenameRule(), NoOldType())
  {
    var f, q := RenameRule(), NoOldType();
    forall x: Node | forall i :: 0 <= i < |Children(x)| ==> Every(q, Children(x)[i])
      ensures Every(q, f(x))
    {
      assert Every(q, Id(SentryName));
      assert Every(q, Id(PolymorphicRequest));
      if IsHandlersType(x) {
        assert Children(f(x)) == [Id(PolymorphicRequest)];
      } else if IsSentryHandlersType(x) {
        assert Children(f(x)) == [Id(SentryName), Id(PolymorphicRequest)];
      }
    }
  }

  /** After the third pass neither spelling of `ExpressRequest` is left. */
  lemma {:induction false} RenameComplete(p: Program)
    ensures !ExistsIn(OldType(), RenameExpressTypes(p))
  {
    RenameEstablishes();
    forall i | 0 <= i < |p|
      ensures !Exists(OldType(), RenameExpressTypes(p)[i])
    {
      MapEstablishes(RenameRule(), NoOldType(), p[i]);
      EveryNotExists(NoOldType(), OldType(), RenameExpressTypes(p)[i]);
    }
  }

  lemma {:induction false} RenameIdempotent(p: Program)
    ensures RenameExpressTypes(RenameExpressTypes(p)) == RenameExpressTypes(p)
  {
    RenameEstablishes();
    forall i | 0 <= i < |p|
      ensures RenameExpressTypes(RenameExpressTypes(p))[i] == RenameExpressTypes(p)[i]
    {
      MapIdempotent(RenameRule(), NoOldType(), p[i]);
    }
  }

  // ---------------------------------------------------------------------------
  // What the second and third passes record while they run

  /**
   * `shouldRemoveHandlersImport` and the insertion-ordered `importsToAdd` set of the source.
   */
  datatype Scan = Scan(removeHandlers: bool, toAdd: seq<string>)

  /** `Set.prototype.add` on an insertion-ordered set. */
  function AddName(s: seq<string>, x: string): (r: seq<string>)
    ensures forall y :: y in r <==> y in s || y == x
    ensures |s| <= |r| && r[..|s|] == s
    ensures NoDuplicates(s) ==> NoDuplicates(r)
  {
    if x in s then s else s + [x]
  }

  /** The property name of each `Handlers.x` member, in the order `find` visits them. */
  function HandlersPropOf(n: Node): seq<string> {
    if IsHandlersMember(n) then [n.prop.name] else []
  }

  /** The `Handlers.ExpressRequest` type references, in the order `find` visits them. */
  function HandlersTypeOf(n: Node): seq<Node> {
    if IsHandlersType(n) then [n] else []
  }

  /** The second pass's loop body for the member `Handlers.x`. */
  function ScanMember(st: Scan, x: string): Scan {
    if x == ExtractRequestData then st.(toAdd := AddName(st.toAdd, x))
    else st.(removeHandlers := false)
  }

  function ScanMembers(st: Scan, xs: seq<string>): Scan
    decreases |xs|
  {
    if |xs| == 0 then st else ScanMembers(ScanMember(st, xs[0]), xs[1..])
  }

  /** The third pass's loop: each `Handlers.ExpressRequest` adds `PolymorphicRequest`. */
  function ScanTypes(s: seq<string>, ts: seq<Node>): seq<string>
    decreases |ts|
  {
    if |ts| == 0 then s else ScanTypes(AddName(s, PolymorphicRequest), ts[1..])
  }

  /** The flag and the set as they stand once the third pass is done. */
  function ScanFile(q1: Program, q2: Program): Scan {
    var st := ScanMembers(Scan(true, []), CollectIn(HandlersPropOf, q1));
    st.(toAdd := ScanTypes(st.toAdd, CollectIn(HandlersTypeOf, q2)))
  }

  /**
   * The names the rule schedules for import, said without the loops: `extractRequestData`
   * when the file used `Handlers.extractRequestData`, then `PolymorphicRequest` when it used
   * the `Handlers.ExpressRequest` type.
   */
  function ScheduledNames(q1: Program, q2: Program): seq<string> {
    (if ExistsIn(HandlersExtract(), q1) then [ExtractRequestData] else [])
    + (if ExistsIn(HandlersType(), q2) then [PolymorphicRequest] else [])
  }

  lemma {:induction false} AddNameTwice(s: seq<string>, x: string)
    ensures AddName(AddName(s, x), x) == AddName(s, x)
  {
  }

  lemma {:induction false} ScanMembersResult(st: Scan, xs: seq<string>)
    ensures ScanMembers(st, xs).removeHandlers <==>
      st.removeHandlers && forall i :: 0 <= i < |xs| ==> xs[i] == ExtractRequestData
    ensures ScanMembers(st, xs).toAdd ==
      if ExtractRequestData in xs then AddName(st.toAdd, ExtractRequestData) else st.toAdd
    decreases |xs|
  {
    if |xs| > 0 {
      var next := ScanMember(st, xs[0]);
      ScanMembersResult(next, xs[1..]);
      assert xs == [xs[0]] + xs[1..];
      assert forall i :: 1 <= i < |xs| ==> xs[i] == xs[1..][i - 1];
      if xs[0] == ExtractRequestData {
        AddNameTwice(st.toAdd, ExtractRequestData);
      }
    }
  }

  lemma {:induction false} ScanTypesResult(s: seq<string>, ts: seq<Node>)
    ensures ScanTypes(s, ts) == if |ts| > 0 then AddName(s, PolymorphicRequest) else s
    decreases |ts|
  {
    if |ts| > 0 {
      ScanTypesResult(AddName(s, PolymorphicRequest), ts[1..]);
      AddNameTwice(s, PolymorphicRequest);
    }
  }

  /**
   * The loops compute what the rule promises: `Handlers` may go iff no member of it other
   * than `extractRequestData` is used, and the scheduled names are exactly `ScheduledNames`,
   * each once.
   */
  lemma {:induction false} ScanFileMeaning(q1: Program, q2: Program)
    ensures ScanFile(q1, q2).removeHandlers <==> !ExistsIn(HandlersOther(), q1)
    ensures ScanFile(q1, q2).toAdd == ScheduledNames(q1, q2)
    ensures NoDuplicates(ScanFile(q1, q2).toAdd)
  {
    var xs := CollectIn(HandlersPropOf, q1);
    var ts := CollectIn(HandlersTypeOf, q2);
    ScanMembersResult(Scan(true, []), xs);
    RemoveMeaning(q1);
    CollectInHas(HandlersPropOf, HandlersExtract(), ExtractRequestData, q1);
    TypesMeaning(q2);
    ScanTypesResult(ScanMembers(Scan(true, []), xs).toAdd, ts);
  }

  lemma {:induction false} AllExtract(xs: seq<string>)
    ensures (forall i :: 0 <= i < |xs| ==> xs[i] == ExtractRequestData) <==>
      !exists v :: v in xs && v != ExtractRequestData
  {
    if v :| v in xs && v != ExtractRequestData {
      var i :| 0 <= i < |xs| && xs[i] == v;
    }
    if i :| 0 <= i < |xs| && xs[i] != ExtractRequestData {
      assert xs[i] in xs;
    }
  }

  lemma {:induction false} RemoveMeaning(q1: Program)
    ensures (forall i :: 0 <= i < |CollectIn(HandlersPropOf, q1)| ==> CollectIn(HandlersPropOf, q1)[i] == ExtractRequestData)
      <==> !ExistsIn(HandlersOther(), q1)
  {
    var keep: string -> bool := v => v != ExtractRequestData;
    forall x
      ensures HandlersOther()(x) <==> exists v :: v in HandlersPropOf(x) && keep(v)
    {
      if HandlersOther()(x) {
        assert x.prop.name in HandlersPropOf(x);
      }
    }
    CollectInSome(HandlersPropOf, keep, HandlersOther(), q1);
    AllExtract(CollectIn(HandlersPropOf, q1));
  }

  lemma {:induction false} TypesMeaning(q2: Program)
    ensures |CollectIn(HandlersTypeOf, q2)| > 0 <==> ExistsIn(HandlersType(), q2)
  {
    var ts := CollectIn(HandlersTypeOf, q2);
    var always: Node -> bool := v => true;
    forall x
      ensures HandlersType()(x) <==> exists v :: v in HandlersTypeOf(x) && always(v)
    {
      if IsHandlersType(x) {
        assert x in HandlersTypeOf(x);
      }
    }
    CollectInSome(HandlersTypeOf, always, HandlersType(), q2);
    if |ts| > 0 {
      assert ts[0] in ts;
    }
  }

  // ---------------------------------------------------------------------------
  // Fourth and fifth passes: the `@sentry/node` import and require

  /**
   * An import of `@sentry/node` whose first specifier is an un-aliased `Handlers`; only
   * such declarations are found.
   */
  predicate IsHandlersImport(n: Node) {
    n.Import? && n.source == NodePackage && |n.specs| > 0 && n.specs[0] == Named(HandlersName, HandlersName)
  }

  function NamedSpecs(names: seq<string>): (r: seq<Spec>)
    ensures |r| == |names|
    ensures forall i :: 0 <= i < |names| ==> r[i] == Named(names[i], names[i])
  {
    seq(|names|, i requires 0 <= i < |names| => Named(names[i], names[i]))
  }

  /**
   * The import fix-up: the leading `Handlers` specifier is dropped when `remove` holds, and
   * one specifier per scheduled name is appended, with no check against the names the
   * declaration already imports.
   */
  function FixImport(n: Node, remove: bool, names: seq<string>): (r: Node)
    ensures !IsHandlersImport(n) ==> r == n
    ensures IsHandlersImport(n) ==>
      && r.Import? && r.source == n.source
      && |r.specs| == |n.specs| - (if remove then 1 else 0) + |names|
      && r.specs[|r.specs| - |names|..] == NamedSpecs(names)
      && multiset(r.specs) + (if remove then multiset{Named(HandlersName, HandlersName)} else multiset{})
         == multiset(n.specs) + multiset(NamedSpecs(names))
  {
    if IsHandlersImport(n) then
      var kept := if remove then n.specs[1..] else n.specs;
      assert n.specs == [n.specs[0]] + n.specs[1..];
      Import(n.source, kept + NamedSpecs(names))
    else n
  }

  /** `findIndex` for the first destructured property whose key is `k`, or -1. */
  function KeyIndex(ps: seq<PatProp>, k: string): (i: int)
    ensures -1 <= i < |ps|
    ensures i == -1 <==> forall j :: 0 <= j < |ps| ==> !(Keyed(ps[j]) && ps[j].key == k)
    ensures i >= 0 ==> Keyed(ps[i]) && ps[i].key == k
    ensures i >= 0 ==> forall j :: 0 <= j < i ==> !(Keyed(ps[j]) && ps[j].key == k)
  {
    if |ps| == 0 then -1
    else if Keyed(ps[0]) && ps[0].key == k then 0
    else
      var i := KeyIndex(ps[1..], k);
      assert forall j :: 1 <= j < |ps| ==> ps[j] == ps[1..][j - 1];
      if i == -1 then -1 else i + 1
  }

  function ShorthandProps(names: seq<string>): (r: seq<PatProp>)
    ensures |r| == |names|
    ensures forall i :: 0 <= i < |names| ==> r[i] == KeyValue(names[i], names[i])
  {
    seq(|names|, i requires 0 <= i < |names| => KeyValue(names[i], names[i]))
  }

  /**
   * A declaration whose first declarator is initialised by `require` with `@sentry/node` as
   * its first argument and binds an object pattern.
   */
  predicate IsNodeRequire(n: Node) {
    && n.VarDecl? && |n.decls| > 0 && n.decls[0].Declarator?
    && n.decls[0].id.PObj?
    && n.decls[0].init.Call? && n.decls[0].init.callee == Id("require")
    && |n.decls[0].init.args| > 0 && n.decls[0].init.args[0] == Str(NodePackage)
  }

  /**
   * The require fix-up: when `remove` holds the first property with key `Handlers` is
   * dropped, whatever it is bound to; one shorthand property per scheduled name is appended.
   */
  function FixRequire(n: Node, remove: bool, names: seq<string>): (r: Node)
    ensures !IsNodeRequire(n) ==> r == n
    ensures IsNodeRequire(n) ==>
      var ps := n.decls[0].id.props;
      var i := KeyIndex(ps, HandlersName);
      && r.VarDecl? && r.notes == n.notes && |r.decls| == |n.decls| && r.decls[1..] == n.decls[1..]
      && r.decls[0].Declarator? && r.decls[0].init == n.decls[0].init && r.decls[0].id.PObj?
      && var rs := r.decls[0].id.props;
      && |rs| == |ps| - (if remove && i >= 0 then 1 else 0) + |names|
      && rs[|rs| - |names|..] == ShorthandProps(names)
      && (remove && i >= 0 ==> rs[..i] == ps[..i] && rs[i..|rs| - |names|] == ps[i + 1..])
      && (!(remove && i >= 0) ==> rs[..|ps|] == ps)
  {
    if IsNodeRequire(n) then
      var d := n.decls[0];
      var ps := d.id.props;
      var i := if remove then KeyIndex(ps, HandlersName) else -1;
      var kept := if i > -1 then ps[..i] + ps[i + 1..] else ps;
      var rs := kept + ShorthandProps(names);
      assert rs[..|kept|] == kept;
      VarDecl([Declarator(PObj(rs), d.init)] + n.decls[1..], n.notes)
    else n
  }

  function FixAt(n: Node, remove: bool, names: seq<string>): Node {
    FixRequire(FixImport(n, remove, names), remove, names)
  }

  /** Both fix-ups in one pass: they rewrite different kinds of node. */
  function FixRule(remove: bool, names: seq<string>): Node -> Node {
    n => FixAt(n, remove, names)
  }

  // ---------------------------------------------------------------------------
  // The rule

  /**
   * Without an `@sentry/node` import or require the file is left alone; otherwise the five
   * passes run in order and the file is always rewritten.
   */
  function NodeExportsRule(src: string, p: Program): (r: Outcome)
    ensures r == Unchanged <==> !HasImportOrRequire(src, NodePackage)
    ensures !r.Failed?
    ensures r.Changed? ==> |r.prog| == |p|
  {
    if !HasImportOrRequire(src, NodePackage) then Unchanged
    else
      var q1 := LiftSentryHandlers(p);
      var q2 := FlattenHandlers(q1);
      var q3 := RenameExpressTypes(q2);
      var st := ScanFile(q1, q2);
      Changed(MapProgram(FixRule(st.removeHandlers, st.toAdd), q3))
  }

  // ---------------------------------------------------------------------------
  // Properties of the whole rule

  /** The node kinds the old spellings are made of. */
  predicate IsExprOrType(n: Node) {
    n.Id? || n.Member? || n.TSQualified? || n.TypeRef?
  }

  function ExprOrType(): Node -> bool {
    n => IsExprOrType(n)
  }

  predicate IsIdOrMember(n: Node) {
    n.Id? || n.Member?
  }

  function IdOrMember(): Node -> bool {
    n => IsIdOrMember(n)
  }

  lemma {:induction false} OldFormsShape()
    ensures forall x :: HandlersExtract()(x) ==> Every(IdOrMember(), x)
    ensures forall x :: OldType()(x) ==> Every(ExprOrType(), x)
  {
    forall x | HandlersExtract()(x)
      ensures Every(IdOrMember(), x)
    {
      assert Every(IdOrMember(), Id(HandlersName));
      assert Every(IdOrMember(), Id(ExtractRequestData));
      assert Children(x) == [Id(HandlersName), Id(ExtractRequestData)];
    }
    var e := ExprOrType();
    assert Every(e, Id(HandlersName)) && Every(e, Id(SentryName)) && Every(e, Id(ExpressRequest));
    var sh := TSQualified(Id(SentryName), Id(HandlersName));
    assert Children(sh) == [Id(SentryName), Id(HandlersName)];
    assert Every(e, sh);
    var h := TSQualified(Id(HandlersName), Id(ExpressRequest));
    assert Children(h) == [Id(HandlersName), Id(ExpressRequest)];
    assert Every(e, h);
    var s := TSQualified(sh, Id(ExpressRequest));
    assert Children(s) == [sh, Id(ExpressRequest)];
    assert Every(e, s);
    assert Every(e, TypeRef(h)) && Every(e, TypeRef(s));
  }

  /** The type pass builds no `Handlers.extractRequestData`. */
  lemma {:induction false} RenameKeepsFlattened(p: Program)
    requires !ExistsIn(HandlersExtract(), p)
    ensures !ExistsIn(HandlersExtract(), RenameExpressTypes(p))
  {
    OldFormsShape();
    var f, bad := RenameRule(), HandlersExtract();
    assert !Exists(bad, Id(PolymorphicRequest)) && !Exists(bad, Id(SentryName));
    forall x | ChildrenClean(bad, x)
      ensures ChildrenClean(bad, f(x))
    {
      if IsHandlersType(x) {
        assert Children(f(x)) == [Id(PolymorphicRequest)];
      } else if IsSentryHandlersType(x) {
        assert Children(f(x)) == [Id(SentryName), Id(PolymorphicRequest)];
      }
    }
    MapProgramKeepsAbsent(f, IdOrMember(), bad, p);
  }

  /** The fix-ups add nothing below the declaration they rewrite. */
  lemma {:induction false} FixKeepsClean(remove: bool, names: seq<string>, bad: Node -> bool)
    requires forall x :: bad(x) ==> Every(ExprOrType(), x)
    ensures KeepsClean(FixRule(remove, names), bad)
  {
    var f := FixRule(remove, names);
    forall x | ChildrenClean(bad, x)
      ensures ChildrenClean(bad, f(x))
    {
      var y := FixImport(x, remove, names);
      if IsNodeRequire(y) {
        assert y == x;
        var d := y.decls[0];
        var d2 := f(x).decls[0];
        assert Children(x)[0] == d;
        assert !Exists(bad, d);
        assert Children(d) == [d.init];
        assert Children(d)[0] == d.init;
        assert !Exists(bad, d.init);
        assert !Every(ExprOrType(), d2);
        assert Children(d2) == [d.init] && !bad(d2);
        assert !Exists(bad, d2);
        assert forall i :: 1 <= i < |Children(f(x))| ==> Children(f(x))[i] == Children(y)[i];
      }
    }
  }

  lemma {:induction false} FixKeepsAbsent(remove: bool, names: seq<string>, bad: Node -> bool, p: Program)
    requires forall x :: bad(x) ==> Every(ExprOrType(), x)
    requires !ExistsIn(bad, p)
    ensures !ExistsIn(bad, MapProgram(FixRule(remove, names), p))
  {
    FixKeepsClean(remove, names, bad);
    MapProgramKeepsAbsent(FixRule(remove, names), ExprOrType(), bad, p);
  }

  /** `Handlers.extractRequestData` is built from expression nodes only. */
  lemma {:induction false} ExtractShape()
    ensures forall x :: HandlersExtract()(x) ==> Every(ExprOrType(), x)
  {
    forall x | HandlersExtract()(x)
      ensures Every(ExprOrType(), x)
    {
      assert Children(x) == [Id(HandlersName), Id(ExtractRequestData)];
      assert Every(ExprOrType(), Id(HandlersName)) && Every(ExprOrType(), Id(ExtractRequestData));
    }
  }

  /** Flattening, renaming the types and the import fix-ups leave neither old form behind. */
  lemma {:induction false} PassesComplete(q1: Program, remove: bool, names: seq<string>)
    ensures var r := MapProgram(FixRule(remove, names), RenameExpressTypes(FlattenHandlers(q1)));
      !ExistsIn(HandlersExtract(), r) && !ExistsIn(OldType(), r)
  {
    var q2 := FlattenHandlers(q1);
    var q3 := RenameExpressTypes(q2);
    FlattenComplete(q1);
    RenameKeepsFlattened(q2);
    RenameComplete(q2);
    OldFormsShape();
    ExtractShape();
    FixKeepsAbsent(remove, names, HandlersExtract(), q3);
    FixKeepsAbsent(remove, names, OldType(), q3);
  }

  /**
   * A rewritten file uses neither `Handlers.extractRequestData` nor either spelling of the
   * `ExpressRequest` type.
   */
  lemma {:induction false} NodeExportsComplete(src: string, p: Program)
    ensures var r := NodeExportsRule(src, p);
      r.Changed? ==> !ExistsIn(HandlersExtract(), r.prog) && !ExistsIn(OldType(), r.prog)
  {
    if HasImportOrRequire(src, NodePackage) {
      var q1 := LiftSentryHandlers(p);
      var st := ScanFile(q1, FlattenHandlers(q1));
      PassesComplete(q1, st.removeHandlers, st.toAdd);
    }
  }

  /** The earlier passes leave an import declaration alone. */
  lemma {:induction false} PassesKeepImport(n: Node)
    requires n.Import?
    ensures Map(RenameRule(), Map(FlattenRule(), Map(LiftRule(), n))) == n
  {
    MapLeaf(LiftRule(), n);
    MapLeaf(FlattenRule(), n);
    MapLeaf(RenameRule(), n);
  }

  /**
   * A top-level `@sentry/node` import that starts with `Handlers` loses it exactly when no
   * `Handlers` member other than `extractRequestData` is used, and gains the scheduled names.
   */
  lemma {:induction false} NodeExportsImport(src: string, p: Program, i: nat)
    requires HasImportOrRequire(src, NodePackage)
    requires i < |p| && p[i].Import?
    ensures var q1 := LiftSentryHandlers(p);
      NodeExportsRule(src, p).prog[i]
      == FixImport(p[i], !ExistsIn(HandlersOther(), q1), ScheduledNames(q1, FlattenHandlers(q1)))
  {
    var q1 := LiftSentryHandlers(p);
    var q2 := FlattenHandlers(q1);
    var st := ScanFile(q1, q2);
    ScanFileMeaning(q1, q2);
    RuleRewrites(src, p);
    ImportThroughPasses(p, i);
    FixOnImport(st.removeHandlers, st.toAdd, p[i]);
  }

  lemma {:induction false} FixOnImport(remove: bool, names: seq<string>, n: Node)
    requires n.Import?
    ensures Map(FixRule(remove, names), n) == FixImport(n, remove, names)
  {
    MapLeaf(FixRule(remove, names), n);
  }

  lemma {:induction false} RuleRewrites(src: string, p: Program)
    requires HasImportOrRequire(src, NodePackage)
    ensures var q1 := LiftSentryHandlers(p);
      var q2 := FlattenHandlers(q1);
      var st := ScanFile(q1, q2);
      NodeExportsRule(src, p) == Changed(MapProgram(FixRule(st.removeHandlers, st.toAdd), RenameExpressTypes(q2)))
  {
  }

  lemma {:induction false} ImportThroughPasses(p: Program, i: nat)
    requires i < |p| && p[i].Import?
    ensures RenameExpressTypes(FlattenHandlers(LiftSentryHandlers(p)))[i] == p[i]
  {
    PassesKeepImport(p[i]);
  }
}

=== FILE: nodeinstrument.dfy ===
/**
 * The instrument-file rule for `@sentry/node`: the first init call moves into a new
 * `instrument<ext>` file next to the source file, together with copies of the file's
 * imports and requires; the source file instead loads `./instrument` first. Both files
 * are then pruned of bindings nothing uses.
 */
module NodeInstrument {
  import opened Wrappers
  import opened Ast
  import opened Text
  import opened Seqs
  import opened Normaliser
  import opened Paths

  const NodePackage := "@sentry/node"
  const InstrumentModule := "./instrument"

  // ---------------------------------------------------------------------------
  // Files that already look like a bootstrap file

  /** `\w`: an ASCII letter, digit or underscore (the `i` flag adds nothing without `u`). */
  predicate IsWordChar(c: char) {
    'a' <= c <= 'z' || 'A' <= c <= 'Z' || '0' <= c <= '9' || c == '_'
  }

  predicate AllWord(s: string) {
    forall k :: 0 <= k < |s| ==> IsWordChar(s[k])
  }

  /**
   * `(\w|)*\.(\w+)$` matched from the start of `s` the way the matcher walks it: word
   * characters are consumed until the dot, which must be followed by word characters to the end.
   */
  predicate ExtTail(s: string)
    decreases |s|
  {
    |s| > 0 && ((s[0] == '.' && |s| > 1 && AllWord(s[1..])) || (IsWordChar(s[0]) && ExtTail(s[1..])))
  }

  /** The same language said at once: word characters, one dot, at least one word character. */
  predicate DottedWordTail(s: string) {
    exists j: nat | j < |s| :: DotAt(s, j)
  }

  /** `s` splits at `j` into word characters, a dot and a non-empty word. */
  predicate DotAt(s: string, j: nat) {
    j < |s| && AllWord(s[..j]) && s[j] == '.' && j + 1 < |s| && AllWord(s[j + 1..])
  }

  /** A split past the first character is a split of the rest after a word character. */
  lemma {:induction false} DotAtShift(s: string, j: nat)
    requires 0 < j && |s| > 0
    ensures DotAt(s, j) <==> IsWordChar(s[0]) && DotAt(s[1..], j - 1)
  {
    if j < |s| {
      var t := s[1..];
      assert s[..j] == [s[0]] + t[..j - 1];
      AllWordCons(s[0], t[..j - 1]);
      assert s[j + 1..] == t[j - 1 + 1..];
      assert t[j - 1] == s[j];
    }
  }

  lemma {:induction false} AllWordCons(c: char, u: string)
    ensures AllWord([c] + u) <==> IsWordChar(c) && AllWord(u)
  {
    var w := [c] + u;
    assert w[0] == c;
    assert forall k :: 0 <= k < |u| ==> w[k + 1] == u[k];
  }

  lemma {:induction false} ExtTailMeaning(s: string)
    ensures ExtTail(s) <==> DottedWordTail(s)
    decreases |s|
  {
    if |s| > 0 {
      var t := s[1..];
      ExtTailMeaning(t);
      if ExtTail(s) {
        if s[0] == '.' && |s| > 1 && AllWord(t) {
          assert s[..0] == [] && s[0 + 1..] == t;
          assert DotAt(s, 0);
        } else {
          var j: nat :| DotAt(t, j);
          DotAtShift(s, j + 1);
        }
      }
      if DottedWordTail(s) {
        var j: nat :| DotAt(s, j);
        if j == 0 {
          assert s[1..] == s[j + 1..];
        } else {
          DotAtShift(s, j);
        }
      }
    }
  }

  /**
   * `/(instrument)|(tracing)|(sentry)|(trace)(\w|)*\.(\w+)$/i` found anywhere in the file's
   * path: the first three alternatives are plain substrings, only the last is anchored.
   */
  predicate IsBootstrapName(name: string) {
    || ContainsCI(name, "instrument")
    || ContainsCI(name, "tracing")
    || ContainsCI(name, "sentry")
    || exists i: nat | i + 5 <= |name| :: MatchesAtCI(name, "trace", i) && ExtTail(name[i + 5..])
  }

  /** The last position of `c` in `s`, or -1. */
  function LastIndexOf(s: string, c: char): (k: int)
    ensures -1 <= k < |s|
    ensures k >= 0 ==> s[k] == c
    ensures forall j :: k < j < |s| ==> s[j] != c
  {
    if |s| == 0 then -1
    else if s[|s| - 1] == c then |s| - 1
    else LastIndexOf(s[..|s| - 1], c)
  }

  /**
   * `path.extname` for a path without a trailing separator: from the last dot of the last
   * segment, unless the segment has no dot, starts with its only dot, or is `..`.
   */
  function Extname(f: string): (e: string)
    ensures e == "" || (e[0] == '.' && EndsWith(f, e))
    ensures forall j :: 1 <= j < |e| ==> e[j] != '.' && e[j] != '/'
  {
    var start := LastIndexOf(f, '/') + 1;
    var seg := f[start..];
    var k := LastIndexOf(seg, '.');
    if k <= 0 || seg == ".." then ""
    else
      assert seg[k..] == f[start + k..];
      seg[k..]
  }

  // ---------------------------------------------------------------------------
  // Whether a name is used

  /**
   * `identifierIsUsed`: some identifier of the tree is called `name` and its parent is not of
   * type `k` (the binding's own type). Only names and parent types are compared.
   */
  predicate IsUsed(p: Program, name: string, k: Kind) {
    exists o :: o in ProgramOccurrences(p) && o.name == name && o.parent != k
  }

  lemma {:induction false} OccurrencesConcat(a: Program, b: Program)
    ensures ProgramOccurrences(a + b) == ProgramOccurrences(a) + ProgramOccurrences(b)
  {
    var ab := a + b;
    forall o | o in ProgramOccurrences(ab)
      ensures o in ProgramOccurrences(a) + ProgramOccurrences(b)
    {
      var i :| 0 <= i < |ab| && o in Occurrences(ab[i], KProgram);
      if i < |a| {
        assert ab[i] == a[i];
      } else {
        assert ab[i] == b[i - |a|];
      }
    }
    forall o | o in ProgramOccurrences(a)
      ensures o in ProgramOccurrences(ab)
    {
      var i :| 0 <= i < |a| && o in Occurrences(a[i], KProgram);
      assert ab[i] == a[i];
    }
    forall o | o in ProgramOccurrences(b)
      ensures o in ProgramOccurrences(ab)
    {
      var i :| 0 <= i < |b| && o in Occurrences(b[i], KProgram);
      assert ab[|a| + i] == b[i];
    }
  }

  lemma {:induction false} OccurrencesOne(x: Node)
    ensures ProgramOccurrences([x]) == Occurrences(x, KProgram)
  {
    assert forall o :: o in Occurrences(x, KProgram) ==> o in ProgramOccurrences([x]) by {
      assert [x][0] == x;
    }
  }

  /** Replacing one statement by one with fewer occurrences, or by nothing, loses occurrences only. */
  lemma {:induction false} ShrinkStatement(a: Program, s: Program, x: Node, b: Program)
    requires |s| <= 1 && (|s| == 1 ==> Occurrences(s[0], KProgram) <= Occurrences(x, KProgram))
    ensures ProgramOccurrences(a + s + b) <= ProgramOccurrences(a + [x] + b)
  {
    OccurrencesConcat(a + s, b);
    OccurrencesConcat(a, s);
    OccurrencesConcat(a + [x], b);
    OccurrencesConcat(a, [x]);
    OccurrencesOne(x);
    if |s| == 1 {
      assert s == [s[0]];
      OccurrencesOne(s[0]);
    } else {
      assert ProgramOccurrences(s) == {};
    }
  }

  lemma {:induction false} UsedMonotone(t: Program, u: Program, name: string, k: Kind)
    requires ProgramOccurrences(t) <= ProgramOccurrences(u)
    ensures IsUsed(t, name, k) ==> IsUsed(u, name, k)
  {
  }

  // ---------------------------------------------------------------------------
  // Pruning one top-level declaration at a time

  /**
   * A pass over the top-level statements in order that may rewrite or drop each one. The
   * step sees the tree as it stands at that moment, `done + [x] + after`, so an earlier
   * rewrite already counts when later statements are judged; `None` drops the statement.
   */
  function Sweep(step: (Program, Node, Program) -> Option<Node>, done: Program, rest: Program): (r: Program)
    ensures |done| <= |r| <= |done| + |rest| && r[..|done|] == done
    decreases |rest|
  {
    if |rest| == 0 then done
    else
      match step(done, rest[0], rest[1..])
      case None => Sweep(step, done, rest[1..])
      case Some(y) =>
        var r := Sweep(step, done + [y], rest[1..]);
        assert r[..|done|] == (r[..|done| + 1])[..|done|];
        r
  }

  /** Every step, shown the file as it is, would leave its statement alone. */
  predicate Settled(step: (Program, Node, Program) -> Option<Node>, p: Program, k: nat) {
    forall j :: k <= j < |p| ==> step(p[..j], p[j], p[j + 1..]) == Some(p[j])
  }

  /** A sweep leaves the file as it is exactly when every step, shown the file as it is, would. */
  lemma {:induction false} SweepSettled(step: (Program, Node, Program) -> Option<Node>, p: Program, k: nat)
    requires k <= |p|
    ensures Sweep(step, p[..k], p[k..]) == p <==> Settled(step, p, k)
    decreases |p| - k
  {
    if k == |p| {
      assert p[..k] == p;
    } else {
      var x := p[k];
      assert p[k..][0] == x && p[k..][1..] == p[k + 1..];
      match step(p[..k], x, p[k + 1..])
      case None =>
        assert |Sweep(step, p[..k], p[k + 1..])| < |p|;
      case Some(y) =>
        var r := Sweep(step, p[..k] + [y], p[k + 1..]);
        assert Sweep(step, p[..k], p[k..]) == r;
        if y == x {
          assert p[..k] + [x] == p[..k + 1];
          SweepSettled(step, p, k + 1);
        } else {
          assert r[..k + 1] == p[..k] + [y];
          assert r[k] == y;
        }
    }
  }

  /** Statements outside `q` are left alone, and statements in `q` stay in `q`. */
  ghost predicate Confined(step: (Program, Node, Program) -> Option<Node>, q: Node -> bool) {
    && (forall d, x, a :: !q(x) ==> step(d, x, a) == Some(x))
    && (forall d, x, a :: q(x) && step(d, x, a).Some? ==> q(step(d, x, a).value))
  }

  function Outside(q: Node -> bool): Node -> bool {
    (n: Node) => !q(n)
  }

  lemma {:induction false} OutsideAt(q: Node -> bool, n: Node)
    ensures Outside(q)(n) <==> !q(n)
  {
  }

  /** A confined sweep keeps the statements outside `q` as they are and in their order. */
  lemma {:induction false} SweepOutside(step: (Program, Node, Program) -> Option<Node>, q: Node -> bool, done: Program, rest: Program)
    requires Confined(step, q)
    ensures Filter(Sweep(step, done, rest), Outside(q)) == Filter(done, Outside(q)) + Filter(rest, Outside(q))
    decreases |rest|
  {
    if |rest| > 0 {
      match step(done, rest[0], rest[1..])
      case None =>
        SweepOutside(step, q, done, rest[1..]);
        OutsideDropCase(step, q, done, rest);
      case Some(y) =>
        SweepOutside(step, q, done + [y], rest[1..]);
        OutsideKeepCase(step, q, done, rest, y);
    }
  }

  lemma {:induction false} OutsideDropCase(step: (Program, Node, Program) -> Option<Node>, q: Node -> bool, done: Program, rest: Program)
    requires Confined(step, q) && |rest| > 0 && step(done, rest[0], rest[1..]).None?
    requires Filter(Sweep(step, done, rest[1..]), Outside(q)) == Filter(done, Outside(q)) + Filter(rest[1..], Outside(q))
    ensures Filter(Sweep(step, done, rest), Outside(q)) == Filter(done, Outside(q)) + Filter(rest, Outside(q))
  {
    var x := rest[0];
    assert [x] + rest[1..] == rest;
    FilterConcat([x], rest[1..], Outside(q));
    StepDrops(step, q, done, x, rest[1..]);
  }

  lemma {:induction false} OutsideKeepCase(step: (Program, Node, Program) -> Option<Node>, q: Node -> bool, done: Program, rest: Program, y: Node)
    requires Confined(step, q) && |rest| > 0 && step(done, rest[0], rest[1..]) == Some(y)
    requires Filter(Sweep(step, done + [y], rest[1..]), Outside(q)) == Filter(done + [y], Outside(q)) + Filter(rest[1..], Outside(q))
    ensures Filter(Sweep(step, done, rest), Outside(q)) == Filter(done, Outside(q)) + Filter(rest, Outside(q))
  {
    SweepKeepStep(step, done, rest, y);
    StepKeeps(step, q, done, rest[0], rest[1..]);
    Regather(done, rest, y, Outside(q));
  }

  lemma {:induction false} SweepKeepStep(step: (Program, Node, Program) -> Option<Node>, done: Program, rest: Program, y: Node)
    requires |rest| > 0 && step(done, rest[0], rest[1..]) == Some(y)
    ensures Sweep(step, done, rest) == Sweep(step, done + [y], rest[1..])
  {
  }

  lemma {:induction false} Regather<T>(done: seq<T>, rest: seq<T>, y: T, out: T -> bool)
    requires |rest| > 0 && Filter([y], out) == Filter([rest[0]], out)
    ensures Filter(done + [y], out) + Filter(rest[1..], out) == Filter(done, out) + Filter(rest, out)
  {
    var x, c := rest[0], rest[1..];
    assert [x] + c == rest;
    FilterConcat([x], c, out);
    FilterConcat(done, [y], out);
    SeqAssoc(Filter(done, out), Filter([y], out), Filter(c, out));
  }

  lemma {:induction false} SeqAssoc<T>(a: seq<T>, b: seq<T>, c: seq<T>)
    ensures a + b + c == a + (b + c)
  {
  }

  lemma {:induction false} StepDrops(step: (Program, Node, Program) -> Option<Node>, q: Node -> bool, d: Program, x: Node, a: Program)
    requires Confined(step, q) && step(d, x, a).None?
    ensures Filter([x], Outside(q)) == []
  {
  }

  lemma {:induction false} StepKeeps(step: (Program, Node, Program) -> Option<Node>, q: Node -> bool, d: Program, x: Node, a: Program)
    requires Confined(step, q) && step(d, x, a).Some?
    ensures Filter([step(d, x, a).value], Outside(q)) == Filter([x], Outside(q))
  {
  }

  /** A confined sweep keeps a last statement outside `q` in last place. */
  lemma {:induction false} SweepKeepsLast(step: (Program, Node, Program) -> Option<Node>, q: Node -> bool, done: Program, rest: Program)
    requires Confined(step, q) && |rest| > 0 && !q(rest[|rest| - 1])
    ensures var r := Sweep(step, done, rest); |r| > 0 && r[|r| - 1] == rest[|rest| - 1]
    decreases |rest|
  {
    var x := rest[0];
    if |rest| == 1 {
      assert step(done, x, rest[1..]) == Some(x);
    } else {
      assert rest[1..][|rest| - 2] == rest[|rest| - 1];
      match step(done, x, rest[1..])
      case None =>
        SweepKeepsLast(step, q, done, rest[1..]);
      case Some(y) =>
        SweepKeepsLast(step, q, done + [y], rest[1..]);
    }
  }

  /** A confined sweep keeps a first statement outside `q` in first place. */
  lemma {:induction false} SweepKeepsFirst(step: (Program, Node, Program) -> Option<Node>, q: Node -> bool, rest: Program)
    requires Confined(step, q) && |rest| > 0 && !q(rest[0])
    ensures var r := Sweep(step, [], rest); |r| > 0 && r[0] == rest[0]
  {
    var x := rest[0];
    assert step([], x, rest[1..]) == Some(x);
    var r := Sweep(step, [x], rest[1..]);
    assert r[..1] == [x];
  }

  /** Imports and variable declarations: the only statements either pruning pass touches. */
  predicate IsDeclaration(n: Node) {
    n.Import? || n.VarDecl?
  }

  // ---------------------------------------------------------------------------
  // removeUnusedImports

  /** An import with specifiers; side-effect imports are never pruned. */
  predicate Prunable(n: Node) {
    n.Import? && |n.specs| > 0
  }

  function KeepSpec(t: Program): Spec -> bool {
    (s: Spec) => IsUsed(t, s.local, SpecKind(s))
  }

  /** One import: its unused specifiers go, and an import left with none goes too. */
  function ImportStep(done: Program, x: Node, after: Program): Option<Node> {
    if Prunable(x) then
      var kept := Filter(x.specs, KeepSpec(done + [x] + after));
      if kept == [] then None else Some(Import(x.source, kept))
    else Some(x)
  }

  function PruneImports(p: Program): Program {
    Sweep(ImportStep, [], p)
  }

  /** Every specifier of every import with specifiers is used in `p`. */
  predicate ImportsUsed(p: Program) {
    forall j, s :: 0 <= j < |p| && Prunable(p[j]) && s in p[j].specs ==> IsUsed(p, s.local, SpecKind(s))
  }

  /** An import survives its step unchanged exactly when all its specifiers are used. */
  lemma {:induction false} ImportStepSettled(done: Program, x: Node, after: Program)
    ensures ImportStep(done, x, after) == Some(x) <==>
      (Prunable(x) ==> forall s :: s in x.specs ==> IsUsed(done + [x] + after, s.local, SpecKind(s)))
  {
    if Prunable(x) {
      var keep := KeepSpec(done + [x] + after);
      if forall s :: s in x.specs ==> keep(s) {
        FilterAll(x.specs, keep);
      } else {
        var s :| s in x.specs && !keep(s);
        FilterMissing(x.specs, keep, s);
      }
    }
  }

  /**
   * Pruning leaves the file as it is exactly when every specifier is used by an identifier
   * whose parent is not a specifier of the same kind.
   */
  lemma {:induction false} PruneImportsFixed(p: Program)
    ensures PruneImports(p) == p <==> ImportsUsed(p)
  {
    SweepSettled(ImportStep, p, 0);
    assert p[..0] == [] && p[0..] == p;
    if Settled(ImportStep, p, 0) {
      forall j, s | 0 <= j < |p| && Prunable(p[j]) && s in p[j].specs
        ensures IsUsed(p, s.local, SpecKind(s))
      {
        ImportSettledAt(p, j);
      }
    }
    if ImportsUsed(p) {
      forall j | 0 <= j < |p|
        ensures ImportStep(p[..j], p[j], p[j + 1..]) == Some(p[j])
      {
        ImportSettledAt(p, j);
      }
    }
  }

  lemma {:induction false} ImportSettledAt(p: Program, j: nat)
    requires j < |p|
    ensures ImportStep(p[..j], p[j], p[j + 1..]) == Some(p[j]) <==>
      (Prunable(p[j]) ==> forall s :: s in p[j].specs ==> IsUsed(p, s.local, SpecKind(s)))
  {
    assert p[..j] + [p[j]] + p[j + 1..] == p;
    ImportStepSettled(p[..j], p[j], p[j + 1..]);
  }

  lemma {:induction false} ImportStepConfined()
    ensures Confined(ImportStep, IsDeclaration)
  {
  }

  // ---------------------------------------------------------------------------
  // removeUnusedRequires

  /** A variable declaration whose first declarator is initialised by a `require(…)` call. */
  predicate IsRequireDecl(n: Node) {
    n.VarDecl? && |n.decls| > 0 && n.decls[0].Declarator?
    && n.decls[0].init.Call? && n.decls[0].init.callee == Id("require")
  }

  /** A destructured property is kept when it is not `key: name` or its name is used. */
  function KeepProp(t: Program): PatProp -> bool {
    (pr: PatProp) => !pr.KeyValue? || IsUsed(t, pr.value, KProperty)
  }

  /**
   * The declarators of one require declaration, filtered in order; the declaration stands in
   * the tree as `VarDecl(seen + todo, notes)` between `before` and `after`. A pattern that keeps
   * some of its properties is shortened in the tree at once, while a dropped declarator stays
   * there until the whole declaration is rewritten.
   */
  function KeepDeclarators(before: Program, after: Program, notes: seq<string>, seen: seq<Node>, todo: seq<Node>): (r: seq<Node>)
    ensures |r| <= |todo|
    decreases |todo|
  {
    if |todo| == 0 then []
    else
      var t := before + [VarDecl(seen + todo, notes)] + after;
      var d := todo[0];
      if d.Declarator? && d.id.PId? then
        var r := KeepDeclarators(before, after, notes, seen + [d], todo[1..]);
        if IsUsed(t, d.id.name, KDeclarator) then [d] + r else r
      else if d.Declarator? && d.id.PObj? then
        var props := Filter(d.id.props, KeepProp(t));
        if props == [] then KeepDeclarators(before, after, notes, seen + [d], todo[1..])
        else
          var d2 := Declarator(PObj(props), d.init);
          [d2] + KeepDeclarators(before, after, notes, seen + [d2], todo[1..])
      else [d] + KeepDeclarators(before, after, notes, seen + [d], todo[1..])
  }

  /** What keeps a declarator in place: its name is used, or all its destructured names are. */
  predicate DeclaratorUsed(t: Program, d: Node) {
    d.Declarator? ==>
      match d.id
      case PId(x) => IsUsed(t, x, KDeclarator)
      case PObj(ps) => |ps| > 0 && forall pr :: pr in ps ==> KeepProp(t)(pr)
      case OtherPattern => true
  }

  /** The declarators survive unchanged exactly when each is used in the tree as it stands. */
  lemma {:induction false} KeepDeclaratorsSettled(before: Program, after: Program, notes: seq<string>, seen: seq<Node>, todo: seq<Node>)
    ensures KeepDeclarators(before, after, notes, seen, todo) == todo <==>
      forall k :: 0 <= k < |todo| ==> DeclaratorUsed(before + [VarDecl(seen + todo, notes)] + after, todo[k])
    decreases |todo|
  {
    if |todo| > 0 {
      var t := before + [VarDecl(seen + todo, notes)] + after;
      var d := todo[0];
      assert seen + [d] + todo[1..] == seen + todo;
      KeepDeclaratorsSettled(before, after, notes, seen + [d], todo[1..]);
      assert forall k :: 1 <= k < |todo| ==> todo[k] == todo[1..][k - 1];
      if d.Declarator? && d.id.PObj? {
        DeclaratorStep(t, d);
      }
    }
  }

  /** A destructuring declarator keeps all its properties exactly when it is used. */
  lemma {:induction false} DeclaratorStep(t: Program, d: Node)
    requires d.Declarator? && d.id.PObj?
    ensures var props := Filter(d.id.props, KeepProp(t));
      (props != [] && Declarator(PObj(props), d.init) == d) <==> DeclaratorUsed(t, d)
  {
    var keep := KeepProp(t);
    if forall pr :: pr in d.id.props ==> keep(pr) {
      FilterAll(d.id.props, keep);
    } else {
      var pr :| pr in d.id.props && !keep(pr);
      FilterMissing(d.id.props, keep, pr);
    }
  }

  /** One require declaration: unused declarators go, and a declaration left with none goes too. */
  function RequireStep(done: Program, x: Node, after: Program): Option<Node> {
    if IsRequireDecl(x) then
      var kept := KeepDeclarators(done, after, x.notes, [], x.decls);
      if kept == [] then None else Some(VarDecl(kept, x.notes))
    else Some(x)
  }

  function PruneRequires(p: Program): Program {
    Sweep(RequireStep, [], p)
  }

  /** Every declarator of every top-level require declaration is used in `p`. */
  predicate RequiresUsed(p: Program) {
    forall j, k :: 0 <= j < |p| && IsRequireDecl(p[j]) && 0 <= k < |p[j].decls| ==> DeclaratorUsed(p, p[j].decls[k])
  }

  lemma {:induction false} RequireStepSettled(done: Program, x: Node, after: Program)
    ensures RequireStep(done, x, after) == Some(x) <==>
      (IsRequireDecl(x) ==> forall k :: 0 <= k < |x.decls| ==> DeclaratorUsed(done + [x] + after, x.decls[k]))
  {
    if IsRequireDecl(x) {
      assert [] + x.decls == x.decls;
      KeepDeclaratorsSettled(done, after, x.notes, [], x.decls);
    }
  }

  /** Pruning requires leaves the file as it is exactly when every declarator is used. */
  lemma {:induction false} PruneRequiresFixed(p: Program)
    ensures PruneRequires(p) == p <==> RequiresUsed(p)
  {
    SweepSettled(RequireStep, p, 0);
    assert p[..0] == [] && p[0..] == p;
    if Settled(RequireStep, p, 0) {
      forall j, k | 0 <= j < |p| && IsRequireDecl(p[j]) && 0 <= k < |p[j].decls|
        ensures DeclaratorUsed(p, p[j].decls[k])
      {
        RequireSettledAt(p, j);
      }
    }
    if RequiresUsed(p) {
      forall j | 0 <= j < |p|
        ensures RequireStep(p[..j], p[j], p[j + 1..]) == Some(p[j])
      {
        RequireSettledAt(p, j);
      }
    }
  }

  lemma {:induction false} RequireSettledAt(p: Program, j: nat)
    requires j < |p|
    ensures RequireStep(p[..j], p[j], p[j + 1..]) == Some(p[j]) <==>
      (IsRequireDecl(p[j]) ==> forall k :: 0 <= k < |p[j].decls| ==> DeclaratorUsed(p, p[j].decls[k]))
  {
    assert p[..j] + [p[j]] + p[j + 1..] == p;
    RequireStepSettled(p[..j], p[j], p[j + 1..]);
  }

  lemma {:induction false} RequireStepConfined()
    ensures Confined(RequireStep, IsDeclaration)
  {
  }

  /** Both passes, imports first, as the rule runs them on each file. */
  function Prune(p: Program): Program {
    PruneRequires(PruneImports(p))
  }

  /** Pruning keeps every statement other than an import or a variable declaration, in order. */
  lemma {:induction false} PruneOutside(p: Program)
    ensures Filter(Prune(p), Outside(IsDeclaration)) == Filter(p, Outside(IsDeclaration))
  {
    ImportStepConfined();
    RequireStepConfined();
    SweepOutside(ImportStep, IsDeclaration, [], p);
    SweepOutside(RequireStep, IsDeclaration, [], PruneImports(p));
  }

  lemma {:induction false} FilterNone<T>(s: seq<T>, keep: T -> bool)
    requires forall x :: x in s ==> !keep(x)
    ensures Filter(s, keep) == []
  {
    if |s| > 0 {
      assert forall x :: x in s[1..] ==> x in s;
      FilterNone(s[1..], keep);
    }
  }

  lemma {:induction false} ImportStepKeepsOthers()
    ensures Confined(ImportStep, Prunable)
  {
  }

  lemma {:induction false} RequireStepKeepsOthers()
    ensures Confined(RequireStep, (n: Node) => n.VarDecl?)
  {
  }

  // ---------------------------------------------------------------------------
  // Removing the init call from the source file

  /** Child `i` of a statement list taken out; any other node comes back as it is. */
  function DropChild(c: Node, i: nat): Node {
    if c.Block? && i < |c.stmts| then Block(c.stmts[..i] + c.stmts[i + 1..])
    else if c.Other? && i < |c.kids| then Other(c.kids[..i] + c.kids[i + 1..])
    else c
  }

  /**
   * `j(path).remove()` on the call at `path`: a statement that holds nothing but the call goes
   * with it when it sits at the top level or in a block.
   */
  function RemoveCall(p: Program, path: Path): Program
    requires Valid(Root(p), path)
  {
    if |path| < 2 then p
    else
      var listAt := path[..|path| - 2];
      ValidPrefix(Root(p), path, |path| - 1);
      ValidPrefix(Root(p), path, |path| - 2);
      var holder := At(Root(p), listAt);
      if At(Root(p), path[..|path| - 1]).ExprStmt? && (listAt == [] || holder.Block?) then
        Children(Replace(Root(p), listAt, DropChild(holder, path[|path| - 2])))
      else p
  }

  /** An init call that is a top-level statement of its own takes that statement with it. */
  lemma {:induction false} RemoveTopLevel(p: Program, i: nat)
    requires i < |p| && p[i].ExprStmt?
    ensures Valid(Root(p), [i, 0]) && RemoveCall(p, [i, 0]) == p[..i] + p[i + 1..]
  {
    var path: Path := [i, 0];
    assert Children(Root(p))[i] == p[i];
    assert Children(p[i]) == [p[i].expr];
    assert path[1..] == [0] && [0][1..] == [];
    assert Valid(Root(p), path);
    assert path[..1] == [i] && [i][1..] == [] && path[..0] == [];
    assert At(Root(p), [i]) == p[i];
    assert At(Root(p), []) == Other(p);
    assert DropChild(Other(p), i) == Other(p[..i] + p[i + 1..]);
  }

  // ---------------------------------------------------------------------------
  // The rule

  /** `import "./instrument"` when the file imports the SDK, else `require("./instrument")`. */
  function Boot(sdk: string, p: Program): Node {
    if ExistsIn((n: Node) => n.Import? && n.source == sdk, p) then Import(InstrumentModule, [])
    else ExprStmt(Call(Id("require"), [Str(InstrumentModule)]), [])
  }

  function RequireNodes(n: Node): seq<Node> {
    if IsRequireDecl(n) then [n] else []
  }

  function ImportNodes(n: Node): seq<Node> {
    if n.Import? then [n] else []
  }

  /**
   * The new file: copies of every require declaration, then of every import, each group in
   * the order they appear, then the init call as a statement; pruned.
   */
  function InstrumentFile(p: Program, call: Node): Program {
    Prune(CollectIn(RequireNodes, p) + CollectIn(ImportNodes, p) + [ExprStmt(call, [])])
  }

  /** The source file: the bootstrap statement first, the init call gone; pruned. */
  function AppFile(sdk: string, p: Program, path: Path): Program
    requires Valid(Root(p), path)
  {
    Prune([Boot(sdk, p)] + RemoveCall(p, path))
  }

  /** The two files the rule produces; the new one is `name` in the source file's folder. */
  datatype Split = Split(name: string, instrument: Program, app: Program)

  /**
   * The rule on a file at `fileName` parsed as `p`; `siblingExists` says whether a file of the
   * given name exists in the same folder. `None` leaves both files as they are.
   */
  function InstrumentRule(sdk: string, src: string, fileName: string, siblingExists: string -> bool, p: Program): (r: Option<Split>)
    ensures r.None? <==>
      || sdk != NodePackage
      || !HasImportOrRequire(src, sdk)
      || IsBootstrapName(fileName)
      || InitExpression(src, p).None?
      || siblingExists("instrument" + Extname(fileName))
  {
    if sdk != NodePackage || !HasImportOrRequire(src, sdk) || IsBootstrapName(fileName) then None
    else
      match InitExpression(src, p)
      case None => None
      case Some(form) =>
        var paths := Find(InitCallOf(form), Root(p));
        var name := "instrument" + Extname(fileName);
        FoundSome(form, p);
        if paths == [] || siblingExists(name) then None
        else
          assert paths[0] in paths;
          Some(Split(name, InstrumentFile(p, At(Root(p), paths[0])), AppFile(sdk, p, paths[0])))
  }

  lemma {:induction false} FoundSome(form: InitForm, p: Program)
    ensures ExistsIn(InitCallOf(form), p) ==> Find(InitCallOf(form), Root(p)) != []
  {
    FindEmpty(InitCallOf(form), Root(p));
  }

  /** The new file is the init statement after requires and imports, and nothing else. */
  lemma {:induction false} InstrumentFileShape(p: Program, call: Node)
    ensures var f := InstrumentFile(p, call);
      && |f| > 0 && f[|f| - 1] == ExprStmt(call, [])
      && Filter(f, Outside(IsDeclaration)) == [ExprStmt(call, [])]
  {
    var input := CollectIn(RequireNodes, p) + CollectIn(ImportNodes, p) + [ExprStmt(call, [])];
    InstrumentOutside(p, call);
    ImportStepConfined();
    RequireStepConfined();
    assert input[|input| - 1] == ExprStmt(call, []);
    SweepKeepsLast(ImportStep, IsDeclaration, [], input);
    SweepKeepsLast(RequireStep, IsDeclaration, [], PruneImports(input));
  }

  lemma {:induction false} InstrumentOutside(p: Program, call: Node)
    ensures Filter(InstrumentFile(p, call), Outside(IsDeclaration)) == [ExprStmt(call, [])]
  {
    var loads := CollectIn(RequireNodes, p) + CollectIn(ImportNodes, p);
    var stmt := ExprStmt(call, []);
    LoadsAreDeclarations(p);
    FilterNone(loads, Outside(IsDeclaration));
    FilterConcat(loads, [stmt], Outside(IsDeclaration));
    FilterOne(stmt, Outside(IsDeclaration));
    assert !IsDeclaration(stmt);
    OutsideAt(IsDeclaration, stmt);
    PruneOutside(loads + [stmt]);
    assert InstrumentFile(p, call) == Prune(loads + [stmt]);
  }

  lemma {:induction false} LoadsAreDeclarations(p: Program)
    ensures forall x :: x in CollectIn(RequireNodes, p) + CollectIn(ImportNodes, p) ==> IsDeclaration(x)
  {
    CollectInAll(RequireNodes, IsDeclaration, p);
    CollectInAll(ImportNodes, IsDeclaration, p);
  }

  /** The source file starts with the bootstrap statement and keeps every other statement. */
  lemma {:induction false} AppFileShape(sdk: string, p: Program, path: Path)
    requires Valid(Root(p), path)
    ensures var a := AppFile(sdk, p, path);
      && |a| > 0 && a[0] == Boot(sdk, p)
      && Filter(a, Outside(IsDeclaration)) == Filter([Boot(sdk, p)] + RemoveCall(p, path), Outside(IsDeclaration))
  {
    var input := [Boot(sdk, p)] + RemoveCall(p, path);
    PruneOutside(input);
    ImportStepKeepsOthers();
    RequireStepKeepsOthers();
    SweepKeepsFirst(ImportStep, Prunable, input);
    SweepKeepsFirst(RequireStep, (n: Node) => n.VarDecl?, PruneImports(input));
  }

  /** What the rule writes when it does not skip the file. */
  lemma {:induction false} InstrumentRuleSplits(sdk: string, src: string, fileName: string, siblingExists: string -> bool, p: Program)
    requires InstrumentRule(sdk, src, fileName, siblingExists, p).Some?
    ensures var r := InstrumentRule(sdk, src, fileName, siblingExists, p).value;
      && r.name == "instrument" + Extname(fileName)
      && |r.instrument| > 0 && |r.app| > 0
      && r.instrument[|r.instrument| - 1].ExprStmt?
      && IsInitCall(InitExpression(src, p).value, r.instrument[|r.instrument| - 1].expr)
      && Filter(r.instrument, Outside(IsDeclaration)) == [r.instrument[|r.instrument| - 1]]
      && r.app[0] == Boot(sdk, p)
  {
    var form := InitExpression(src, p).value;
    var paths := Find(InitCallOf(form), Root(p));
    assert paths[0] in paths;
    InstrumentFileShape(p, At(Root(p), paths[0]));
    AppFileShape(sdk, p, paths[0]);
  }
}

=== FILE: normaliser.dfy ===
/**
 * The shared helpers every codemod builds on: the text gate that decides
 * whether a file mentions a Sentry package, locating the `init` call, and the
 * import/require normalisations (retargeting, renaming, de-duplication).
 */
module Normaliser {
  import opened Wrappers
  import opened Ast
  import opened Text
  import opened Seqs

  const SentryScope := "@sentry/"

  predicate IsQuote(c: char) {
    c == '\'' || c == '"'
  }

  /** The characters JavaScript's `.` does not match. */
  predicate IsLineTerminator(c: char) {
    c == '\n' || c == '\r' || c == '\U{2028}' || c == '\U{2029}'
  }

  /**
   * At `i` the text reads `before`, a quote, `pkg`, a quote, `after`,
   * ignoring letter case (the gate's regular expressions carry the `i` flag).
   */
  predicate QuotedAt(src: string, i: nat, before: string, pkg: string, after: string) {
    var q1 := i + |before|;
    var q2 := q1 + 1 + |pkg|;
    q2 < |src|
    && MatchesAtCI(src, before, i)
    && IsQuote(src[q1])
    && MatchesAtCI(src, pkg, q1 + 1)
    && IsQuote(src[q2])
    && MatchesAtCI(src, after, q2 + 1)
  }

  /** `from 'pkg'` or `require('pkg')` at `i`. */
  predicate ImportOrRequireAt(src: string, pkg: string, i: nat) {
    QuotedAt(src, i, "from ", pkg, "") || QuotedAt(src, i, "require(", pkg, ")")
  }

  /** The text gate for a named package: an ES import from it or a CommonJS require of it. */
  predicate HasImportOrRequire(src: string, pkg: string) {
    exists i: nat | i <= |src| :: ImportOrRequireAt(src, pkg, i)
  }

  /**
   * At `i` the text reads `before`, a quote, `@sentry/`, at least one more
   * character on the same line, a quote, `after` (the default pattern `@sentry/(.+)`).
   */
  predicate AnySentryAt(src: string, i: nat, before: string, after: string) {
    var q1 := i + |before|;
    var n0 := q1 + 1 + |SentryScope|;
    n0 < |src|
    && MatchesAtCI(src, before, i)
    && IsQuote(src[q1])
    && MatchesAtCI(src, SentryScope, q1 + 1)
    && exists q2 | n0 < q2 < |src| ::
         IsQuote(src[q2]) && MatchesAtCI(src, after, q2 + 1)
         && forall k | n0 <= k < q2 :: !IsLineTerminator(src[k])
  }

  /** The text gate without a package: any `@sentry/…` import or require. */
  predicate HasSentryImportOrRequire(src: string) {
    exists i: nat | i <= |src| :: AnySentryAt(src, i, "from ", "") || AnySentryAt(src, i, "require(", ")")
  }

  /** A package of the `@sentry/` scope whose name is one line and not empty. */
  predicate IsScopedName(pkg: string) {
    |pkg| > |SentryScope| && pkg[..|SentryScope|] == SentryScope
    && forall k | |SentryScope| <= k < |pkg| :: !IsLineTerminator(pkg[k])
  }

  lemma {:induction false} LineTerminatorFolds(c: char, d: char)
    requires LowerChar(c) == LowerChar(d) && !IsLineTerminator(d)
    ensures !IsLineTerminator(c)
  {
  }

  lemma {:induction false} AnyFromNamed(src: string, pkg: string, i: nat, before: string, after: string)
    requires IsScopedName(pkg) && QuotedAt(src, i, before, pkg, after)
    ensures AnySentryAt(src, i, before, after)
  {
    var q1 := i + |before|;
    var n0 := q1 + 1 + |SentryScope|;
    var q2 := q1 + 1 + |pkg|;
    assert MatchesAtCI(src, SentryScope, q1 + 1) by {
      forall k | 0 <= k < |SentryScope|
        ensures LowerChar(src[q1 + 1 + k]) == LowerChar(SentryScope[k])
      {
        assert pkg[k] == SentryScope[k];
      }
    }
    forall k | n0 <= k < q2
      ensures !IsLineTerminator(src[k])
    {
      LineTerminatorFolds(src[k], pkg[k - q1 - 1]);
    }
  }

  /** A file that imports or requires a particular Sentry package passes the default gate too. */
  lemma {:induction false} NamedGateImpliesAnyGate(src: string, pkg: string)
    requires IsScopedName(pkg) && HasImportOrRequire(src, pkg)
    ensures HasSentryImportOrRequire(src)
  {
    var i: nat :| i <= |src| && ImportOrRequireAt(src, pkg, i);
    if QuotedAt(src, i, "from ", pkg, "") {
      AnyFromNamed(src, pkg, i, "from ", "");
    } else {
      AnyFromNamed(src, pkg, i, "require(", ")");
    }
  }

  // ---------------------------------------------------------------------------
  // Locating the init call

  /** Which spelling of the SDK's `init` call a file uses. */
  datatype InitForm = SentryDotInit | BareInit

  /** `Sentry.init(…)` or, for `BareInit`, `init(…)`. */
  predicate IsInitCall(form: InitForm, n: Node) {
    n.Call? &&
    match form
    case SentryDotInit => n.callee.Member? && n.callee.obj == Id("Sentry") && n.callee.prop == Id("init")
    case BareInit => n.callee == Id("init")
  }

  function InitCallOf(form: InitForm): Node -> bool {
    n => IsInitCall(form, n)
  }

  /**
   * The init calls a codemod works on: every `Sentry.init()` call when there is
   * one, else every bare `init()` call provided the file imports some Sentry
   * package, else none.
   */
  function InitExpression(src: string, p: Program): (r: Option<InitForm>)
    ensures r.Some? ==> ExistsIn(InitCallOf(r.value), p)
    ensures r == Some(BareInit) ==> HasSentryImportOrRequire(src) && !ExistsIn(InitCallOf(SentryDotInit), p)
    ensures r.None? <==>
      !ExistsIn(InitCallOf(SentryDotInit), p)
      && (!HasSentryImportOrRequire(src) || !ExistsIn(InitCallOf(BareInit), p))
  {
    if ExistsIn(InitCallOf(SentryDotInit), p) then Some(SentryDotInit)
    else if HasSentryImportOrRequire(src) && ExistsIn(InitCallOf(BareInit), p) then Some(BareInit)
    else None
  }

  // ---------------------------------------------------------------------------
  // Retargeting requires and imports

  /** `require("pkg")` with exactly one string argument. */
  predicate RequiresPackage(n: Node, pkg: string) {
    n.Call? && n.callee == Id("require") && n.args == [Str(pkg)]
  }

  function RequireOf(pkg: string): Node -> bool {
    n => RequiresPackage(n, pkg)
  }

  function RetargetRequire(oldPkg: string, newPkg: string, n: Node): (r: Node)
    ensures RequiresPackage(n, oldPkg) ==> RequiresPackage(r, newPkg)
    ensures !RequiresPackage(n, oldPkg) ==> r == n
  {
    if RequiresPackage(n, oldPkg) then Call(Id("require"), [Str(newPkg)]) else n
  }

  function RetargetRule(oldPkg: string, newPkg: string): Node -> Node {
    n => RetargetRequire(oldPkg, newPkg, n)
  }

  /**
   * Points every `require(oldPkg)` at `newPkg`; the flag says whether the file had any.
   */
  function RewriteCjsRequires(oldPkg: string, newPkg: string, p: Program): (r: (Program, bool))
    ensures |r.0| == |p|
    ensures r.1 <==> ExistsIn(RequireOf(oldPkg), p)
    ensures oldPkg != newPkg ==> !ExistsIn(RequireOf(oldPkg), r.0)
  {
    var q := MapProgram(RetargetRule(oldPkg, newPkg), p);
    assert oldPkg != newPkg ==> !ExistsIn(RequireOf(oldPkg), q) by {
      if oldPkg != newPkg {
        RetargetLeavesNoOld(oldPkg, newPkg, p);
      }
    }
    (q, ExistsIn(RequireOf(oldPkg), p))
  }

  lemma {:induction false} RetargetLeavesNoOld(oldPkg: string, newPkg: string, p: Program)
    requires oldPkg != newPkg
    ensures !ExistsIn(RequireOf(oldPkg), MapProgram(RetargetRule(oldPkg, newPkg), p))
  {
    var f := RetargetRule(oldPkg, newPkg);
    var q := x => !RequiresPackage(x, oldPkg);
    assert Establishes(f, q) by {
      forall x: Node | forall i :: 0 <= i < |Children(x)| ==> Every(q, Children(x)[i])
        ensures Every(q, f(x))
      {
        if RequiresPackage(x, oldPkg) {
          assert Children(f(x)) == [Id("require"), Str(newPkg)];
        }
      }
    }
    forall i | 0 <= i < |p|
      ensures !Exists(RequireOf(oldPkg), MapProgram(f, p)[i])
    {
      MapEstablishes(f, q, p[i]);
      EveryNotExists(q, RequireOf(oldPkg), MapProgram(f, p)[i]);
    }
  }

  /** Retargeting never turns a node into an identifier or a string that was not one. */
  lemma {:induction false} RetargetLeaf(a: string, b: string, c: Node)
    ensures Map(RetargetRule(a, b), c).Id? ==> Map(RetargetRule(a, b), c) == c
    ensures Map(RetargetRule(a, b), c).Str? ==> Map(RetargetRule(a, b), c) == c
  {
    var f := RetargetRule(a, b);
    var cs := Children(c);
    var y := WithChildren(c, seq(|cs|, i requires 0 <= i < |cs| => Map(f, cs[i])));
    assert Map(f, c) == f(y);
    if f(y).Id? || f(y).Str? {
      assert f(y) == y;
      assert KindOf(y) == KindOf(c);
      assert cs == [];
    }
  }

  /** A node that matches after its children were retargeted already matched before. */
  lemma {:induction false} RetargetCreatesNoMatch(a: string, b: string, n: Node)
    ensures
      var cs := Children(n);
      var y := WithChildren(n, seq(|cs|, i requires 0 <= i < |cs| => Map(RetargetRule(a, b), cs[i])));
      RequiresPackage(y, a) ==> RequiresPackage(n, a)
  {
    var cs := Children(n);
    if n.Call? && |cs| == 2 {
      RetargetLeaf(a, b, cs[0]);
      RetargetLeaf(a, b, cs[1]);
    }
  }

  /** A pass of the retargeting rule over a `require` call is one application of the rule. */
  lemma {:induction false} RetargetRequireCall(a: string, b: string, pkg: string)
    ensures Map(RetargetRule(a, b), Call(Id("require"), [Str(pkg)]))
         == RetargetRequire(a, b, Call(Id("require"), [Str(pkg)]))
  {
    var f := RetargetRule(a, b);
    var m := Call(Id("require"), [Str(pkg)]);
    var w := MapStep(f, m);
    assert Map(f, Id("require")) == Id("require");
    assert Map(f, Str(pkg)) == Str(pkg);
    assert Children(w) == Children(m);
    assert w == m;
  }

  /**
   * Retargeting `require(a)` to `b` and back again restores the file, provided
   * it did not already require `b`.
   */
  lemma {:induction false} RetargetRoundTrip(a: string, b: string, n: Node)
    requires !Exists(RequireOf(b), n)
    ensures Map(RetargetRule(b, a), Map(RetargetRule(a, b), n)) == n
  {
    var f, g := RetargetRule(a, b), RetargetRule(b, a);
    var cs := Children(n);
    var fs := seq(|cs|, i requires 0 <= i < |cs| => Map(f, cs[i]));
    forall i | 0 <= i < |cs|
      ensures Map(g, fs[i]) == cs[i]
    {
      RetargetRoundTrip(a, b, cs[i]);
    }
    if RequiresPackage(n, a) {
      RetargetRequireCall(a, b, a);
      RetargetRequireCall(b, a, b);
    } else {
      RetargetCreatesNoMatch(a, b, n);
      assert Map(f, n) == WithChildren(n, fs);
      MapRestores(g, n, fs);
    }
  }

  /** Retargeting requires both ways is the identity on files that did not require the target. */
  lemma {:induction false} RewriteCjsRequiresRoundTrip(a: string, b: string, p: Program)
    requires !ExistsIn(RequireOf(b), p)
    ensures RewriteCjsRequires(b, a, RewriteCjsRequires(a, b, p).0).0 == p
  {
    var q := RewriteCjsRequires(a, b, p).0;
    var r := RewriteCjsRequires(b, a, q).0;
    forall i | 0 <= i < |p|
      ensures r[i] == p[i]
    {
      RetargetRoundTrip(a, b, p[i]);
    }
  }

  /** Retargeting requires leaves the top-level import declarations where and as they are. */
  lemma {:induction false} RewriteCjsRequiresKeepsImports(a: string, b: string, p: Program)
    ensures forall i :: 0 <= i < |p| ==> (RewriteCjsRequires(a, b, p).0[i].Import? <==> p[i].Import?)
    ensures forall i :: 0 <= i < |p| && p[i].Import? ==> RewriteCjsRequires(a, b, p).0[i] == p[i]
  {
    var f := RetargetRule(a, b);
    forall i | 0 <= i < |p|
      ensures (Map(f, p[i]).Import? <==> p[i].Import?) && (p[i].Import? ==> Map(f, p[i]) == p[i])
    {
      var cs := Children(p[i]);
      var y := WithChildren(p[i], seq(|cs|, j requires 0 <= j < |cs| => Map(f, cs[j])));
      assert Map(f, p[i]) == f(y);
      assert KindOf(y) == KindOf(p[i]);
      if p[i].Import? {
        MapLeaf(f, p[i]);
      }
    }
  }

  /** A file of import declarations only has no `require` to retarget. */
  lemma {:induction false} RewriteCjsRequiresImportsOnly(a: string, b: string, p: Program)
    requires forall i :: 0 <= i < |p| ==> p[i].Import?
    ensures RewriteCjsRequires(a, b, p).0 == p
  {
    RewriteCjsRequiresKeepsImports(a, b, p);
    var r := RewriteCjsRequires(a, b, p).0;
    assert forall i :: 0 <= i < |p| ==> r[i] == p[i];
  }

  predicate IsImportOf(n: Node, pkg: string) {
    n.Import? && n.source == pkg
  }

  /** The positions of the top-level imports of `pkg` at or after `from`, in document order. */
  function ImportPositions(p: Program, pkg: string, from: nat): (r: seq<nat>)
    requires from <= |p|
    ensures forall k :: 0 <= k < |r| ==> from <= r[k] < |p| && IsImportOf(p[r[k]], pkg)
    ensures forall i :: from <= i < |p| && IsImportOf(p[i], pkg) ==> i in r
    ensures forall k, l :: 0 <= k < l < |r| ==> r[k] < r[l]
    decreases |p| - from
  {
    if from == |p| then []
    else if IsImportOf(p[from], pkg) then [from] + ImportPositions(p, pkg, from + 1)
    else ImportPositions(p, pkg, from + 1)
  }

  function RetargetImport(oldPkg: string, newPkg: string, n: Node): Node {
    if IsImportOf(n, oldPkg) then Import(newPkg, n.specs) else n
  }

  /**
   * Points every `import … from oldPkg` at `newPkg` and returns the positions
   * of the declarations it retargeted, in document order.
   */
  function RewriteEsmImports(oldPkg: string, newPkg: string, p: Program): (r: (Program, seq<nat>))
    ensures |r.0| == |p|
    ensures forall k :: 0 <= k < |r.1| ==> r.1[k] < |p| && IsImportOf(p[r.1[k]], oldPkg)
    ensures forall i :: 0 <= i < |p| && IsImportOf(p[i], oldPkg) ==> i in r.1
    ensures forall k, l :: 0 <= k < l < |r.1| ==> r.1[k] < r.1[l]
    ensures forall i :: 0 <= i < |p| && IsImportOf(p[i], oldPkg) ==> r.0[i] == Import(newPkg, p[i].specs)
    ensures forall i :: 0 <= i < |p| && !IsImportOf(p[i], oldPkg) ==> r.0[i] == p[i]
  {
    (seq(|p|, i requires 0 <= i < |p| => RetargetImport(oldPkg, newPkg, p[i])), ImportPositions(p, oldPkg, 0))
  }

  /** Retargeting imports both ways is the identity on files that did not import the target. */
  lemma {:induction false} RewriteEsmImportsRoundTrip(a: string, b: string, p: Program)
    requires forall i :: 0 <= i < |p| ==> !IsImportOf(p[i], b)
    ensures RewriteEsmImports(b, a, RewriteEsmImports(a, b, p).0).0 == p
  {
  }

  // ---------------------------------------------------------------------------
  // De-duplicating specifiers within one declaration

  /** The local name an import specifier binds, when it is a named one. */
  function SpecKey(s: Spec): Option<string> {
    if s.Named? then Some(s.local) else None
  }

  /** The local name a destructured property binds. */
  function PropKey(p: PatProp): Option<string> {
    if p.KeyValue? then Some(p.value) else None
  }

  /**
   * The specifier scan: it stops at the first element without a key, drops an
   * element whose key was seen, and then steps over the element that slid into
   * its place without examining it.
   */
  function DedupeScan<T>(s: seq<T>, key: T -> Option<string>, seen: set<string>): (r: seq<T>)
    ensures IsSubseq(r, s)
    ensures forall k :: k !in seen ==> First(r, key, k) == First(s, key, k)
    decreases |s|
  {
    if |s| == 0 then []
    else if key(s[0]).None? then
      assert IsSubseq(s, s) by { SubseqRefl(s); }
      s
    else if key(s[0]).value in seen then
      if |s| == 1 then []
      else
        var rest := DedupeScan(s[2..], key, seen);
        assert s[1..] == [s[1]] + s[2..];
        SubseqCons(s[1], rest, s[2..]);
        SubseqSkip(s[0], [s[1]] + rest, s[1..]);
        assert s == [s[0]] + s[1..];
        [s[1]] + rest
    else
      var rest := DedupeScan(s[1..], key, seen + {key(s[0]).value});
      SubseqCons(s[0], rest, s[1..]);
      assert s == [s[0]] + s[1..];
      [s[0]] + rest
  }

  /**
   * The scan as intended: like `DedupeScan`, but the element that takes the place of a
   * dropped one is examined too.
   */
  function DedupeKeys<T>(s: seq<T>, key: T -> Option<string>, seen: set<string>): (r: seq<T>)
    ensures IsSubseq(r, s)
    ensures forall k :: k !in seen ==> First(r, key, k) == First(s, key, k)
    ensures (forall i :: 0 <= i < |s| ==> key(s[i]).Some?) ==>
      DistinctKeys(r, key) && forall i :: 0 <= i < |r| ==> key(r[i]).Some? && key(r[i]).value !in seen
    decreases |s|
  {
    if |s| == 0 then []
    else if key(s[0]).None? then
      assert IsSubseq(s, s) by { SubseqRefl(s); }
      s
    else if key(s[0]).value in seen then
      var rest := DedupeKeys(s[1..], key, seen);
      SubseqSkip(s[0], rest, s[1..]);
      assert s == [s[0]] + s[1..];
      rest
    else
      var rest := DedupeKeys(s[1..], key, seen + {key(s[0]).value});
      SubseqCons(s[0], rest, s[1..]);
      assert s == [s[0]] + s[1..];
      [s[0]] + rest
  }

  /** Every key survives the intended scan exactly once, and a repeated key never does twice. */
  lemma {:induction false} DedupeKeysComplete<T>(s: seq<T>, key: T -> Option<string>)
    requires forall i :: 0 <= i < |s| ==> key(s[i]).Some?
    ensures DistinctKeys(DedupeKeys(s, key, {}), key)
    ensures Keys(DedupeKeys(s, key, {}), key) == Keys(s, key)
  {
    var r := DedupeKeys(s, key, {});
    forall k | k in Keys(s, key)
      ensures k in Keys(r, key)
    {
      var i :| 0 <= i < |s| && key(s[i]).Some? && key(s[i]).value == k;
      FirstFinds(s, key, i);
      var x := First(r, key, k).value;
      var j :| 0 <= j < |r| && r[j] == x;
    }
    forall k | k in Keys(r, key)
      ensures k in Keys(s, key)
    {
      var j :| 0 <= j < |r| && key(r[j]).Some? && key(r[j]).value == k;
      FirstFinds(r, key, j);
      var x := First(s, key, k).value;
      var i :| 0 <= i < |s| && s[i] == x;
    }
  }

  /** Three imports of one name leave one under the intended scan. */
  lemma {:induction false} DedupeKeysThree()
    ensures DedupeKeys([Named("a", "a"), Named("a", "a"), Named("a", "a")], SpecKey, {}) == [Named("a", "a")]
  {
    var s := [Named("a", "a"), Named("a", "a"), Named("a", "a")];
    assert s[1..][1..][1..] == [];
  }

  /** With no repeated key the scan changes nothing. */
  lemma {:induction false} DedupeScanDistinct<T>(s: seq<T>, key: T -> Option<string>, seen: set<string>)
    requires DistinctKeys(s, key)
    requires forall i :: 0 <= i < |s| && key(s[i]).Some? ==> key(s[i]).value !in seen
    ensures DedupeScan(s, key, seen) == s
    decreases |s|
  {
    if |s| > 0 && key(s[0]).Some? {
      var seen' := seen + {key(s[0]).value};
      forall i | 0 <= i < |s[1..]| && key(s[1..][i]).Some?
        ensures key(s[1..][i]).value !in seen'
      {
        assert key(s[0]) != key(s[1 + i]);
      }
      DedupeScanDistinct(s[1..], key, seen');
    }
  }

  /** Three imports of one name leave two: the element after a removed one is never examined. */
  lemma {:induction false} DedupeScanSkips()
    ensures DedupeScan([Named("a", "a"), Named("a", "a"), Named("a", "a")], SpecKey, {})
         == [Named("a", "a"), Named("a", "a")]
  {
    var s := [Named("a", "a"), Named("a", "a"), Named("a", "a")];
    assert s[1..][1..] == [Named("a", "a")];
  }

  /** `const { … } = require("pkg"), …`: the first declarator requires `pkg`. */
  predicate IsRequireDeclOf(n: Node, pkg: string) {
    n.VarDecl? && |n.decls| > 0 && n.decls[0].Declarator?
    && n.decls[0].init.Call? && n.decls[0].init.callee == Id("require")
    && |n.decls[0].init.args| > 0 && n.decls[0].init.args[0] == Str(pkg)
  }

  /** The first declarator's pattern with its properties replaced. */
  function WithFirstPattern(n: Node, props: seq<PatProp>): Node
    requires n.VarDecl? && |n.decls| > 0 && n.decls[0].Declarator?
  {
    VarDecl([Declarator(PObj(props), n.decls[0].init)] + n.decls[1..], n.notes)
  }

  /** `const { … } = require(pkg)`: a require of `pkg` whose first declarator destructures. */
  predicate RequirePattern(n: Node, pkg: string) {
    IsRequireDeclOf(n, pkg) && n.decls[0].id.PObj?
  }

  /** The properties of the pattern of such a require. */
  function PatternProps(n: Node, pkg: string): seq<PatProp>
    requires RequirePattern(n, pkg)
  {
    n.decls[0].id.props
  }

  /**
   * A pass whose rule only looks at import declarations and variable declarations reaches a
   * require of `pkg` with its `require(pkg)` call and its pattern intact.
   */
  lemma {:induction false} MapRequireStep(f: Node -> Node, pkg: string, n: Node) returns (w: Node)
    requires RequirePattern(n, pkg)
    requires forall x: Node :: !x.Import? && !x.VarDecl? ==> f(x) == x
    ensures Map(f, n) == f(w)
    ensures RequirePattern(w, pkg) && PatternProps(w, pkg) == PatternProps(n, pkg)
  {
    var cs := Children(n);
    w := WithChildren(n, seq(|cs|, i requires 0 <= i < |cs| => Map(f, cs[i])));
    var d := n.decls[0];
    var c := d.init;
    MapLeaf(f, Id("require"));
    MapLeaf(f, Str(pkg));
    var cc := Children(c);
    assert cc[0] == Id("require") && cc[1] == Str(pkg);
    var wc := WithChildren(c, seq(|cc|, i requires 0 <= i < |cc| => Map(f, cc[i])));
    assert Map(f, c) == wc;
    assert Map(f, d) == Declarator(d.id, wc);
  }

  /** The scan as written (`intended` false) or as intended. */
  function Scan<T>(intended: bool, s: seq<T>, key: T -> Option<string>): (r: seq<T>)
    ensures IsSubseq(r, s)
    ensures forall k :: First(r, key, k) == First(s, key, k)
    ensures intended && (forall i :: 0 <= i < |s| ==> key(s[i]).Some?) ==> DistinctKeys(r, key)
  {
    if intended then DedupeKeys(s, key, {}) else DedupeScan(s, key, {})
  }

  function DedupeIdentifiersAt(pkg: string, n: Node, intended: bool): Node {
    if IsImportOf(n, pkg) then Import(pkg, Scan(intended, n.specs, SpecKey))
    else if IsRequireDeclOf(n, pkg) && n.decls[0].id.PObj? then
      WithFirstPattern(n, Scan(intended, n.decls[0].id.props, PropKey))
    else n
  }

  function DedupeIdentifiersRule(pkg: string, intended: bool): Node -> Node {
    n => DedupeIdentifiersAt(pkg, n, intended)
  }

  /**
   * `dedupeImportedIdentifiers`: within each import of `pkg` and each
   * destructuring require of `pkg`, drops repeated local names. With `intended`
   * false the scan is the one written, which can leave a repeated name behind.
   */
  function DedupeImportedIdentifiers(pkg: string, p: Program, intended: bool): (r: Program)
    ensures |r| == |p|
    ensures forall i :: 0 <= i < |p| && p[i].Import? && p[i].source != pkg ==> r[i] == p[i]
    ensures forall i :: 0 <= i < |p| && IsImportOf(p[i], pkg) ==>
      IsImportOf(r[i], pkg)
      && IsSubseq(r[i].specs, p[i].specs)
      && (forall k :: First(r[i].specs, SpecKey, k) == First(p[i].specs, SpecKey, k))
      && (intended && (forall j :: 0 <= j < |p[i].specs| ==> p[i].specs[j].Named?) ==> DistinctKeys(r[i].specs, SpecKey))
    ensures forall i :: 0 <= i < |p| && RequirePattern(p[i], pkg) ==>
      && RequirePattern(r[i], pkg)
      && IsSubseq(PatternProps(r[i], pkg), PatternProps(p[i], pkg))
      && (forall k :: First(PatternProps(r[i], pkg), PropKey, k) == First(PatternProps(p[i], pkg), PropKey, k))
  {
    var f := DedupeIdentifiersRule(pkg, intended);
    var r := MapProgram(f, p);
    assert forall i :: 0 <= i < |p| && p[i].Import? ==> r[i] == DedupeIdentifiersAt(pkg, p[i], intended) by {
      forall i | 0 <= i < |p| && p[i].Import?
        ensures r[i] == DedupeIdentifiersAt(pkg, p[i], intended)
      {
        MapLeaf(f, p[i]);
      }
    }
    forall i | 0 <= i < |p| && RequirePattern(p[i], pkg)
      ensures RequirePattern(r[i], pkg)
      ensures r[i] == WithFirstPattern(r[i], Scan(intended, PatternProps(p[i], pkg), PropKey))
    {
      var w := MapRequireStep(f, pkg, p[i]);
    }
    r
  }

  /** As written, `import { a, a, a }` keeps a repeated `a`; as intended it keeps one. */
  lemma {:induction false} DedupeImportedIdentifiersRepeats()
    ensures var p := [Import("@sentry/react", [Named("a", "a"), Named("a", "a"), Named("a", "a")])];
      && DedupeImportedIdentifiers("@sentry/react", p, false) == [Import("@sentry/react", [Named("a", "a"), Named("a", "a")])]
      && DedupeImportedIdentifiers("@sentry/react", p, true) == [Import("@sentry/react", [Named("a", "a")])]
  {
    DedupeRepeatsAsWritten();
    DedupeRepeatsIntended();
  }

  lemma {:induction false} DedupeRepeatsAsWritten()
    ensures var p := [Import("@sentry/react", [Named("a", "a"), Named("a", "a"), Named("a", "a")])];
      DedupeImportedIdentifiers("@sentry/react", p, false) == [Import("@sentry/react", [Named("a", "a"), Named("a", "a")])]
  {
    var n := Import("@sentry/react", [Named("a", "a"), Named("a", "a"), Named("a", "a")]);
    DedupeScanSkips();
    DedupeOneImport("@sentry/react", false, n);
  }

  lemma {:induction false} DedupeRepeatsIntended()
    ensures var p := [Import("@sentry/react", [Named("a", "a"), Named("a", "a"), Named("a", "a")])];
      DedupeImportedIdentifiers("@sentry/react", p, true) == [Import("@sentry/react", [Named("a", "a")])]
  {
    var n := Import("@sentry/react", [Named("a", "a"), Named("a", "a"), Named("a", "a")]);
    DedupeKeysThree();
    DedupeOneImport("@sentry/react", true, n);
  }

  /** A program of one import of `pkg` becomes that import with its specifiers scanned. */
  lemma {:induction false} DedupeOneImport(pkg: string, intended: bool, n: Node)
    requires IsImportOf(n, pkg)
    ensures DedupeImportedIdentifiers(pkg, [n], intended) == [Import(pkg, Scan(intended, n.specs, SpecKey))]
  {
    MapLeaf(DedupeIdentifiersRule(pkg, intended), n);
  }

  // ---------------------------------------------------------------------------
  // Identifier rewrites used when imports are merged

  /** `id` in any position but under a member expression becomes `ns.id`. */
  function QualifyRule(id: string, ns: string): (Node, Kind) -> Node {
    (n: Node, k: Kind) => if n == Id(id) && k != KMember then Member(Id(ns), Id(id)) else n
  }

  function QualifyUses(p: Program, id: string, ns: string): Program {
    MapInProgram(QualifyRule(id, ns), p)
  }

  /** After qualifying, every identifier `id` sits under a member expression. */
  lemma {:induction false} QualifyUsesComplete(p: Program, id: string, ns: string)
    ensures forall o :: o in ProgramExprIds(QualifyUses(p, id, ns)) && o.name == id ==> o.parent == KMember
  {
    var f := QualifyRule(id, ns);
    var q := (n: Node, k: Kind) => !(n == Id(id) && k != KMember);
    assert EstablishesUnder(f, q) by {
      forall x: Node, k: Kind | forall i :: 0 <= i < |Children(x)| ==> EveryUnder(q, Children(x)[i], KindOf(x))
        ensures EveryUnder(q, f(x, k), k)
      {
        if x == Id(id) && k != KMember {
          var m := Member(Id(ns), Id(id));
          assert Children(m) == [Id(ns), Id(id)];
          assert EveryUnder(q, Id(ns), KMember) && EveryUnder(q, Id(id), KMember);
        }
      }
    }
    var r := QualifyUses(p, id, ns);
    forall i | 0 <= i < |p|
      ensures forall o :: o in ExprIds(r[i], KProgram) ==> q(Id(o.name), o.parent)
    {
      MapInEstablishes(f, q, p[i], KProgram);
      EveryUnderIds(q, r[i], KProgram);
    }
  }

  function QualifyAll(p: Program, ids: seq<string>, ns: string): (r: Program)
    ensures |r| == |p|
    decreases |ids|
  {
    if |ids| == 0 then p else QualifyAll(QualifyUses(p, ids[0], ns), ids[1..], ns)
  }

  /** `alias` directly under a member expression or a qualified type name becomes `ns`. */
  function RenameRule(alias: string, ns: string): (Node, Kind) -> Node {
    (n: Node, k: Kind) => if n == Id(alias) && (k == KMember || k == KQualified) then Id(ns) else n
  }

  function RenameUnder(p: Program, alias: string, ns: string): Program {
    MapInProgram(RenameRule(alias, ns), p)
  }

  predicate HasUseUnder(p: Program, name: string) {
    Occ(name, KMember) in ProgramExprIds(p) || Occ(name, KQualified) in ProgramExprIds(p)
  }

  /** After renaming, no member expression or qualified name refers to `alias` any more. */
  lemma {:induction false} RenameUnderComplete(p: Program, alias: string, ns: string)
    requires alias != ns
    ensures !HasUseUnder(RenameUnder(p, alias, ns), alias)
  {
    var f := RenameRule(alias, ns);
    var q := (n: Node, k: Kind) => !(n == Id(alias) && (k == KMember || k == KQualified));
    assert EstablishesUnder(f, q) by {
      forall x: Node, k: Kind | forall i :: 0 <= i < |Children(x)| ==> EveryUnder(q, Children(x)[i], KindOf(x))
        ensures EveryUnder(q, f(x, k), k)
      {
      }
    }
    var r := RenameUnder(p, alias, ns);
    forall i | 0 <= i < |p|
      ensures forall o :: o in ExprIds(r[i], KProgram) ==> q(Id(o.name), o.parent)
    {
      MapInEstablishes(f, q, p[i], KProgram);
      EveryUnderIds(q, r[i], KProgram);
    }
  }

  /** The identifier rewrites leave every import declaration where it is and as it is. */
  lemma {:induction false} RewritesKeepImports(p: Program, id: string, ns: string)
    ensures forall i :: 0 <= i < |p| && p[i].Import? ==>
      QualifyUses(p, id, ns)[i] == p[i] && RenameUnder(p, id, ns)[i] == p[i]
    ensures forall i :: 0 <= i < |p| && !p[i].Import? ==>
      !QualifyUses(p, id, ns)[i].Import? && !RenameUnder(p, id, ns)[i].Import?
  {
    forall i | 0 <= i < |p|
      ensures p[i].Import? ==> QualifyUses(p, id, ns)[i] == p[i] && RenameUnder(p, id, ns)[i] == p[i]
      ensures !p[i].Import? ==> !QualifyUses(p, id, ns)[i].Import? && !RenameUnder(p, id, ns)[i].Import?
    {
      if p[i].Import? {
        MapInKeepsImport(QualifyRule(id, ns), p[i], KProgram);
        MapInKeepsImport(RenameRule(id, ns), p[i], KProgram);
      } else {
        NonImportStays(QualifyRule(id, ns), p[i], KProgram);
        NonImportStays(RenameRule(id, ns), p[i], KProgram);
      }
    }
  }

  lemma {:induction false} NonImportStays(f: (Node, Kind) -> Node, n: Node, k: Kind)
    requires !n.Import?
    requires forall x: Node, k': Kind :: !x.Id? ==> f(x, k') == x
    requires forall x: Node, k': Kind :: x.Id? ==> !f(x, k').Import?
    ensures !MapIn(f, n, k).Import?
  {
    var cs := Children(n);
    var y := WithChildren(n, seq(|cs|, i requires 0 <= i < |cs| => MapIn(f, cs[i], KindOf(n))));
    assert KindOf(y) == KindOf(n);
  }

  lemma {:induction false} QualifyAllKeepsImports(p: Program, ids: seq<string>, ns: string)
    ensures forall i :: 0 <= i < |p| && p[i].Import? ==> QualifyAll(p, ids, ns)[i] == p[i]
    ensures forall i :: 0 <= i < |p| && !p[i].Import? ==> !QualifyAll(p, ids, ns)[i].Import?
    decreases |ids|
  {
    if |ids| > 0 {
      RewritesKeepImports(p, ids[0], ns);
      QualifyAllKeepsImports(QualifyUses(p, ids[0], ns), ids[1..], ns);
    }
  }

  // ---------------------------------------------------------------------------
  // Merging import declarations of one package

  predicate IsLoneNamespace(n: Node) {
    n.Import? && |n.specs| == 1 && n.specs[0].Namespace?
  }

  predicate HasNamedSpec(n: Node) {
    n.Import? && exists k :: 0 <= k < |n.specs| && n.specs[k].Named?
  }

  /** `import { x }` as opposed to `import { x as y }`. */
  predicate IsUnaliased(sp: Spec) {
    sp.Named? && sp.imported == sp.local
  }

  /** The specifiers that stay in a merged-away declaration: all but the un-aliased named ones. */
  function Kept(specs: seq<Spec>): (r: seq<Spec>)
    ensures forall sp :: sp in r <==> sp in specs && !IsUnaliased(sp)
  {
    if |specs| == 0 then []
    else (if IsUnaliased(specs[0]) then [] else [specs[0]]) + Kept(specs[1..])
  }

  /** The names of the un-aliased named specifiers, in order. */
  function Absorbed(specs: seq<Spec>): (r: seq<string>)
    ensures forall x :: x in r <==> exists sp :: sp in specs && IsUnaliased(sp) && sp.imported == x
  {
    if |specs| == 0 then []
    else (if IsUnaliased(specs[0]) then [specs[0].imported] else []) + Absorbed(specs[1..])
  }

  /** The first top-level position at or after `from` whose statement satisfies `q`. */
  function FirstWhere(p: Program, q: Node -> bool, from: nat): (r: Option<nat>)
    requires from <= |p|
    ensures r.Some? ==> from <= r.value < |p| && q(p[r.value]) && forall i :: from <= i < r.value ==> !q(p[i])
    ensures r.None? ==> forall i :: from <= i < |p| ==> !q(p[i])
    decreases |p| - from
  {
    if from == |p| then None
    else if q(p[from]) then Some(from)
    else FirstWhere(p, q, from + 1)
  }

  /** The first `import * as X from pkg` that imports nothing else. */
  function NamespaceImportIndex(p: Program, pkg: string): Option<nat> {
    FirstWhere(p, n => IsImportOf(n, pkg) && IsLoneNamespace(n), 0)
  }

  /** The first import of `pkg` with a named specifier. */
  function NamedImportIndex(p: Program, pkg: string): Option<nat> {
    FirstWhere(p, n => IsImportOf(n, pkg) && HasNamedSpec(n), 0)
  }

  /** All specifiers of all imports of `pkg`, in document order. */
  function PkgSpecs(q: Program, pkg: string): seq<Spec> {
    if |q| == 0 then []
    else (if IsImportOf(q[0], pkg) then q[0].specs else []) + PkgSpecs(q[1..], pkg)
  }

  /** A specifier of an import of `pkg` that a program has is among the program's specifiers of `pkg`. */
  lemma {:induction false} PkgSpecsHas(p: Program, pkg: string, x: Node, sp: Spec)
    requires x in p && IsImportOf(x, pkg) && sp in x.specs
    ensures sp in PkgSpecs(p, pkg)
  {
    if p[0] != x {
      assert x in p[1..];
      PkgSpecsHas(p[1..], pkg, x, sp);
    }
  }

  /** The imports of `pkg` other than lone namespace imports. */
  function NonLonePkgImports(q: Program, pkg: string): Program {
    if |q| == 0 then []
    else (if IsImportOf(q[0], pkg) && !IsLoneNamespace(q[0]) then [q[0]] else []) + NonLonePkgImports(q[1..], pkg)
  }

  /** Every statement that is not an import of `pkg`. */
  function Others(q: Program, pkg: string): Program {
    if |q| == 0 then []
    else (if IsImportOf(q[0], pkg) then [] else [q[0]]) + Others(q[1..], pkg)
  }

  // Named branch: everything but lone namespace imports moves into the first named import.

  predicate IsDonorAt(p: Program, pkg: string, s: nat, i: nat)
    requires i < |p|
  {
    i != s && IsImportOf(p[i], pkg) && !IsLoneNamespace(p[i])
  }

  function DonatedFrom(p: Program, pkg: string, s: nat, i: nat): seq<Spec>
    requires i <= |p|
    decreases |p| - i
  {
    if i == |p| then []
    else (if IsDonorAt(p, pkg, s, i) then p[i].specs else []) + DonatedFrom(p, pkg, s, i + 1)
  }

  function MergeFrom(p: Program, pkg: string, s: nat, merged: Node, i: nat): Program
    requires i <= |p|
    decreases |p| - i
  {
    if i == |p| then []
    else if i == s then [merged] + MergeFrom(p, pkg, s, merged, i + 1)
    else if IsDonorAt(p, pkg, s, i) then MergeFrom(p, pkg, s, merged, i + 1)
    else [p[i]] + MergeFrom(p, pkg, s, merged, i + 1)
  }

  lemma {:induction false} ViewsCons(x: Node, r: Program, pkg: string)
    ensures Others([x] + r, pkg) == (if IsImportOf(x, pkg) then [] else [x]) + Others(r, pkg)
    ensures NonLonePkgImports([x] + r, pkg)
         == (if IsImportOf(x, pkg) && !IsLoneNamespace(x) then [x] else []) + NonLonePkgImports(r, pkg)
    ensures PkgSpecs([x] + r, pkg) == (if IsImportOf(x, pkg) then x.specs else []) + PkgSpecs(r, pkg)
  {
    assert ([x] + r)[1..] == r;
  }

  lemma {:induction false} SuffixCons(p: Program, i: nat)
    requires i < |p|
    ensures p[i..] == [p[i]] + p[i + 1..]
  {
  }

  lemma {:induction false} MergeFromOthers(p: Program, pkg: string, s: nat, merged: Node, i: nat)
    requires i <= |p| && s < |p| && IsImportOf(p[s], pkg) && IsImportOf(merged, pkg)
    ensures Others(MergeFrom(p, pkg, s, merged, i), pkg) == Others(p[i..], pkg)
    decreases |p| - i
  {
    if i < |p| {
      MergeFromOthers(p, pkg, s, merged, i + 1);
      SuffixCons(p, i);
      ViewsCons(p[i], p[i + 1..], pkg);
      var rest := MergeFrom(p, pkg, s, merged, i + 1);
      if i == s {
        ViewsCons(merged, rest, pkg);
      } else if !IsDonorAt(p, pkg, s, i) {
        ViewsCons(p[i], rest, pkg);
      }
    }
  }

  lemma {:induction false} MergeFromNonLone(p: Program, pkg: string, s: nat, merged: Node, i: nat)
    requires i <= |p| && s < |p| && IsImportOf(p[s], pkg) && !IsLoneNamespace(p[s])
    requires IsImportOf(merged, pkg) && !IsLoneNamespace(merged)
    ensures NonLonePkgImports(MergeFrom(p, pkg, s, merged, i), pkg) == if i <= s then [merged] else []
    decreases |p| - i
  {
    if i < |p| {
      MergeFromNonLone(p, pkg, s, merged, i + 1);
      var rest := MergeFrom(p, pkg, s, merged, i + 1);
      if i == s {
        ViewsCons(merged, rest, pkg);
      } else if !IsDonorAt(p, pkg, s, i) {
        ViewsCons(p[i], rest, pkg);
      }
    }
  }

  lemma {:induction false} AddInside<T>(a: multiset<T>, b: multiset<T>, c: multiset<T>, d: multiset<T>, e: multiset<T>, o: multiset<T>)
    requires a + b + c == d + e
    ensures a + (o + b) + c == (o + d) + e
  {
    assert forall x :: (a + (o + b) + c)[x] == o[x] + (a + b + c)[x];
  }

  lemma {:induction false} AddFront<T>(a: multiset<T>, b: multiset<T>, c: multiset<T>, d: multiset<T>, e: multiset<T>, o: multiset<T>)
    requires a + b + c == d + e
    ensures (o + a) + b + c == (o + d) + e
  {
    assert forall x :: ((o + a) + b + c)[x] == o[x] + (a + b + c)[x];
  }

  lemma {:induction false} AddMid<T>(a: multiset<T>, b: multiset<T>, d: multiset<T>, o: multiset<T>)
    requires a + b == d
    ensures a + (o + b) == o + d
  {
    assert forall x :: (a + (o + b))[x] == o[x] + (a + b)[x];
  }

  lemma {:induction false} AddHead<T>(a: multiset<T>, b: multiset<T>, d: multiset<T>, o: multiset<T>)
    requires a + b == d
    ensures (o + a) + b == o + d
  {
    assert forall x :: ((o + a) + b)[x] == o[x] + (a + b)[x];
  }

  lemma {:induction false} Cancel<T>(a: multiset<T>, b: multiset<T>, c: multiset<T>, d: multiset<T>)
    requires a + b + c == d + (c + b)
    ensures a == d
  {
    assert forall x :: (a + b + c)[x] == a[x] + b[x] + c[x];
  }

  /** Past the survivor, every specifier of `pkg` is either still in place or donated. */
  lemma {:induction false} MergeFromSpecsAfter(p: Program, pkg: string, s: nat, merged: Node, i: nat)
    requires s < i <= |p| && IsImportOf(p[s], pkg) && !IsLoneNamespace(p[s])
    requires IsImportOf(merged, pkg)
    ensures multiset(PkgSpecs(MergeFrom(p, pkg, s, merged, i), pkg)) + multiset(DonatedFrom(p, pkg, s, i))
         == multiset(PkgSpecs(p[i..], pkg))
    decreases |p| - i
  {
    if i < |p| {
      MergeFromSpecsAfter(p, pkg, s, merged, i + 1);
      AfterStep(p, pkg, s, merged, i);
    }
  }

  /** One statement past the survivor: donated or kept, the balance carries over. */
  lemma {:induction false} AfterStep(p: Program, pkg: string, s: nat, merged: Node, i: nat)
    requires s < i < |p| && IsImportOf(p[s], pkg) && !IsLoneNamespace(p[s])
    requires IsImportOf(merged, pkg)
    requires multiset(PkgSpecs(MergeFrom(p, pkg, s, merged, i + 1), pkg)) + multiset(DonatedFrom(p, pkg, s, i + 1))
          == multiset(PkgSpecs(p[i + 1..], pkg))
    ensures multiset(PkgSpecs(MergeFrom(p, pkg, s, merged, i), pkg)) + multiset(DonatedFrom(p, pkg, s, i))
         == multiset(PkgSpecs(p[i..], pkg))
  {
    if IsDonorAt(p, pkg, s, i) {
      AfterDonorStep(p, pkg, s, merged, i);
    } else {
      AfterKeptStep(p, pkg, s, merged, i);
    }
  }

  /** The own specifiers of the statement at `i`, when it imports `pkg`. */
  lemma {:induction false} AfterCons(p: Program, pkg: string, i: nat)
    requires i < |p|
    ensures multiset(PkgSpecs(p[i..], pkg))
         == multiset(if IsImportOf(p[i], pkg) then p[i].specs else []) + multiset(PkgSpecs(p[i + 1..], pkg))
  {
    SuffixCons(p, i);
    ViewsCons(p[i], p[i + 1..], pkg);
  }

  lemma {:induction false} AfterDonorStep(p: Program, pkg: string, s: nat, merged: Node, i: nat)
    requires s < i < |p| && IsImportOf(p[s], pkg) && !IsLoneNamespace(p[s])
    requires IsImportOf(merged, pkg) && IsDonorAt(p, pkg, s, i)
    requires multiset(PkgSpecs(MergeFrom(p, pkg, s, merged, i + 1), pkg)) + multiset(DonatedFrom(p, pkg, s, i + 1))
          == multiset(PkgSpecs(p[i + 1..], pkg))
    ensures multiset(PkgSpecs(MergeFrom(p, pkg, s, merged, i), pkg)) + multiset(DonatedFrom(p, pkg, s, i))
         == multiset(PkgSpecs(p[i..], pkg))
  {
    AfterCons(p, pkg, i);
    var rest := MergeFrom(p, pkg, s, merged, i + 1);
    var a' := multiset(PkgSpecs(rest, pkg));
    var d' := multiset(DonatedFrom(p, pkg, s, i + 1));
    var p' := multiset(PkgSpecs(p[i + 1..], pkg));
    var own := multiset(p[i].specs);
    assert MergeFrom(p, pkg, s, merged, i) == rest;
    assert DonatedFrom(p, pkg, s, i) == p[i].specs + DonatedFrom(p, pkg, s, i + 1);
    assert multiset(DonatedFrom(p, pkg, s, i)) == own + d';
    AddMid(a', d', p', own);
  }

  lemma {:induction false} AfterKeptStep(p: Program, pkg: string, s: nat, merged: Node, i: nat)
    requires s < i < |p| && IsImportOf(p[s], pkg) && !IsLoneNamespace(p[s])
    requires IsImportOf(merged, pkg) && !IsDonorAt(p, pkg, s, i)
    requires multiset(PkgSpecs(MergeFrom(p, pkg, s, merged, i + 1), pkg)) + multiset(DonatedFrom(p, pkg, s, i + 1))
          == multiset(PkgSpecs(p[i + 1..], pkg))
    ensures multiset(PkgSpecs(MergeFrom(p, pkg, s, merged, i), pkg)) + multiset(DonatedFrom(p, pkg, s, i))
         == multiset(PkgSpecs(p[i..], pkg))
  {
    AfterCons(p, pkg, i);
    var rest := MergeFrom(p, pkg, s, merged, i + 1);
    var a' := multiset(PkgSpecs(rest, pkg));
    var d' := multiset(DonatedFrom(p, pkg, s, i + 1));
    var p' := multiset(PkgSpecs(p[i + 1..], pkg));
    var own := multiset(if IsImportOf(p[i], pkg) then p[i].specs else []);
    ViewsCons(p[i], rest, pkg);
    assert MergeFrom(p, pkg, s, merged, i) == [p[i]] + rest;
    assert multiset(PkgSpecs(MergeFrom(p, pkg, s, merged, i), pkg)) == own + a';
    assert multiset(DonatedFrom(p, pkg, s, i)) == d';
    AddHead(a', d', p', own);
  }

  /**
   * Up to the survivor, the specifiers of `pkg` that remain, those donated and the survivor's
   * own are those of the file with the merged declaration in the survivor's place.
   */
  lemma {:induction false} MergeFromSpecs(p: Program, pkg: string, s: nat, merged: Node, i: nat)
    requires i <= s < |p| && IsImportOf(p[s], pkg) && !IsLoneNamespace(p[s])
    requires IsImportOf(merged, pkg)
    ensures multiset(PkgSpecs(MergeFrom(p, pkg, s, merged, i), pkg)) + multiset(DonatedFrom(p, pkg, s, i))
            + multiset(p[s].specs)
         == multiset(PkgSpecs(p[i..], pkg)) + multiset(merged.specs)
    decreases |p| - i
  {
    SuffixCons(p, i);
    ViewsCons(p[i], p[i + 1..], pkg);
    var rest := MergeFrom(p, pkg, s, merged, i + 1);
    var a' := multiset(PkgSpecs(rest, pkg));
    var d' := multiset(DonatedFrom(p, pkg, s, i + 1));
    var p' := multiset(PkgSpecs(p[i + 1..], pkg));
    var own := multiset(if IsImportOf(p[i], pkg) then p[i].specs else []);
    assert multiset(PkgSpecs(p[i..], pkg)) == own + p';
    if i == s {
      MergeFromSpecsAfter(p, pkg, s, merged, i + 1);
      ViewsCons(merged, rest, pkg);
      assert multiset(PkgSpecs(MergeFrom(p, pkg, s, merged, i), pkg)) == multiset(merged.specs) + a';
      assert multiset(DonatedFrom(p, pkg, s, i)) == d';
      assert a' + d' == p';
    } else {
      MergeFromSpecs(p, pkg, s, merged, i + 1);
      if IsDonorAt(p, pkg, s, i) {
        assert MergeFrom(p, pkg, s, merged, i) == rest;
        assert DonatedFrom(p, pkg, s, i) == p[i].specs + DonatedFrom(p, pkg, s, i + 1);
        assert own == multiset(p[i].specs);
        assert multiset(DonatedFrom(p, pkg, s, i)) == own + d';
        AddInside(a', d', multiset(p[s].specs), p', multiset(merged.specs), own);
      } else {
        ViewsCons(p[i], rest, pkg);
        assert MergeFrom(p, pkg, s, merged, i) == [p[i]] + rest;
        assert multiset(PkgSpecs(MergeFrom(p, pkg, s, merged, i), pkg)) == own + a';
        assert multiset(DonatedFrom(p, pkg, s, i)) == d';
        AddFront(a', d', multiset(p[s].specs), p', multiset(merged.specs), own);
      }
    }
  }

  /** The named branch: the first named import `s` absorbs every other non-namespace import of `pkg`. */
  function MergeNamed(p: Program, pkg: string, s: nat): (r: Program)
    requires s < |p| && IsImportOf(p[s], pkg) && HasNamedSpec(p[s])
    ensures NonLonePkgImports(r, pkg) == [Import(pkg, p[s].specs + DonatedFrom(p, pkg, s, 0))]
    ensures multiset(PkgSpecs(r, pkg)) == multiset(PkgSpecs(p, pkg))
    ensures Others(r, pkg) == Others(p, pkg)
  {
    var merged := Import(pkg, p[s].specs + DonatedFrom(p, pkg, s, 0));
    assert HasNamedSpec(merged) by {
      var k :| 0 <= k < |p[s].specs| && p[s].specs[k].Named?;
      assert merged.specs[k] == p[s].specs[k];
    }
    var r := MergeFrom(p, pkg, s, merged, 0);
    assert p[0..] == p;
    MergeFromOthers(p, pkg, s, merged, 0);
    MergeFromNonLone(p, pkg, s, merged, 0);
    MergeFromSpecs(p, pkg, s, merged, 0);
    assert multiset(merged.specs) == multiset(p[s].specs) + multiset(DonatedFrom(p, pkg, s, 0));
    assert multiset(PkgSpecs(r, pkg)) == multiset(PkgSpecs(p, pkg)) by {
      Cancel(multiset(PkgSpecs(r, pkg)), multiset(DonatedFrom(p, pkg, s, 0)), multiset(p[s].specs),
             multiset(PkgSpecs(p, pkg)));
    }
    r
  }

  // Namespace branch: every other import of the package folds into `import * as ns`.

  /** Every expression identifier named in `names` sits under a member expression. */
  predicate Qualified(p: Program, names: set<string>) {
    forall o :: o in ProgramExprIds(p) && o.name in names ==> o.parent == KMember
  }

  lemma {:induction false} QualifiedSubset(p: Program, q: Program, names: set<string>, fewer: set<string>)
    requires ProgramExprIds(q) <= ProgramExprIds(p) && fewer <= names
    requires Qualified(p, names)
    ensures Qualified(q, fewer)
  {
  }

  lemma {:induction false} ExprIdsLeaf(x: string, k: Kind)
    ensures ExprIds(Id(x), k) == {Occ(x, k)}
  {
  }

  lemma {:induction false} QualifyExprIds(p: Program, id: string, ns: string)
    ensures ProgramExprIds(QualifyUses(p, id, ns)) <= ProgramExprIds(p) + {Occ(ns, KMember), Occ(id, KMember)}
  {
    var extra := {Occ(ns, KMember), Occ(id, KMember)};
    var f := QualifyRule(id, ns);
    forall x: string, k: Kind
      ensures ExprIds(f(Id(x), k), k) <= {Occ(x, k)} + extra
    {
      if x == id && k != KMember {
        var m := Member(Id(ns), Id(id));
        ExprIdsLeaf(ns, KMember);
        ExprIdsLeaf(id, KMember);
        assert Children(m) == [Id(ns), Id(id)];
        forall o | o in ExprIds(m, k)
          ensures o in extra
        {
          var i :| 0 <= i < 2 && o in ExprIds(Children(m)[i], KMember);
        }
      } else {
        ExprIdsLeaf(x, k);
      }
    }
    MapInProgramExprIds(f, p, extra);
  }

  lemma {:induction false} RenameExprIds(p: Program, alias: string, ns: string)
    ensures ProgramExprIds(RenameUnder(p, alias, ns)) <= ProgramExprIds(p) + {Occ(ns, KMember), Occ(ns, KQualified)}
  {
    var extra := {Occ(ns, KMember), Occ(ns, KQualified)};
    var f := RenameRule(alias, ns);
    forall x: string, k: Kind
      ensures ExprIds(f(Id(x), k), k) <= {Occ(x, k)} + extra
    {
      ExprIdsLeaf(x, k);
      ExprIdsLeaf(ns, k);
    }
    MapInProgramExprIds(f, p, extra);
  }

  /** Qualifying `id` leaves every already qualified name qualified, and qualifies `id`. */
  lemma {:induction false} QualifyUsesQualified(p: Program, names: set<string>, id: string, ns: string)
    requires Qualified(p, names)
    ensures Qualified(QualifyUses(p, id, ns), names + {id})
  {
    QualifyExprIds(p, id, ns);
    QualifyUsesComplete(p, id, ns);
  }

  lemma {:induction false} QualifyAllQualified(p: Program, names: set<string>, ids: seq<string>, ns: string)
    requires Qualified(p, names)
    ensures Qualified(QualifyAll(p, ids, ns), names + (set x | x in ids))
    decreases |ids|
  {
    if |ids| > 0 {
      QualifyUsesQualified(p, names, ids[0], ns);
      QualifyAllQualified(QualifyUses(p, ids[0], ns), names + {ids[0]}, ids[1..], ns);
      assert names + {ids[0]} + (set x | x in ids[1..]) == names + (set x | x in ids);
    }
  }

  /** Renaming a namespace to `ns` keeps every other name qualified. */
  lemma {:induction false} RenameUnderQualified(p: Program, names: set<string>, alias: string, ns: string)
    requires Qualified(p, names) && ns !in names
    ensures Qualified(RenameUnder(p, alias, ns), names)
  {
    RenameExprIds(p, alias, ns);
  }

  lemma {:induction false} ReplaceImportExprIds(q: Program, d: nat, x: Node)
    requires d < |q| && x.Import?
    ensures ProgramExprIds(q[d := x]) <= ProgramExprIds(q)
  {
    assert ExprIds(x, KProgram) == {};
    forall o | o in ProgramExprIds(q[d := x])
      ensures o in ProgramExprIds(q)
    {
      var i :| 0 <= i < |q| && o in ExprIds(q[d := x][i], KProgram);
      assert i != d;
    }
  }

  /** The local name of a lone namespace import. */
  function NamespaceAlias(n: Node): string
    requires IsLoneNamespace(n)
  {
    n.specs[0].local
  }

  /**
   * Folds the import at `d` into the namespace `ns`: its un-aliased names are qualified
   * everywhere and leave the declaration; what remains is dropped when nothing is left, or
   * when it is a lone namespace import whose uses are all renamed to `ns`. The flag says
   * whether the declaration is dropped.
   */
  function FoldImport(q: Program, pkg: string, ns: string, d: nat): (r: (Program, bool))
    requires d < |q| && IsImportOf(q[d], pkg)
    ensures |r.0| == |q|
    ensures r.0[d] == Import(pkg, Kept(q[d].specs))
    ensures forall i :: 0 <= i < |q| && i != d && q[i].Import? ==> r.0[i] == q[i]
    ensures forall i :: 0 <= i < |q| && !q[i].Import? ==> !r.0[i].Import?
    ensures Kept(q[d].specs) == [] ==> r.1
    ensures r.1 ==> Kept(q[d].specs) == [] || IsLoneNamespace(r.0[d])
    ensures IsLoneNamespace(r.0[d]) && NamespaceAlias(r.0[d]) != "" && NamespaceAlias(r.0[d]) != ns
            ==> !HasUseUnder(r.0, NamespaceAlias(r.0[d]))
  {
    var q2 := QualifyAll(q, Absorbed(q[d].specs), ns)[d := Import(pkg, Kept(q[d].specs))];
    FoldKeepsImports(q, pkg, ns, d);
    var kept := Kept(q[d].specs);
    if |kept| == 0 then (q2, true)
    else if IsLoneNamespace(q2[d]) && kept[0].local != "" && HasUseUnder(q2, kept[0].local) then
      var alias := kept[0].local;
      assert alias != ns ==> !HasUseUnder(RenameUnder(q2, alias, ns), alias) by {
        if alias != ns { RenameUnderComplete(q2, alias, ns); }
      }
      RewritesKeepImports(q2, alias, ns);
      (RenameUnder(q2, alias, ns), true)
    else (q2, false)
  }

  lemma {:induction false} FoldKeepsImports(q: Program, pkg: string, ns: string, d: nat)
    requires d < |q| && IsImportOf(q[d], pkg)
    ensures var q2 := QualifyAll(q, Absorbed(q[d].specs), ns)[d := Import(pkg, Kept(q[d].specs))];
      |q2| == |q| &&
      (forall i :: 0 <= i < |q| && i != d && q[i].Import? ==> q2[i] == q[i]) &&
      (forall i :: 0 <= i < |q| && !q[i].Import? ==> !q2[i].Import?)
  {
    QualifyAllKeepsImports(q, Absorbed(q[d].specs), ns);
  }

  /** Folding one import keeps qualified names qualified and qualifies the names it absorbs. */
  lemma {:induction false} FoldImportQualified(q: Program, pkg: string, ns: string, d: nat, names: set<string>)
    requires d < |q| && IsImportOf(q[d], pkg)
    requires Qualified(q, names)
    ensures Qualified(FoldImport(q, pkg, ns, d).0, (names + (set x | x in Absorbed(q[d].specs))) - {ns})
  {
    var absorbed := Absorbed(q[d].specs);
    var all := names + (set x | x in absorbed);
    var q1 := QualifyAll(q, absorbed, ns);
    QualifyAllQualified(q, names, absorbed, ns);
    var q2 := q1[d := Import(pkg, Kept(q[d].specs))];
    ReplaceImportExprIds(q1, d, Import(pkg, Kept(q[d].specs)));
    QualifiedSubset(q1, q2, all, all - {ns});
    var kept := Kept(q[d].specs);
    if |kept| > 0 && IsLoneNamespace(q2[d]) && kept[0].local != "" && HasUseUnder(q2, kept[0].local) {
      RenameUnderQualified(q2, all - {ns}, kept[0].local, ns);
    }
  }

  /** The import at `i` is one the namespace branch folds: any import of `pkg` but the namespace one. */
  predicate IsFoldedAt(p: Program, pkg: string, nsAt: nat, i: nat)
    requires i < |p|
  {
    i != nsAt && IsImportOf(p[i], pkg)
  }

  /** The names absorbed from the folded imports before position `d`. */
  function AbsorbedBefore(p: Program, pkg: string, nsAt: nat, d: nat): set<string>
    requires d <= |p|
  {
    set i, x | 0 <= i < d && IsFoldedAt(p, pkg, nsAt, i) && x in Absorbed(p[i].specs) :: x
  }

  lemma {:induction false} AbsorbedBeforeNext(p: Program, pkg: string, nsAt: nat, d: nat)
    requires d < |p|
    ensures AbsorbedBefore(p, pkg, nsAt, d + 1)
         == AbsorbedBefore(p, pkg, nsAt, d)
            + (if IsFoldedAt(p, pkg, nsAt, d) then (set x | x in Absorbed(p[d].specs)) else {})
  {
  }

  /** What holds after the folded imports before `d` are processed, `gone` marking the dropped ones. */
  predicate FoldInv(p: Program, pkg: string, nsAt: nat, ns: string, d: nat, q: Program, gone: set<nat>)
    requires d <= |p|
  {
    && |q| == |p|
    && (forall i :: 0 <= i < |p| ==> (q[i].Import? <==> p[i].Import?))
    && (forall i :: 0 <= i < |p| && p[i].Import? ==>
          q[i] == if i < d && IsFoldedAt(p, pkg, nsAt, i) then Import(pkg, Kept(p[i].specs)) else p[i])
    && (forall i :: i in gone ==>
          i < d && IsFoldedAt(p, pkg, nsAt, i) && (Kept(p[i].specs) == [] || IsLoneNamespace(q[i])))
    && (forall i :: 0 <= i < d && IsFoldedAt(p, pkg, nsAt, i) && Kept(p[i].specs) == [] ==> i in gone)
    && Qualified(q, AbsorbedBefore(p, pkg, nsAt, d) - {ns})
  }

  lemma {:induction false} FoldStep(p: Program, pkg: string, nsAt: nat, ns: string, d: nat, q: Program, gone: set<nat>)
    requires d < |p| && FoldInv(p, pkg, nsAt, ns, d, q, gone) && IsFoldedAt(p, pkg, nsAt, d)
    ensures var r := FoldImport(q, pkg, ns, d);
      FoldInv(p, pkg, nsAt, ns, d + 1, r.0, if r.1 then gone + {d} else gone)
  {
    assert q[d] == p[d];
    var r := FoldImport(q, pkg, ns, d);
    var gone' := if r.1 then gone + {d} else gone;
    forall i | 0 <= i < |p| && p[i].Import?
      ensures r.0[i] == if i < d + 1 && IsFoldedAt(p, pkg, nsAt, i) then Import(pkg, Kept(p[i].specs)) else p[i]
    {
      if i != d { assert r.0[i] == q[i]; }
    }
    forall i | i in gone'
      ensures i < d + 1 && IsFoldedAt(p, pkg, nsAt, i) && (Kept(p[i].specs) == [] || IsLoneNamespace(r.0[i]))
    {
      if i != d { assert r.0[i] == q[i]; }
    }
    FoldStepQualified(p, pkg, nsAt, ns, d, q);
  }

  lemma {:induction false} FoldStepQualified(p: Program, pkg: string, nsAt: nat, ns: string, d: nat, q: Program)
    requires d < |p| && |q| == |p| && q[d] == p[d] && IsFoldedAt(p, pkg, nsAt, d)
    requires Qualified(q, AbsorbedBefore(p, pkg, nsAt, d) - {ns})
    ensures Qualified(FoldImport(q, pkg, ns, d).0, AbsorbedBefore(p, pkg, nsAt, d + 1) - {ns})
  {
    var before := AbsorbedBefore(p, pkg, nsAt, d) - {ns};
    FoldImportQualified(q, pkg, ns, d, before);
    AbsorbedBeforeNext(p, pkg, nsAt, d);
    assert (before + (set x | x in Absorbed(q[d].specs))) - {ns} == AbsorbedBefore(p, pkg, nsAt, d + 1) - {ns};
  }

  lemma {:induction false} SkipStep(p: Program, pkg: string, nsAt: nat, ns: string, d: nat, q: Program, gone: set<nat>)
    requires d < |p| && FoldInv(p, pkg, nsAt, ns, d, q, gone) && !IsFoldedAt(p, pkg, nsAt, d)
    ensures FoldInv(p, pkg, nsAt, ns, d + 1, q, gone)
  {
    AbsorbedBeforeNext(p, pkg, nsAt, d);
  }

  /** Processes the folded imports from `d` on, in document order. */
  function FoldFrom(p: Program, pkg: string, nsAt: nat, ns: string, d: nat, q: Program, gone: set<nat>)
    : (r: (Program, set<nat>))
    requires d <= |p| && FoldInv(p, pkg, nsAt, ns, d, q, gone)
    ensures FoldInv(p, pkg, nsAt, ns, |p|, r.0, r.1)
    decreases |p| - d
  {
    if d == |p| then (q, gone)
    else if IsFoldedAt(p, pkg, nsAt, d) then
      var step := FoldImport(q, pkg, ns, d);
      FoldStep(p, pkg, nsAt, ns, d, q, gone);
      FoldFrom(p, pkg, nsAt, ns, d + 1, step.0, if step.1 then gone + {d} else gone)
    else
      SkipStep(p, pkg, nsAt, ns, d, q, gone);
      FoldFrom(p, pkg, nsAt, ns, d + 1, q, gone)
  }

  /** The statements of `q` from `from` on whose positions are not in `gone`. */
  function Without(q: Program, gone: set<nat>, from: nat): (r: Program)
    requires from <= |q|
    ensures forall x :: x in r <==> exists i :: from <= i < |q| && i !in gone && q[i] == x
    ensures |r| <= |q| - from
    decreases |q| - from
  {
    if from == |q| then []
    else (if from in gone then [] else [q[from]]) + Without(q, gone, from + 1)
  }

  lemma {:induction false} WithoutExprIds(q: Program, gone: set<nat>)
    ensures ProgramExprIds(Without(q, gone, 0)) <= ProgramExprIds(q)
  {
    var r := Without(q, gone, 0);
    forall o | o in ProgramExprIds(r)
      ensures o in ProgramExprIds(q)
    {
      var j :| 0 <= j < |r| && o in ExprIds(r[j], KProgram);
      assert r[j] in r;
      var i :| 0 <= i < |q| && i !in gone && q[i] == r[j];
    }
  }

  /**
   * The namespace branch: every import of `pkg` but the lone namespace import at `nsAt` is
   * folded into it, and the declarations left empty or renamed away are dropped.
   */
  function FoldIntoNamespace(p: Program, pkg: string, nsAt: nat): (r: Program)
    requires nsAt < |p| && IsImportOf(p[nsAt], pkg) && IsLoneNamespace(p[nsAt]) && NamespaceAlias(p[nsAt]) != ""
    ensures |r| <= |p|
    ensures p[nsAt] in r
    ensures forall i :: 0 <= i < |p| && p[i].Import? && !IsImportOf(p[i], pkg) ==> p[i] in r
    ensures forall i :: 0 <= i < |p| && IsFoldedAt(p, pkg, nsAt, i) ==>
              (Kept(p[i].specs) != [] && !IsLoneNamespace(Import(pkg, Kept(p[i].specs))) ==> Import(pkg, Kept(p[i].specs)) in r)
    ensures forall x :: x in r && IsImportOf(x, pkg) ==>
              |x.specs| > 0 && forall j :: 0 <= j < |x.specs| ==> !IsUnaliased(x.specs[j])
    ensures Qualified(r, AbsorbedBefore(p, pkg, nsAt, |p|) - {NamespaceAlias(p[nsAt])})
    ensures forall x :: x in r && x.Import? && !IsImportOf(x, pkg) ==> x in p
    ensures forall x, sp :: x in r && IsImportOf(x, pkg) && sp in x.specs ==> sp in PkgSpecs(p, pkg)
  {
    var ns := NamespaceAlias(p[nsAt]);
    assert FoldInv(p, pkg, nsAt, ns, 0, p, {}) by {
      assert AbsorbedBefore(p, pkg, nsAt, 0) == {};
    }
    var folded := FoldFrom(p, pkg, nsAt, ns, 0, p, {});
    var q := folded.0;
    var r := Without(q, folded.1, 0);
    WithoutExprIds(q, folded.1);
    assert q[nsAt] == p[nsAt];
    forall x | x in r && IsImportOf(x, pkg)
      ensures |x.specs| > 0 && forall j :: 0 <= j < |x.specs| ==> !IsUnaliased(x.specs[j])
    {
      var i :| 0 <= i < |q| && i !in folded.1 && q[i] == x;
      if i != nsAt {
        assert x == Import(pkg, Kept(p[i].specs));
        assert x.specs[0] in Kept(p[i].specs);
      }
    }
    forall x | x in r && x.Import? && !IsImportOf(x, pkg)
      ensures x in p
    {
      var i :| 0 <= i < |q| && i !in folded.1 && q[i] == x;
      assert p[i].Import?;
    }
    forall x, sp | x in r && IsImportOf(x, pkg) && sp in x.specs
      ensures sp in PkgSpecs(p, pkg)
    {
      var i :| 0 <= i < |q| && i !in folded.1 && q[i] == x;
      assert p[i].Import?;
      assert IsImportOf(p[i], pkg);
      assert sp in p[i].specs;
      PkgSpecsHas(p, pkg, p[i], sp);
    }
    r
  }

  /**
   * Merges the import declarations of `pkg`. With a lone namespace import the other imports
   * fold into its namespace; otherwise the first import with a named specifier absorbs all
   * the others; with neither nothing changes.
   */
  function DedupeImportStatements(pkg: string, p: Program): (r: Program)
    ensures NamespaceImportIndex(p, pkg).None? && NamedImportIndex(p, pkg).None? ==> r == p
    ensures NamespaceImportIndex(p, pkg).Some? && NamespaceAlias(p[NamespaceImportIndex(p, pkg).value]) == "" ==> r == p
    ensures NamespaceImportIndex(p, pkg).None? && NamedImportIndex(p, pkg).Some? ==>
      var s := NamedImportIndex(p, pkg).value;
      && NonLonePkgImports(r, pkg) == [Import(pkg, p[s].specs + DonatedFrom(p, pkg, s, 0))]
      && multiset(PkgSpecs(r, pkg)) == multiset(PkgSpecs(p, pkg))
      && Others(r, pkg) == Others(p, pkg)
    ensures NamespaceImportIndex(p, pkg).Some? && NamespaceAlias(p[NamespaceImportIndex(p, pkg).value]) != "" ==>
      var k := NamespaceImportIndex(p, pkg).value;
      && p[k] in r
      && (forall i :: 0 <= i < |p| && p[i].Import? && !IsImportOf(p[i], pkg) ==> p[i] in r)
      && (forall x :: x in r && IsImportOf(x, pkg) ==> forall j :: 0 <= j < |x.specs| ==> !IsUnaliased(x.specs[j]))
      && Qualified(r, AbsorbedBefore(p, pkg, k, |p|) - {NamespaceAlias(p[k])})
  {
    match NamespaceImportIndex(p, pkg)
    case Some(k) => if NamespaceAlias(p[k]) == "" then p else FoldIntoNamespace(p, pkg, k)
    case None =>
      match NamedImportIndex(p, pkg)
      case Some(s) => MergeNamed(p, pkg, s)
      case None => p
  }

  lemma {:induction false} OthersHas(q: Program, pkg: string, x: Node)
    ensures x in Others(q, pkg) <==> x in q && !IsImportOf(x, pkg)
  {
    if |q| > 0 {
      OthersHas(q[1..], pkg, x);
      assert q == [q[0]] + q[1..];
    }
  }

  /** Merging the imports of `pkg` neither drops nor brings in an import of another package. */
  lemma {:induction false} DedupeForeignImports(pkg: string, p: Program)
    ensures forall x: Node :: x.Import? && !IsImportOf(x, pkg) ==> (x in DedupeImportStatements(pkg, p) <==> x in p)
  {
    var r := DedupeImportStatements(pkg, p);
    forall x: Node | x.Import? && !IsImportOf(x, pkg)
      ensures x in r <==> x in p
    {
      if NamespaceImportIndex(p, pkg).None? && NamedImportIndex(p, pkg).Some? {
        OthersHas(r, pkg, x);
        OthersHas(p, pkg, x);
      }
      if x in p {
        var i :| 0 <= i < |p| && p[i] == x;
      }
    }
  }

  /** Without a lone namespace import of `pkg` the namespace branch of the dedupe is not taken. */
  lemma {:induction false} NoNamespaceIndex(p: Program, pkg: string)
    requires forall x :: x in p && IsImportOf(x, pkg) ==> !IsLoneNamespace(x)
    ensures NamespaceImportIndex(p, pkg).None?
  {
  }

  /** Merging the imports of `pkg` brings in no specifier the package's imports did not have. */
  lemma {:induction false} DedupeSpecsFrom(pkg: string, p: Program)
    ensures forall x, sp :: x in DedupeImportStatements(pkg, p) && IsImportOf(x, pkg) && sp in x.specs ==>
      sp in PkgSpecs(p, pkg)
  {
    var r := DedupeImportStatements(pkg, p);
    forall x, sp | x in r && IsImportOf(x, pkg) && sp in x.specs
      ensures sp in PkgSpecs(p, pkg)
    {
      PkgSpecsHas(r, pkg, x, sp);
      if r == p {
      } else if NamespaceImportIndex(p, pkg).None? {
        assert sp in multiset(PkgSpecs(r, pkg));
      }
    }
  }

  /**
   * Without a lone namespace import to fold into, merging only moves import declarations, so
   * a node shape no import has that the program lacks stays absent.
   */
  lemma {:induction false} DedupeKeepsAbsent(pkg: string, bad: Node -> bool, p: Program)
    requires forall x: Node :: x.Import? ==> !bad(x)
    requires NamespaceImportIndex(p, pkg).Some? ==> NamespaceAlias(p[NamespaceImportIndex(p, pkg).value]) == ""
    requires !ExistsIn(bad, p)
    ensures !ExistsIn(bad, DedupeImportStatements(pkg, p))
  {
    var r := DedupeImportStatements(pkg, p);
    if r != p {
      forall i | 0 <= i < |r|
        ensures !Exists(bad, r[i])
      {
        if IsImportOf(r[i], pkg) {
          assert Children(r[i]) == [];
        } else {
          OthersHas(r, pkg, r[i]);
          OthersHas(p, pkg, r[i]);
          var j :| 0 <= j < |p| && p[j] == r[i];
        }
      }
    }
  }

  /** Without a lone namespace import of `pkg`, the dedupe keeps every statement that is no import. */
  lemma {:induction false} DedupeKeepsStatements(pkg: string, p: Program, x: Node)
    requires forall y :: y in p && IsImportOf(y, pkg) ==> !IsLoneNamespace(y)
    requires x in p && !x.Import?
    ensures x in DedupeImportStatements(pkg, p)
  {
    NoNamespaceIndex(p, pkg);
    if NamedImportIndex(p, pkg).Some? {
      OthersHas(p, pkg, x);
      OthersHas(DedupeImportStatements(pkg, p), pkg, x);
    }
  }

  // ---------------------------------------------------------------------------
  // Renaming imported and called functions

  /** The map's replacement for `x`; an absent key or an empty replacement keeps `x`. */
  function Renamed(m: map<string, string>, x: string): string {
    if x in m && m[x] != "" then m[x] else x
  }

  /** `x` is a name the map still wants replaced. */
  predicate Stale(m: map<string, string>, x: string) {
    x in m && m[x] != ""
  }

  /** No replacement is itself a name the map replaces, so one pass is enough. */
  predicate NoChains(m: map<string, string>) {
    forall x | x in m :: m[x] != "" ==> !Stale(m, m[x])
  }

  lemma {:induction false} RenamedFresh(m: map<string, string>, x: string)
    requires NoChains(m)
    ensures !Stale(m, Renamed(m, x)) || Renamed(m, x) == x
    ensures Stale(m, x) ==> !Stale(m, Renamed(m, x))
  {
  }

  function RenameSpec(m: map<string, string>, sp: Spec): (r: Spec)
    ensures SpecKind(r) == SpecKind(sp)
    ensures sp.Named? ==> r == Named(Renamed(m, sp.imported), Renamed(m, sp.local))
    ensures !sp.Named? ==> r == sp
  {
    if sp.Named? then Named(Renamed(m, sp.imported), Renamed(m, sp.local)) else sp
  }

  /** Neither the key nor the bound identifier of `pp` is a name the map still replaces. */
  predicate FreshProp(m: map<string, string>, pp: PatProp) {
    (Keyed(pp) ==> !Stale(m, pp.key)) && (pp.KeyValue? ==> !Stale(m, pp.value))
  }

  function RenamePatProp(m: map<string, string>, pp: PatProp): PatProp {
    match pp
    case KeyValue(k, v) => KeyValue(Renamed(m, k), Renamed(m, v))
    case KeyPattern(k) => KeyPattern(Renamed(m, k))
    case OtherPatProp => pp
  }

  function RenameSpecs(m: map<string, string>, specs: seq<Spec>): (r: seq<Spec>)
    ensures |r| == |specs| && forall j :: 0 <= j < |specs| ==> r[j] == RenameSpec(m, specs[j])
  {
    seq(|specs|, j requires 0 <= j < |specs| => RenameSpec(m, specs[j]))
  }

  function RenameProps(m: map<string, string>, props: seq<PatProp>): (r: seq<PatProp>)
    ensures |r| == |props| && forall j :: 0 <= j < |props| ==> r[j] == RenamePatProp(m, props[j])
  {
    seq(|props|, j requires 0 <= j < |props| => RenamePatProp(m, props[j]))
  }

  /**
   * Every identifier key of a renamed property is renamed, whatever its value, and so is
   * an identifier value; nothing else about the property changes.
   */
  lemma {:induction false} RenamePatPropKeys(m: map<string, string>, pp: PatProp)
    ensures Keyed(RenamePatProp(m, pp)) <==> Keyed(pp)
    ensures Keyed(pp) ==> RenamePatProp(m, pp).key == Renamed(m, pp.key)
    ensures pp.KeyValue? ==> RenamePatProp(m, pp) == KeyValue(Renamed(m, pp.key), Renamed(m, pp.value))
    ensures pp.KeyPattern? ==> RenamePatProp(m, pp).KeyPattern?
    ensures !Keyed(pp) ==> RenamePatProp(m, pp) == pp
    ensures NoChains(m) ==> FreshProp(m, RenamePatProp(m, pp))
  {
    if NoChains(m) && Keyed(pp) {
      RenamedFresh(m, pp.key);
    }
    if NoChains(m) && pp.KeyValue? {
      RenamedFresh(m, pp.value);
    }
  }

  function RenameImportedAt(pkg: string, m: map<string, string>, n: Node): Node {
    if IsImportOf(n, pkg) then Import(pkg, RenameSpecs(m, n.specs))
    else if IsRequireDeclOf(n, pkg) && n.decls[0].id.PObj? then
      var props := n.decls[0].id.props;
      WithFirstPattern(n, RenameProps(m, props))
    else n
  }

  function RenameImportedRule(pkg: string, m: map<string, string>): Node -> Node {
    n => RenameImportedAt(pkg, m, n)
  }

  /** The renaming pass over every import and destructuring require of `pkg`. */
  function RenameImported(pkg: string, m: map<string, string>, p: Program): (r: Program)
    ensures |r| == |p|
    ensures forall i :: 0 <= i < |p| && p[i].Import? ==>
      r[i] == if IsImportOf(p[i], pkg) then Import(pkg, RenameSpecs(m, p[i].specs)) else p[i]
    ensures forall i :: 0 <= i < |p| && RequirePattern(p[i], pkg) ==>
      RequirePattern(r[i], pkg) && PatternProps(r[i], pkg) == RenameProps(m, PatternProps(p[i], pkg))
  {
    var f := RenameImportedRule(pkg, m);
    var r := MapProgram(f, p);
    forall i | 0 <= i < |p| && RequirePattern(p[i], pkg)
      ensures RequirePattern(r[i], pkg) && PatternProps(r[i], pkg) == RenameProps(m, PatternProps(p[i], pkg))
    {
      var w := MapRequireStep(f, pkg, p[i]);
    }
    assert forall i :: 0 <= i < |p| && p[i].Import? ==> r[i] == RenameImportedAt(pkg, m, p[i]) by {
      forall i | 0 <= i < |p| && p[i].Import?
        ensures r[i] == RenameImportedAt(pkg, m, p[i])
      {
        MapLeaf(RenameImportedRule(pkg, m), p[i]);
      }
    }
    r
  }

  /** Once renamed under a map without chains, no named specifier still carries a name to replace. */
  lemma {:induction false} RenameSpecsFresh(m: map<string, string>, specs: seq<Spec>, kept: seq<Spec>)
    requires NoChains(m) && IsSubseq(kept, RenameSpecs(m, specs))
    ensures forall j :: 0 <= j < |kept| && kept[j].Named? ==> !Stale(m, kept[j].imported) && !Stale(m, kept[j].local)
  {
    var renamed := RenameSpecs(m, specs);
    SubseqMembers(kept, renamed);
    forall j | 0 <= j < |kept| && kept[j].Named?
      ensures !Stale(m, kept[j].imported) && !Stale(m, kept[j].local)
    {
      assert kept[j] in renamed;
      var k :| 0 <= k < |specs| && renamed[k] == kept[j];
      RenamedFresh(m, specs[k].imported);
      RenamedFresh(m, specs[k].local);
    }
  }

  /** Once renamed under a map without chains, no destructured property still carries a name to replace. */
  lemma {:induction false} RenamePropsFresh(m: map<string, string>, props: seq<PatProp>, kept: seq<PatProp>)
    requires NoChains(m) && IsSubseq(kept, RenameProps(m, props))
    ensures forall j :: 0 <= j < |kept| ==> FreshProp(m, kept[j])
  {
    var renamed := RenameProps(m, props);
    SubseqMembers(kept, renamed);
    forall j | 0 <= j < |kept|
      ensures FreshProp(m, kept[j])
    {
      assert kept[j] in renamed;
      var k :| 0 <= k < |props| && renamed[k] == kept[j];
      RenamePatPropKeys(m, props[k]);
    }
  }

  /**
   * `replaceImported`: in a file that imports or requires `pkg`, renames the imported and
   * the local names of the named specifiers of its imports and the keys and values of its
   * destructuring requires, then drops repeated local names.
   */
  function ReplaceImported(src: string, pkg: string, m: map<string, string>, p: Program): (r: (Program, bool))
    ensures r.1 <==> HasImportOrRequire(src, pkg)
    ensures !r.1 ==> r.0 == p
    ensures r.1 ==> |r.0| == |p|
    ensures r.1 ==> forall i :: 0 <= i < |p| && p[i].Import? && p[i].source != pkg ==> r.0[i] == p[i]
    ensures r.1 ==> forall i :: 0 <= i < |p| && IsImportOf(p[i], pkg) ==>
      && IsImportOf(r.0[i], pkg)
      && IsSubseq(r.0[i].specs, RenameSpecs(m, p[i].specs))
      && (forall k :: First(r.0[i].specs, SpecKey, k) == First(RenameSpecs(m, p[i].specs), SpecKey, k))
      && (NoChains(m) ==> forall j :: 0 <= j < |r.0[i].specs| && r.0[i].specs[j].Named? ==>
            !Stale(m, r.0[i].specs[j].imported) && !Stale(m, r.0[i].specs[j].local))
    ensures r.1 ==> forall i :: 0 <= i < |p| && RequirePattern(p[i], pkg) ==>
      && RequirePattern(r.0[i], pkg)
      && IsSubseq(PatternProps(r.0[i], pkg), RenameProps(m, PatternProps(p[i], pkg)))
      && (NoChains(m) ==> forall j :: 0 <= j < |PatternProps(r.0[i], pkg)| ==> FreshProp(m, PatternProps(r.0[i], pkg)[j]))
  {
    if !HasImportOrRequire(src, pkg) then (p, false)
    else
      var renamed := RenameImported(pkg, m, p);
      var r := DedupeImportedIdentifiers(pkg, renamed, true);
      assert forall i :: 0 <= i < |p| && IsImportOf(p[i], pkg) && NoChains(m) ==>
        forall j :: 0 <= j < |r[i].specs| && r[i].specs[j].Named? ==>
          !Stale(m, r[i].specs[j].imported) && !Stale(m, r[i].specs[j].local) by {
        forall i | 0 <= i < |p| && IsImportOf(p[i], pkg) && NoChains(m)
          ensures forall j :: 0 <= j < |r[i].specs| && r[i].specs[j].Named? ==>
            !Stale(m, r[i].specs[j].imported) && !Stale(m, r[i].specs[j].local)
        {
          RenameSpecsFresh(m, p[i].specs, r[i].specs);
        }
      }
      forall i | 0 <= i < |p| && RequirePattern(p[i], pkg) && NoChains(m)
        ensures forall j :: 0 <= j < |PatternProps(r[i], pkg)| ==> FreshProp(m, PatternProps(r[i], pkg)[j])
      {
        RenamePropsFresh(m, PatternProps(p[i], pkg), PatternProps(r[i], pkg));
      }
      (r, true)
  }

  /** A call of a bare function, or a member access, whose name the map still wants replaced. */
  predicate StaleUse(m: map<string, string>, n: Node) {
    || (n.Call? && n.callee.Id? && Stale(m, n.callee.name))
    || (n.Member? && n.prop.Id? && Stale(m, n.prop.name))
  }

  function FreshUse(m: map<string, string>): Node -> bool {
    n => !StaleUse(m, n)
  }

  function StaleUseOf(m: map<string, string>): Node -> bool {
    n => StaleUse(m, n)
  }

  /** `f()` becomes `g()` and `x.f` becomes `x.g` when the map sends `f` to `g`. */
  function CallRenameAt(m: map<string, string>, n: Node): Node {
    if n.Call? && n.callee.Id? then Call(Id(Renamed(m, n.callee.name)), n.args)
    else if n.Member? && n.prop.Id? then Member(n.obj, Id(Renamed(m, n.prop.name)))
    else n
  }

  function CallRenameRule(m: map<string, string>): Node -> Node {
    n => CallRenameAt(m, n)
  }

  function RenameCalls(m: map<string, string>, p: Program): Program {
    MapProgram(CallRenameRule(m), p)
  }

  lemma {:induction false} CallRenameFixesFresh(m: map<string, string>)
    ensures Fixes(CallRenameRule(m), FreshUse(m))
  {
  }

  lemma {:induction false} CallRenameEstablishesFresh(m: map<string, string>)
    requires NoChains(m)
    ensures Establishes(CallRenameRule(m), FreshUse(m))
  {
    var f, q := CallRenameRule(m), FreshUse(m);
    forall x: Node | forall i :: 0 <= i < |Children(x)| ==> Every(q, Children(x)[i])
      ensures Every(q, f(x))
    {
      if x.Call? && x.callee.Id? {
        RenamedFresh(m, x.callee.name);
        var leaf := Id(Renamed(m, x.callee.name));
        assert Every(q, leaf);
        assert Children(f(x)) == [leaf] + x.args;
        assert forall i :: 1 <= i < |Children(f(x))| ==> Children(f(x))[i] == Children(x)[i];
        assert q(f(x));
      } else if x.Member? && x.prop.Id? {
        RenamedFresh(m, x.prop.name);
        var leaf := Id(Renamed(m, x.prop.name));
        assert Every(q, leaf);
        assert Children(f(x)) == [x.obj, leaf];
        assert Every(q, Children(x)[0]);
        assert q(f(x));
      } else {
        assert f(x) == x;
      }
    }
  }

  /** With no chains in the map, renaming leaves no stale call or member access behind. */
  lemma {:induction false} RenameCallsComplete(m: map<string, string>, p: Program)
    requires NoChains(m)
    ensures !ExistsIn(StaleUseOf(m), RenameCalls(m, p))
  {
    CallRenameEstablishesFresh(m);
    forall i | 0 <= i < |p|
      ensures !Exists(StaleUseOf(m), RenameCalls(m, p)[i])
    {
      MapEstablishes(CallRenameRule(m), FreshUse(m), p[i]);
      EveryNotExists(FreshUse(m), StaleUseOf(m), RenameCalls(m, p)[i]);
    }
  }

  /** With no chains in the map, renaming twice is renaming once. */
  lemma {:induction false} RenameCallsIdempotent(m: map<string, string>, p: Program)
    requires NoChains(m)
    ensures RenameCalls(m, RenameCalls(m, p)) == RenameCalls(m, p)
  {
    CallRenameEstablishesFresh(m);
    CallRenameFixesFresh(m);
    forall i | 0 <= i < |p|
      ensures RenameCalls(m, RenameCalls(m, p))[i] == RenameCalls(m, p)[i]
    {
      MapIdempotent(CallRenameRule(m), FreshUse(m), p[i]);
    }
  }

  /** A chained map is not idempotent: `a -> b -> c` renames `a()` to `b()` in one pass. */
  lemma {:induction false} RenameCallsChained()
    ensures RenameCalls(map["a" := "b", "b" := "c"], [Call(Id("a"), [])]) == [Call(Id("b"), [])]
  {
    var m := map["a" := "b", "b" := "c"];
    var f := CallRenameRule(m);
    MapLeaf(f, Id("a"));
    var ms := seq(1, i requires 0 <= i < 1 => Map(f, Children(Call(Id("a"), []))[i]));
    assert ms == [Id("a")];
  }

  // Passes that only edit import declarations and destructuring patterns

  /** `y` is the declaration `x` with only its first declarator's pattern replaced. */
  predicate IsPatternEdit(x: Node, y: Node) {
    && x.VarDecl? && |x.decls| > 0 && x.decls[0].Declarator?
    && y.VarDecl? && |y.decls| == |x.decls| && y.decls[0].Declarator?
    && y.decls[0].init == x.decls[0].init && y.decls[1..] == x.decls[1..]
  }

  /** A rule that rewrites import declarations into import declarations, or edits a pattern. */
  ghost predicate EditsBindingsOnly(f: Node -> Node) {
    forall x :: f(x) == x || (x.Import? && f(x).Import?) || IsPatternEdit(x, f(x))
  }

  lemma {:induction false} MapIdLeaf(f: Node -> Node, c: Node)
    requires EditsBindingsOnly(f)
    ensures Map(f, c).Id? ==> Map(f, c) == c
  {
    var cs := Children(c);
    var y := WithChildren(c, seq(|cs|, i requires 0 <= i < |cs| => Map(f, cs[i])));
    assert Map(f, c) == f(y);
    if f(y).Id? {
      assert f(y) == y;
      assert KindOf(y) == KindOf(c);
      assert cs == [];
    }
  }

  /** A pattern edit adds below the declaration no node of a kind declarators never are. */
  lemma {:induction false} PatternEditClean(bad: Node -> bool, y: Node, z: Node)
    requires IsPatternEdit(y, z)
    requires forall d: Node :: d.Declarator? ==> !bad(d)
    requires forall i :: 0 <= i < |Children(y)| ==> !Exists(bad, Children(y)[i])
    ensures forall i :: 0 <= i < |Children(z)| ==> !Exists(bad, Children(z)[i])
  {
    assert Children(y) == y.decls && Children(z) == z.decls;
    assert !Exists(bad, y.decls[0]);
    assert Children(y.decls[0]) == [y.decls[0].init];
    assert Children(z.decls[0]) == [y.decls[0].init];
    forall i | 0 <= i < |z.decls|
      ensures !Exists(bad, z.decls[i])
    {
      if i > 0 {
        assert z.decls[i] == z.decls[1..][i - 1] == y.decls[i];
        assert !Exists(bad, Children(y)[i]);
      }
    }
  }

  /** Rebuilding a node whose identifier children came back unchanged keeps it fresh. */
  lemma {:induction false} RebuiltFresh(f: Node -> Node, m: map<string, string>, n: Node)
    requires EditsBindingsOnly(f)
    requires !StaleUse(m, n)
    ensures
      var cs := Children(n);
      !StaleUse(m, WithChildren(n, seq(|cs|, i requires 0 <= i < |cs| => Map(f, cs[i]))))
  {
    var cs := Children(n);
    var y := WithChildren(n, seq(|cs|, i requires 0 <= i < |cs| => Map(f, cs[i])));
    if y.Call? {
      MapIdLeaf(f, cs[0]);
    } else if y.Member? {
      MapIdLeaf(f, cs[1]);
    }
  }

  /** Such a pass turns no call or member access into one the map still wants renamed. */
  lemma {:induction false} BindingEditsKeepFresh(f: Node -> Node, m: map<string, string>, n: Node)
    requires EditsBindingsOnly(f)
    requires !Exists(StaleUseOf(m), n)
    ensures !Exists(StaleUseOf(m), Map(f, n))
  {
    var cs := Children(n);
    forall i | 0 <= i < |cs|
      ensures !Exists(StaleUseOf(m), Map(f, cs[i]))
    {
      assert !Exists(StaleUseOf(m), cs[i]);
      BindingEditsKeepFresh(f, m, cs[i]);
    }
    BindingEditStep(f, m, n);
  }

  lemma {:induction false} BindingEditStep(f: Node -> Node, m: map<string, string>, n: Node)
    requires EditsBindingsOnly(f)
    requires !StaleUse(m, n)
    requires forall i :: 0 <= i < |Children(n)| ==> !Exists(StaleUseOf(m), Map(f, Children(n)[i]))
    ensures !Exists(StaleUseOf(m), Map(f, n))
  {
    var bad := StaleUseOf(m);
    var cs := Children(n);
    var y := WithChildren(n, seq(|cs|, i requires 0 <= i < |cs| => Map(f, cs[i])));
    assert Map(f, n) == f(y);
    assert forall i :: 0 <= i < |Children(y)| ==> !Exists(bad, Children(y)[i]);
    if f(y) == y {
      RebuiltFresh(f, m, n);
    } else if !(y.Import? && f(y).Import?) {
      PatternEditClean(bad, y, f(y));
    }
  }

  lemma {:induction false} RenameImportedEditsBindings(pkg: string, m: map<string, string>)
    ensures EditsBindingsOnly(RenameImportedRule(pkg, m))
  {
  }

  lemma {:induction false} DedupeIdentifiersEditsBindings(pkg: string, intended: bool)
    ensures EditsBindingsOnly(DedupeIdentifiersRule(pkg, intended))
  {
  }

  /** `replaceImported` touches no call site: what the call pass left fresh stays fresh. */
  lemma {:induction false} ReplaceImportedKeepsCalls(src: string, pkg: string, m: map<string, string>, mm: map<string, string>, p: Program)
    requires !ExistsIn(StaleUseOf(mm), p)
    ensures !ExistsIn(StaleUseOf(mm), ReplaceImported(src, pkg, m, p).0)
  {
    if HasImportOrRequire(src, pkg) {
      var renamed := RenameImported(pkg, m, p);
      RenameImportedEditsBindings(pkg, m);
      forall i | 0 <= i < |p|
        ensures !Exists(StaleUseOf(mm), renamed[i])
      {
        BindingEditsKeepFresh(RenameImportedRule(pkg, m), mm, p[i]);
      }
      DedupeIdentifiersEditsBindings(pkg, true);
      forall i | 0 <= i < |p|
        ensures !Exists(StaleUseOf(mm), DedupeImportedIdentifiers(pkg, renamed, true)[i])
      {
        BindingEditsKeepFresh(DedupeIdentifiersRule(pkg, true), mm, renamed[i]);
      }
    }
  }

  /**
   * A pass that only edits bindings keeps absent any node shape decided by identifiers and
   * member expressions under it that no import, declaration or declarator has.
   */
  lemma {:induction false} BindingEditsKeepAbsent(f: Node -> Node, bad: Node -> bool, p: Program)
    requires EditsBindingsOnly(f)
    requires DecidedByHead(bad, IdOrMember())
    requires forall x: Node :: (x.Import? || x.VarDecl? || x.Declarator?) ==> !bad(x)
    requires !ExistsIn(bad, p)
    ensures !ExistsIn(bad, MapProgram(f, p))
  {
    forall x | ChildrenClean(bad, x)
      ensures ChildrenClean(bad, f(x))
    {
      if f(x) != x && !(x.Import? && f(x).Import?) {
        PatternEditClean(bad, x, f(x));
      }
    }
    MapProgramKeepsAbsentHead(f, IdOrMember(), bad, p);
  }

  /**
   * Below a binding edit, every node that is no import and no declaration keeps its type and
   * has the edited children of the node it came from.
   */
  lemma {:induction false} EditsMapChildren(f: Node -> Node, n: Node)
    requires EditsBindingsOnly(f)
    ensures var t := Map(f, n);
      !t.Import? && !t.VarDecl? ==>
        && KindOf(t) == KindOf(n) && |Children(t)| == |Children(n)|
        && forall i :: 0 <= i < |Children(n)| ==> Children(t)[i] == Map(f, Children(n)[i])
  {
    var w := MapStep(f, n);
    assert f(w) == w || (w.Import? && f(w).Import?) || IsPatternEdit(w, f(w));
  }

  /**
   * What a pass makes of `n` when its rule edits bindings only: a node of the same kind whose
   * children are the passes over `n`'s children, unless it is an import or a declaration; and
   * `n` itself when it is an identifier.
   */
  ghost predicate MapsAlike(f: Node -> Node, n: Node) {
    var t := Map(f, n);
    && (!t.Import? && !t.VarDecl? ==>
          && KindOf(t) == KindOf(n) && |Children(t)| == |Children(n)|
          && forall i :: 0 <= i < |Children(n)| ==> Children(t)[i] == Map(f, Children(n)[i]))
    && (t.Id? ==> t == n)
  }

  lemma {:induction false} EditsMapAlike(f: Node -> Node)
    requires EditsBindingsOnly(f)
    ensures forall n :: MapsAlike(f, n)
  {
    forall n
      ensures MapsAlike(f, n)
    {
      EditsMapChildren(f, n);
      MapIdLeaf(f, n);
    }
  }

  /** A binding edit adds no node below its result that declarators and imports never are. */
  lemma {:induction false} EditsKeepClean(f: Node -> Node, bad: Node -> bool)
    requires EditsBindingsOnly(f)
    requires forall d: Node :: d.Declarator? ==> !bad(d)
    ensures KeepsClean(f, bad)
  {
    forall x | ChildrenClean(bad, x)
      ensures ChildrenClean(bad, f(x))
    {
      if f(x) != x {
        if x.Import? && f(x).Import? {
          assert Children(f(x)) == [];
        } else {
          PatternEditClean(bad, x, f(x));
        }
      }
    }
  }

  /** `replaceImported` in a file that imports `pkg` is a renaming pass and a deduplication pass. */
  lemma {:induction false} ReplaceImportedEdits(src: string, pkg: string, m: map<string, string>, p: Program)
    ensures EditsBindingsOnly(RenameImportedRule(pkg, m)) && EditsBindingsOnly(DedupeIdentifiersRule(pkg, true))
    ensures HasImportOrRequire(src, pkg) ==>
      ReplaceImported(src, pkg, m, p).0 == MapProgram(DedupeIdentifiersRule(pkg, true), MapProgram(RenameImportedRule(pkg, m), p))
  {
    RenameImportedEditsBindings(pkg, m);
    DedupeIdentifiersEditsBindings(pkg, true);
    if HasImportOrRequire(src, pkg) {
      var renamed := RenameImported(pkg, m, p);
      assert renamed == MapProgram(RenameImportedRule(pkg, m), p);
      assert DedupeImportedIdentifiers(pkg, renamed, true) == MapProgram(DedupeIdentifiersRule(pkg, true), renamed);
    }
  }

  /** `replaceImported` keeps absent what `BindingEditsKeepAbsent` keeps absent. */
  lemma {:induction false} ReplaceImportedKeepsAbsent(src: string, pkg: string, m: map<string, string>, bad: Node -> bool, p: Program)
    requires DecidedByHead(bad, IdOrMember())
    requires forall x: Node :: (x.Import? || x.VarDecl? || x.Declarator?) ==> !bad(x)
    requires !ExistsIn(bad, p)
    ensures !ExistsIn(bad, ReplaceImported(src, pkg, m, p).0)
  {
    if HasImportOrRequire(src, pkg) {
      var renamed := RenameImported(pkg, m, p);
      RenameImportedEditsBindings(pkg, m);
      BindingEditsKeepAbsent(RenameImportedRule(pkg, m), bad, p);
      assert renamed == MapProgram(RenameImportedRule(pkg, m), p);
      DedupeIdentifiersEditsBindings(pkg, true);
      BindingEditsKeepAbsent(DedupeIdentifiersRule(pkg, true), bad, renamed);
      assert DedupeImportedIdentifiers(pkg, renamed, true) == MapProgram(DedupeIdentifiersRule(pkg, true), renamed);
    }
  }

  /**
   * `replaceFunctionCalls`: in a file that imports or requires `pkg`, renames bare calls and
   * member accesses, then the imported names; the flag says whether the file passed the gate.
   */
  function ReplaceFunctionCalls(src: string, pkg: string, m: map<string, string>, p: Program): (r: (Program, bool))
    ensures r.1 <==> HasImportOrRequire(src, pkg)
    ensures !r.1 ==> r.0 == p
    ensures r.1 ==> |r.0| == |p|
    ensures r.1 ==> forall i :: 0 <= i < |p| && p[i].Import? && p[i].source != pkg ==> r.0[i] == p[i]
    ensures r.1 ==> forall i :: 0 <= i < |p| && IsImportOf(p[i], pkg) ==>
      && IsImportOf(r.0[i], pkg)
      && IsSubseq(r.0[i].specs, RenameSpecs(m, p[i].specs))
      && (forall k :: First(r.0[i].specs, SpecKey, k) == First(RenameSpecs(m, p[i].specs), SpecKey, k))
      && (NoChains(m) ==> forall j :: 0 <= j < |r.0[i].specs| && r.0[i].specs[j].Named? ==>
            !Stale(m, r.0[i].specs[j].imported) && !Stale(m, r.0[i].specs[j].local))
    ensures r.1 && NoChains(m) ==> !ExistsIn(StaleUseOf(m), r.0)
  {
    if !HasImportOrRequire(src, pkg) then (p, false)
    else
      var q := RenameCalls(m, p);
      assert NoChains(m) ==> !ExistsIn(StaleUseOf(m), ReplaceImported(src, pkg, m, q).0) by {
        if NoChains(m) {
          RenameCallsComplete(m, p);
          ReplaceImportedKeepsCalls(src, pkg, m, m, q);
        }
      }
      assert forall i :: 0 <= i < |p| && p[i].Import? ==> q[i] == p[i] by {
        forall i | 0 <= i < |p| && p[i].Import?
          ensures q[i] == p[i]
        {
          MapLeaf(CallRenameRule(m), p[i]);
        }
      }
      (ReplaceImported(src, pkg, m, q).0, true)
  }
}

=== FILE: packagejson.dfy ===
/** Which Sentry SDK a project depends on, read from its package manifest. */
module PackageJson {
  import opened Wrappers

  /** The two dependency tables of a manifest; either may be absent. */
  datatype Manifest = Manifest(dependencies: Option<map<string, string>>, devDependencies: Option<map<string, string>>)

  datatype NpmPackage = NpmPackage(name: string, version: string)

  /** The SDK packages, most specific first: meta-frameworks, then frameworks, then base SDKs. */
  const SdkPackageNames: seq<string> := [
    "@sentry/gatsby", "@sentry/nextjs", "@sentry/remix", "@sentry/sveltekit",
    "@sentry/angular", "@sentry/angular-ivy", "@sentry/ember", "@sentry/react", "@sentry/svelte",
    "@sentry/vue", "@sentry/serverless",
    "@sentry/browser", "@sentry/node"
  ]

  const MetaFrameworkCount := 4
  const FrameworkCount := 11

  /** `table?.[name]`. */
  function Lookup(table: Option<map<string, string>>, name: string): Option<string> {
    if table.Some? && name in table.value then Some(table.value[name]) else None
  }

  /** A version string counts as present only when it is non-empty (JavaScript truthiness). */
  predicate Truthy(v: Option<string>) {
    v.Some? && v.value != ""
  }

  /** `dependencies[name] || devDependencies[name]`, with the manifest itself possibly absent. */
  function GetPackageVersion(name: string, manifest: Option<Manifest>): (r: Option<string>)
    ensures manifest.None? ==> r.None?
    ensures manifest.Some? && Truthy(Lookup(manifest.value.dependencies, name)) ==>
      r == Lookup(manifest.value.dependencies, name)
    ensures manifest.Some? && !Truthy(Lookup(manifest.value.dependencies, name)) ==>
      r == Lookup(manifest.value.devDependencies, name)
  {
    if manifest.None? then None
    else
      var regular := Lookup(manifest.value.dependencies, name);
      if Truthy(regular) then regular else Lookup(manifest.value.devDependencies, name)
  }

  /** A dependency lookup that is not `undefined`; an empty entry falls through to the dev table. */
  predicate HasPackageInstalled(name: string, manifest: Option<Manifest>) {
    GetPackageVersion(name, manifest).Some?
  }

  /**
   * `hasPackageInstalled` holds exactly when the dependency table has a non-empty entry or the
   * dev table has any entry.
   */
  lemma {:induction false} HasPackageInstalledTables(name: string, manifest: Manifest)
    ensures HasPackageInstalled(name, Some(manifest)) <==>
      Truthy(Lookup(manifest.dependencies, name)) || Lookup(manifest.devDependencies, name).Some?
  {
  }

  /** The first name of `names` whose version is truthy, with that version. */
  function FindInstalledPackageFromList(names: seq<string>, manifest: Option<Manifest>): (r: Option<NpmPackage>)
    ensures r.Some? ==> exists i :: 0 <= i < |names| && names[i] == r.value.name && FirstInstalledAt(names, manifest, i)
    ensures r.Some? ==> Some(r.value.version) == GetPackageVersion(r.value.name, manifest) && r.value.version != ""
    ensures r.None? <==> forall i :: 0 <= i < |names| ==> !Truthy(GetPackageVersion(names[i], manifest))
  {
    if |names| == 0 then None
    else
      var v := GetPackageVersion(names[0], manifest);
      if Truthy(v) then
        assert FirstInstalledAt(names, manifest, 0);
        Some(NpmPackage(names[0], v.value))
      else
        var r := FindInstalledPackageFromList(names[1..], manifest);
        assert r.Some? ==> exists i :: 0 <= i < |names| && names[i] == r.value.name && FirstInstalledAt(names, manifest, i) by {
          if r.Some? {
            var i :| 0 <= i < |names[1..]| && names[1..][i] == r.value.name && FirstInstalledAt(names[1..], manifest, i);
            assert FirstInstalledAt(names, manifest, i + 1);
          }
        }
        assert r.None? <==> forall i :: 0 <= i < |names| ==> !Truthy(GetPackageVersion(names[i], manifest)) by {
          assert forall i :: 1 <= i < |names| ==> names[i] == names[1..][i - 1];
        }
        r
  }

  /** `names[i]` has a truthy version and no earlier name has one. */
  predicate FirstInstalledAt(names: seq<string>, manifest: Option<Manifest>, i: nat) {
    && i < |names|
    && Truthy(GetPackageVersion(names[i], manifest))
    && forall j :: 0 <= j < i ==> !Truthy(GetPackageVersion(names[j], manifest))
  }

  /** When one of the first `k` names is installed, the package found is one of the first `k`. */
  lemma {:induction false} FindPrefersEarlier(names: seq<string>, manifest: Option<Manifest>, k: nat)
    requires exists i :: 0 <= i < k && i < |names| && Truthy(GetPackageVersion(names[i], manifest))
    ensures FindInstalledPackageFromList(names, manifest).Some?
    ensures FindInstalledPackageFromList(names, manifest).value.name in names[..if k < |names| then k else |names|]
  {
    var r := FindInstalledPackageFromList(names, manifest);
    var i :| 0 <= i < |names| && names[i] == r.value.name && FirstInstalledAt(names, manifest, i);
    var m := if k < |names| then k else |names|;
    assert i < m;
    assert names[..m][i] == names[i];
  }

  /** An installed meta-framework SDK wins over any framework or base SDK. */
  lemma {:induction false} MetaFrameworkFirst(manifest: Option<Manifest>)
    requires exists i :: 0 <= i < MetaFrameworkCount && Truthy(GetPackageVersion(SdkPackageNames[i], manifest))
    ensures FindInstalledPackageFromList(SdkPackageNames, manifest).Some?
    ensures FindInstalledPackageFromList(SdkPackageNames, manifest).value.name in
      {"@sentry/gatsby", "@sentry/nextjs", "@sentry/remix", "@sentry/sveltekit"}
  {
    FindPrefersEarlier(SdkPackageNames, manifest, MetaFrameworkCount);
    assert SdkPackageNames[..MetaFrameworkCount] == ["@sentry/gatsby", "@sentry/nextjs", "@sentry/remix", "@sentry/sveltekit"];
  }

  /** None of the framework-level names is a base SDK. */
  lemma {:induction false} FrameworkNotBase(i: nat)
    requires i < FrameworkCount
    ensures SdkPackageNames[i] != "@sentry/browser" && SdkPackageNames[i] != "@sentry/node"
  {
    if i < 4 {
      if i < 2 { assert i == 0 || i == 1; } else { assert i == 2 || i == 3; }
    } else if i < 8 {
      if i < 6 { assert i == 4 || i == 5; } else { assert i == 6 || i == 7; }
    } else {
      assert i == 8 || i == 9 || i == 10;
    }
  }

  /** An installed framework SDK wins over the base SDKs. */
  lemma {:induction false} FrameworkBeforeBase(manifest: Option<Manifest>)
    requires exists i :: 0 <= i < FrameworkCount && Truthy(GetPackageVersion(SdkPackageNames[i], manifest))
    ensures FindInstalledPackageFromList(SdkPackageNames, manifest).Some?
    ensures FindInstalledPackageFromList(SdkPackageNames, manifest).value.name !in {"@sentry/browser", "@sentry/node"}
  {
    FindPrefersEarlier(SdkPackageNames, manifest, FrameworkCount);
    var name := FindInstalledPackageFromList(SdkPackageNames, manifest).value.name;
    var framework := SdkPackageNames[..FrameworkCount];
    var i :| 0 <= i < |framework| && framework[i] == name;
    FrameworkNotBase(i);
  }
}

=== FILE: packagemove.dfy ===
/**
 * Moving a file from one package to another: the retarget-then-merge composition the
 * replay and integrations rules share, with the views of a program that survive it.
 */
module PackageMove {
  import opened Wrappers
  import opened Ast
  import opened Normaliser

  /** No top-level import of `pkg` and no `require(pkg)` anywhere. */
  predicate Gone(p: Program, pkg: string) {
    (forall i :: 0 <= i < |p| ==> !IsImportOf(p[i], pkg)) && !ExistsIn(RequireOf(pkg), p)
  }

  /** `q` is `p` with every import of `a` pointed at `b`. */
  predicate RetargetedFrom(p: Program, q: Program, a: string, b: string) {
    && |q| == |p|
    && (forall i :: 0 <= i < |p| && IsImportOf(p[i], a) ==> q[i] == Import(b, p[i].specs))
    && (forall i :: 0 <= i < |p| && !IsImportOf(p[i], a) ==> q[i] == p[i])
  }

  /** `q` has the same top-level imports as `p`, at the same positions. */
  predicate SameImports(p: Program, q: Program) {
    && |q| == |p|
    && (forall i :: 0 <= i < |p| ==> (q[i].Import? <==> p[i].Import?))
    && (forall i :: 0 <= i < |p| && p[i].Import? ==> q[i] == p[i])
  }

  /**
   * Retargets the imports of `oldPkg` to `sdk`, merges the imports of `sdk` when at least
   * one import was retargeted, then retargets `require(oldPkg)`.
   */
  function MovePackage(oldPkg: string, sdk: string, p: Program): (r: Program)
    ensures oldPkg != sdk ==> Gone(r, oldPkg)
  {
    var esm := RewriteEsmImports(oldPkg, sdk, p);
    var q := if |esm.1| > 0 then DedupeImportStatements(sdk, esm.0) else esm.0;
    var r := RewriteCjsRequires(oldPkg, sdk, q);
    assert oldPkg != sdk ==> Gone(r.0, oldPkg) by {
      if oldPkg != sdk {
        DedupeForeignImports(sdk, esm.0);
        RewriteCjsRequiresKeepsImports(oldPkg, sdk, q);
        assert forall x :: x in esm.0 ==> !IsImportOf(x, oldPkg);
        forall i | 0 <= i < |r.0| && r.0[i].Import?
          ensures !IsImportOf(r.0[i], oldPkg)
        {
          assert r.0[i] == q[i];
          if !IsImportOf(q[i], sdk) {
            assert q[i] in q;
          }
        }
      }
    }
    r.0
  }

  lemma {:induction false} NoPositions(p: Program, pkg: string, from: nat)
    requires from <= |p|
    requires forall i :: from <= i < |p| ==> !IsImportOf(p[i], pkg)
    ensures ImportPositions(p, pkg, from) == []
    decreases |p| - from
  {
    if from < |p| {
      NoPositions(p, pkg, from + 1);
    }
  }

  /** A file without an import of the old package has only its requires retargeted. */
  lemma {:induction false} MoveWithoutImports(oldPkg: string, sdk: string, p: Program)
    requires forall i :: 0 <= i < |p| ==> !IsImportOf(p[i], oldPkg)
    ensures SameImports(p, MovePackage(oldPkg, sdk, p))
    ensures MovePackage(oldPkg, sdk, p) == RewriteCjsRequires(oldPkg, sdk, p).0
  {
    var esm := RewriteEsmImports(oldPkg, sdk, p);
    NoPositions(p, oldPkg, 0);
    assert esm.0 == p;
    RewriteCjsRequiresKeepsImports(oldPkg, sdk, p);
  }

  /** Imports of packages other than the two involved survive the move. */
  lemma {:induction false} MoveKeepsForeignImports(oldPkg: string, sdk: string, p: Program)
    ensures forall x :: x in p && x.Import? && !IsImportOf(x, oldPkg) && !IsImportOf(x, sdk) ==>
              x in MovePackage(oldPkg, sdk, p)
  {
    var esm := RewriteEsmImports(oldPkg, sdk, p);
    var q := if |esm.1| > 0 then DedupeImportStatements(sdk, esm.0) else esm.0;
    DedupeForeignImports(sdk, esm.0);
    RewriteCjsRequiresKeepsImports(oldPkg, sdk, q);
    var r := RewriteCjsRequires(oldPkg, sdk, q).0;
    forall x | x in p && x.Import? && !IsImportOf(x, oldPkg) && !IsImportOf(x, sdk)
      ensures x in r
    {
      var i :| 0 <= i < |p| && p[i] == x;
      assert esm.0[i] == x;
      var j :| 0 <= j < |q| && q[j] == x;
      assert r[j] == x;
    }
  }

  lemma {:induction false} RetargetedSpecs(p: Program, q: Program, a: string, b: string)
    requires a != b && RetargetedFrom(p, q, a, b)
    ensures multiset(PkgSpecs(q, b)) == multiset(PkgSpecs(p, b)) + multiset(PkgSpecs(p, a))
  {
    if |p| > 0 {
      assert RetargetedFrom(p[1..], q[1..], a, b);
      RetargetedSpecs(p[1..], q[1..], a, b);
      var qb, pb, pa := multiset(PkgSpecs(q[1..], b)), multiset(PkgSpecs(p[1..], b)), multiset(PkgSpecs(p[1..], a));
      if IsImportOf(p[0], a) {
        var h := multiset(p[0].specs);
        assert multiset(PkgSpecs(q, b)) == h + qb;
        assert multiset(PkgSpecs(p, b)) == pb;
        assert multiset(PkgSpecs(p, a)) == h + pa;
        SpecsMiddle(h, pb, pa);
      } else if IsImportOf(p[0], b) {
        var h := multiset(p[0].specs);
        assert multiset(PkgSpecs(q, b)) == h + qb;
        assert multiset(PkgSpecs(p, b)) == h + pb;
        assert multiset(PkgSpecs(p, a)) == pa;
        SpecsHead(h, pb, pa);
      } else {
        assert multiset(PkgSpecs(q, b)) == qb;
        assert multiset(PkgSpecs(p, b)) == pb;
        assert multiset(PkgSpecs(p, a)) == pa;
      }
    }
  }

  lemma {:induction false} SpecsHead(h: multiset<Spec>, x: multiset<Spec>, y: multiset<Spec>)
    ensures h + (x + y) == (h + x) + y
  {
  }

  lemma {:induction false} SpecsMiddle(h: multiset<Spec>, x: multiset<Spec>, y: multiset<Spec>)
    ensures h + (x + y) == x + (h + y)
  {
  }

  lemma {:induction false} SameImportsViews(p: Program, q: Program, pkg: string)
    requires SameImports(p, q)
    ensures PkgSpecs(q, pkg) == PkgSpecs(p, pkg)
    ensures NonLonePkgImports(q, pkg) == NonLonePkgImports(p, pkg)
  {
    if |p| > 0 {
      assert SameImports(p[1..], q[1..]);
      SameImportsViews(p[1..], q[1..], pkg);
    }
  }

  /**
   * With a named import of the old package and no lone namespace import of either package,
   * the moved file has exactly one (non-namespace) import of `sdk`, and it holds every
   * specifier the imports of both packages had.
   */
  lemma {:induction false} MoveMergesNamed(oldPkg: string, sdk: string, p: Program, k: nat)
    requires oldPkg != sdk
    requires k < |p| && IsImportOf(p[k], oldPkg) && HasNamedSpec(p[k])
    requires forall i :: 0 <= i < |p| && (IsImportOf(p[i], oldPkg) || IsImportOf(p[i], sdk)) ==> !IsLoneNamespace(p[i])
    ensures |NonLonePkgImports(MovePackage(oldPkg, sdk, p), sdk)| == 1
    ensures multiset(PkgSpecs(MovePackage(oldPkg, sdk, p), sdk))
         == multiset(PkgSpecs(p, sdk)) + multiset(PkgSpecs(p, oldPkg))
  {
    var esm := RewriteEsmImports(oldPkg, sdk, p);
    assert k in esm.1;
    var q := DedupeImportStatements(sdk, esm.0);
    assert forall i :: 0 <= i < |esm.0| ==> !(IsImportOf(esm.0[i], sdk) && IsLoneNamespace(esm.0[i]));
    assert NamespaceImportIndex(esm.0, sdk).None?;
    assert NamedImportIndex(esm.0, sdk).Some? by {
      assert IsImportOf(esm.0[k], sdk) && HasNamedSpec(esm.0[k]);
    }
    RetargetedSpecs(p, esm.0, oldPkg, sdk);
    RewriteCjsRequiresKeepsImports(oldPkg, sdk, q);
    SameImportsViews(q, RewriteCjsRequires(oldPkg, sdk, q).0, sdk);
  }
}

=== FILE: paths.dfy ===
/**
 * Addressing one node of a tree by the child indices that lead to it, the way a
 * jscodeshift `NodePath` does, so that a rule can edit the node a search found.
 */
module Paths {
  import opened Ast

  /** Child indices from the root, outermost first. */
  type Path = seq<nat>

  /** `path` leads to a node of the tree rooted at `n`. */
  predicate Valid(n: Node, path: Path)
    decreases |path|
  {
    |path| == 0 || (path[0] < |Children(n)| && Valid(Children(n)[path[0]], path[1..]))
  }

  /** The node `path` leads to. */
  function At(n: Node, path: Path): Node
    requires Valid(n, path)
    decreases |path|
  {
    if |path| == 0 then n else At(Children(n)[path[0]], path[1..])
  }

  /** The tree with the node at `path` replaced by `x`. */
  function Replace(n: Node, path: Path, x: Node): (r: Node)
    requires Valid(n, path)
    ensures Valid(r, path) && At(r, path) == x
    ensures |path| > 0 ==> KindOf(r) == KindOf(n) && |Children(r)| == |Children(n)|
    ensures |path| > 0 ==> forall i :: 0 <= i < |Children(n)| && i != path[0] ==> Children(r)[i] == Children(n)[i]
    decreases |path|
  {
    if |path| == 0 then x
    else
      var cs := Children(n);
      var r := WithChildren(n, cs[path[0] := Replace(cs[path[0]], path[1..], x)]);
      assert Children(r)[path[0]] == Replace(cs[path[0]], path[1..], x);
      r
  }

  /** Following `a` and then `b` is following `a + b`. */
  lemma {:induction false} ValidAppend(n: Node, a: Path, b: Path)
    requires Valid(n, a) && Valid(At(n, a), b)
    ensures Valid(n, a + b) && At(n, a + b) == At(At(n, a), b)
    decreases |a|
  {
    if |a| > 0 {
      ValidAppend(Children(n)[a[0]], a[1..], b);
      assert (a + b)[1..] == a[1..] + b;
    } else {
      assert a + b == b;
    }
  }

  /** A path through a valid path's first `k` steps is valid, and the rest is valid from there. */
  lemma {:induction false} ValidPrefix(n: Node, path: Path, k: nat)
    requires Valid(n, path) && k <= |path|
    ensures Valid(n, path[..k]) && Valid(At(n, path[..k]), path[k..])
    ensures At(At(n, path[..k]), path[k..]) == At(n, path)
    decreases k
  {
    if k > 0 {
      ValidPrefix(Children(n)[path[0]], path[1..], k - 1);
      assert path[..k][1..] == path[1..][..k - 1];
      assert path[k..] == path[1..][k - 1..];
    }
  }

  /** A path that goes on past `a` takes one of the children of the node at `a`. */
  lemma {:induction false} StepBelow(n: Node, a: Path, path: Path)
    requires Valid(n, path) && a < path
    ensures Valid(n, a) && path[|a|] < |Children(At(n, a))|
  {
    ValidPrefix(n, path, |a|);
    assert path[..|a|] == a;
    assert path[|a|..][0] == path[|a|];
  }

  /** The last step of a path picks a child of the node its other steps lead to. */
  lemma {:induction false} LastStep(n: Node, c: Path)
    requires Valid(n, c) && |c| > 0
    ensures Valid(n, c[..|c| - 1]) && c[|c| - 1] < |Children(At(n, c[..|c| - 1]))|
    ensures At(n, c) == Children(At(n, c[..|c| - 1]))[c[|c| - 1]]
  {
    ValidPrefix(n, c, |c| - 1);
    assert c[|c| - 1..] == [c[|c| - 1]];
  }

  /** Replacing a node leaves every node on a path apart from it as it was. */
  lemma {:induction false} ReplaceApart(n: Node, a: Path, x: Node, b: Path)
    requires Valid(n, a) && Valid(n, b) && !(a <= b) && !(b <= a)
    ensures Valid(Replace(n, a, x), b) && At(Replace(n, a, x), b) == At(n, b)
    decreases |b|
  {
    var r := Replace(n, a, x);
    if a[0] == b[0] {
      PrefixTail(a, b);
      PrefixTail(b, a);
      ReplaceApart(Children(n)[a[0]], a[1..], x, b[1..]);
    }
  }

  /** Two paths with the same first step are prefixes of each other as their tails are. */
  lemma {:induction false} PrefixTail(a: Path, b: Path)
    requires |a| > 0 && |b| > 0 && a[0] == b[0]
    ensures a[1..] <= b[1..] ==> a <= b
  {
    if a[1..] <= b[1..] {
      assert forall i :: 0 < i < |a| ==> a[i] == a[1..][i - 1];
      assert forall i :: 0 < i < |a| ==> b[i] == b[1..][i - 1];
    }
  }

  /** Replacing a node below `b` replaces it inside the subtree at `b`. */
  lemma {:induction false} ReplaceBelow(n: Node, a: Path, x: Node, b: Path)
    requires Valid(n, a) && b <= a
    ensures Valid(n, b) && Valid(At(n, b), a[|b|..])
    ensures Valid(Replace(n, a, x), b) && At(Replace(n, a, x), b) == Replace(At(n, b), a[|b|..], x)
    decreases |b|
  {
    ValidPrefix(n, a, |b|);
    assert a[..|b|] == b;
    if |b| > 0 {
      assert b[1..] <= a[1..];
      var c := Children(n)[a[0]];
      ReplaceBelow(c, a[1..], x, b[1..]);
      assert a[1..][|b| - 1..] == a[|b|..];
      ReplaceChild(n, a, x);
      var r := Replace(n, a, x);
      assert Children(r)[b[0]] == Replace(c, a[1..], x);
      assert At(n, b) == At(c, b[1..]);
      assert At(r, b) == At(Replace(c, a[1..], x), b[1..]);
    }
  }

  /** The child the path goes through is replaced below. */
  lemma {:induction false} ReplaceChild(n: Node, a: Path, x: Node)
    requires Valid(n, a) && |a| > 0
    ensures Children(Replace(n, a, x))[a[0]] == Replace(Children(n)[a[0]], a[1..], x)
  {
  }

  /** The program as one tree, so that a top-level statement is one step below the root. */
  function Root(p: Program): (r: Node)
    ensures Children(r) == p
  {
    Other(p)
  }

  /** `[i] + path` for each path of `ps`. */
  function Under(i: nat, ps: seq<Path>): (r: seq<Path>)
    ensures |r| == |ps|
    ensures forall k :: 0 <= k < |ps| ==> r[k] == [i] + ps[k]
  {
    seq(|ps|, k requires 0 <= k < |ps| => [i] + ps[k])
  }

  /** A path into child `i` is valid when its rest is valid in that child. */
  lemma {:induction false} ValidUnder(n: Node, i: nat, path: Path)
    requires i < |Children(n)| && Valid(Children(n)[i], path)
    ensures Valid(n, [i] + path) && At(n, [i] + path) == At(Children(n)[i], path)
  {
    assert ([i] + path)[1..] == path;
  }

  /** A path of one step leads to a child. */
  lemma {:induction false} OneStep(n: Node, i: nat)
    requires i < |Children(n)|
    ensures Valid(n, [i]) && At(n, [i]) == Children(n)[i]
  {
    assert [i][1..] == [];
  }

  /** One step past a call leads to its first argument. */
  lemma {:induction false} FirstArgStep(n: Node, path: Path)
    requires Valid(n, path) && At(n, path).Call? && |At(n, path).args| > 0
    ensures Valid(n, path + [1]) && At(n, path + [1]) == At(n, path).args[0]
  {
    CallChildren(At(n, path));
    OneStep(At(n, path), 1);
    ValidAppend(n, path, [1]);
  }

  /** A path two steps down, into grandchild `j` of child `i`. */
  lemma {:induction false} ValidUnder2(n: Node, i: nat, j: nat, path: Path)
    requires i < |Children(n)| && j < |Children(Children(n)[i])| && Valid(Children(Children(n)[i])[j], path)
    ensures Valid(n, [i, j] + path) && At(n, [i, j] + path) == At(Children(Children(n)[i])[j], path)
  {
    ValidUnder(Children(n)[i], j, path);
    ValidUnder(n, i, [j] + path);
    assert [i, j] + path == [i] + ([j] + path);
  }

  /** The paths of the nodes satisfying `q`, in pre-order (jscodeshift's `find` order). */
  function Find(q: Node -> bool, n: Node): (r: seq<Path>)
    ensures forall path :: path in r ==> Valid(n, path) && q(At(n, path))
    decreases n, 1
  {
    FindFromSound(q, n, 0);
    (if q(n) then [[]] else []) + FindFrom(q, n, 0)
  }

  /** The paths found under the children of `n` from the `i`-th on. */
  function FindFrom(q: Node -> bool, n: Node, i: nat): seq<Path>
    requires i <= |Children(n)|
    decreases n, 0, |Children(n)| - i, 0
  {
    if i == |Children(n)| then []
    else Under(i, Find(q, Children(n)[i])) + FindFrom(q, n, i + 1)
  }

  /** `path` leads, through child `lo` or a later one, to a node of `n` satisfying `q`. */
  predicate LeadsFrom(q: Node -> bool, n: Node, lo: nat, path: Path) {
    |path| > 0 && lo <= path[0] && Valid(n, path) && q(At(n, path))
  }

  /** What is found under the children leads to a node satisfying `q`, below one of them. */
  lemma {:induction false} FindFromSound(q: Node -> bool, n: Node, i: nat)
    requires i <= |Children(n)|
    ensures forall path :: path in FindFrom(q, n, i) ==> LeadsFrom(q, n, i, path)
    decreases n, 0, |Children(n)| - i, 1
  {
    if i < |Children(n)| {
      var here := Under(i, Find(q, Children(n)[i]));
      var rest := FindFrom(q, n, i + 1);
      assert FindFrom(q, n, i) == here + rest;
      UnderSound(q, n, i, Find(q, Children(n)[i]));
      FindFromSound(q, n, i + 1);
      forall path | path in here + rest
        ensures LeadsFrom(q, n, i, path)
      {
        if path !in here {
          assert path in rest && LeadsFrom(q, n, i + 1, path);
        }
      }
    }
  }

  /** Paths found in child `i`, put under it, lead to the same nodes from `n`. */
  lemma {:induction false} UnderSound(q: Node -> bool, n: Node, i: nat, found: seq<Path>)
    requires i < |Children(n)|
    requires forall p :: p in found ==> Valid(Children(n)[i], p) && q(At(Children(n)[i], p))
    ensures forall path :: path in Under(i, found) ==> LeadsFrom(q, n, i, path) && path[0] == i
  {
    forall path | path in Under(i, found)
      ensures |path| > 0 && path[0] == i && LeadsFrom(q, n, i, path)
    {
      var k :| 0 <= k < |found| && Under(i, found)[k] == path;
      ValidUnder(n, i, found[k]);
    }
  }

  /** Every node satisfying `q` is found. */
  lemma {:induction false} FindComplete(q: Node -> bool, n: Node, path: Path)
    requires Valid(n, path) && q(At(n, path))
    ensures path in Find(q, n)
    decreases |path|
  {
    if |path| > 0 {
      var i := path[0];
      var c := Children(n)[i];
      FindComplete(q, c, path[1..]);
      var k :| 0 <= k < |Find(q, c)| && Find(q, c)[k] == path[1..];
      assert Under(i, Find(q, c))[k] == path;
      FindFromHas(q, n, 0, path);
    }
  }

  /** A path into child `path[0]` found there is found from any earlier child on. */
  lemma {:induction false} FindFromHas(q: Node -> bool, n: Node, i: nat, path: Path)
    requires |path| > 0 && i <= path[0] < |Children(n)|
    requires path in Under(path[0], Find(q, Children(n)[path[0]]))
    ensures path in FindFrom(q, n, i)
    decreases path[0] - i
  {
    assert i < |Children(n)|;
    var here := Under(i, Find(q, Children(n)[i]));
    var rest := FindFrom(q, n, i + 1);
    assert FindFrom(q, n, i) == here + rest;
    if i < path[0] {
      FindFromHas(q, n, i + 1, path);
      assert path in rest;
    } else {
      assert path in here;
    }
  }

  /** Nothing is found exactly when no node satisfies `q`. */
  lemma {:induction false} FindEmpty(q: Node -> bool, n: Node)
    ensures Find(q, n) == [] <==> !Exists(q, n)
  {
    if Exists(q, n) {
      var path := Witness(q, n);
      FindComplete(q, n, path);
    }
    if Find(q, n) != [] {
      FoundExists(q, n, Find(q, n)[0]);
    }
  }

  /** A path to a node satisfying `q`. */
  lemma {:induction false} Witness(q: Node -> bool, n: Node) returns (path: Path)
    requires Exists(q, n)
    ensures Valid(n, path) && q(At(n, path))
  {
    if q(n) {
      path := [];
    } else {
      var i :| 0 <= i < |Children(n)| && Exists(q, Children(n)[i]);
      var rest := Witness(q, Children(n)[i]);
      ValidUnder(n, i, rest);
      path := [i] + rest;
    }
  }

  /** A node a path leads to is a node of the tree. */
  lemma {:induction false} FoundExists(q: Node -> bool, n: Node, path: Path)
    requires Valid(n, path) && q(At(n, path))
    ensures Exists(q, n)
    decreases |path|
  {
    if |path| > 0 {
      FoundExists(q, Children(n)[path[0]], path[1..]);
    }
  }

  /** Where no node satisfies `r`, every node satisfies its negation `q`. */
  lemma {:induction false} NoneEvery(q: Node -> bool, r: Node -> bool, n: Node)
    requires forall x :: q(x) <==> !r(x)
    requires !Exists(r, n)
    ensures Every(q, n)
  {
    forall i | 0 <= i < |Children(n)|
      ensures Every(q, Children(n)[i])
    {
      NoneEvery(q, r, Children(n)[i]);
    }
  }

  // ---------------------------------------------------------------------------
  // Edits that only add children

  /**
   * `b` is `a` with possibly more children at some nodes: every node of `a` has a
   * counterpart of the same type at the same path in `b`.
   */
  predicate Grows(a: Node, b: Node)
    decreases a
  {
    && KindOf(a) == KindOf(b)
    && |Children(a)| <= |Children(b)|
    && forall i :: 0 <= i < |Children(a)| ==> Grows(Children(a)[i], Children(b)[i])
  }

  /** A tree that grew from an object literal is an object literal. */
  lemma {:induction false} GrowsObject(a: Node, b: Node)
    requires Grows(a, b) && a.Obj?
    ensures b.Obj?
  {
    assert KindOf(b) == KObject;
  }

  lemma {:induction false} GrowsRefl(a: Node)
    ensures Grows(a, a)
    decreases a
  {
    forall i | 0 <= i < |Children(a)|
      ensures Grows(Children(a)[i], Children(a)[i])
    {
      GrowsRefl(Children(a)[i]);
    }
  }

  lemma {:induction false} GrowsTrans(a: Node, b: Node, c: Node)
    requires Grows(a, b) && Grows(b, c)
    ensures Grows(a, c)
    decreases a
  {
    forall i | 0 <= i < |Children(a)|
      ensures Grows(Children(a)[i], Children(c)[i])
    {
      GrowsTrans(Children(a)[i], Children(b)[i], Children(c)[i]);
    }
  }

  /** A path of `a` still leads somewhere in a tree that grew from it. */
  lemma {:induction false} GrowsValid(a: Node, b: Node, path: Path)
    requires Grows(a, b) && Valid(a, path)
    ensures Valid(b, path) && Grows(At(a, path), At(b, path))
    decreases |path|
  {
    if |path| > 0 {
      GrowsValid(Children(a)[path[0]], Children(b)[path[0]], path[1..]);
    }
  }

  /** A pass whose rule only adds children yields a tree that grew from the input. */
  lemma {:induction false} MapGrows(f: Node -> Node, n: Node)
    requires forall x :: Grows(x, f(x))
    ensures Grows(n, Map(f, n))
    decreases n
  {
    var cs := Children(n);
    var ms := seq(|cs|, i requires 0 <= i < |cs| => Map(f, cs[i]));
    forall i | 0 <= i < |cs|
      ensures Grows(cs[i], ms[i])
    {
      MapGrows(f, cs[i]);
    }
    var w := WithChildren(n, ms);
    assert Grows(n, w);
    GrowsTrans(n, w, f(w));
  }
}

=== FILE: replayconfig.dfy ===
/**
 * The replay-options rule: the legacy privacy options of `new Replay({…})` are
 * folded into the `block`, `ignore` and `mask` lists.
 */
module ReplayConfig {
  import opened Wrappers
  import opened Ast
  import opened Text
  import opened Seqs

  /** The legacy option names; a file mentioning none of them, in any letter case, is skipped. */
  const LegacyOptions: seq<string> := ["blockSelector", "blockClass", "ignoreClass", "maskTextClass", "maskTextSelector"]

  predicate MentionsLegacy(src: string) {
    exists k :: 0 <= k < |LegacyOptions| && ContainsCI(src, LegacyOptions[k])
  }

  /** `selector.split(',')`: no trimming, and the empty selector gives one empty entry. */
  function ConvertSelector(selector: string): (r: seq<string>)
    ensures |r| >= 1
    ensures forall k :: 0 <= k < |r| ==> ',' !in r[k]
    ensures Join(r, ',') == selector
  {
    SplitJoin(selector, ',');
    Split(selector, ',')
  }

  /** A class name becomes a class selector; the empty name gives nothing. */
  function ConvertClassName(className: string): (r: seq<string>)
    ensures className == "" <==> r == []
    ensures r != [] ==> r == ["." + className]
  {
    if className == "" then [] else ["." + className]
  }

  /** The three lists the options are folded into. */
  datatype Target = BlockList | IgnoreList | MaskList

  /** What one property adds to a list: an existing array's elements, or new string entries. */
  datatype Contribution = MergeArray(target: Target, elems: seq<Node>) | PushStrings(target: Target, strs: seq<string>)

  function Literals(strs: seq<string>): (r: seq<Node>)
    ensures |r| == |strs|
    ensures forall k :: 0 <= k < |strs| ==> r[k] == Str(strs[k])
  {
    if |strs| == 0 then [] else [Str(strs[0])] + Literals(strs[1..])
  }

  /** The entries a contribution adds, whatever the way it is added. */
  function Entries(c: Contribution): seq<Node> {
    match c
    case MergeArray(_, elems) => elems
    case PushStrings(_, strs) => Literals(strs)
  }

  /** The contribution of an object property, when it is one the rule handles. */
  function ContributionOf(n: Node): Option<Contribution> {
    if !(n.Prop? && n.key.IdKey?) then None
    else
      var k := n.key.name;
      var v := n.value;
      if v.Arr? && k == "block" then Some(MergeArray(BlockList, v.elems))
      else if v.Arr? && k == "ignore" then Some(MergeArray(IgnoreList, v.elems))
      else if v.Arr? && k == "mask" then Some(MergeArray(MaskList, v.elems))
      else if v.Str? && k == "blockSelector" then Some(PushStrings(BlockList, ConvertSelector(v.text)))
      else if v.Str? && k == "blockClass" then Some(PushStrings(BlockList, ConvertClassName(v.text)))
      else if v.Str? && k == "ignoreClass" then Some(PushStrings(IgnoreList, ConvertClassName(v.text)))
      else if v.Str? && k == "maskTextClass" then Some(PushStrings(MaskList, ConvertClassName(v.text)))
      else if v.Str? && k == "maskTextSelector" then Some(PushStrings(MaskList, ConvertSelector(v.text)))
      else None
  }

  predicate Handled(n: Node) {
    ContributionOf(n).Some?
  }

  /** Other keys, and handled keys with other kinds of value, are left alone. */
  lemma {:induction false} UnhandledProperty(k: string, v: Node, notes: seq<string>)
    requires k !in ["block", "ignore", "mask"] + LegacyOptions || (!v.Arr? && !v.Str?)
    ensures !Handled(Prop(IdKey(k), v, notes))
  {
  }

  datatype Lists = Lists(block: seq<Node>, ignore: seq<Node>, mask: seq<Node>)

  function Get(l: Lists, t: Target): seq<Node> {
    match t
    case BlockList => l.block
    case IgnoreList => l.ignore
    case MaskList => l.mask
  }

  function Put(l: Lists, t: Target, v: seq<Node>): (r: Lists)
    ensures Get(r, t) == v
    ensures forall u :: u != t ==> Get(r, u) == Get(l, u)
  {
    match t
    case BlockList => l.(block := v)
    case IgnoreList => l.(ignore := v)
    case MaskList => l.(mask := v)
  }

  /** `mergeArrayExpressions`: the added array itself when nothing was collected yet, else the concatenation. */
  function MergeArrays(existing: seq<Node>, added: seq<Node>): seq<Node> {
    if |existing| == 0 then added else existing + added
  }

  /** Either way, merging is concatenation. */
  lemma {:induction false} MergeIsConcat(existing: seq<Node>, added: seq<Node>)
    ensures MergeArrays(existing, added) == existing + added
  {
    if |existing| == 0 {
      assert existing + added == added;
    }
  }

  function Apply(l: Lists, c: Contribution): Lists {
    match c
    case MergeArray(t, elems) => Put(l, t, MergeArrays(Get(l, t), elems))
    case PushStrings(t, strs) => Put(l, t, Get(l, t) + Literals(strs))
  }

  /** The lists after the contributions, applied in order from three empty lists. */
  function Fold(cs: seq<Contribution>): Lists {
    if |cs| == 0 then Lists([], [], [])
    else Apply(Fold(cs[..|cs| - 1]), cs[|cs| - 1])
  }

  /** The entries the contributions make to one list, in order. */
  function EntriesFor(cs: seq<Contribution>, t: Target): seq<Node> {
    if |cs| == 0 then []
    else EntriesFor(cs[..|cs| - 1], t) + (if cs[|cs| - 1].target == t then Entries(cs[|cs| - 1]) else [])
  }

  /** Each list holds exactly the entries aimed at it, in property order. */
  lemma {:induction false} FoldEntries(cs: seq<Contribution>, t: Target)
    ensures Get(Fold(cs), t) == EntriesFor(cs, t)
  {
    if |cs| > 0 {
      var c := cs[|cs| - 1];
      FoldEntries(cs[..|cs| - 1], t);
      if c.MergeArray? && c.target == t {
        MergeIsConcat(Get(Fold(cs[..|cs| - 1]), t), c.elems);
      }
    }
  }

  // ---------------------------------------------------------------------------
  // The `new Replay(…)` expressions

  /** `new X.Replay(…)` is looked for first; `new Replay(…)` only when there is none. */
  datatype Form = MemberReplay | BareReplay

  predicate IsReplayOf(f: Form, n: Node) {
    && n.New?
    && match f
       case MemberReplay => n.callee.Member? && n.callee.prop == Id("Replay")
       case BareReplay => n.callee == Id("Replay")
  }

  function ReplayOf(f: Form): Node -> bool {
    n => IsReplayOf(f, n)
  }

  function FormOf(p: Program): (r: Option<Form>)
    ensures r == Some(BareReplay) ==> !ExistsIn(ReplayOf(MemberReplay), p)
    ensures r.None? <==> !ExistsIn(ReplayOf(MemberReplay), p) && !ExistsIn(ReplayOf(BareReplay), p)
  {
    if ExistsIn(ReplayOf(MemberReplay), p) then Some(MemberReplay)
    else if ExistsIn(ReplayOf(BareReplay), p) then Some(BareReplay)
    else None
  }

  function ContributionAt(n: Node): seq<Contribution> {
    match ContributionOf(n)
    case Some(c) => [c]
    case None => []
  }

  /** The contributions of the properties inside the chosen expressions, in document order. */
  function Contributions(f: Form, p: Program): seq<Contribution> {
    CollectIn(n => if IsReplayOf(f, n) then Collect(ContributionAt, n) else [], p)
  }

  /** An object literal without its handled properties. */
  function StripAt(n: Node): (r: Node)
    ensures n.Obj? ==> r == Obj(Filter(n.props, x => !Handled(x)))
    ensures !n.Obj? ==> r == n
  {
    if n.Obj? then Obj(Filter(n.props, x => !Handled(x))) else n
  }

  function StripRule(): Node -> Node {
    n => StripAt(n)
  }

  predicate NoHandledProp(n: Node) {
    n.Obj? ==> forall k :: 0 <= k < |n.props| ==> !Handled(n.props[k])
  }

  function Clean(): Node -> bool {
    n => NoHandledProp(n)
  }

  lemma {:induction false} StripEstablishes()
    ensures Establishes(StripRule(), Clean())
  {
    forall x: Node | forall i :: 0 <= i < |Children(x)| ==> Every(Clean(), Children(x)[i])
      ensures Every(Clean(), StripAt(x))
    {
      if x.Obj? {
        var kept := Filter(x.props, y => !Handled(y));
        assert Children(StripAt(x)) == kept;
        forall i | 0 <= i < |kept|
          ensures Every(Clean(), kept[i])
        {
          var j :| 0 <= j < |x.props| && x.props[j] == kept[i];
          assert Children(x)[j] == kept[i];
        }
      }
    }
  }

  /** Inside a stripped expression no object literal has a handled property left. */
  lemma {:induction false} StripComplete(n: Node)
    ensures Every(Clean(), Map(StripRule(), n))
  {
    StripEstablishes();
    MapEstablishes(StripRule(), Clean(), n);
  }

  function ListProp(key: string, elems: seq<Node>): seq<Node> {
    if elems == [] then [] else [Prop(IdKey(key), Arr(elems), [])]
  }

  /** The properties appended to the options object: `block`, `ignore`, `mask`, each only when non-empty. */
  function Additions(l: Lists): (r: seq<Node>)
    ensures |r| <= 3
    ensures forall k :: 0 <= k < |r| ==> r[k].Prop? && r[k].value.Arr? && r[k].value.elems != []
  {
    ListProp("block", l.block) + ListProp("ignore", l.ignore) + ListProp("mask", l.mask)
  }

  /** The list properties appear in the fixed order, exactly the non-empty ones. */
  lemma {:induction false} AdditionsOrder(l: Lists)
    ensures l.block != [] && l.ignore != [] && l.mask != [] ==>
      Additions(l) == [Prop(IdKey("block"), Arr(l.block), []), Prop(IdKey("ignore"), Arr(l.ignore), []),
                       Prop(IdKey("mask"), Arr(l.mask), [])]
    ensures l.block == [] && l.ignore == [] && l.mask == [] ==> Additions(l) == []
    ensures l.block != [] ==> Additions(l)[0] == Prop(IdKey("block"), Arr(l.block), [])
  {
  }

  /**
   * One chosen expression: handled properties are removed everywhere inside it, and when its
   * first argument is an object literal the non-empty lists are appended to it.
   */
  function Finish(n: Node, l: Lists): (r: Node)
    requires n.New?
    ensures r.New? && r.callee == n.callee && |r.args| == |n.args|
    ensures |n.args| > 0 && n.args[0].Obj? ==> r.args[0] == Obj(n.args[0].props + Additions(l))
    ensures |n.args| > 0 && !n.args[0].Obj? ==> r == n
  {
    if |n.args| > 0 && n.args[0].Obj? then New(n.callee, [Obj(n.args[0].props + Additions(l))] + n.args[1..])
    else n
  }

  function ReplayAt(f: Form, l: Lists, n: Node): Node {
    if IsReplayOf(f, n) then Finish(Map(StripRule(), n), l) else n
  }

  /**
   * A chosen expression whose first argument is an object literal ends up with that object's
   * unhandled properties followed by the non-empty lists.
   */
  lemma {:induction false} ReplayAtShape(f: Form, l: Lists, n: Node)
    requires IsReplayOf(f, n) && |n.args| > 0 && n.args[0].Obj?
    ensures var r := ReplayAt(f, l, n);
      && r.New? && r.callee == Map(StripRule(), n.callee) && |r.args| == |n.args|
      && r.args[0].Obj?
      && |Additions(l)| <= |r.args[0].props|
      && r.args[0].props[|r.args[0].props| - |Additions(l)|..] == Additions(l)
      && forall k :: 0 <= k < |r.args[0].props| - |Additions(l)| ==> !Handled(r.args[0].props[k])
  {
    var m := Map(StripRule(), n);
    var cs := Children(n);
    assert m == WithChildren(n, seq(|cs|, i requires 0 <= i < |cs| => Map(StripRule(), cs[i])));
    assert m.args[0] == Map(StripRule(), n.args[0]) by {
      assert cs[1] == n.args[0];
    }
    StripComplete(n.args[0]);
    var o := m.args[0];
    assert o.Obj? by {
      var ocs := Children(n.args[0]);
      assert o == StripAt(WithChildren(n.args[0], seq(|ocs|, i requires 0 <= i < |ocs| => Map(StripRule(), ocs[i]))));
    }
    var r := Finish(m, l);
    assert r.args[0].props == o.props + Additions(l);
  }

  function ReplayWithoutArgs(f: Form): Node -> bool {
    n => IsReplayOf(f, n) && |n.args| == 0
  }

  /**
   * The rule on one file. Unchanged when no `Replay` construction is found or the text names
   * no legacy option; a construction without arguments makes the final step read a property
   * of `undefined`, which throws.
   */
  function ReplayConfigRule(src: string, p: Program): (r: Outcome)
    ensures r == Unchanged <==> FormOf(p).None? || !MentionsLegacy(src)
    ensures r == Failed <==> FormOf(p).Some? && MentionsLegacy(src) && ExistsIn(ReplayWithoutArgs(FormOf(p).value), p)
    ensures r.Changed? ==>
      var f := FormOf(p).value;
      r.prog == MapProgram(n => ReplayAt(f, Fold(Contributions(f, p)), n), p)
  {
    match FormOf(p)
    case None => Unchanged
    case Some(f) =>
      if !MentionsLegacy(src) then Unchanged
      else if ExistsIn(ReplayWithoutArgs(f), p) then Failed
      else Changed(MapProgram(n => ReplayAt(f, Fold(Contributions(f, p)), n), p))
  }
}

=== FILE: replayimports.dfy ===
/** The rule that moves `@sentry/replay` imports and requires to the SDK package. */
module ReplayImports {
  import opened Ast
  import opened Normaliser
  import opened PackageMove

  const ReplayPackage := "@sentry/replay"

  /**
   * The rule on one script. With no SDK chosen the rule does not run (`index.js`), and files
   * that neither import nor require the replay package are unchanged; in every other file no import or require of it is left once the SDK is
   * another package.
   */
  function ReplayImportsRule(src: string, sdk: string, p: Program): (r: Outcome)
    ensures r == Unchanged <==> sdk == "" || !HasImportOrRequire(src, ReplayPackage)
    ensures r != Unchanged ==> r.Changed?
    ensures r.Changed? && sdk != ReplayPackage ==> Gone(r.prog, ReplayPackage)
  {
    if sdk == "" || !HasImportOrRequire(src, ReplayPackage) then Unchanged
    else Changed(MovePackage(ReplayPackage, sdk, p))
  }
}

=== FILE: seqs.dfy ===
/** Order-related facts about sequences shared by the import and pattern edits. */
module Seqs {
  import opened Wrappers

  /** `a` is `b` with some elements left out, order kept. */
  predicate IsSubseq<T(==)>(a: seq<T>, b: seq<T>)
    decreases |b|
  {
    |a| == 0 || (|b| > 0 && ((a[0] == b[0] && IsSubseq(a[1..], b[1..])) || IsSubseq(a, b[1..])))
  }

  lemma {:induction false} SubseqRefl<T>(a: seq<T>)
    ensures IsSubseq(a, a)
    decreases |a|
  {
    if |a| > 0 {
      SubseqRefl(a[1..]);
    }
  }

  /** Keeping the head of both sides keeps the relation. */
  lemma {:induction false} SubseqCons<T>(x: T, a: seq<T>, b: seq<T>)
    requires IsSubseq(a, b)
    ensures IsSubseq([x] + a, [x] + b)
  {
    assert ([x] + a)[1..] == a;
    assert ([x] + b)[1..] == b;
  }

  /** Dropping an element of the longer side keeps the relation. */
  lemma {:induction false} SubseqSkip<T>(x: T, a: seq<T>, b: seq<T>)
    requires IsSubseq(a, b)
    ensures IsSubseq(a, [x] + b)
  {
    assert ([x] + b)[1..] == b;
  }

  /** Every element of a subsequence is an element of the sequence. */
  lemma {:induction false} SubseqMembers<T>(a: seq<T>, b: seq<T>)
    requires IsSubseq(a, b)
    ensures forall x :: x in a ==> x in b
    decreases |b|
  {
    if |a| > 0 {
      if a[0] == b[0] && IsSubseq(a[1..], b[1..]) {
        SubseqMembers(a[1..], b[1..]);
        assert a == [a[0]] + a[1..];
      } else {
        SubseqMembers(a, b[1..]);
      }
    }
  }

  /** The first element of `s` whose key is `k`. */
  function First<T>(s: seq<T>, key: T -> Option<string>, k: string): (r: Option<T>)
    ensures r.Some? ==> r.value in s && key(r.value) == Some(k)
  {
    if |s| == 0 then None
    else if key(s[0]) == Some(k) then Some(s[0])
    else First(s[1..], key, k)
  }

  /** No two elements of `s` share a key. */
  predicate DistinctKeys<T>(s: seq<T>, key: T -> Option<string>) {
    forall i, j :: 0 <= i < j < |s| && key(s[i]).Some? ==> key(s[i]) != key(s[j])
  }

  /** The keys the elements of `s` carry. */
  function Keys<T>(s: seq<T>, key: T -> Option<string>): set<string> {
    set i | 0 <= i < |s| && key(s[i]).Some? :: key(s[i]).value
  }

  /** A key some element carries has a first holder. */
  lemma {:induction false} FirstFinds<T>(s: seq<T>, key: T -> Option<string>, i: nat)
    requires i < |s| && key(s[i]).Some?
    ensures First(s, key, key(s[i]).value).Some?
  {
    if key(s[0]) != key(s[i]) {
      FirstFinds(s[1..], key, i - 1);
    }
  }

  /** No element occurs twice. */
  predicate NoDuplicates<T(==)>(s: seq<T>) {
    forall i, j :: 0 <= i < j < |s| ==> s[i] != s[j]
  }

  /** No element of `a` is an element of `b`. */
  predicate Disjoint<T(==)>(a: seq<T>, b: seq<T>) {
    forall i, j :: 0 <= i < |a| && 0 <= j < |b| ==> a[i] != b[j]
  }

  /** Two repetition-free sequences with nothing in common concatenate without repetition. */
  lemma {:induction false} NoDuplicatesConcat<T>(a: seq<T>, b: seq<T>)
    requires NoDuplicates(a) && NoDuplicates(b) && Disjoint(a, b)
    ensures NoDuplicates(a + b)
  {
    forall i, j | 0 <= i < j < |a + b|
      ensures (a + b)[i] != (a + b)[j]
    {
      if i >= |a| {
        assert (a + b)[i] == b[i - |a|] && (a + b)[j] == b[j - |a|];
      } else if j >= |a| {
        assert (a + b)[j] == b[j - |a|];
      }
    }
  }

  lemma {:induction false} DisjointConcat<T>(a: seq<T>, b: seq<T>, c: seq<T>)
    requires Disjoint(a, c) && Disjoint(b, c)
    ensures Disjoint(a + b, c)
  {
    forall i, j | 0 <= i < |a + b| && 0 <= j < |c|
      ensures (a + b)[i] != c[j]
    {
      if i >= |a| {
        assert (a + b)[i] == b[i - |a|];
      }
    }
  }

  /** Four repetition-free blocks, pairwise disjoint, concatenate without repetition. */
  lemma {:induction false} NoDuplicatesBlocks<T>(a: seq<T>, b: seq<T>, c: seq<T>, d: seq<T>)
    requires NoDuplicates(a) && NoDuplicates(b) && NoDuplicates(c) && NoDuplicates(d)
    requires Disjoint(a, b) && Disjoint(a, c) && Disjoint(a, d)
    requires Disjoint(b, c) && Disjoint(b, d) && Disjoint(c, d)
    ensures NoDuplicates(a + b + c + d)
  {
    NoDuplicatesConcat(a, b);
    DisjointConcat(a, b, c);
    NoDuplicatesConcat(a + b, c);
    DisjointConcat(a, b, d);
    DisjointConcat(a + b, c, d);
    NoDuplicatesConcat(a + b + c, d);
  }

  /** The first occurrence of each element, in order (what `Array.from(new Set(s))` gives). */
  function Distinct<T(==,!new)>(s: seq<T>): (r: seq<T>)
    ensures forall x :: x in r <==> x in s
    ensures NoDuplicates(r)
  {
    if |s| == 0 then []
    else
      var rest := Distinct(s[..|s| - 1]);
      var last := s[|s| - 1];
      assert s == s[..|s| - 1] + [last];
      if last in rest then rest else rest + [last]
  }

  /** The first position of `x` in `s`. */
  function Position<T(==)>(s: seq<T>, x: T): (i: nat)
    requires x in s
    ensures i < |s| && s[i] == x
    ensures forall j :: 0 <= j < i ==> s[j] != x
  {
    if s[0] == x then 0 else 1 + Position(s[1..], x)
  }

  /** A sequence without repeats has as many elements as its set. */
  lemma {:induction false} DistinctCard<T>(s: seq<T>)
    requires NoDuplicates(s)
    ensures |set x | x in s| == |s|
  {
    if |s| > 0 {
      DistinctCard(s[1..]);
      assert (set x | x in s) == (set x | x in s[1..]) + {s[0]};
    }
  }

  /** The elements of `s` that satisfy `keep`, in order (`Array.prototype.filter`). */
  function Filter<T>(s: seq<T>, keep: T -> bool): (r: seq<T>)
    ensures |r| <= |s|
    ensures forall j :: 0 <= j < |r| ==> keep(r[j])
    ensures forall x :: x in r ==> x in s
    ensures forall x :: x in s && keep(x) ==> x in r
  {
    if |s| == 0 then []
    else
      var rest := Filter(s[1..], keep);
      assert s == [s[0]] + s[1..];
      if keep(s[0]) then [s[0]] + rest else rest
  }

  /** `Filter` keeps the order of what it keeps. */
  lemma {:induction false} FilterSubseq<T>(s: seq<T>, keep: T -> bool)
    ensures IsSubseq(Filter(s, keep), s)
  {
    if |s| > 0 {
      var rest := Filter(s[1..], keep);
      FilterSubseq(s[1..], keep);
      assert [s[0]] + s[1..] == s;
      if keep(s[0]) {
        SubseqCons(s[0], rest, s[1..]);
      } else {
        SubseqSkip(s[0], rest, s[1..]);
      }
    }
  }

  lemma {:induction false} FilterConcat<T>(a: seq<T>, b: seq<T>, keep: T -> bool)
    ensures Filter(a + b, keep) == Filter(a, keep) + Filter(b, keep)
  {
    var c := a + b;
    if |a| > 0 {
      assert c[0] == a[0] && c[1..] == a[1..] + b;
      FilterConcat(a[1..], b, keep);
      var head := if keep(a[0]) then [a[0]] else [];
      assert Filter(c, keep) == head + Filter(c[1..], keep);
      assert Filter(a, keep) == head + Filter(a[1..], keep);
    } else {
      assert c == b;
    }
  }

  lemma {:induction false} FilterOne<T>(x: T, keep: T -> bool)
    ensures Filter([x], keep) == if keep(x) then [x] else []
  {
    assert [x][1..] == [];
  }

  /** A filter that keeps every element is the identity. */
  lemma {:induction false} FilterAll<T>(s: seq<T>, keep: T -> bool)
    requires forall j :: 0 <= j < |s| ==> keep(s[j])
    ensures Filter(s, keep) == s
  {
    if |s| > 0 {
      FilterAll(s[1..], keep);
      assert s == [s[0]] + s[1..];
    }
  }

  /** What a filter keeps comes from the sequence, and a filter that keeps everything is the identity. */
  lemma {:induction false} FilterWithin<T>(s: seq<T>, keep: T -> bool)
    ensures forall x :: x in Filter(s, keep) ==> x in s
    ensures (forall j :: 0 <= j < |s| ==> keep(s[j])) ==> Filter(s, keep) == s
  {
    if forall j :: 0 <= j < |s| ==> keep(s[j]) {
      FilterAll(s, keep);
    }
  }

  /** A filter that drops an element changes the sequence. */
  lemma {:induction false} FilterMissing<T>(s: seq<T>, keep: T -> bool, x: T)
    requires x in s && !keep(x)
    ensures Filter(s, keep) != s
  {
  }

  /** One step of `Filter`: the head is kept exactly when `keep` accepts it. */
  lemma {:induction false} FilterCons<T>(s: seq<T>, keep: T -> bool)
    requires |s| > 0
    ensures Filter(s, keep) == (if keep(s[0]) then [s[0]] else []) + Filter(s[1..], keep)
  {
  }

  /** The pieces of a sequence make up its multiset. */
  lemma {:induction false} MultisetCons<T>(x: T, t: seq<T>, s: seq<T>)
    requires s == [x] + t
    ensures multiset(s) == multiset{x} + multiset(t)
  {
  }

  lemma {:induction false} MultisetHead<T>(h: multiset<T>, a: multiset<T>, b: multiset<T>)
    ensures (h + a) + b == h + (a + b)
  {
  }

  lemma {:induction false} MultisetMiddle<T>(h: multiset<T>, a: multiset<T>, b: multiset<T>)
    ensures a + (h + b) == h + (a + b)
  {
  }

  /**
   * `Filter` without its guarantees: the same elements, stated with no postcondition so that
   * counting arguments about it do not drag the subsequence relation along.
   */
  function Kept<T>(s: seq<T>, keep: T -> bool): seq<T> {
    if |s| == 0 then [] else (if keep(s[0]) then [s[0]] else []) + Kept(s[1..], keep)
  }

  lemma {:induction false} KeptIsFilter<T>(s: seq<T>, keep: T -> bool)
    ensures Kept(s, keep) == Filter(s, keep)
  {
    if |s| > 0 {
      KeptIsFilter(s[1..], keep);
      FilterCons(s, keep);
    }
  }

  lemma {:induction false} KeptPartition<T>(s: seq<T>, keep: T -> bool, drop: T -> bool)
    requires forall x :: drop(x) == !keep(x)
    ensures multiset(Kept(s, keep)) + multiset(Kept(s, drop)) == multiset(s)
  {
    if |s| > 0 {
      var t := s[1..];
      KeptPartition(t, keep, drop);
      MultisetCons(s[0], t, s);
      var a, b := multiset(Kept(t, keep)), multiset(Kept(t, drop));
      var h := multiset{s[0]};
      if keep(s[0]) {
        MultisetCons(s[0], Kept(t, keep), Kept(s, keep));
        MultisetHead(h, a, b);
      } else {
        MultisetCons(s[0], Kept(t, drop), Kept(s, drop));
        MultisetMiddle(h, a, b);
      }
    }
  }

  /** `keep` and its negation split `s` into two parts that together hold every element. */
  lemma {:induction false} FilterPartition<T>(s: seq<T>, keep: T -> bool, drop: T -> bool)
    requires forall x :: drop(x) == !keep(x)
    ensures multiset(Filter(s, keep)) + multiset(Filter(s, drop)) == multiset(s)
  {
    KeptPartition(s, keep, drop);
    KeptIsFilter(s, keep);
    KeptIsFilter(s, drop);
  }

  /** Some element of `s` has key `k`. */
  predicate HasKey<T>(s: seq<T>, key: T -> Option<string>, k: string) {
    exists j :: 0 <= j < |s| && key(s[j]) == Some(k)
  }

  /** The facts `AppendAbsent` promises about `r` as an extension of `s` by `names`. */
  ghost predicate Appended<T>(s: seq<T>, names: seq<string>, key: T -> Option<string>, make: string -> T, r: seq<T>) {
    && |s| <= |r| && r[..|s|] == s
    && (forall x :: x in names ==> HasKey(r, key, x))
    && (forall x :: HasKey(r, key, x) ==> HasKey(s, key, x) || x in names)
    && (forall j :: |s| <= j < |r| ==>
          && key(r[j]).Some? && key(r[j]).value in names && r[j] == make(key(r[j]).value)
          && forall k :: 0 <= k < j ==> key(r[k]) != key(r[j]))
  }

  /**
   * `s` followed by `make(x)` for each `x` of `names`, in order, skipping every `x` some
   * element already has as its key (including the ones appended before it).
   */
  function AppendAbsent<T>(s: seq<T>, names: seq<string>, key: T -> Option<string>, make: string -> T): (r: seq<T>)
    requires forall x :: key(make(x)) == Some(x)
    ensures |s| <= |r| && r[..|s|] == s
    ensures forall x :: x in names ==> HasKey(r, key, x)
    ensures forall x :: HasKey(r, key, x) ==> HasKey(s, key, x) || x in names
    ensures forall j :: |s| <= j < |r| ==>
      && key(r[j]).Some? && key(r[j]).value in names && r[j] == make(key(r[j]).value)
      && forall k :: 0 <= k < j ==> key(r[k]) != key(r[j])
    decreases |names|
  {
    if |names| == 0 then s
    else
      var x := names[0];
      var next := if HasKey(s, key, x) then s else s + [make(x)];
      var r := AppendAbsent(next, names[1..], key, make);
      AppendedStep(s, names, key, make, next, r);
      r
  }

  /** Appending the first name (when absent) and then the rest appends all of them. */
  lemma {:induction false} AppendedStep<T>(s: seq<T>, names: seq<string>, key: T -> Option<string>, make: string -> T, next: seq<T>, r: seq<T>)
    requires forall x :: key(make(x)) == Some(x)
    requires |names| > 0
    requires next == if HasKey(s, key, names[0]) then s else s + [make(names[0])]
    requires Appended(next, names[1..], key, make, r)
    ensures Appended(s, names, key, make, r)
  {
    var x := names[0];
    assert HasKey(next, key, x) by {
      if !HasKey(s, key, x) {
        assert key(next[|s|]) == Some(x);
      }
    }
    assert r[..|s|] == s by {
      assert r[..|next|] == next;
      assert next[..|s|] == s;
    }
    assert forall y :: y in names[1..] ==> y in names;
    assert HasKey(r, key, x) by {
      var j :| 0 <= j < |next| && key(next[j]) == Some(x);
      assert r[j] == next[j];
    }
    assert forall y :: HasKey(next, key, y) ==> HasKey(s, key, y) || y == x;
    forall j | |s| <= j < |next|
      ensures key(r[j]).Some? && key(r[j]).value in names && r[j] == make(key(r[j]).value)
      ensures forall k :: 0 <= k < j ==> key(r[k]) != key(r[j])
    {
      assert r[j] == next[j] == make(x);
      forall k | 0 <= k < j
        ensures key(r[k]) != key(r[j])
      {
        assert r[k] == next[k] == s[k];
      }
    }
  }

  /** The map sending `ks[i]` to `vs[i]`, the first position winning for a repeated key. */
  function ZipMap(ks: seq<string>, vs: seq<string>): (m: map<string, string>)
    requires |ks| == |vs|
    ensures m.Keys == set k | k in ks
  {
    map k | k in ks :: vs[Position(ks, k)]
  }

  /** When repeated keys carry the same value, every entry of the lists is an entry of the map. */
  lemma {:induction false} ZipMapEntries(ks: seq<string>, vs: seq<string>)
    requires |ks| == |vs|
    requires forall i, j :: 0 <= i < j < |ks| && ks[i] == ks[j] ==> vs[i] == vs[j]
    ensures forall i :: 0 <= i < |ks| ==> ks[i] in ZipMap(ks, vs) && ZipMap(ks, vs)[ks[i]] == vs[i]
  {
    forall i | 0 <= i < |ks|
      ensures ZipMap(ks, vs)[ks[i]] == vs[i]
    {
      var p := Position(ks, ks[i]);
      assert p <= i;
    }
  }

  /** Without repeated keys the map has one entry per key. */
  lemma {:induction false} ZipMapSize(ks: seq<string>, vs: seq<string>)
    requires |ks| == |vs| && NoDuplicates(ks)
    ensures |ZipMap(ks, vs)| == |ks|
  {
    DistinctCard(ks);
  }

  /** Without repeated values no two keys share a value. */
  lemma {:induction false} ZipMapInjective(ks: seq<string>, vs: seq<string>)
    requires |ks| == |vs| && NoDuplicates(vs)
    ensures var m := ZipMap(ks, vs);
      forall a, b :: a in m && b in m && m[a] == m[b] ==> a == b
  {
    var m := ZipMap(ks, vs);
    forall a, b | a in m && b in m && m[a] == m[b]
      ensures a == b
    {
      var i, j := Position(ks, a), Position(ks, b);
      assert vs[i] == vs[j];
    }
  }

  /** When no value is a key, renaming twice is renaming once. */
  lemma {:induction false} ZipMapNoChains(ks: seq<string>, vs: seq<string>)
    requires |ks| == |vs|
    requires forall j :: 0 <= j < |vs| ==> vs[j] !in ks
    ensures var m := ZipMap(ks, vs);
      forall a :: a in m ==> m[a] !in m && m[a] in vs
  {
    var m := ZipMap(ks, vs);
    forall a | a in m
      ensures m[a] !in m && m[a] in vs
    {
      assert m[a] == vs[Position(ks, a)];
    }
  }

  /** Every value of the map is one of `vs`. */
  lemma {:induction false} ZipMapValues(ks: seq<string>, vs: seq<string>)
    requires |ks| == |vs|
    ensures var m := ZipMap(ks, vs);
      forall a :: a in m ==> m[a] in vs
  {
    var m := ZipMap(ks, vs);
    forall a | a in m
      ensures m[a] in vs
    {
      assert m[a] == vs[Position(ks, a)];
    }
  }
}

=== FILE: svelteconfig.dfy ===
/**
 * The rule for `svelte.config.js`: calls to `componentTrackingPreprocessor` are removed, and
 * the default export is wrapped in `withSentryConfig`, imported from the SDK package unless
 * the SDK is imported as a namespace.
 */
module SvelteConfig {
  import opened Wrappers
  import opened Seqs
  import opened Ast
  import opened Text
  import opened Normaliser

  const Wrapper := "withSentryConfig"
  const Preprocessor := "componentTrackingPreprocessor"

  predicate HasNamespaceSpec(n: Node) {
    n.Import? && exists k :: 0 <= k < |n.specs| && n.specs[k].Namespace?
  }

  predicate IsNamespaceImportOf(n: Node, sdk: string) {
    IsImportOf(n, sdk) && HasNamespaceSpec(n)
  }

  /**
   * The name the SDK is reached through: the local name of the first specifier of the first
   * import of `sdk` that has a namespace specifier (which need not be that specifier), when
   * that name is not empty.
   */
  function NamespaceName(sdk: string, p: Program): (r: Option<string>)
    ensures r.Some? ==> r.value != "" && exists i :: 0 <= i < |p| && IsNamespaceImportOf(p[i], sdk) && p[i].specs[0].local == r.value
    ensures forall i :: 0 <= i < |p| && IsNamespaceImportOf(p[i], sdk) && (forall j :: 0 <= j < i ==> !IsNamespaceImportOf(p[j], sdk)) ==>
              (r.Some? <==> p[i].specs[0].local != "") && (r.Some? ==> r.value == p[i].specs[0].local)
    ensures (forall i :: 0 <= i < |p| ==> !IsNamespaceImportOf(p[i], sdk)) ==> r.None?
  {
    match FirstWhere(p, n => IsNamespaceImportOf(n, sdk), 0)
    case None => None
    case Some(i) =>
      assert p[i].specs != [];
      if p[i].specs[0].local != "" then Some(p[i].specs[0].local) else None
  }

  /**
   * A call to the preprocessor: `NS.componentTrackingPreprocessor(…)` when the SDK has a
   * namespace name `NS`, a call of the bare name otherwise.
   */
  predicate IsPreprocessorCall(ns: Option<string>, n: Node) {
    n.Call? && match ns
      case Some(s) => n.callee == Member(Id(s), Id(Preprocessor))
      case None => n.callee == Id(Preprocessor)
  }

  function PreprocessorCallOf(ns: Option<string>): Node -> bool {
    n => IsPreprocessorCall(ns, n)
  }

  /** A statement that is nothing but a preprocessor call. */
  predicate IsPreprocessorStmt(ns: Option<string>, n: Node) {
    n.ExprStmt? && IsPreprocessorCall(ns, n.expr)
  }

  function KeepNode(ns: Option<string>): Node -> bool {
    n => !IsPreprocessorCall(ns, n)
  }

  function KeepStmt(ns: Option<string>): Node -> bool {
    n => !IsPreprocessorStmt(ns, n)
  }

  /**
   * `n` holds a preprocessor call where removing it takes it out of a list: an array element,
   * a call argument, or a statement of a block.
   */
  predicate ListsCall(ns: Option<string>, n: Node) {
    match n
    case Arr(es) => exists k :: 0 <= k < |es| && IsPreprocessorCall(ns, es[k])
    case Call(_, a) => exists k :: 0 <= k < |a| && IsPreprocessorCall(ns, a[k])
    case New(_, a) => exists k :: 0 <= k < |a| && IsPreprocessorCall(ns, a[k])
    case Block(ss) => exists k :: 0 <= k < |ss| && IsPreprocessorStmt(ns, ss[k])
    case _ => false
  }

  function NoListedCall(ns: Option<string>): Node -> bool {
    n => !ListsCall(ns, n)
  }

  /** Removing the preprocessor calls `n` lists, together with statements made of one. */
  function PruneAt(ns: Option<string>, n: Node): (r: Node)
    ensures !ListsCall(ns, r)
    ensures KindOf(r) == KindOf(n)
    ensures forall c :: c in Children(r) ==> c in Children(n)
    ensures !ListsCall(ns, n) ==> r == n
  {
    match n
    case Arr(es) =>
      var kept := Filter(es, KeepNode(ns));
      FilterWithin(es, KeepNode(ns));
      Arr(kept)
    case Call(f, a) =>
      var kept := Filter(a, KeepNode(ns));
      FilterWithin(a, KeepNode(ns));
      Call(f, kept)
    case New(f, a) =>
      var kept := Filter(a, KeepNode(ns));
      FilterWithin(a, KeepNode(ns));
      New(f, kept)
    case Block(ss) =>
      var kept := Filter(ss, KeepStmt(ns));
      FilterWithin(ss, KeepStmt(ns));
      Block(kept)
    case _ => n
  }

  function PruneRule(ns: Option<string>): Node -> Node {
    n => PruneAt(ns, n)
  }

  /**
   * Every preprocessor call removed: from the lists holding one, and top-level statements made
   * of one. A program without such a call is unchanged, and its default exports stay at top
   * level.
   */
  function PruneCalls(ns: Option<string>, p: Program): (r: Program)
    ensures EveryIn(NoListedCall(ns), r)
    ensures forall i :: 0 <= i < |r| ==> !IsPreprocessorStmt(ns, r[i])
    ensures !ExistsIn(PreprocessorCallOf(ns), p) ==> r == p
    ensures (exists i :: 0 <= i < |r| && r[i].ExportDefault?) <==> (exists i :: 0 <= i < |p| && p[i].ExportDefault?)
  {
    var m := MapProgram(PruneRule(ns), p);
    var r := Filter(m, KeepStmt(ns));
    PruneEstablishes(ns);
    forall i | 0 <= i < |p|
      ensures Every(NoListedCall(ns), m[i])
    {
      MapEstablishes(PruneRule(ns), NoListedCall(ns), p[i]);
    }
    assert EveryIn(NoListedCall(ns), r) by {
      forall j | 0 <= j < |r|
        ensures Every(NoListedCall(ns), r[j])
      {
        assert r[j] in m;
      }
    }
    PruneKeepsTop(ns, p, m, r);
    r
  }

  lemma {:induction false} PruneEstablishes(ns: Option<string>)
    ensures Establishes(PruneRule(ns), NoListedCall(ns))
  {
    var f := PruneRule(ns);
    var q := NoListedCall(ns);
    forall x: Node | forall i :: 0 <= i < |Children(x)| ==> Every(q, Children(x)[i])
      ensures Every(q, f(x))
    {
      var y := PruneAt(ns, x);
      forall i | 0 <= i < |Children(y)|
        ensures Every(q, Children(y)[i])
      {
        assert Children(y)[i] in Children(x);
      }
    }
  }

  lemma {:induction false} PruneKeepsTop(ns: Option<string>, p: Program, m: Program, r: Program)
    requires m == MapProgram(PruneRule(ns), p) && r == Filter(m, KeepStmt(ns))
    ensures !ExistsIn(PreprocessorCallOf(ns), p) ==> r == p
    ensures (exists i :: 0 <= i < |r| && r[i].ExportDefault?) <==> (exists i :: 0 <= i < |p| && p[i].ExportDefault?)
  {
    if !ExistsIn(PreprocessorCallOf(ns), p) {
      PruneKeepsClean(ns, p, m, r);
    }
    PruneKeepsDefault(ns, p, m, r);
  }

  lemma {:induction false} PruneKeepsClean(ns: Option<string>, p: Program, m: Program, r: Program)
    requires m == MapProgram(PruneRule(ns), p) && r == Filter(m, KeepStmt(ns))
    requires !ExistsIn(PreprocessorCallOf(ns), p)
    ensures r == p
  {
    forall i | 0 <= i < |p|
      ensures m[i] == p[i] && KeepStmt(ns)(p[i])
    {
      PruneNothing(ns, p[i]);
      StmtNotPreprocessor(ns, p[i]);
    }
    FilterSame(p, m, KeepStmt(ns));
  }

  lemma {:induction false} FilterSame<T>(p: seq<T>, m: seq<T>, keep: T -> bool)
    requires |m| == |p| && forall i :: 0 <= i < |p| ==> m[i] == p[i] && keep(p[i])
    ensures Filter(m, keep) == p
  {
    assert m == p;
    FilterAll(p, keep);
  }

  lemma {:induction false} StmtNotPreprocessor(ns: Option<string>, x: Node)
    requires !Exists(PreprocessorCallOf(ns), x)
    ensures !IsPreprocessorStmt(ns, x)
  {
    if x.ExprStmt? {
      assert Children(x)[0] == x.expr;
      assert !Exists(PreprocessorCallOf(ns), Children(x)[0]);
    }
  }

  predicate IsDefaultExport(n: Node) {
    n.ExportDefault?
  }

  lemma {:induction false} PruneKeepsDefault(ns: Option<string>, p: Program, m: Program, r: Program)
    requires m == MapProgram(PruneRule(ns), p) && r == Filter(m, KeepStmt(ns))
    ensures (exists i :: 0 <= i < |r| && r[i].ExportDefault?) <==> (exists i :: 0 <= i < |p| && p[i].ExportDefault?)
  {
    forall i | 0 <= i < |p|
      ensures IsDefaultExport(m[i]) <==> IsDefaultExport(p[i])
    {
      assert m[i] == Map(PruneRule(ns), p[i]);
      MapKeepsDefault(ns, p[i]);
    }
    FilterKeepsSome(p, m, KeepStmt(ns), IsDefaultExport);
  }

  /** A filter that keeps every element with property `q` keeps whether one exists. */
  lemma {:induction false} FilterKeepsSome<T>(p: seq<T>, m: seq<T>, keep: T -> bool, q: T -> bool)
    requires |m| == |p| && forall i :: 0 <= i < |p| ==> (q(m[i]) <==> q(p[i]))
    requires forall x :: q(x) ==> keep(x)
    ensures (exists i :: 0 <= i < |Filter(m, keep)| && q(Filter(m, keep)[i])) <==> (exists i :: 0 <= i < |p| && q(p[i]))
  {
    var r := Filter(m, keep);
    if exists i :: 0 <= i < |p| && q(p[i]) {
      var i :| 0 <= i < |p| && q(p[i]);
      var x := m[i];
      assert x in m && q(x) && keep(x);
      assert x in r;
      var j :| 0 <= j < |r| && r[j] == x;
      assert 0 <= j < |Filter(m, keep)| && q(Filter(m, keep)[j]);
    }
    if exists i :: 0 <= i < |r| && q(r[i]) {
      var i :| 0 <= i < |r| && q(r[i]);
      assert r[i] in m;
      var j :| 0 <= j < |m| && m[j] == r[i];
      assert 0 <= j < |p| && q(p[j]);
    }
  }

  lemma {:induction false} MapKeepsDefault(ns: Option<string>, n: Node)
    ensures IsDefaultExport(Map(PruneRule(ns), n)) <==> IsDefaultExport(n)
  {
    var cs := Children(n);
    var y := WithChildren(n, seq(|cs|, i requires 0 <= i < |cs| => Map(PruneRule(ns), cs[i])));
    assert Map(PruneRule(ns), n) == PruneAt(ns, y);
    assert KindOf(y) == KindOf(n);
    assert y.ExportDefault? <==> n.ExportDefault?;
  }

  /** A tree without a preprocessor call is left as it is. */
  lemma {:induction false} PruneNothing(ns: Option<string>, n: Node)
    requires !Exists(PreprocessorCallOf(ns), n)
    ensures Map(PruneRule(ns), n) == n
  {
    var cs := Children(n);
    var ms := seq(|cs|, i requires 0 <= i < |cs| => Map(PruneRule(ns), cs[i]));
    forall i | 0 <= i < |cs|
      ensures ms[i] == cs[i]
    {
      PruneNothing(ns, cs[i]);
    }
    assert ms == cs;
    RebuildSame(n);
    NotListed(ns, n);
    assert Map(PruneRule(ns), n) == PruneAt(ns, WithChildren(n, ms));
  }

  /** A tree without a preprocessor call lists none. */
  lemma {:induction false} NotListed(ns: Option<string>, n: Node)
    requires !Exists(PreprocessorCallOf(ns), n)
    ensures !ListsCall(ns, n)
  {
    var cs := Children(n);
    forall k | 0 <= k < |cs|
      ensures !IsPreprocessorCall(ns, cs[k])
    {
      assert !Exists(PreprocessorCallOf(ns), cs[k]);
    }
    if n.Block? {
      forall k | 0 <= k < |n.stmts|
        ensures !IsPreprocessorStmt(ns, n.stmts[k])
      {
        assert cs[k] == n.stmts[k];
        assert !Exists(PreprocessorCallOf(ns), cs[k]);
        assert n.stmts[k].ExprStmt? ==> Children(n.stmts[k])[0] == n.stmts[k].expr;
      }
    }
    if n.Call? || n.New? {
      forall k | 0 <= k < |n.args|
        ensures !IsPreprocessorCall(ns, n.args[k])
      {
        assert cs[k + 1] == n.args[k];
      }
    }
  }

  // ---------------------------------------------------------------------------
  // The imports of `withSentryConfig`

  const WrapperSpec := Named(Wrapper, Wrapper)

  function WrapperImport(sdk: string): Node {
    Import(sdk, [WrapperSpec])
  }

  predicate IsWrapperSpec(sp: Spec) {
    sp == WrapperSpec
  }

  /** How often the imports of `sdk` bind `withSentryConfig`. */
  function WrapperBindings(p: Program, sdk: string): nat {
    |Filter(PkgSpecs(p, sdk), IsWrapperSpec)|
  }

  /** How many imports of `sdk` there are. */
  function CountImports(p: Program, sdk: string): nat {
    if |p| == 0 then 0 else (if IsImportOf(p[0], sdk) then 1 else 0) + CountImports(p[1..], sdk)
  }

  lemma {:induction false} PkgSpecsConcat(a: Program, b: Program, pkg: string)
    ensures PkgSpecs(a + b, pkg) == PkgSpecs(a, pkg) + PkgSpecs(b, pkg)
  {
    if |a| > 0 {
      assert (a + b)[0] == a[0] && (a + b)[1..] == a[1..] + b;
      PkgSpecsConcat(a[1..], b, pkg);
    } else {
      assert a + b == b;
    }
  }

  lemma {:induction false} WrapperBindingsConcat(a: Program, b: Program, sdk: string)
    ensures WrapperBindings(a + b, sdk) == WrapperBindings(a, sdk) + WrapperBindings(b, sdk)
  {
    PkgSpecsConcat(a, b, sdk);
    FilterConcat(PkgSpecs(a, sdk), PkgSpecs(b, sdk), IsWrapperSpec);
  }

  lemma {:induction false} WrapperBindingsOne(x: Node, sdk: string)
    ensures WrapperBindings([x], sdk) == if IsImportOf(x, sdk) then |Filter(x.specs, IsWrapperSpec)| else 0
    ensures WrapperBindings([WrapperImport(sdk)], sdk) == 1
  {
    assert PkgSpecs([x], sdk) == (if IsImportOf(x, sdk) then x.specs else []) by {
      assert [x][1..] == [];
    }
    assert PkgSpecs([WrapperImport(sdk)], sdk) == [WrapperSpec] by {
      assert [WrapperImport(sdk)][1..] == [];
    }
    assert Filter([WrapperSpec], IsWrapperSpec) == [WrapperSpec] by {
      assert [WrapperSpec][1..] == [];
    }
  }

  /**
   * The import inserted as written: one `import { withSentryConfig }` after every import of
   * `sdk`, so a file with two imports of the SDK ends up binding the name twice.
   */
  function InsertAfterEach(sdk: string, p: Program): (r: Program)
    ensures WrapperBindings(r, sdk) == WrapperBindings(p, sdk) + CountImports(p, sdk)
    ensures Others(r, sdk) == Others(p, sdk)
    decreases |p|
  {
    if |p| == 0 then []
    else
      var head := [p[0]] + (if IsImportOf(p[0], sdk) then [WrapperImport(sdk)] else []);
      var rest := InsertAfterEach(sdk, p[1..]);
      assert p == [p[0]] + p[1..];
      WrapperBindingsConcat(head, rest, sdk);
      WrapperBindingsConcat([p[0]], p[1..], sdk);
      WrapperBindingsConcat([p[0]], [WrapperImport(sdk)], sdk);
      WrapperBindingsOne(p[0], sdk);
      OthersConcat(head, rest, sdk);
      OthersConcat([p[0]], p[1..], sdk);
      OthersConcat([p[0]], [WrapperImport(sdk)], sdk);
      OthersOne(p[0], sdk);
      OthersOne(WrapperImport(sdk), sdk);
      head + rest
  }

  lemma {:induction false} OthersConcat(a: Program, b: Program, pkg: string)
    ensures Others(a + b, pkg) == Others(a, pkg) + Others(b, pkg)
  {
    if |a| > 0 {
      assert (a + b)[0] == a[0] && (a + b)[1..] == a[1..] + b;
      OthersConcat(a[1..], b, pkg);
    } else {
      assert a + b == b;
    }
  }

  lemma {:induction false} OthersOne(x: Node, pkg: string)
    ensures Others([x], pkg) == if IsImportOf(x, pkg) then [] else [x]
  {
    assert [x][1..] == [];
  }

  /**
   * The import inserted as evidently intended: one `import { withSentryConfig }` right after
   * the first import of `sdk`, so the name gains exactly one binding.
   */
  function InsertAfterFirst(sdk: string, p: Program): (r: Program)
    ensures WrapperBindings(r, sdk) == WrapperBindings(p, sdk) + (if CountImports(p, sdk) > 0 then 1 else 0)
    ensures Others(r, sdk) == Others(p, sdk)
    decreases |p|
  {
    if |p| == 0 then []
    else
      var rest := if IsImportOf(p[0], sdk) then [WrapperImport(sdk)] + p[1..] else InsertAfterFirst(sdk, p[1..]);
      assert p == [p[0]] + p[1..];
      WrapperBindingsConcat([p[0]], rest, sdk);
      WrapperBindingsConcat([p[0]], p[1..], sdk);
      WrapperBindingsConcat([WrapperImport(sdk)], p[1..], sdk);
      WrapperBindingsOne(p[0], sdk);
      OthersConcat([p[0]], rest, sdk);
      OthersConcat([p[0]], p[1..], sdk);
      OthersConcat([WrapperImport(sdk)], p[1..], sdk);
      OthersOne(WrapperImport(sdk), sdk);
      [p[0]] + rest
  }

  lemma {:induction false} NoImportsCounted(p: Program, sdk: string)
    requires forall i :: 0 <= i < |p| ==> !IsImportOf(p[i], sdk)
    ensures CountImports(p, sdk) == 0
  {
    if |p| > 0 {
      NoImportsCounted(p[1..], sdk);
    }
  }

  lemma {:induction false} CountedImport(p: Program, sdk: string, i: nat)
    requires i < |p| && IsImportOf(p[i], sdk)
    ensures CountImports(p, sdk) > 0
  {
    if i > 0 {
      CountedImport(p[1..], sdk, i - 1);
    }
  }

  predicate IsPreprocessorSpec(sp: Spec) {
    sp.Named? && sp.imported == Preprocessor
  }

  predicate KeepSpec(sp: Spec) {
    !IsPreprocessorSpec(sp)
  }

  /**
   * The preprocessor's named specifier dropped from every import of `sdk`, and every import of
   * `sdk` left without specifiers dropped.
   */
  function DropPreprocessorImports(sdk: string, p: Program): (r: Program)
    ensures PkgSpecs(r, sdk) == Filter(PkgSpecs(p, sdk), KeepSpec)
    ensures forall i :: 0 <= i < |r| && IsImportOf(r[i], sdk) ==> |r[i].specs| > 0
    ensures Others(r, sdk) == Others(p, sdk)
    decreases |p|
  {
    if |p| == 0 then []
    else
      var rest := DropPreprocessorImports(sdk, p[1..]);
      var head := DropFrom(sdk, p[0]);
      assert p == [p[0]] + p[1..];
      PkgSpecsConcat(head, rest, sdk);
      PkgSpecsConcat([p[0]], p[1..], sdk);
      FilterConcat(PkgSpecs([p[0]], sdk), PkgSpecs(p[1..], sdk), KeepSpec);
      OthersConcat(head, rest, sdk);
      OthersConcat([p[0]], p[1..], sdk);
      head + rest
  }

  /** What becomes of one statement: an import of `sdk` loses the preprocessor, and goes when left empty. */
  function DropFrom(sdk: string, x: Node): (r: Program)
    ensures PkgSpecs(r, sdk) == Filter(PkgSpecs([x], sdk), KeepSpec)
    ensures forall i :: 0 <= i < |r| && IsImportOf(r[i], sdk) ==> |r[i].specs| > 0
    ensures Others(r, sdk) == Others([x], sdk)
  {
    var r :=
      if IsImportOf(x, sdk) then
        var specs := Filter(x.specs, KeepSpec);
        if |specs| == 0 then [] else [Import(sdk, specs)]
      else [x];
    assert PkgSpecs([x], sdk) == if IsImportOf(x, sdk) then x.specs else [] by {
      assert [x][1..] == [];
    }
    assert PkgSpecs(r, sdk) == Filter(PkgSpecs([x], sdk), KeepSpec) by {
      if |r| > 0 {
        assert r[1..] == [];
      }
    }
    OthersOne(x, sdk);
    assert Others(r, sdk) == Others([x], sdk) by {
      if |r| > 0 {
        OthersOne(r[0], sdk);
        assert r == [r[0]];
      }
    }
    r
  }

  /** `DropPreprocessorImports` leaves the bindings of `withSentryConfig` alone. */
  lemma {:induction false} DropKeepsWrapper(sdk: string, p: Program)
    ensures WrapperBindings(DropPreprocessorImports(sdk, p), sdk) == WrapperBindings(p, sdk)
  {
    FilterCommutes(PkgSpecs(p, sdk));
  }

  lemma {:induction false} FilterCommutes(s: seq<Spec>)
    ensures Filter(Filter(s, KeepSpec), IsWrapperSpec) == Filter(s, IsWrapperSpec)
  {
    if |s| > 0 {
      FilterCommutes(s[1..]);
    }
  }

  /**
   * The imports of the SDK once the bare `withSentryConfig` wraps the default export: the new
   * import is inserted (after every SDK import as written, after the first one as intended),
   * then the preprocessor is no longer imported and imports left empty go.
   */
  function WrapperImportsAsWritten(sdk: string, p: Program): (r: Program)
    ensures WrapperBindings(r, sdk) == WrapperBindings(p, sdk) + CountImports(p, sdk)
    ensures forall i :: 0 <= i < |r| && IsImportOf(r[i], sdk) ==> |r[i].specs| > 0
    ensures forall sp :: sp in PkgSpecs(r, sdk) ==> !IsPreprocessorSpec(sp)
    ensures Others(r, sdk) == Others(p, sdk)
  {
    var q := InsertAfterEach(sdk, p);
    DropKeepsWrapper(sdk, q);
    var r := DropPreprocessorImports(sdk, q);
    assert forall sp :: sp in PkgSpecs(r, sdk) ==> !IsPreprocessorSpec(sp) by {
      forall sp | sp in PkgSpecs(r, sdk)
        ensures !IsPreprocessorSpec(sp)
      {
        var k :| 0 <= k < |PkgSpecs(r, sdk)| && PkgSpecs(r, sdk)[k] == sp;
      }
    }
    r
  }

  function WrapperImports(sdk: string, p: Program): (r: Program)
    ensures WrapperBindings(r, sdk) == WrapperBindings(p, sdk) + (if CountImports(p, sdk) > 0 then 1 else 0)
    ensures forall i :: 0 <= i < |r| && IsImportOf(r[i], sdk) ==> |r[i].specs| > 0
    ensures forall sp :: sp in PkgSpecs(r, sdk) ==> !IsPreprocessorSpec(sp)
    ensures Others(r, sdk) == Others(p, sdk)
  {
    var q := InsertAfterFirst(sdk, p);
    DropKeepsWrapper(sdk, q);
    var r := DropPreprocessorImports(sdk, q);
    assert forall sp :: sp in PkgSpecs(r, sdk) ==> !IsPreprocessorSpec(sp) by {
      forall sp | sp in PkgSpecs(r, sdk)
        ensures !IsPreprocessorSpec(sp)
      {
        var k :| 0 <= k < |PkgSpecs(r, sdk)| && PkgSpecs(r, sdk)[k] == sp;
      }
    }
    r
  }

  /**
   * Two named imports of the SDK and no `withSentryConfig` before: as written, the name is
   * then bound twice, which a module may not do.
   */
  lemma {:induction false} AsWrittenBindsTwice()
    ensures var sdk := "@sentry/svelte";
            var p := [Import(sdk, [Named(Preprocessor, Preprocessor)]), Import(sdk, [Named("init", "init")])];
            WrapperBindings(WrapperImportsAsWritten(sdk, p), sdk) == 2
            && WrapperBindings(WrapperImports(sdk, p), sdk) == 1
  {
    var sdk := "@sentry/svelte";
    var a := Import(sdk, [Named(Preprocessor, Preprocessor)]);
    var b := Import(sdk, [Named("init", "init")]);
    TwoImportsUnbound(sdk, a, b);
    TwoImportsCount(sdk, a, b);
  }

  lemma {:induction false} TwoImportsUnbound(sdk: string, a: Node, b: Node)
    requires a == Import(sdk, [Named(Preprocessor, Preprocessor)]) && b == Import(sdk, [Named("init", "init")])
    ensures WrapperBindings([a, b], sdk) == 0
  {
    assert [a, b] == [a] + [b];
    WrapperBindingsConcat([a], [b], sdk);
    WrapperBindingsOne(a, sdk);
    WrapperBindingsOne(b, sdk);
    assert Filter(a.specs, IsWrapperSpec) == [] by {
      assert a.specs[1..] == [];
    }
    assert Filter(b.specs, IsWrapperSpec) == [] by {
      assert b.specs[1..] == [];
    }
  }

  lemma {:induction false} TwoImportsCount(sdk: string, a: Node, b: Node)
    requires IsImportOf(a, sdk) && IsImportOf(b, sdk)
    ensures CountImports([a, b], sdk) == 2
  {
    assert [a, b][1..] == [b];
    assert [b][1..] == [];
    assert CountImports([b], sdk) == 1 + CountImports([], sdk);
    assert CountImports([a, b], sdk) == 1 + CountImports([b], sdk);
  }

  // ---------------------------------------------------------------------------
  // The rule

  /** A declaration that already calls `withSentryConfig`, judged on its printed text. */
  predicate AlreadyWrapped(show: Node -> string, decl: Node) {
    Contains(show(decl), Wrapper + "(")
  }

  /** The callee of the wrapper call: through the namespace when there is one. */
  function WrapperCallee(ns: Option<string>): Node {
    match ns
    case Some(s) => Member(Id(s), Id(Wrapper))
    case None => Id(Wrapper)
  }

  function FirstDefaultExport(p: Program): Option<nat> {
    FirstWhere(p, (n: Node) => n.ExportDefault?, 0)
  }

  /** The default export `decl` becomes once wrapped. */
  function Wrapped(ns: Option<string>, decl: Node): Node {
    ExportDefault(Call(WrapperCallee(ns), [decl]))
  }

  /**
   * The wrapping of the default export at `i`. A declaration that already calls
   * `withSentryConfig` is left alone. Otherwise the export becomes a call of it on the old
   * declaration and no other statement but SDK imports changes; without a namespace name the
   * SDK imports no longer import the preprocessor and none is left empty. They gain one
   * binding of `withSentryConfig` per SDK import as written (`intended` false), and exactly
   * one (when there is an SDK import at all) as intended.
   */
  function WrapDefaultExport(show: Node -> string, ns: Option<string>, sdk: string, q: Program, i: nat, intended: bool): (r: Program)
    requires i < |q| && q[i].ExportDefault?
    ensures AlreadyWrapped(show, q[i].decl) ==> r == q
    ensures !AlreadyWrapped(show, q[i].decl) ==>
              Wrapped(ns, q[i].decl) in r && Others(r, sdk) == Others(q[i := Wrapped(ns, q[i].decl)], sdk)
    ensures !AlreadyWrapped(show, q[i].decl) && ns.None? ==>
              && (forall sp :: sp in PkgSpecs(r, sdk) ==> !IsPreprocessorSpec(sp))
              && (forall j :: 0 <= j < |r| && IsImportOf(r[j], sdk) ==> |r[j].specs| > 0)
    ensures !AlreadyWrapped(show, q[i].decl) && ns.None? && intended ==>
              WrapperBindings(r, sdk) == WrapperBindings(q, sdk) + (if CountImports(q, sdk) > 0 then 1 else 0)
    ensures !AlreadyWrapped(show, q[i].decl) && ns.None? && !intended ==>
              WrapperBindings(r, sdk) == WrapperBindings(q, sdk) + CountImports(q, sdk)
  {
    var decl := q[i].decl;
    if AlreadyWrapped(show, decl) then q
    else
      var w := Wrapped(ns, decl);
      var wrapped := q[i := w];
      assert wrapped[i] == w;
      if ns.Some? then wrapped
      else
        var r := if intended then WrapperImports(sdk, wrapped) else WrapperImportsAsWritten(sdk, wrapped);
        WrapperSwap(sdk, q, i, w);
        OthersHas(r, sdk, w);
        OthersHas(wrapped, sdk, w);
        r
  }

  /**
   * The rule on `svelte.config.js`, with `show` printing a node. Files that neither import
   * nor require the SDK are unchanged, and a file without a default export fails. Otherwise
   * the preprocessor calls are removed first, and the first default export of what is left
   * is wrapped, with the import insertion as written or as intended.
   */
  function SvelteConfigRule(show: Node -> string, src: string, sdk: string, p: Program, intended: bool): (r: Outcome)
    ensures r == Unchanged <==> !HasImportOrRequire(src, sdk)
    ensures r == Failed <==> HasImportOrRequire(src, sdk) && forall i :: 0 <= i < |p| ==> !p[i].ExportDefault?
    ensures r.Changed? ==>
              var q := PruneCalls(NamespaceName(sdk, p), p);
              && FirstDefaultExport(q).Some?
              && r.prog == WrapDefaultExport(show, NamespaceName(sdk, p), sdk, q, FirstDefaultExport(q).value, intended)
  {
    if !HasImportOrRequire(src, sdk) then Unchanged
    else
      var ns := NamespaceName(sdk, p);
      var q := PruneCalls(ns, p);
      match FirstDefaultExport(q)
      case None => Failed
      case Some(i) => Changed(WrapDefaultExport(show, ns, sdk, q, i, intended))
  }

  /** Putting a non-import in place of a non-import changes no binding and no import count. */
  lemma {:induction false} WrapperSwap(sdk: string, q: Program, i: nat, w: Node)
    requires i < |q| && !q[i].Import? && !w.Import?
    ensures WrapperBindings(q[i := w], sdk) == WrapperBindings(q, sdk)
    ensures CountImports(q[i := w], sdk) == CountImports(q, sdk)
    ensures PkgSpecs(q[i := w], sdk) == PkgSpecs(q, sdk)
    decreases |q|
  {
    if i > 0 {
      WrapperSwap(sdk, q[1..], i - 1, w);
      assert q[i := w][1..] == q[1..][i - 1 := w];
    }
  }
}

=== FILE: text.dfy ===
/**
 * String predicates the codemods use on source text and names: substring
 * tests, ASCII case folding (the JavaScript `i` flag and `toLowerCase`),
 * and comma splitting.
 */
module Text {

  function LowerChar(c: char): char {
    if 'A' <= c <= 'Z' then (c as int + 32) as char else c
  }

  function Lower(s: string): (r: string)
    ensures |r| == |s|
    ensures forall k :: 0 <= k < |s| ==> r[k] == LowerChar(s[k])
  {
    if |s| == 0 then [] else [LowerChar(s[0])] + Lower(s[1..])
  }

  /** `t` occurs in `s` at position `i`. */
  predicate OccursAt(s: string, t: string, i: nat) {
    i + |t| <= |s| && s[i..i + |t|] == t
  }

  /** JavaScript's `s.includes(t)`. */
  predicate Contains(s: string, t: string) {
    exists i: nat | i <= |s| :: OccursAt(s, t, i)
  }

  /** `t` occurs in `s` at `i` ignoring ASCII letter case. */
  predicate MatchesAtCI(s: string, t: string, i: nat) {
    i + |t| <= |s| && forall k :: 0 <= k < |t| ==> LowerChar(s[i + k]) == LowerChar(t[k])
  }

  /** A case-insensitive search such as `/hub/i.test(s)`. */
  predicate ContainsCI(s: string, t: string) {
    exists i: nat | i <= |s| :: MatchesAtCI(s, t, i)
  }

  predicate StartsWith(s: string, t: string) {
    t <= s
  }

  predicate EndsWith(s: string, t: string) {
    |t| <= |s| && s[|s| - |t|..] == t
  }

  lemma {:induction false} ContainsCIViaLower(s: string, t: string)
    ensures ContainsCI(s, t) <==> Contains(Lower(s), Lower(t))
  {
    if ContainsCI(s, t) {
      var i: nat :| i <= |s| && MatchesAtCI(s, t, i);
      assert i + |t| <= |s|;
      var ls, lt := Lower(s), Lower(t);
      assert |ls| == |s| && |lt| == |t|;
      assert ls[i..i + |t|] == lt;
      assert OccursAt(Lower(s), Lower(t), i);
    }
    if Contains(Lower(s), Lower(t)) {
      var ls, lt := Lower(s), Lower(t);
      assert |ls| == |s| && |lt| == |t|;
      var i: nat :| i <= |ls| && OccursAt(ls, lt, i);
      assert i + |t| <= |s|;
      forall k | 0 <= k < |t|
        ensures LowerChar(s[i + k]) == LowerChar(t[k])
      {
        assert Lower(s)[i..i + |t|][k] == Lower(t)[k];
      }
      assert MatchesAtCI(s, t, i);
    }
  }

  /** JavaScript's `s.split(sep)` for a one-character separator: `"".split(",")` is `[""]`. */
  function Split(s: string, sep: char): (parts: seq<string>)
    ensures |parts| >= 1
    ensures forall k :: 0 <= k < |parts| ==> sep !in parts[k]
    decreases |s|
  {
    if sep !in s then [s]
    else
      var i := IndexOf(s, sep);
      [s[..i]] + Split(s[i + 1..], sep)
  }

  function IndexOf(s: string, c: char): (i: nat)
    requires c in s
    ensures i < |s| && s[i] == c && c !in s[..i]
  {
    if s[0] == c then 0 else 1 + IndexOf(s[1..], c)
  }

  lemma {:induction false} IndexOfFirst(s: string, c: char, j: nat)
    requires j < |s| && s[j] == c
    requires forall k :: 0 <= k < j ==> s[k] != c
    ensures IndexOf(s, c) == j
  {
    if j > 0 {
      assert s[1..][j - 1] == c;
      IndexOfFirst(s[1..], c, j - 1);
    }
  }

  /** The inverse of `Split`: `parts.join(sep)`. */
  function Join(parts: seq<string>, sep: char): string
    requires |parts| >= 1
  {
    if |parts| == 1 then parts[0] else parts[0] + [sep] + Join(parts[1..], sep)
  }

  /** Splitting and joining again gives back the original text. */
  lemma {:induction false} SplitJoin(s: string, sep: char)
    ensures Join(Split(s, sep), sep) == s
    decreases |s|
  {
    if sep in s {
      var i := IndexOf(s, sep);
      SplitJoin(s[i + 1..], sep);
      assert s == s[..i] + [sep] + s[i + 1..];
    }
  }

  /** Text that starts with a separator-free piece and a separator splits there first. */
  lemma {:induction false} SplitAtFirst(a: string, sep: char, rest: string)
    requires sep !in a
    ensures Split(a + [sep] + rest, sep) == [a] + Split(rest, sep)
  {
    var s := a + [sep] + rest;
    assert sep in s by { assert s[|a|] == sep; }
    forall k | 0 <= k < |a|
      ensures s[k] != sep
    {
      assert s[k] == a[k];
    }
    IndexOfFirst(s, sep, |a|);
    assert s[..|a|] == a;
    assert s[|a| + 1..] == rest;
  }

  /** Joining separator-free parts and splitting again gives back the parts. */
  lemma {:induction false} JoinSplit(parts: seq<string>, sep: char)
    requires |parts| >= 1
    requires forall k :: 0 <= k < |parts| ==> sep !in parts[k]
    ensures Split(Join(parts, sep), sep) == parts
    decreases |parts|
  {
    if |parts| > 1 {
      SplitAtFirst(parts[0], sep, Join(parts[1..], sep));
      JoinSplit(parts[1..], sep);
      assert parts == [parts[0]] + parts[1..];
    }
  }
}

=== FILE: tracingconfig.dfy ===
/**
 * The tracing-config rule: a `tracePropagationTargets` or `tracingOrigins` option given
 * to a `BrowserTracing`, `Http` or `Undici` integration moves to the options of the
 * `init` call, under the key `tracePropagationTargets`.
 */
module TracingConfig {
  import opened Wrappers
  import opened Ast
  import opened Seqs
  import opened Normaliser
  import opened Paths

  /** The integrations whose options are inspected, in the order they are inspected. */
  const TracingIntegrations: seq<string> := ["BrowserTracing", "Http", "Undici"]

  const TargetsKey := "tracePropagationTargets"
  const OriginsKey := "tracingOrigins"

  // ---------------------------------------------------------------------------
  // Locating the integrations

  /** `new X.name(…)`, whatever `X` is. */
  predicate IsMemberNew(name: string, n: Node) {
    n.New? && n.callee.Member? && n.callee.prop == Id(name)
  }

  /** `new name(…)`. */
  predicate IsBareNew(name: string, n: Node) {
    n.New? && n.callee == Id(name)
  }

  function MemberNew(name: string): Node -> bool {
    n => IsMemberNew(name, n)
  }

  function BareNew(name: string): Node -> bool {
    n => IsBareNew(name, n)
  }

  /** The program's root is a plain list, so a search from it finds what a search of the statements finds. */
  lemma {:induction false} RootExists(q: Node -> bool, p: Program)
    requires !q(Root(p))
    ensures Exists(q, Root(p)) <==> ExistsIn(q, p)
  {
  }

  /**
   * The constructions of integration `name` whose options are inspected: every
   * `new X.name(…)` when there is one, else every `new name(…)`.
   */
  function IntegrationNews(name: string, p: Program): (r: seq<Path>)
    ensures forall path :: path in r ==> Valid(Root(p), path)
    ensures ExistsIn(MemberNew(name), p) ==> forall path :: path in r ==> IsMemberNew(name, At(Root(p), path))
    ensures !ExistsIn(MemberNew(name), p) ==> forall path :: path in r ==> IsBareNew(name, At(Root(p), path))
    ensures r == [] <==> !ExistsIn(MemberNew(name), p) && !ExistsIn(BareNew(name), p)
  {
    var root := Root(p);
    RootExists(MemberNew(name), p);
    RootExists(BareNew(name), p);
    FindEmpty(MemberNew(name), root);
    FindEmpty(BareNew(name), root);
    var a := Find(MemberNew(name), root);
    if a != [] then a else Find(BareNew(name), root)
  }

  /** Every construction of the preferred form is inspected. */
  lemma {:induction false} IntegrationNewsComplete(name: string, p: Program, path: Path)
    requires Valid(Root(p), path)
    requires if ExistsIn(MemberNew(name), p) then IsMemberNew(name, At(Root(p), path)) else IsBareNew(name, At(Root(p), path))
    ensures path in IntegrationNews(name, p)
  {
    RootExists(MemberNew(name), p);
    FindEmpty(MemberNew(name), Root(p));
    if ExistsIn(MemberNew(name), p) {
      FindComplete(MemberNew(name), Root(p), path);
    } else {
      FindComplete(BareNew(name), Root(p), path);
    }
  }

  /** A construction of one of the three integrations. */
  predicate IsTracingNew(n: Node) {
    exists k :: 0 <= k < |TracingIntegrations| && (IsMemberNew(TracingIntegrations[k], n) || IsBareNew(TracingIntegrations[k], n))
  }

  // ---------------------------------------------------------------------------
  // Locating the options to move

  /** An object property `tracePropagationTargets: …` or `tracingOrigins: …`. */
  predicate IsTracingProp(n: Node) {
    n.Prop? && n.key.IdKey? && (n.key.name == TargetsKey || n.key.name == OriginsKey)
  }

  function TracingProp(): Node -> bool {
    n => IsTracingProp(n)
  }

  /** `at` lies on `path`, at a construction of one of the three integrations. */
  predicate InsideIntegration(root: Node, path: Path, at: nat) {
    at <= |path| && Valid(root, path[..at]) && IsTracingNew(At(root, path[..at]))
  }

  /** Some step of `path` lands on a construction of one of the three integrations. */
  predicate Inside(root: Node, path: Path) {
    exists at: nat :: at <= |path| && InsideIntegration(root, path, at)
  }

  /** The tracing properties inside the constructions at `news`, construction by construction, each in pre-order. */
  function PropsIn(root: Node, news: seq<Path>): (r: seq<Path>)
    requires forall np :: np in news ==> Valid(root, np) && IsTracingNew(At(root, np))
    ensures forall c :: c in r ==> Valid(root, c) && IsTracingProp(At(root, c)) && Inside(root, c)
  {
    if news == [] then []
    else
      var np := news[0];
      var found := Find(TracingProp(), At(root, np));
      var here := seq(|found|, k requires 0 <= k < |found| => np + found[k]);
      forall c | c in here
        ensures Valid(root, c) && IsTracingProp(At(root, c)) && InsideIntegration(root, c, |np|)
      {
        var k :| 0 <= k < |found| && here[k] == c;
        ValidAppend(root, np, found[k]);
        assert c[..|np|] == np;
      }
      here + PropsIn(root, news[1..])
  }

  /** The tracing properties of the integrations `names`, integration by integration. */
  function PropsOf(p: Program, names: seq<string>): (r: seq<Path>)
    requires forall k :: 0 <= k < |names| ==> names[k] in TracingIntegrations
    ensures forall c :: c in r ==> Valid(Root(p), c) && IsTracingProp(At(Root(p), c)) && Inside(Root(p), c)
  {
    if names == [] then []
    else
      var news := IntegrationNews(names[0], p);
      assert forall np :: np in news ==> IsTracingNew(At(Root(p), np)) by {
        var k :| 0 <= k < |TracingIntegrations| && TracingIntegrations[k] == names[0];
      }
      PropsIn(Root(p), news) + PropsOf(p, names[1..])
  }

  /** The object literal a property at `c` belongs to, when it belongs to one. */
  predicate InObject(root: Node, c: Path) {
    |c| > 0 && Valid(root, c[..|c| - 1]) && At(root, c[..|c| - 1]).Obj?
  }

  /** The properties the rule tries to move, in the order it tries them. */
  function Candidates(p: Program): (r: seq<Path>)
    ensures forall c :: c in r ==>
      && Valid(Root(p), c) && IsTracingProp(At(Root(p), c)) && InObject(Root(p), c)
      && Inside(Root(p), c)
  {
    var root := Root(p);
    var all := PropsOf(p, TracingIntegrations);
    var r := Filter(all, c => InObject(root, c));
    assert forall c :: c in r ==> InObject(root, c) by {
      forall c | c in r
        ensures InObject(root, c)
      {
        var j :| 0 <= j < |r| && r[j] == c;
      }
    }
    r
  }

  // ---------------------------------------------------------------------------
  // The init options

  /** A property keyed `tracePropagationTargets` among the properties `ps`. */
  predicate HasTargets(ps: seq<Node>) {
    exists j :: 0 <= j < |ps| && ps[j].Prop? && ps[j].key == IdKey(TargetsKey)
  }

  /** The options are an object literal without a `tracePropagationTargets` key. */
  predicate Accepts(n: Node) {
    n.Call? && |n.args| > 0 && n.args[0].Obj? && !HasTargets(n.args[0].props)
  }

  predicate IsAcceptingInit(form: InitForm, n: Node) {
    IsInitCall(form, n) && Accepts(n)
  }

  function AcceptingInit(form: InitForm): Node -> bool {
    n => IsAcceptingInit(form, n)
  }

  /** An init call without arguments: reading the type of its options throws. */
  predicate IsInitWithoutArgs(form: InitForm, n: Node) {
    IsInitCall(form, n) && n.args == []
  }

  function InitWithoutArgs(form: InitForm): Node -> bool {
    n => IsInitWithoutArgs(form, n)
  }

  function TargetsProp(v: Node): Node {
    Prop(IdKey(TargetsKey), v, [])
  }

  /** The init call with `tracePropagationTargets: v` added at the end of its options. */
  function Pushed(n: Node, v: Node): (r: Node)
    requires Accepts(n)
    ensures r.Call? && r.callee == n.callee && |r.args| == |n.args| && r.args[1..] == n.args[1..]
    ensures r.args[0] == Obj(n.args[0].props + [TargetsProp(v)])
    ensures HasTargets(r.args[0].props)
  {
    var ps := n.args[0].props + [TargetsProp(v)];
    assert ps[|ps| - 1].key == IdKey(TargetsKey);
    Call(n.callee, [Obj(ps)] + n.args[1..])
  }

  /** Every init call that accepts gets the property; everything else stays. */
  function PushRule(form: InitForm, v: Node): Node -> Node {
    n => if IsAcceptingInit(form, n) then Pushed(n, v) else n
  }

  /** Appending to a list of properties only adds a child. */
  lemma {:induction false} ObjGrows(ps: seq<Node>, extra: Node)
    ensures Grows(Obj(ps), Obj(ps + [extra]))
  {
    forall i | 0 <= i < |ps|
      ensures Grows(ps[i], (ps + [extra])[i])
    {
      assert (ps + [extra])[i] == ps[i];
      GrowsRefl(ps[i]);
    }
  }

  /** Adding the property to an init call only adds a child. */
  lemma {:induction false} PushedGrows(x: Node, v: Node)
    requires Accepts(x)
    ensures Grows(x, Pushed(x, v))
  {
    var y := Pushed(x, v);
    var cx, cy := Children(x), Children(y);
    assert cx == [x.callee] + x.args;
    assert cy == [x.callee] + y.args;
    assert |cx| == |cy|;
    forall i | 0 <= i < |cx|
      ensures Grows(cx[i], cy[i])
    {
      if i == 1 {
        assert cx[1] == Obj(x.args[0].props);
        ObjGrows(x.args[0].props, TargetsProp(v));
      } else {
        assert cy[i] == cx[i];
        GrowsRefl(cx[i]);
      }
    }
  }

  /** The rule only adds children. */
  lemma {:induction false} PushGrows(form: InitForm, v: Node)
    ensures forall x :: Grows(x, PushRule(form, v)(x))
  {
    forall x
      ensures Grows(x, PushRule(form, v)(x))
    {
      if IsAcceptingInit(form, x) {
        PushedGrows(x, v);
      } else {
        GrowsRefl(x);
      }
    }
  }

  /** The pass leaves an identifier as it is. */
  lemma {:induction false} MapKeepsId(form: InitForm, v: Node, x: Node)
    requires x.Id?
    ensures Map(PushRule(form, v), x) == x
  {
    MapLeaf(PushRule(form, v), x);
  }

  /** The pass keeps the type of every node, and an identifier is kept whole. */
  lemma {:induction false} MapKind(form: InitForm, v: Node, x: Node)
    ensures KindOf(Map(PushRule(form, v), x)) == KindOf(x)
    ensures Map(PushRule(form, v), x).Id? ==> Map(PushRule(form, v), x) == x
  {
    PushGrows(form, v);
    MapGrows(PushRule(form, v), x);
    if x.Id? {
      MapKeepsId(form, v, x);
    }
  }

  /** The pass keeps the key of every property. */
  lemma {:induction false} MapKeepsKey(form: InitForm, v: Node, x: Node)
    requires x.Prop?
    ensures Map(PushRule(form, v), x).Prop? && Map(PushRule(form, v), x).key == x.key
  {
    MapKind(form, v, x);
  }

  /**
   * One step of the pass: the children are rewritten first, then the rule sees the node.
   * With its children rewritten, a node is an accepting init call exactly when it was before.
   */
  lemma {:induction false} PassStep(form: InitForm, v: Node, n: Node) returns (w: Node)
    ensures KindOf(w) == KindOf(n) && |Children(w)| == |Children(n)|
    ensures forall i :: 0 <= i < |Children(n)| ==> Children(w)[i] == Map(PushRule(form, v), Children(n)[i])
    ensures Map(PushRule(form, v), n) == PushRule(form, v)(w)
    ensures IsAcceptingInit(form, w) <==> IsAcceptingInit(form, n)
  {
    w := MapStep(PushRule(form, v), n);
    if n.Call? {
      CallChildren(n);
      CallChildren(w);
      assert w.callee == Children(w)[0];
      assert |n.args| > 0 ==> w.args[0] == Children(w)[1];
      InitKept(form, v, n, w);
    }
  }

  /** The init-call test, on a call whose callee and options have been through the pass. */
  lemma {:induction false} InitKept(form: InitForm, v: Node, n: Node, w: Node)
    requires n.Call? && w.Call? && |w.args| == |n.args|
    requires w.callee == Map(PushRule(form, v), n.callee)
    requires |n.args| > 0 ==> w.args[0] == Map(PushRule(form, v), n.args[0])
    ensures IsAcceptingInit(form, w) <==> IsAcceptingInit(form, n)
  {
    CalleeKept(form, v, n.callee);
    if |n.args| > 0 {
      OptionsKept(form, v, n.args[0]);
    }
  }

  /** The pass does not change which callee is an init callee. */
  lemma {:induction false} CalleeKept(form: InitForm, v: Node, x: Node)
    ensures IsInitCall(form, Call(Map(PushRule(form, v), x), [])) <==> IsInitCall(form, Call(x, []))
  {
    var f := PushRule(form, v);
    MapKind(form, v, x);
    IdKept(form, v, x, "init");
    if x.Member? {
      var w := MapStep(f, x);
      assert Map(f, x) == w;
      MemberChildren(x);
      MemberChildren(w);
      IdKept(form, v, x.obj, "Sentry");
      IdKept(form, v, x.prop, "init");
    }
  }

  /** The pass turns nothing into a given identifier and leaves that identifier alone. */
  lemma {:induction false} IdKept(form: InitForm, v: Node, a: Node, name: string)
    ensures Map(PushRule(form, v), a) == Id(name) <==> a == Id(name)
  {
    MapKind(form, v, a);
  }

  /** The pass does not change whether options are an object literal with a `tracePropagationTargets` key. */
  lemma {:induction false} OptionsKept(form: InitForm, v: Node, o: Node)
    ensures var m := Map(PushRule(form, v), o);
      (m.Obj? && !HasTargets(m.props)) <==> (o.Obj? && !HasTargets(o.props))
  {
    var f := PushRule(form, v);
    var w := MapStep(f, o);
    if o.Obj? {
      assert Map(f, o) == w;
      ObjChildren(o);
      ObjChildren(w);
      forall j | 0 <= j < |o.props|
        ensures (w.props[j].Prop? && w.props[j].key == IdKey(TargetsKey)) <==> (o.props[j].Prop? && o.props[j].key == IdKey(TargetsKey))
      {
        MapKind(form, v, o.props[j]);
        if o.props[j].Prop? {
          MapKeepsKey(form, v, o.props[j]);
        }
      }
      assert HasTargets(w.props) <==> HasTargets(o.props);
    } else {
      MapKind(form, v, o);
    }
  }

  /** The last step of `path` lands on the options object of an init call that accepts. */
  predicate OnOptions(form: InitForm, n: Node, path: Path)
    requires Valid(n, path)
    decreases |path|
  {
    |path| > 0 && ((path == [1] && IsAcceptingInit(form, n)) || OnOptions(form, Children(n)[path[0]], path[1..]))
  }

  /** Only an object literal can be the options object of an init call that accepts. */
  lemma {:induction false} OnOptionsObject(form: InitForm, n: Node, path: Path)
    requires Valid(n, path)
    ensures OnOptions(form, n, path) ==> At(n, path).Obj?
    decreases |path|
  {
    if |path| > 0 && !(path == [1] && IsAcceptingInit(form, n)) {
      OnOptionsObject(form, Children(n)[path[0]], path[1..]);
    }
  }

  /**
   * Apart from the options objects that grew, the node at a path after the pass is
   * the pass applied to the node that was there.
   */
  lemma {:induction false} PushedAt(form: InitForm, v: Node, n: Node, path: Path)
    requires Valid(n, path) && !OnOptions(form, n, path)
    ensures Valid(Map(PushRule(form, v), n), path)
    ensures At(Map(PushRule(form, v), n), path) == Map(PushRule(form, v), At(n, path))
    decreases |path|, 1
  {
    if |path| > 0 {
      if IsAcceptingInit(form, n) && path[0] == 1 {
        PushedAtOptions(form, v, n, path);
      } else {
        PushedAtChild(form, v, n, path);
      }
    }
  }

  /** The step for a path into the options of an accepting init call. */
  lemma {:induction false} PushedAtOptions(form: InitForm, v: Node, n: Node, path: Path)
    requires Valid(n, path) && !OnOptions(form, n, path)
    requires IsAcceptingInit(form, n) && |path| > 0 && path[0] == 1
    ensures Valid(Map(PushRule(form, v), n), path)
    ensures At(Map(PushRule(form, v), n), path) == Map(PushRule(form, v), At(n, path))
    decreases |path|, 0
  {
    var j, rest := IntoOptions(form, n, path);
    var x := n.args[0].props[j];
    var m := Map(PushRule(form, v), n);
    OptionsChild(form, v, n, j);
    ObjChildren(Children(m)[1]);
    PushedAt(form, v, x, rest);
    ValidUnder2(m, 1, j, rest);
  }

  /** A path into the options of an accepting init call goes on from one of its properties. */
  lemma {:induction false} IntoOptions(form: InitForm, n: Node, path: Path) returns (j: nat, rest: Path)
    requires Valid(n, path) && !OnOptions(form, n, path)
    requires IsAcceptingInit(form, n) && |path| > 0 && path[0] == 1
    ensures path == [1, j] + rest && j < |n.args[0].props|
    ensures Valid(n.args[0].props[j], rest) && !OnOptions(form, n.args[0].props[j], rest)
    ensures At(n, path) == At(n.args[0].props[j], rest)
  {
    j := path[1];
    rest := path[2..];
    assert path == [1, j] + rest;
    assert Children(n)[1] == n.args[0];
    assert path[1..] == [j] + rest;
    assert ([j] + rest)[1..] == rest;
  }

  /** The step for any other path. */
  lemma {:induction false} PushedAtChild(form: InitForm, v: Node, n: Node, path: Path)
    requires Valid(n, path) && !OnOptions(form, n, path)
    requires |path| > 0 && !(IsAcceptingInit(form, n) && path[0] == 1)
    ensures Valid(Map(PushRule(form, v), n), path)
    ensures At(Map(PushRule(form, v), n), path) == Map(PushRule(form, v), At(n, path))
    decreases |path|, 0
  {
    var m := Map(PushRule(form, v), n);
    var i := path[0];
    ChildKept(form, v, n, i);
    PushedAt(form, v, Children(n)[i], path[1..]);
    assert At(m, path) == At(Children(m)[i], path[1..]);
  }

  /** Away from a grown options object, the pass puts the rewritten child where the child was. */
  lemma {:induction false} ChildKept(form: InitForm, v: Node, n: Node, i: nat)
    requires i < |Children(n)| && !(IsAcceptingInit(form, n) && i == 1)
    ensures var m := Map(PushRule(form, v), n);
      i < |Children(m)| && Children(m)[i] == Map(PushRule(form, v), Children(n)[i])
  {
    var w := PassStep(form, v, n);
    if IsAcceptingInit(form, n) {
      assert Map(PushRule(form, v), n) == Pushed(w, v);
      assert Children(Pushed(w, v))[i] == Children(w)[i];
    } else {
      assert Map(PushRule(form, v), n) == w;
    }
  }

  /** The properties an accepting init call had keep their places in its grown options. */
  lemma {:induction false} OptionsChild(form: InitForm, v: Node, n: Node, j: nat)
    requires IsAcceptingInit(form, n) && j < |n.args[0].props|
    ensures var m := Map(PushRule(form, v), n);
      var o := Children(m)[1];
      o.Obj? && j < |o.props| && o.props[j] == Map(PushRule(form, v), n.args[0].props[j])
  {
    var wo := GrownOptions(form, v, n);
  }

  /** The grown options of an accepting init call start with its options after the pass. */
  lemma {:induction false} GrownOptions(form: InitForm, v: Node, n: Node) returns (wo: Node)
    requires IsAcceptingInit(form, n)
    ensures wo.Obj? && |wo.props| == |n.args[0].props|
    ensures forall j :: 0 <= j < |n.args[0].props| ==> wo.props[j] == Map(PushRule(form, v), n.args[0].props[j])
    ensures Map(PushRule(form, v), n).Call? && |Map(PushRule(form, v), n).args| > 0
    ensures Map(PushRule(form, v), n).args[0] == Obj(wo.props + [TargetsProp(v)])
  {
    var f := PushRule(form, v);
    var w := PassStep(form, v, n);
    assert Map(f, n) == Pushed(w, v);
    var o := n.args[0];
    assert Children(n)[1] == o;
    wo := PassStep(form, v, o);
    assert wo.Obj?;
    ObjChildren(o);
    ObjChildren(wo);
    assert w.args[0] == Children(w)[1] == Map(f, o) == wo;
  }

  // ---------------------------------------------------------------------------
  // The rule

  /** The property at `c` taken out of the object literal holding it. */
  function RemoveProp(t: Node, c: Path): (r: Node)
    requires InObject(t, c) && c[|c| - 1] < |Children(At(t, c[..|c| - 1]))|
  {
    var parent := c[..|c| - 1];
    var ps := At(t, parent).props;
    var idx := c[|c| - 1];
    Replace(t, parent, Obj(ps[..idx] + ps[idx + 1..]))
  }

  /**
   * The tree after the property at `c` has been offered to every init call: the
   * accepting ones get it at the end of their options and, if there was one, the
   * property leaves the integration.
   */
  function Move(form: InitForm, p: Program, c: Path): (r: Node)
    requires Valid(Root(p), c) && IsTracingProp(At(Root(p), c)) && InObject(Root(p), c)
  {
    var root := Root(p);
    var v := At(root, c).value;
    var pushed := Map(PushRule(form, v), root);
    if ExistsIn(AcceptingInit(form), p) then
      ParentKept(form, v, root, c);
      RemoveProp(pushed, c)
    else pushed
  }

  /** After the pass, the parent of a property in an object literal is an object literal with a child there. */
  lemma {:induction false} ParentKept(form: InitForm, v: Node, root: Node, c: Path)
    requires Valid(root, c) && InObject(root, c)
    ensures var pushed := Map(PushRule(form, v), root);
      InObject(pushed, c) && c[|c| - 1] < |Children(At(pushed, c[..|c| - 1]))|
  {
    var f := PushRule(form, v);
    var pushed := Map(f, root);
    var parent := c[..|c| - 1];
    PushGrows(form, v);
    MapGrows(f, root);
    LastStep(root, c);
    GrowsValid(root, pushed, parent);
    GrowsObject(At(root, parent), At(pushed, parent));
  }

  /**
   * The rule on one script: nothing without an init call; otherwise the first
   * property found moves, if any init call accepts it; an init call without
   * arguments makes the rule throw once there is a property to move.
   */
  function TracingConfigRule(src: string, p: Program): (r: Outcome)
    ensures r == Unchanged <==> InitExpression(src, p).None?
    ensures r.Failed? <==>
      InitExpression(src, p).Some? && Candidates(p) != [] && ExistsIn(InitWithoutArgs(InitExpression(src, p).value), p)
    ensures r.Changed? && Candidates(p) == [] ==> r.prog == p
  {
    match InitExpression(src, p)
    case None => Unchanged
    case Some(form) =>
      var cs := Candidates(p);
      if cs == [] then Changed(p)
      else if ExistsIn(InitWithoutArgs(form), p) then Failed
      else Changed(Children(Move(form, p, cs[0])))
  }

  // ---------------------------------------------------------------------------
  // What the rule promises

  /** When no init call accepts, nothing moves. */
  lemma {:induction false} NothingMoves(src: string, p: Program)
    requires InitExpression(src, p).Some?
    requires !ExistsIn(AcceptingInit(InitExpression(src, p).value), p)
    requires !ExistsIn(InitWithoutArgs(InitExpression(src, p).value), p)
    ensures TracingConfigRule(src, p) == Changed(p)
  {
    var form := InitExpression(src, p).value;
    var cs := Candidates(p);
    if cs != [] {
      var root := Root(p);
      var v := At(root, cs[0]).value;
      var f := PushRule(form, v);
      var stays := (x: Node) => !IsAcceptingInit(form, x);
      RootExists(AcceptingInit(form), p);
      NoneEvery(stays, AcceptingInit(form), root);
      MapKeeps(f, stays, root);
    }
  }

  /**
   * Every init call that accepts ends up with the moved value, unchanged, as the last
   * property of its options, after the properties it had.
   */
  lemma {:induction false} MovedIntoInit(src: string, p: Program, ip: Path)
    requires InitExpression(src, p).Some? && Candidates(p) != []
    requires Valid(Root(p), ip) && IsAcceptingInit(InitExpression(src, p).value, At(Root(p), ip))
    ensures var form := InitExpression(src, p).value;
      var c := Candidates(p)[0];
      var v := At(Root(p), c).value;
      var pushed := Map(PushRule(form, v), Root(p));
      && Valid(pushed, ip) && At(pushed, ip).Call? && |At(pushed, ip).args| > 0
      && var o := At(pushed, ip).args[0];
      && o.Obj? && |o.props| == |At(Root(p), ip).args[0].props| + 1
      && o.props[|o.props| - 1] == TargetsProp(v)
  {
    var c := Candidates(p)[0];
    PushedInit(InitExpression(src, p).value, At(Root(p), c).value, Root(p), ip);
  }

  /** An accepting init call anywhere in a tree gets the property at the end of its options. */
  lemma {:induction false} PushedInit(form: InitForm, v: Node, root: Node, ip: Path)
    requires Valid(root, ip) && IsAcceptingInit(form, At(root, ip))
    ensures var pushed := Map(PushRule(form, v), root);
      && Valid(pushed, ip) && At(pushed, ip).Call? && |At(pushed, ip).args| > 0
      && var o := At(pushed, ip).args[0];
      && o.Obj? && |o.props| == |At(root, ip).args[0].props| + 1
      && o.props[|o.props| - 1] == TargetsProp(v)
  {
    OnOptionsObject(form, root, ip);
    PushedAt(form, v, root, ip);
    PushedOptions(form, v, At(root, ip));
  }

  /** The pass on an accepting init call appends the property to its options. */
  lemma {:induction false} PushedOptions(form: InitForm, v: Node, n: Node)
    requires IsAcceptingInit(form, n)
    ensures Map(PushRule(form, v), n).Call? && |Map(PushRule(form, v), n).args| > 0
    ensures var o := Map(PushRule(form, v), n).args[0];
      && o.Obj? && |o.props| == |n.args[0].props| + 1
      && o.props[|o.props| - 1] == TargetsProp(v)
  {
    var wo := GrownOptions(form, v, n);
  }

  /**
   * The property that moves is the first one found, and it is taken out of the object
   * holding it: that object loses exactly that property.
   */
  lemma {:induction false} RemovedFromIntegration(src: string, p: Program)
    requires InitExpression(src, p).Some? && Candidates(p) != []
    requires !ExistsIn(InitWithoutArgs(InitExpression(src, p).value), p)
    requires ExistsIn(AcceptingInit(InitExpression(src, p).value), p)
    ensures var form := InitExpression(src, p).value;
      var c := Candidates(p)[0];
      var parent := c[..|c| - 1];
      var idx := c[|c| - 1];
      var v := At(Root(p), c).value;
      var pushed := Map(PushRule(form, v), Root(p));
      var r := Move(form, p, c);
      && TracingConfigRule(src, p) == Changed(Children(r))
      && Valid(pushed, parent) && Valid(r, parent) && At(pushed, parent).Obj?
      && var before := At(pushed, parent).props;
      && idx < |before|
      && At(r, parent) == Obj(before[..idx] + before[idx + 1..])
      && before[idx] == Map(PushRule(form, v), At(Root(p), c))
      && before[idx].Prop? && before[idx].key == At(Root(p), c).key
  {
    var form := InitExpression(src, p).value;
    var c := Candidates(p)[0];
    RuleMoves(src, p);
    MoveRemoves(form, p, c);
  }

  /** With a property to move and every init call given options, the rule's result is the move. */
  lemma {:induction false} RuleMoves(src: string, p: Program)
    requires InitExpression(src, p).Some? && Candidates(p) != []
    requires !ExistsIn(InitWithoutArgs(InitExpression(src, p).value), p)
    ensures TracingConfigRule(src, p) == Changed(Children(Move(InitExpression(src, p).value, p, Candidates(p)[0])))
  {
  }

  /** When some init call accepts, the move takes the property out of its object literal. */
  lemma {:induction false} MoveRemoves(form: InitForm, p: Program, c: Path)
    requires Valid(Root(p), c) && IsTracingProp(At(Root(p), c)) && InObject(Root(p), c)
    requires ExistsIn(AcceptingInit(form), p)
    ensures var parent := c[..|c| - 1];
      var idx := c[|c| - 1];
      var v := At(Root(p), c).value;
      var pushed := Map(PushRule(form, v), Root(p));
      var r := Move(form, p, c);
      && Valid(pushed, parent) && Valid(r, parent) && At(pushed, parent).Obj?
      && var before := At(pushed, parent).props;
      && idx < |before|
      && At(r, parent) == Obj(before[..idx] + before[idx + 1..])
      && r == Replace(pushed, parent, Obj(before[..idx] + before[idx + 1..]))
      && before[idx] == Map(PushRule(form, v), At(Root(p), c))
      && before[idx].Prop? && before[idx].key == At(Root(p), c).key
  {
    var v := At(Root(p), c).value;
    var x := MoveReplaces(form, p, c);
    RemovedAt(form, v, Root(p), c);
  }

  /** The move is the tree after the pass with the parent object literal replaced by `x`, the property left out. */
  lemma {:induction false} MoveReplaces(form: InitForm, p: Program, c: Path) returns (x: Node)
    requires Valid(Root(p), c) && IsTracingProp(At(Root(p), c)) && InObject(Root(p), c)
    requires ExistsIn(AcceptingInit(form), p)
    ensures var parent := c[..|c| - 1];
      var idx := c[|c| - 1];
      var pushed := Map(PushRule(form, At(Root(p), c).value), Root(p));
      && Valid(pushed, parent) && At(pushed, parent).Obj? && idx < |At(pushed, parent).props|
      && x == Obj(At(pushed, parent).props[..idx] + At(pushed, parent).props[idx + 1..])
      && Move(form, p, c) == Replace(pushed, parent, x)
  {
    var v := At(Root(p), c).value;
    var pushed := Map(PushRule(form, v), Root(p));
    var parent := c[..|c| - 1];
    var idx := c[|c| - 1];
    ParentKept(form, v, Root(p), c);
    ObjChildren(At(pushed, parent));
    var ps := At(pushed, parent).props;
    x := Obj(ps[..idx] + ps[idx + 1..]);
    assert Move(form, p, c) == RemoveProp(pushed, c);
  }

  /** In the tree after the pass, the property at `c` is still at `c`, in its object literal. */
  lemma {:induction false} RemovedAt(form: InitForm, v: Node, root: Node, c: Path)
    requires Valid(root, c) && At(root, c).Prop? && InObject(root, c)
    ensures var pushed := Map(PushRule(form, v), root);
      var parent := c[..|c| - 1];
      var idx := c[|c| - 1];
      && Valid(pushed, parent) && At(pushed, parent).Obj?
      && var before := At(pushed, parent).props;
      && idx < |before|
      && before[idx] == Map(PushRule(form, v), At(root, c))
      && before[idx].Prop? && before[idx].key == At(root, c).key
  {
    var pushed := Map(PushRule(form, v), root);
    ParentKept(form, v, root, c);
    OnOptionsObject(form, root, c);
    PushedAt(form, v, root, c);
    LastStep(pushed, c);
    ObjChildren(At(pushed, c[..|c| - 1]));
    MapKeepsKey(form, v, At(root, c));
  }

  /**
   * In the rule's result, an init call that accepted has the moved value as the last
   * property of its options, after the properties it had, provided its options are not
   * the object the property is taken from nor inside that object.
   */
  lemma {:induction false} MovedIntoResult(src: string, p: Program, ip: Path)
    requires InitExpression(src, p).Some? && Candidates(p) != []
    requires !ExistsIn(InitWithoutArgs(InitExpression(src, p).value), p)
    requires Valid(Root(p), ip) && IsAcceptingInit(InitExpression(src, p).value, At(Root(p), ip))
    requires var c := Candidates(p)[0]; !(c[..|c| - 1] <= ip + [1])
    ensures var form := InitExpression(src, p).value;
      var c := Candidates(p)[0];
      var r := Move(form, p, c);
      var o := ip + [1];
      && TracingConfigRule(src, p) == Changed(Children(r))
      && Valid(r, o) && At(r, o).Obj?
      && |At(r, o).props| == |At(Root(p), ip).args[0].props| + 1
      && At(r, o).props[|At(r, o).props| - 1] == TargetsProp(At(Root(p), c).value)
  {
    var form := InitExpression(src, p).value;
    RuleMoves(src, p);
    MoveInto(form, p, Candidates(p)[0], ip);
  }

  /** The move, for any property that can be taken and any init call that accepts. */
  lemma {:induction false} MoveInto(form: InitForm, p: Program, c: Path, ip: Path)
    requires Valid(Root(p), c) && IsTracingProp(At(Root(p), c)) && InObject(Root(p), c)
    requires Valid(Root(p), ip) && IsAcceptingInit(form, At(Root(p), ip))
    requires !(c[..|c| - 1] <= ip + [1])
    ensures var r := Move(form, p, c);
      var o := ip + [1];
      && Valid(r, o) && At(r, o).Obj?
      && |At(r, o).props| == |At(Root(p), ip).args[0].props| + 1
      && At(r, o).props[|At(r, o).props| - 1] == TargetsProp(At(Root(p), c).value)
  {
    var root := Root(p);
    var v := At(root, c).value;
    var pushed := Map(PushRule(form, v), root);
    var parent := c[..|c| - 1];
    var k := |At(root, ip).args[0].props|;
    SomeAccepts(form, p, ip);
    var x := MoveReplaces(form, p, c);
    PushedOptionsAt(form, v, root, ip);
    LastStep(root, c);
    OptionsAfterMove(root, pushed, parent, x, ip + [1], k, TargetsProp(v));
  }

  /** An accepting init call at a path of the program is one the program has. */
  lemma {:induction false} SomeAccepts(form: InitForm, p: Program, ip: Path)
    requires Valid(Root(p), ip) && IsAcceptingInit(form, At(Root(p), ip))
    ensures ExistsIn(AcceptingInit(form), p)
  {
    FoundExists(AcceptingInit(form), Root(p), ip);
    RootExists(AcceptingInit(form), p);
  }

  /** After the pass, the options of an accepting init call end with the property. */
  lemma {:induction false} PushedOptionsAt(form: InitForm, v: Node, root: Node, ip: Path)
    requires Valid(root, ip) && IsAcceptingInit(form, At(root, ip))
    ensures var pushed := Map(PushRule(form, v), root);
      var o := ip + [1];
      && Valid(root, o) && At(root, o) == At(root, ip).args[0]
      && Valid(pushed, o) && At(pushed, o).Obj?
      && |At(pushed, o).props| == |At(root, ip).args[0].props| + 1
      && At(pushed, o).props[|At(pushed, o).props| - 1] == TargetsProp(v)
  {
    var pushed := Map(PushRule(form, v), root);
    PushedInit(form, v, root, ip);
    FirstArgStep(root, ip);
    FirstArgStep(pushed, ip);
  }

  /**
   * Taking a property out of the object literal at `parent` leaves the last property of the
   * grown options at `o` in place, provided `o` is neither that object literal nor inside it.
   */
  lemma {:induction false} OptionsAfterMove(root: Node, pushed: Node, parent: Path, x: Node, o: Path, k: nat, last: Node)
    requires Valid(root, parent) && Valid(root, o) && At(root, o).Obj? && |At(root, o).props| == k
    requires Valid(pushed, parent) && Valid(pushed, o) && At(pushed, o).Obj?
    requires |At(pushed, o).props| == k + 1 && At(pushed, o).props[k] == last
    requires !(parent <= o)
    ensures var r := Replace(pushed, parent, x);
      && Valid(r, o) && At(r, o).Obj? && |At(r, o).props| == k + 1
      && At(r, o).props[k] == last
  {
    if o < parent {
      StepBelow(root, o, parent);
      ObjChildren(At(root, o));
    }
    OptionsAfterRemoval(pushed, parent, x, o, k);
  }

  /**
   * Taking a property out of an object literal at `parent` leaves the last property of the
   * object literal at `o` where it was, unless `o` is that object literal or lies inside it.
   */
  lemma {:induction false} OptionsAfterRemoval(t: Node, parent: Path, x: Node, o: Path, k: nat)
    requires Valid(t, parent) && Valid(t, o) && At(t, o).Obj? && |At(t, o).props| == k + 1
    requires !(parent <= o)
    requires o < parent ==> parent[|o|] < k
    ensures var r := Replace(t, parent, x);
      && Valid(r, o) && At(r, o).Obj? && |At(r, o).props| == k + 1
      && At(r, o).props[k] == At(t, o).props[k]
  {
    if o <= parent {
      ReplaceBelow(t, parent, x, o);
      var rest := parent[|o|..];
      assert rest[0] == parent[|o|];
      ReplaceInObject(At(t, o), rest, x, k);
    } else {
      ReplaceApart(t, parent, x, o);
    }
  }

  /** Replacing below one of the first `k` properties of an object literal keeps the last. */
  lemma {:induction false} ReplaceInObject(obj: Node, rest: Path, x: Node, k: nat)
    requires obj.Obj? && |obj.props| == k + 1 && |rest| > 0 && Valid(obj, rest) && rest[0] < k
    ensures var r := Replace(obj, rest, x);
      r.Obj? && |r.props| == k + 1 && r.props[k] == obj.props[k]
  {
    var r := Replace(obj, rest, x);
    KindObj(obj);
    KindObj(r);
    ObjChildren(obj);
    ObjChildren(r);
  }

  /** Only the options of the three integrations are ever taken. */
  lemma {:induction false} OnlyTracingIntegrations(p: Program, c: Path)
    requires c in Candidates(p)
    ensures exists at: nat :: at < |c| && Valid(Root(p), c[..at]) && IsTracingNew(At(Root(p), c[..at]))
  {
    var root := Root(p);
    assert Inside(root, c);
    var at: nat :| at <= |c| && InsideIntegration(root, c, at);
    assert c[..|c|] == c;
    assert At(root, c[..at]).New?;
    assert At(root, c).Prop?;
    assert at < |c| && Valid(root, c[..at]) && IsTracingNew(At(root, c[..at]));
  }
}

=== FILE: tracingimports.dfy ===
/**
 * The `@sentry/tracing` removal rule: imports and `require` calls of the tracing package move
 * to the SDK, and the SDK's import declarations are then merged by the rule's own, older copy
 * of the statement dedupe, which differs from the shared one in `Normaliser`.
 *
 * The dedupe is written against positions: `donors` are the positions of the retargeted
 * imports, the identifier rewrites produce a new `tree` of the same shape, and the deletions
 * and replacements of declarations are collected as `edits` that `Apply` carries out at the
 * end (a deleted path leaves a hole that the printer skips, so the positions stay valid).
 *
 * The source's choice of the namespace and of the merge target counts the retargeted imports
 * themselves; `intended` selects the corrected choice that only counts the imports the file
 * already had, and also keeps the aliased specifiers of a declaration it folds.
 */
module TracingImports {
  import opened Wrappers
  import opened Ast
  import opened Normaliser
  import opened PackageMove

  const TracingPackage := "@sentry/tracing"

  // ---------------------------------------------------------------------------
  // Specifiers

  /** A named specifier whose uses the namespace branch qualifies: no local name, or the imported one. */
  predicate Absorbs(sp: Spec) {
    sp.Named? && (sp.local == "" || sp.local == sp.imported)
  }

  /** The imported names of the absorbed specifiers, in order. */
  function AbsorbedNames(specs: seq<Spec>): (r: seq<string>)
    ensures forall x :: x in r <==> exists sp :: sp in specs && Absorbs(sp) && sp.imported == x
  {
    if |specs| == 0 then []
    else
      var rest := AbsorbedNames(specs[1..]);
      assert forall sp :: sp in specs <==> sp == specs[0] || sp in specs[1..];
      (if Absorbs(specs[0]) then [specs[0].imported] else []) + rest
  }

  /** The specifiers of a folded declaration that the corrected dedupe keeps: all but the absorbed ones. */
  function Leftover(specs: seq<Spec>): (r: seq<Spec>)
    ensures forall sp :: sp in r <==> sp in specs && !Absorbs(sp)
  {
    if |specs| == 0 then []
    else (if Absorbs(specs[0]) then [] else [specs[0]]) + Leftover(specs[1..])
  }

  predicate HasNamespace(n: Node) {
    n.Import? && exists j :: 0 <= j < |n.specs| && n.specs[j].Namespace?
  }

  /** The local name of the first namespace specifier. */
  function NamespaceLocal(specs: seq<Spec>): (r: string)
    requires exists j :: 0 <= j < |specs| && specs[j].Namespace?
    ensures Namespace(r) in specs
  {
    if specs[0].Namespace? then specs[0].local
    else
      var j :| 0 <= j < |specs| && specs[j].Namespace?;
      assert specs[1..][j - 1] == specs[j];
      NamespaceLocal(specs[1..])
  }

  /** The alias of `import * as X`, when the declaration imports nothing else and X is not empty. */
  function LoneAlias(n: Node): Option<string> {
    if IsLoneNamespace(n) && n.specs[0].local != "" then Some(n.specs[0].local) else None
  }

  // ---------------------------------------------------------------------------
  // Identifier rewrites

  /** Every identifier `id`, whatever its parent, becomes `ns.id`. */
  function EverywhereRule(id: string, ns: string): (Node, Kind) -> Node {
    (n: Node, k: Kind) => if n == Id(id) then Member(Id(ns), Id(id)) else n
  }

  function QualifyEverywhere(p: Program, id: string, ns: string): Program {
    MapInProgram(EverywhereRule(id, ns), p)
  }

  /** After qualifying, every identifier `id` is a child of a member expression. */
  lemma {:induction false} QualifyEverywhereComplete(p: Program, id: string, ns: string)
    ensures forall o :: o in ProgramExprIds(QualifyEverywhere(p, id, ns)) && o.name == id ==> o.parent == KMember
  {
    var f := EverywhereRule(id, ns);
    var q := (n: Node, k: Kind) => !(n == Id(id) && k != KMember);
    assert EstablishesUnder(f, q) by {
      forall x: Node, k: Kind | forall i :: 0 <= i < |Children(x)| ==> EveryUnder(q, Children(x)[i], KindOf(x))
        ensures EveryUnder(q, f(x, k), k)
      {
        if x == Id(id) {
          var m := Member(Id(ns), Id(id));
          assert Children(m) == [Id(ns), Id(id)];
          assert EveryUnder(q, Id(ns), KMember) && EveryUnder(q, Id(id), KMember);
        }
      }
    }
    var r := QualifyEverywhere(p, id, ns);
    forall i | 0 <= i < |p|
      ensures forall o :: o in ExprIds(r[i], KProgram) ==> q(Id(o.name), o.parent)
    {
      MapInEstablishes(f, q, p[i], KProgram);
      EveryUnderIds(q, r[i], KProgram);
    }
  }

  /** Qualifying only adds the two identifiers of `ns.id`, both under a member expression. */
  lemma {:induction false} QualifyEverywhereExprIds(p: Program, id: string, ns: string)
    ensures ProgramExprIds(QualifyEverywhere(p, id, ns)) <= ProgramExprIds(p) + {Occ(ns, KMember), Occ(id, KMember)}
  {
    var extra := {Occ(ns, KMember), Occ(id, KMember)};
    var f := EverywhereRule(id, ns);
    forall x: string, k: Kind
      ensures ExprIds(f(Id(x), k), k) <= {Occ(x, k)} + extra
    {
      if x == id {
        var m := Member(Id(ns), Id(id));
        ExprIdsLeaf(ns, KMember);
        ExprIdsLeaf(id, KMember);
        assert Children(m) == [Id(ns), Id(id)];
        forall o | o in ExprIds(m, k)
          ensures o in extra
        {
          var i :| 0 <= i < 2 && o in ExprIds(Children(m)[i], KMember);
        }
      } else {
        ExprIdsLeaf(x, k);
      }
    }
    MapInProgramExprIds(f, p, extra);
  }

  /** The rewrite leaves import declarations alone and makes no new ones. */
  lemma {:induction false} QualifyEverywhereKeepsImports(p: Program, id: string, ns: string)
    ensures SameImports(p, QualifyEverywhere(p, id, ns))
  {
    var f := EverywhereRule(id, ns);
    forall i | 0 <= i < |p|
      ensures p[i].Import? ==> QualifyEverywhere(p, id, ns)[i] == p[i]
      ensures !p[i].Import? ==> !QualifyEverywhere(p, id, ns)[i].Import?
    {
      if p[i].Import? {
        MapInKeepsImport(f, p[i], KProgram);
      } else {
        NonImportStays(f, p[i], KProgram);
      }
    }
  }

  /** Qualifies each name of `ids` in turn. */
  function QualifyEach(p: Program, ids: seq<string>, ns: string): (r: Program)
    ensures SameImports(p, r)
    decreases |ids|
  {
    if |ids| == 0 then p
    else
      QualifyEverywhereKeepsImports(p, ids[0], ns);
      QualifyEach(QualifyEverywhere(p, ids[0], ns), ids[1..], ns)
  }

  lemma {:induction false} QualifyEverywhereQualified(p: Program, names: set<string>, id: string, ns: string)
    requires Qualified(p, names)
    ensures Qualified(QualifyEverywhere(p, id, ns), names + {id})
  {
    QualifyEverywhereExprIds(p, id, ns);
    QualifyEverywhereComplete(p, id, ns);
  }

  /** Names qualified before stay qualified, and every name of `ids` becomes qualified. */
  lemma {:induction false} QualifyEachQualified(p: Program, names: set<string>, ids: seq<string>, ns: string)
    requires Qualified(p, names)
    ensures Qualified(QualifyEach(p, ids, ns), names + (set x | x in ids))
    decreases |ids|
  {
    if |ids| > 0 {
      var q := QualifyEverywhere(p, ids[0], ns);
      QualifyEverywhereQualified(p, names, ids[0], ns);
      QualifyEachQualified(q, names + {ids[0]}, ids[1..], ns);
      assert QualifyEach(p, ids, ns) == QualifyEach(q, ids[1..], ns);
      NamesCons(names, ids);
    }
  }

  lemma {:induction false} NamesCons(names: set<string>, ids: seq<string>)
    requires |ids| > 0
    ensures names + {ids[0]} + (set x | x in ids[1..]) == names + (set x | x in ids)
  {
    assert ids == [ids[0]] + ids[1..];
  }

  // ---------------------------------------------------------------------------
  // Edits

  /** The program with the edits carried out: an edited position is replaced, or deleted by `None`. */
  function Apply(tree: Program, edits: map<nat, Option<Node>>, from: nat): (r: Program)
    requires from <= |tree|
    ensures forall x :: x in r <==>
      (exists i :: from <= i < |tree| && i !in edits && tree[i] == x)
      || (exists i :: from <= i < |tree| && i in edits && edits[i] == Some(x))
    decreases |tree| - from
  {
    if from == |tree| then []
    else
      var here := if from in edits then (if edits[from].Some? then [edits[from].value] else []) else [tree[from]];
      var rest := Apply(tree, edits, from + 1);
      assert forall x :: x in here + rest <==> x in here || x in rest;
      here + rest
  }

  /** Edits that only put import declarations in place bring in no other statement. */
  lemma {:induction false} ApplyNonImports(tree: Program, edits: map<nat, Option<Node>>, x: Node)
    requires forall i :: i in edits && edits[i].Some? ==> edits[i].value.Import?
    requires x in Apply(tree, edits, 0) && !x.Import?
    ensures x in tree
  {
    var i :| 0 <= i < |tree| && i !in edits && tree[i] == x;
  }

  lemma {:induction false} ApplyExprIds(tree: Program, edits: map<nat, Option<Node>>)
    requires forall i :: i in edits && edits[i].Some? ==> edits[i].value.Import?
    ensures ProgramExprIds(Apply(tree, edits, 0)) <= ProgramExprIds(tree)
  {
    var r := Apply(tree, edits, 0);
    forall o | o in ProgramExprIds(r)
      ensures o in ProgramExprIds(tree)
    {
      var j :| 0 <= j < |r| && o in ExprIds(r[j], KProgram);
      if !r[j].Import? {
        ApplyNonImports(tree, edits, r[j]);
        var i :| 0 <= i < |tree| && tree[i] == r[j];
      }
    }
  }

  // ---------------------------------------------------------------------------
  // The choice of namespace and merge target

  function DonorSet(donors: seq<nat>): set<nat> {
    set k | 0 <= k < |donors| :: donors[k]
  }

  /** The first import of `sdk` at or after `from`, outside `skip`, that satisfies `want`. */
  function FirstAt(q: Program, sdk: string, want: Node -> bool, skip: set<nat>, from: nat): (r: Option<nat>)
    requires from <= |q|
    ensures r.Some? ==> from <= r.value < |q| && r.value !in skip && IsImportOf(q[r.value], sdk) && want(q[r.value])
    ensures r.Some? ==> forall i :: from <= i < r.value && i !in skip && IsImportOf(q[i], sdk) ==> !want(q[i])
    ensures r.None? ==> forall i :: from <= i < |q| && i !in skip && IsImportOf(q[i], sdk) ==> !want(q[i])
    decreases |q| - from
  {
    if from == |q| then None
    else if from !in skip && IsImportOf(q[from], sdk) && want(q[from]) then Some(from)
    else FirstAt(q, sdk, want, skip, from + 1)
  }

  /** The positions the choice of namespace and target passes over: none as written, the donors when corrected. */
  function Skipped(donors: seq<nat>, intended: bool): set<nat> {
    if intended then DonorSet(donors) else {}
  }

  /** The SDK import whose namespace the namespace branch uses, if the branch runs. */
  function NamespaceAt(q: Program, sdk: string, donors: seq<nat>, intended: bool): Option<nat> {
    FirstAt(q, sdk, HasNamespace, Skipped(donors, intended), 0)
  }

  /** The SDK import the named branch merges into, if any. */
  function TargetAt(q: Program, sdk: string, donors: seq<nat>, intended: bool): Option<nat> {
    FirstAt(q, sdk, HasNamedSpec, Skipped(donors, intended), 0)
  }

  predicate ValidDonors(q: Program, sdk: string, donors: seq<nat>) {
    forall k :: 0 <= k < |donors| ==> donors[k] < |q| && IsImportOf(q[donors[k]], sdk)
  }

  // ---------------------------------------------------------------------------
  // Namespace branch

  /**
   * Folds one donor `x` into the namespace `ns`: its absorbed names are qualified everywhere,
   * and then, for a lone namespace donor, the uses of its alias under a member expression or
   * a qualified type name become `ns`. The flag says whether the donor's declaration goes.
   */
  function FoldDonor(tree: Program, x: Node, ns: string): (r: (Program, bool))
    requires x.Import?
    ensures SameImports(tree, r.0)
    ensures r.1 <==> |AbsorbedNames(x.specs)| > 0 || (LoneAlias(x).Some? && HasUseUnder(tree, LoneAlias(x).value))
  {
    var names := AbsorbedNames(x.specs);
    if |names| > 0 then (QualifyEach(tree, names, ns), true)
    else match LoneAlias(x)
      case Some(alias) =>
        if HasUseUnder(tree, alias) then
          RewritesKeepImports(tree, alias, ns);
          (RenameUnder(tree, alias, ns), true)
        else (tree, false)
      case None => (tree, false)
  }

  /** Folding a donor keeps qualified names qualified and qualifies the names it absorbs. */
  lemma {:induction false} FoldDonorQualified(tree: Program, x: Node, ns: string, names: set<string>)
    requires x.Import? && Qualified(tree, names)
    ensures Qualified(FoldDonor(tree, x, ns).0, (names + (set y | y in AbsorbedNames(x.specs))) - {ns})
  {
    var absorbed := AbsorbedNames(x.specs);
    var all := names + (set y | y in absorbed);
    if |absorbed| > 0 {
      QualifyEachQualified(tree, names, absorbed, ns);
      QualifiedSubset(QualifyEach(tree, absorbed, ns), QualifyEach(tree, absorbed, ns), all, all - {ns});
    } else {
      assert all == names;
      QualifiedSubset(tree, tree, all, all - {ns});
      if LoneAlias(x).Some? && HasUseUnder(tree, LoneAlias(x).value) {
        RenameUnderQualified(tree, all - {ns}, LoneAlias(x).value, ns);
      }
    }
  }

  /** What becomes of a folded donor's declaration: deleted as written; reduced to its leftover when corrected. */
  function FoldedEdit(sdk: string, x: Node, intended: bool): Option<Node>
    requires x.Import?
  {
    if intended && |AbsorbedNames(x.specs)| > 0 && Leftover(x.specs) != [] then Some(Import(sdk, Leftover(x.specs)))
    else None
  }

  /** An edit the dedupe may make at `d`: only at a donor, and a replacement only by an import of `sdk`. */
  predicate EditOk(q: Program, sdk: string, donors: seq<nat>, d: nat, e: Option<Node>, intended: bool) {
    && d in donors && d < |q| && IsImportOf(q[d], sdk)
    && (e.Some? ==> intended && e.value == Import(sdk, Leftover(q[d].specs)))
    && (e.None? ==> !intended || Leftover(q[d].specs) == [] || IsLoneNamespace(q[d]))
  }

  /** The names absorbed from the first `k` donors. */
  function FoldedNames(q: Program, donors: seq<nat>, k: nat): set<string> {
    set j, y | 0 <= j < k && j < |donors| && donors[j] < |q| && q[donors[j]].Import? && y in AbsorbedNames(q[donors[j]].specs) :: y
  }

  /** What holds after the first `k` donors are folded. */
  predicate FoldInv(q: Program, sdk: string, donors: seq<nat>, ns: string, k: nat,
                    tree: Program, edits: map<nat, Option<Node>>, intended: bool) {
    && k <= |donors|
    && SameImports(q, tree)
    && (forall d :: d in edits ==> EditOk(q, sdk, donors, d, edits[d], intended))
    && Qualified(tree, FoldedNames(q, donors, k) - {ns})
  }

  lemma {:induction false} FoldedNamesNext(q: Program, sdk: string, donors: seq<nat>, k: nat)
    requires ValidDonors(q, sdk, donors) && k < |donors|
    ensures FoldedNames(q, donors, k + 1) == FoldedNames(q, donors, k) + (set y | y in AbsorbedNames(q[donors[k]].specs))
  {
  }

  lemma {:induction false} FoldStepQualified(q: Program, sdk: string, donors: seq<nat>, ns: string, k: nat, tree: Program)
    requires ValidDonors(q, sdk, donors) && k < |donors|
    requires Qualified(tree, FoldedNames(q, donors, k) - {ns})
    ensures Qualified(FoldDonor(tree, q[donors[k]], ns).0, FoldedNames(q, donors, k + 1) - {ns})
  {
    var x := q[donors[k]];
    var before := FoldedNames(q, donors, k) - {ns};
    var absorbed := set y | y in AbsorbedNames(x.specs);
    FoldDonorQualified(tree, x, ns, before);
    FoldedNamesNext(q, sdk, donors, k);
    assert (before + absorbed) - {ns} == FoldedNames(q, donors, k + 1) - {ns};
  }

  lemma {:induction false} FoldStepEdit(q: Program, sdk: string, donors: seq<nat>, k: nat, intended: bool)
    requires ValidDonors(q, sdk, donors) && k < |donors|
    ensures var x := q[donors[k]];
      |AbsorbedNames(x.specs)| > 0 || IsLoneNamespace(x) ==>
      EditOk(q, sdk, donors, donors[k], FoldedEdit(sdk, x, intended), intended)
  {
    var x := q[donors[k]];
    assert donors[k] in donors;
  }

  lemma {:induction false} FoldStep(q: Program, sdk: string, donors: seq<nat>, ns: string, k: nat,
                 tree: Program, edits: map<nat, Option<Node>>, intended: bool)
    requires ValidDonors(q, sdk, donors) && k < |donors|
    requires FoldInv(q, sdk, donors, ns, k, tree, edits, intended)
    ensures var d := donors[k];
      var step := FoldDonor(tree, q[d], ns);
      FoldInv(q, sdk, donors, ns, k + 1, step.0,
              if step.1 then edits[d := FoldedEdit(sdk, q[d], intended)] else edits, intended)
  {
    var d := donors[k];
    var step := FoldDonor(tree, q[d], ns);
    FoldStepQualified(q, sdk, donors, ns, k, tree);
    FoldStepEdit(q, sdk, donors, k, intended);
  }

  lemma {:induction false} FoldStart(q: Program, sdk: string, donors: seq<nat>, ns: string, intended: bool)
    requires ValidDonors(q, sdk, donors)
    ensures FoldInv(q, sdk, donors, ns, 0, q, map[], intended)
  {
    assert FoldedNames(q, donors, 0) == {};
  }

  /** Folds the donors from the `k`-th on, in document order. */
  function FoldFrom(q: Program, sdk: string, donors: seq<nat>, ns: string, k: nat,
                    tree: Program, edits: map<nat, Option<Node>>, intended: bool)
    : (r: (Program, map<nat, Option<Node>>))
    requires ValidDonors(q, sdk, donors)
    requires FoldInv(q, sdk, donors, ns, k, tree, edits, intended)
    ensures FoldInv(q, sdk, donors, ns, |donors|, r.0, r.1, intended)
    decreases |donors| - k
  {
    if k == |donors| then (tree, edits)
    else
      var d := donors[k];
      var step := FoldDonor(tree, q[d], ns);
      FoldStep(q, sdk, donors, ns, k, tree, edits, intended);
      FoldFrom(q, sdk, donors, ns, k + 1, step.0,
               if step.1 then edits[d := FoldedEdit(sdk, q[d], intended)] else edits, intended)
  }

  /** With a single donor the fold is one step. */
  lemma {:induction false} FoldFromOne(q: Program, sdk: string, donors: seq<nat>, ns: string,
                    tree: Program, edits: map<nat, Option<Node>>, intended: bool)
    requires ValidDonors(q, sdk, donors) && |donors| == 1
    requires FoldInv(q, sdk, donors, ns, 0, tree, edits, intended)
    ensures var step := FoldDonor(tree, q[donors[0]], ns);
      FoldFrom(q, sdk, donors, ns, 0, tree, edits, intended)
      == (step.0, if step.1 then edits[donors[0] := FoldedEdit(sdk, q[donors[0]], intended)] else edits)
  {
    FoldStep(q, sdk, donors, ns, 0, tree, edits, intended);
  }

  // ---------------------------------------------------------------------------
  // Named branch

  /**
   * The specifiers the donors hand to the merge target, in document order. A donor with a
   * namespace specifier keeps its declaration; as written the branch only runs when no
   * import of the SDK has one, so there the exception is empty.
   */
  function Donated(q: Program, donors: seq<nat>): seq<Spec>
    requires forall k :: 0 <= k < |donors| ==> donors[k] < |q| && q[donors[k]].Import?
  {
    if |donors| == 0 then []
    else (if HasNamespace(q[donors[0]]) then [] else q[donors[0]].specs) + Donated(q, donors[1..])
  }

  lemma {:induction false} DonatedHas(q: Program, donors: seq<nat>, d: nat, sp: Spec)
    requires forall k :: 0 <= k < |donors| ==> donors[k] < |q| && q[donors[k]].Import?
    requires d in donors && d < |q| && !HasNamespace(q[d]) && sp in q[d].specs
    ensures sp in Donated(q, donors)
  {
    if donors[0] != d {
      assert d in donors[1..];
      DonatedHas(q, donors[1..], d, sp);
    }
  }

  /** The edits of the named branch: donors without a namespace go, and the target gets their specifiers. */
  function MergeEdits(sdk: string, q: Program, donors: seq<nat>, t: nat): (r: map<nat, Option<Node>>)
    requires ValidDonors(q, sdk, donors) && t < |q| && IsImportOf(q[t], sdk)
    ensures forall d :: d in donors && d < |q| && !HasNamespace(q[d]) && d != t ==> d in r && r[d] == None
    ensures t in r && (t in donors ==> r[t] == None)
    ensures t !in donors ==> r[t] == Some(Import(sdk, q[t].specs + Donated(q, donors)))
    ensures forall d :: d in r ==> d == t || (d in donors && d < |q| && !HasNamespace(q[d]))
  {
    var gone := map d | d in donors && d < |q| && !HasNamespace(q[d]) :: None;
    if t in donors then gone[t := None]
    else gone[t := Some(Import(sdk, q[t].specs + Donated(q, donors)))]
  }

  // ---------------------------------------------------------------------------
  // The dedupe

  /** The specifier `sp` of the import at `i` is meant to disappear: the namespace branch folded it. */
  predicate FoldedAway(q: Program, sdk: string, donors: seq<nat>, intended: bool, i: nat, sp: Spec)
    requires i < |q|
  {
    NamespaceAt(q, sdk, donors, intended).Some? && i in donors && (Absorbs(sp) || IsLoneNamespace(q[i]))
  }

  /**
   * Merges the imports of `sdk` after the imports at `donors` were retargeted to it: with a
   * namespace import the donors fold into its namespace, otherwise the first import with a
   * named specifier absorbs them, and with neither nothing changes.
   */
  function Dedupe(sdk: string, q: Program, donors: seq<nat>, intended: bool): (r: Program)
    requires ValidDonors(q, sdk, donors)
    ensures forall x: Node :: x.Import? && !IsImportOf(x, sdk) ==> (x in r <==> x in q)
    ensures NamespaceAt(q, sdk, donors, intended).None? && TargetAt(q, sdk, donors, intended).None? ==> r == q
    ensures NamespaceAt(q, sdk, donors, intended).Some? ==>
      Qualified(r, FoldedNames(q, donors, |donors|) - {NamespaceLocal(q[NamespaceAt(q, sdk, donors, intended).value].specs)})
    ensures intended ==> forall i, sp :: 0 <= i < |q| && IsImportOf(q[i], sdk) && sp in q[i].specs ==>
              sp in PkgSpecs(r, sdk) || FoldedAway(q, sdk, donors, intended, i, sp)
    ensures intended && NamespaceAt(q, sdk, donors, intended).Some? ==>
      q[NamespaceAt(q, sdk, donors, intended).value] in r
  {
    match NamespaceAt(q, sdk, donors, intended)
    case Some(k) => FoldBranch(sdk, q, donors, intended, k)
    case None =>
      match TargetAt(q, sdk, donors, intended)
      case Some(t) =>
        var r := Apply(q, MergeEdits(sdk, q, donors, t), 0);
        MergedFacts(sdk, q, donors, intended, t, r);
        r
      case None =>
        SpecsPresent(q, sdk);
        q
  }

  /** The namespace branch of `Dedupe`: every donor folds into the namespace of the import at `k`. */
  function FoldBranch(sdk: string, q: Program, donors: seq<nat>, intended: bool, k: nat): (r: Program)
    requires ValidDonors(q, sdk, donors)
    requires NamespaceAt(q, sdk, donors, intended) == Some(k)
    ensures forall x: Node :: x.Import? && !IsImportOf(x, sdk) ==> (x in r <==> x in q)
    ensures Qualified(r, FoldedNames(q, donors, |donors|) - {NamespaceLocal(q[k].specs)})
    ensures intended ==> forall i, sp :: 0 <= i < |q| && IsImportOf(q[i], sdk) && sp in q[i].specs ==>
              sp in PkgSpecs(r, sdk) || FoldedAway(q, sdk, donors, intended, i, sp)
    ensures intended ==> q[k] in r
  {
    var ns := NamespaceLocal(q[k].specs);
    FoldStart(q, sdk, donors, ns, intended);
    var folded := FoldFrom(q, sdk, donors, ns, 0, q, map[], intended);
    FoldedFacts(sdk, q, donors, intended, k, folded.0, folded.1);
    Apply(folded.0, folded.1, 0)
  }

  lemma {:induction false} SpecsPresent(q: Program, sdk: string)
    ensures forall i, sp :: 0 <= i < |q| && IsImportOf(q[i], sdk) && sp in q[i].specs ==> sp in PkgSpecs(q, sdk)
  {
    forall i, sp | 0 <= i < |q| && IsImportOf(q[i], sdk) && sp in q[i].specs
      ensures sp in PkgSpecs(q, sdk)
    {
      PkgSpecsHas(q, sdk, q[i], sp);
    }
  }

  /** The namespace branch's result, from the fold's invariant. */
  lemma {:induction false} FoldedFacts(sdk: string, q: Program, donors: seq<nat>, intended: bool, k: nat,
                    tree: Program, edits: map<nat, Option<Node>>)
    requires ValidDonors(q, sdk, donors)
    requires NamespaceAt(q, sdk, donors, intended) == Some(k)
    requires FoldInv(q, sdk, donors, NamespaceLocal(q[k].specs), |donors|, tree, edits, intended)
    ensures var r := Apply(tree, edits, 0);
      && (forall x: Node :: x.Import? && !IsImportOf(x, sdk) ==> (x in r <==> x in q))
      && Qualified(r, FoldedNames(q, donors, |donors|) - {NamespaceLocal(q[k].specs)})
      && (intended ==> forall i, sp :: 0 <= i < |q| && IsImportOf(q[i], sdk) && sp in q[i].specs ==>
            sp in PkgSpecs(r, sdk) || FoldedAway(q, sdk, donors, intended, i, sp))
      && (intended ==> q[k] in r)
  {
    var r := Apply(tree, edits, 0);
    ApplyExprIds(tree, edits);
    KeptForeign(sdk, q, tree, edits);
    if intended {
      assert k !in DonorSet(donors);
      assert k !in edits;
      assert tree[k] == q[k];
      forall i, sp | 0 <= i < |q| && IsImportOf(q[i], sdk) && sp in q[i].specs
        ensures sp in PkgSpecs(r, sdk) || FoldedAway(q, sdk, donors, intended, i, sp)
      {
        if i !in edits {
          assert tree[i] == q[i];
          PkgSpecsHas(r, sdk, q[i], sp);
        } else if edits[i].Some? {
          assert sp in Leftover(q[i].specs) || Absorbs(sp);
          if !Absorbs(sp) {
            PkgSpecsHas(r, sdk, edits[i].value, sp);
          }
        } else {
          assert EditOk(q, sdk, donors, i, edits[i], intended);
          assert !Absorbs(sp) ==> sp in Leftover(q[i].specs);
        }
      }
    }
  }

  /** Imports of other packages are neither lost nor brought in by edits confined to imports of `sdk`. */
  lemma {:induction false} KeptForeign(sdk: string, q: Program, tree: Program, edits: map<nat, Option<Node>>)
    requires SameImports(q, tree)
    requires forall d :: d in edits ==> d < |q| && IsImportOf(q[d], sdk)
    requires forall d :: d in edits && edits[d].Some? ==> IsImportOf(edits[d].value, sdk)
    ensures forall x: Node :: x.Import? && !IsImportOf(x, sdk) ==> (x in Apply(tree, edits, 0) <==> x in q)
  {
    var r := Apply(tree, edits, 0);
    forall x: Node | x.Import? && !IsImportOf(x, sdk)
      ensures x in r <==> x in q
    {
      if x in q {
        var i :| 0 <= i < |q| && q[i] == x;
        assert i !in edits && tree[i] == x;
      }
      if x in r {
        var i :| 0 <= i < |tree| && i !in edits && tree[i] == x;
        assert q[i] == x;
      }
    }
  }

  /** The named branch's result. */
  lemma {:induction false} MergedFacts(sdk: string, q: Program, donors: seq<nat>, intended: bool, t: nat, r: Program)
    requires ValidDonors(q, sdk, donors)
    requires NamespaceAt(q, sdk, donors, intended).None?
    requires TargetAt(q, sdk, donors, intended) == Some(t)
    requires r == Apply(q, MergeEdits(sdk, q, donors, t), 0)
    ensures forall x: Node :: x.Import? && !IsImportOf(x, sdk) ==> (x in r <==> x in q)
    ensures intended ==> forall i, sp :: 0 <= i < |q| && IsImportOf(q[i], sdk) && sp in q[i].specs ==> sp in PkgSpecs(r, sdk)
  {
    var edits := MergeEdits(sdk, q, donors, t);
    KeptForeign(sdk, q, q, edits);
    if intended {
      assert t !in DonorSet(donors);
      var merged := Import(sdk, q[t].specs + Donated(q, donors));
      assert merged in r;
      forall i, sp | 0 <= i < |q| && IsImportOf(q[i], sdk) && sp in q[i].specs
        ensures sp in PkgSpecs(r, sdk)
      {
        if i == t {
          PkgSpecsHas(r, sdk, merged, sp);
        } else if i in edits {
          DonatedHas(q, donors, i, sp);
          PkgSpecsHas(r, sdk, merged, sp);
        } else {
          PkgSpecsHas(r, sdk, q[i], sp);
        }
      }
    }
  }

  // ---------------------------------------------------------------------------
  // The rule

  /**
   * Retargets the imports of the tracing package to `sdk`, dedupes when at least one was
   * retargeted, then retargets `require("@sentry/tracing")`. The runner skips the rule when
   * no SDK was chosen.
   */
  function TracingRule(sdk: string, p: Program, intended: bool): (r: Outcome)
    ensures r.Unchanged? <==> sdk == ""
    ensures r.Changed? <==> sdk != ""
    ensures r.Changed? && sdk != TracingPackage ==> Gone(r.prog, TracingPackage)
    ensures r.Changed? ==> forall x: Node :: x.Import? && !IsImportOf(x, sdk) && !IsImportOf(x, TracingPackage) ==>
              (x in r.prog <==> x in p)
  {
    if sdk == "" then Unchanged
    else
      var q := Merged(sdk, p, intended);
      var out := RewriteCjsRequires(TracingPackage, sdk, q).0;
      RuleImports(sdk, p, RewriteEsmImports(TracingPackage, sdk, p).0, q, out);
      Changed(out)
  }

  /** With an SDK chosen, the rule's result is the merged file with its `require` calls retargeted. */
  lemma {:induction false} TracingRuleChanged(sdk: string, p: Program, intended: bool)
    requires sdk != ""
    ensures TracingRule(sdk, p, intended) == Changed(RewriteCjsRequires(TracingPackage, sdk, Merged(sdk, p, intended)).0)
  {
  }

  /** The file after the ESM imports are retargeted and, when any was, deduped. */
  function Merged(sdk: string, p: Program, intended: bool): (r: Program)
    ensures forall x: Node :: x.Import? && !IsImportOf(x, sdk) ==>
              (x in r <==> x in RewriteEsmImports(TracingPackage, sdk, p).0)
  {
    var esm := RewriteEsmImports(TracingPackage, sdk, p);
    if |esm.1| > 0 then Dedupe(sdk, esm.0, esm.1, intended) else esm.0
  }

  lemma {:induction false} RuleImports(sdk: string, p: Program, retargeted: Program, q: Program, out: Program)
    requires retargeted == RewriteEsmImports(TracingPackage, sdk, p).0
    requires forall x: Node :: x.Import? && !IsImportOf(x, sdk) ==> (x in q <==> x in retargeted)
    requires out == RewriteCjsRequires(TracingPackage, sdk, q).0
    ensures sdk != TracingPackage ==> Gone(out, TracingPackage)
    ensures forall x: Node :: x.Import? && !IsImportOf(x, sdk) && !IsImportOf(x, TracingPackage) ==>
              (x in out <==> x in p)
  {
    RewriteCjsRequiresKeepsImports(TracingPackage, sdk, q);
    forall x: Node | x.Import? && !IsImportOf(x, sdk)
      ensures x in out <==> x in q
    {
      if x in q {
        var i :| 0 <= i < |q| && q[i] == x;
        assert out[i] == x;
      }
      if x in out {
        var i :| 0 <= i < |out| && out[i] == x;
        assert q[i] == x;
      }
    }
    forall x: Node | x.Import? && !IsImportOf(x, sdk) && !IsImportOf(x, TracingPackage)
      ensures x in retargeted <==> x in p
    {
      if x in p {
        var i :| 0 <= i < |p| && p[i] == x;
        assert retargeted[i] == x;
      }
      if x in retargeted {
        var i :| 0 <= i < |retargeted| && retargeted[i] == x;
        assert p[i] == x;
      }
    }
    if sdk != TracingPackage {
      forall i | 0 <= i < |out|
        ensures !IsImportOf(out[i], TracingPackage)
      {
        if out[i].Import? && !IsImportOf(out[i], sdk) {
          assert out[i] in out;
          var j :| 0 <= j < |retargeted| && retargeted[j] == out[i];
          assert !IsImportOf(p[j], TracingPackage);
        }
      }
    }
  }

  /** The dedupe runs only after an import was retargeted: otherwise only requires change. */
  lemma {:induction false} NoImportsOnlyRequires(sdk: string, p: Program, intended: bool)
    requires sdk != ""
    requires forall i :: 0 <= i < |p| ==> !IsImportOf(p[i], TracingPackage)
    ensures TracingRule(sdk, p, intended) == Changed(RewriteCjsRequires(TracingPackage, sdk, p).0)
  {
    NoPositions(p, TracingPackage, 0);
    assert RewriteEsmImports(TracingPackage, sdk, p).0 == p;
  }

  // ---------------------------------------------------------------------------
  // What the corrected dedupe keeps

  /** Retargeting `require` calls keeps every import declaration where it is. */
  lemma {:induction false} CjsKeepsImports(sdk: string, q: Program)
    ensures PkgSpecs(RewriteCjsRequires(TracingPackage, sdk, q).0, sdk) == PkgSpecs(q, sdk)
    ensures forall x :: x in q && x.Import? ==> x in RewriteCjsRequires(TracingPackage, sdk, q).0
  {
    var out := RewriteCjsRequires(TracingPackage, sdk, q).0;
    RewriteCjsRequiresKeepsImports(TracingPackage, sdk, q);
    assert SameImports(q, out);
    SameImportsViews(q, out, sdk);
    forall x | x in q && x.Import?
      ensures x in out
    {
      var i :| 0 <= i < |q| && q[i] == x;
      assert out[i] == x;
    }
  }

  /** The specifiers of the imports of either package, as the retargeting leaves them. */
  lemma {:induction false} RetargetedSpecifier(sdk: string, p: Program, i: nat)
    requires sdk != TracingPackage && i < |p|
    requires IsImportOf(p[i], sdk) || IsImportOf(p[i], TracingPackage)
    ensures var esm := RewriteEsmImports(TracingPackage, sdk, p);
      && IsImportOf(esm.0[i], sdk) && esm.0[i].specs == p[i].specs
      && (i in esm.1 <==> IsImportOf(p[i], TracingPackage))
  {
  }

  /**
   * With the corrected dedupe, an aliased or default specifier of an import of the SDK or of
   * the tracing package is never lost, unless it is the only specifier of a namespace import.
   */
  lemma {:induction false} IntendedKeepsSpecifiers(sdk: string, p: Program, i: nat, sp: Spec)
    requires sdk != "" && sdk != TracingPackage && i < |p|
    requires IsImportOf(p[i], sdk) || IsImportOf(p[i], TracingPackage)
    requires sp in p[i].specs && !Absorbs(sp) && !IsLoneNamespace(p[i])
    ensures sp in PkgSpecs(TracingRule(sdk, p, true).prog, sdk)
  {
    var esm := RewriteEsmImports(TracingPackage, sdk, p);
    RetargetedSpecifier(sdk, p, i);
    var q := Merged(sdk, p, true);
    if |esm.1| == 0 {
      PkgSpecsHas(esm.0, sdk, esm.0[i], sp);
    } else {
      assert sp in PkgSpecs(q, sdk) || FoldedAway(esm.0, sdk, esm.1, true, i, sp);
    }
    CjsKeepsImports(sdk, q);
  }

  /**
   * With the corrected dedupe and no namespace import of the SDK in the file, the retargeted
   * declarations merge without losing a specifier.
   */
  lemma {:induction false} IntendedKeepsAllWithoutNamespace(sdk: string, p: Program, i: nat, sp: Spec)
    requires sdk != "" && sdk != TracingPackage && i < |p|
    requires forall j :: 0 <= j < |p| && IsImportOf(p[j], sdk) ==> !HasNamespace(p[j])
    requires IsImportOf(p[i], sdk) || IsImportOf(p[i], TracingPackage)
    requires sp in p[i].specs
    ensures sp in PkgSpecs(TracingRule(sdk, p, true).prog, sdk)
  {
    var esm := RewriteEsmImports(TracingPackage, sdk, p);
    RetargetedSpecifier(sdk, p, i);
    var q := Merged(sdk, p, true);
    if |esm.1| == 0 {
      PkgSpecsHas(esm.0, sdk, esm.0[i], sp);
    } else {
      assert NamespaceAt(esm.0, sdk, esm.1, true).None? by {
        forall j | 0 <= j < |esm.0| && j !in DonorSet(esm.1) && IsImportOf(esm.0[j], sdk)
          ensures !HasNamespace(esm.0[j])
        {
          assert j !in esm.1;
          assert esm.0[j] == p[j];
        }
      }
      assert sp in PkgSpecs(q, sdk) || FoldedAway(esm.0, sdk, esm.1, true, i, sp);
    }
    CjsKeepsImports(sdk, q);
  }

  /**
   * With the corrected dedupe, the SDK's namespace import that the namespace branch folds
   * into stays in the file, so the namespace every rewritten use refers to stays bound.
   */
  lemma {:induction false} IntendedKeepsNamespaceImport(sdk: string, p: Program, i: nat)
    requires sdk != "" && sdk != TracingPackage && i < |p|
    requires IsImportOf(p[i], sdk) && HasNamespace(p[i])
    ensures exists x :: x in TracingRule(sdk, p, true).prog && IsImportOf(x, sdk) && HasNamespace(x)
  {
    var esm := RewriteEsmImports(TracingPackage, sdk, p);
    RetargetedSpecifier(sdk, p, i);
    var q := Merged(sdk, p, true);
    var x: Node;
    if |esm.1| == 0 {
      x := esm.0[i];
    } else {
      assert i !in DonorSet(esm.1);
      var k := NamespaceAt(esm.0, sdk, esm.1, true).value;
      x := esm.0[k];
    }
    assert x in q && IsImportOf(x, sdk) && HasNamespace(x);
    CjsKeepsImports(sdk, q);
  }

  // ---------------------------------------------------------------------------
  // The source's choices, on concrete files

  const Browser := "@sentry/browser"

  /** `import { BrowserTracing } from '@sentry/tracing'` as the whole file. */
  function OnlyImportFile(): Program {
    [Import(TracingPackage, [Named("BrowserTracing", "BrowserTracing")])]
  }

  /** The same import, retargeted to the browser SDK. */
  function OnlyImportRetargeted(): Program {
    [Import(Browser, [Named("BrowserTracing", "BrowserTracing")])]
  }

  lemma {:induction false} OnlyImportRetargets()
    ensures RewriteEsmImports(TracingPackage, Browser, OnlyImportFile()) == (OnlyImportRetargeted(), [0])
  {
    var p := OnlyImportFile();
    var esm := RewriteEsmImports(TracingPackage, Browser, p);
    assert esm.0 == OnlyImportRetargeted();
    assert esm.1 == [0] by {
      assert ImportPositions(p, TracingPackage, 1) == [];
    }
  }

  lemma {:induction false} OnlyImportMergedAsWritten()
    ensures Merged(Browser, OnlyImportFile(), false) == []
  {
    OnlyImportRetargets();
    var q := OnlyImportRetargeted();
    assert |q[0].specs| == 1 && q[0].specs[0].Named?;
    assert !HasNamespace(q[0]) && HasNamedSpec(q[0]);
    assert NamespaceAt(q, Browser, [0], false).None?;
    assert TargetAt(q, Browser, [0], false) == Some(0);
    var edits := MergeEdits(Browser, q, [0], 0);
    assert edits.Keys == {0} && edits[0] == None;
    assert Apply(q, edits, 1) == [];
  }

  lemma {:induction false} OnlyImportMergedIntended()
    ensures Merged(Browser, OnlyImportFile(), true) == OnlyImportRetargeted()
  {
    OnlyImportRetargets();
    var q := OnlyImportRetargeted();
    assert !HasNamespace(q[0]);
    assert 0 in DonorSet([0]);
    assert NamespaceAt(q, Browser, [0], true).None?;
    assert TargetAt(q, Browser, [0], true).None?;
  }

  /**
   * A file whose only import is `import { BrowserTracing } from '@sentry/tracing'`: as written,
   * the retargeted import is its own merge target, so it merges into itself and is deleted.
   */
  lemma {:induction false} AsWrittenDropsOnlyImport()
    ensures TracingRule(Browser, OnlyImportFile(), false) == Changed([])
    ensures TracingRule(Browser, OnlyImportFile(), true) == Changed(OnlyImportRetargeted())
  {
    OnlyImportRuleAsWritten();
    OnlyImportRuleIntended();
  }

  lemma {:induction false} OnlyImportRuleAsWritten()
    ensures TracingRule(Browser, OnlyImportFile(), false) == Changed([])
  {
    OnlyImportMergedAsWritten();
    TracingRuleChanged(Browser, OnlyImportFile(), false);
    RewriteCjsRequiresImportsOnly(TracingPackage, Browser, []);
  }

  lemma {:induction false} OnlyImportRuleIntended()
    ensures TracingRule(Browser, OnlyImportFile(), true) == Changed(OnlyImportRetargeted())
  {
    OnlyImportMergedIntended();
    TracingRuleChanged(Browser, OnlyImportFile(), true);
    RewriteCjsRequiresImportsOnly(TracingPackage, Browser, OnlyImportRetargeted());
  }

  /** `Tracing.addExtensionMethods()` as a statement. */
  function TracingUse(): Node {
    ExprStmt(Call(Member(Id("Tracing"), Id("addExtensionMethods")), []), [])
  }

  lemma {:induction false} TracingUsed(q: Program)
    requires |q| == 2 && q[1] == TracingUse()
    ensures HasUseUnder(q, "Tracing")
  {
    var m := Member(Id("Tracing"), Id("addExtensionMethods"));
    var c := Call(m, []);
    var o := Occ("Tracing", KMember);
    ExprIdsLeaf("Tracing", KMember);
    assert Children(m)[0] == Id("Tracing") && KindOf(m) == KMember;
    assert o in ExprIds(Children(m)[0], KindOf(m));
    assert o in ExprIds(m, KCall);
    assert Children(c)[0] == m && KindOf(c) == KCall;
    assert o in ExprIds(Children(c)[0], KindOf(c));
    assert o in ExprIds(c, KExprStmt);
    assert Children(TracingUse())[0] == c && KindOf(TracingUse()) == KExprStmt;
    assert o in ExprIds(Children(TracingUse())[0], KindOf(TracingUse()));
    assert o in ExprIds(TracingUse(), KProgram);
    assert q[1] == TracingUse();
  }

  /** `import * as Tracing from '@sentry/tracing'` followed by `Tracing.addExtensionMethods()`. */
  function NamespaceFile(): Program {
    [Import(TracingPackage, [Namespace("Tracing")]), TracingUse()]
  }

  lemma {:induction false} NamespaceFileRetargeted()
    ensures RewriteEsmImports(TracingPackage, Browser, NamespaceFile())
         == ([Import(Browser, [Namespace("Tracing")]), TracingUse()], [0])
  {
    var p := NamespaceFile();
    var esm := RewriteEsmImports(TracingPackage, Browser, p);
    assert esm.0[0] == Import(Browser, [Namespace("Tracing")]);
    assert esm.0[1] == TracingUse();
    assert ImportPositions(p, TracingPackage, 2) == [];
    assert ImportPositions(p, TracingPackage, 1) == [];
    assert ImportPositions(p, TracingPackage, 0) == [0];
    assert esm.1 == [0];
    assert esm.0 == [Import(Browser, [Namespace("Tracing")]), TracingUse()];
  }

  lemma {:induction false} NamespaceFileStep(q: Program)
    requires q == [Import(Browser, [Namespace("Tracing")]), TracingUse()]
    ensures var step := FoldDonor(q, q[0], "Tracing");
      step.1 && |step.0| == 2 && !step.0[1].Import?
  {
    TracingUsed(q);
    assert LoneAlias(q[0]) == Some("Tracing");
  }

  lemma {:induction false} NamespaceFileFold(q: Program)
    requires q == [Import(Browser, [Namespace("Tracing")]), TracingUse()]
    ensures var folded := FoldFrom(q, Browser, [0], "Tracing", 0, q, map[], false);
      folded.1 == map[0 := None] && |folded.0| == 2 && !folded.0[1].Import?
  {
    NamespaceFileStep(q);
    assert FoldedEdit(Browser, q[0], false) == None;
    FoldStart(q, Browser, [0], "Tracing", false);
    FoldFromOne(q, Browser, [0], "Tracing", q, map[], false);
  }

  lemma {:induction false} NamespaceFileAsWritten()
    ensures |Merged(Browser, NamespaceFile(), false)| == 1 && !Merged(Browser, NamespaceFile(), false)[0].Import?
  {
    NamespaceFileRetargeted();
    var q := [Import(Browser, [Namespace("Tracing")]), TracingUse()];
    assert q[0].specs[0].Namespace?;
    assert HasNamespace(q[0]);
    assert NamespaceAt(q, Browser, [0], false) == Some(0);
    assert NamespaceLocal(q[0].specs) == "Tracing";
    NamespaceFileFold(q);
    var folded := FoldFrom(q, Browser, [0], "Tracing", 0, q, map[], false);
    var tree := folded.0;
    assert Apply(tree, folded.1, 2) == [];
    assert Apply(tree, folded.1, 0) == [tree[1]];
  }

  lemma {:induction false} NamespaceFileIntended()
    ensures Merged(Browser, NamespaceFile(), true) == [Import(Browser, [Namespace("Tracing")]), TracingUse()]
  {
    NamespaceFileRetargeted();
    var q := [Import(Browser, [Namespace("Tracing")]), TracingUse()];
    assert 0 in DonorSet([0]);
    assert NamespaceAt(q, Browser, [0], true).None?;
    assert TargetAt(q, Browser, [0], true).None?;
  }

  /**
   * `import * as Tracing from '@sentry/tracing'` with a use `Tracing.addExtensionMethods()`:
   * as written the retargeted import itself supplies the namespace, so its uses are renamed to
   * themselves and the declaration is deleted; nothing binds `Tracing` any more.
   */
  lemma {:induction false} AsWrittenUnbindsNamespace()
    ensures TracingRule(Browser, NamespaceFile(), false).Changed?
    ensures |TracingRule(Browser, NamespaceFile(), false).prog| == 1
    ensures !TracingRule(Browser, NamespaceFile(), false).prog[0].Import?
    ensures Import(Browser, [Namespace("Tracing")]) in TracingRule(Browser, NamespaceFile(), true).prog
  {
    NamespaceFileAsWritten();
    RewriteCjsRequiresKeepsImports(TracingPackage, Browser, Merged(Browser, NamespaceFile(), false));
    NamespaceFileIntended();
    CjsKeepsImports(Browser, Merged(Browser, NamespaceFile(), true));
  }

  /** `import * as Sentry from '@sentry/browser'` with `import { A, B as C } from '@sentry/tracing'`. */
  function AliasFile(): Program {
    [Import(Browser, [Namespace("Sentry")]), Import(TracingPackage, [Named("A", "A"), Named("B", "C")])]
  }

  lemma {:induction false} AliasFileRetargeted()
    ensures RewriteEsmImports(TracingPackage, Browser, AliasFile())
         == ([Import(Browser, [Namespace("Sentry")]), Import(Browser, [Named("A", "A"), Named("B", "C")])], [1])
  {
    var p := AliasFile();
    var esm := RewriteEsmImports(TracingPackage, Browser, p);
    assert esm.0[0] == Import(Browser, [Namespace("Sentry")]);
    assert esm.0[1] == Import(Browser, [Named("A", "A"), Named("B", "C")]);
    assert ImportPositions(p, TracingPackage, 2) == [];
    assert ImportPositions(p, TracingPackage, 1) == [1];
    assert !IsImportOf(p[0], TracingPackage);
    assert ImportPositions(p, TracingPackage, 0) == [1];
    assert esm.0 == [Import(Browser, [Namespace("Sentry")]), Import(Browser, [Named("A", "A"), Named("B", "C")])];
  }

  lemma {:induction false} AliasFileStep(q: Program)
    requires q == [Import(Browser, [Namespace("Sentry")]), Import(Browser, [Named("A", "A"), Named("B", "C")])]
    ensures FoldDonor(q, q[1], "Sentry") == (q, true)
  {
    var specs := q[1].specs;
    assert Absorbs(specs[0]) && specs[0] in q[1].specs;
    assert |AbsorbedNames(q[1].specs)| > 0;
    var step := FoldDonor(q, q[1], "Sentry");
    assert step.0 == q;
  }

  lemma {:induction false} AliasFileFold(q: Program)
    requires q == [Import(Browser, [Namespace("Sentry")]), Import(Browser, [Named("A", "A"), Named("B", "C")])]
    ensures var folded := FoldFrom(q, Browser, [1], "Sentry", 0, q, map[], false);
      folded.0 == q && folded.1 == map[1 := None]
  {
    AliasFileStep(q);
    assert FoldedEdit(Browser, q[1], false) == None;
    FoldStart(q, Browser, [1], "Sentry", false);
    FoldFromOne(q, Browser, [1], "Sentry", q, map[], false);
  }

  lemma {:induction false} AliasFileAsWritten()
    ensures Merged(Browser, AliasFile(), false) == [Import(Browser, [Namespace("Sentry")])]
  {
    AliasFileRetargeted();
    var q := [Import(Browser, [Namespace("Sentry")]), Import(Browser, [Named("A", "A"), Named("B", "C")])];
    assert q[0].specs[0].Namespace?;
    assert HasNamespace(q[0]);
    assert NamespaceAt(q, Browser, [1], false) == Some(0);
    assert NamespaceLocal(q[0].specs) == "Sentry";
    AliasFileFold(q);
    var edits: map<nat, Option<Node>> := map[1 := None];
    assert Apply(q, edits, 2) == [];
    assert Apply(q, edits, 1) == [];
    assert Apply(q, edits, 0) == [q[0]];
  }

  /**
   * `import * as Sentry from '@sentry/browser'` with `import { A, B as C } from '@sentry/tracing'`:
   * as written, qualifying `A` deletes the whole declaration and the binding `C` is lost; the
   * corrected dedupe keeps it (`IntendedKeepsSpecifiers`).
   */
  lemma {:induction false} AsWrittenDropsAliased()
    ensures TracingRule(Browser, AliasFile(), false) == Changed([Import(Browser, [Namespace("Sentry")])])
    ensures Named("B", "C") in PkgSpecs(TracingRule(Browser, AliasFile(), true).prog, Browser)
  {
    AliasFileRuleAsWritten();
    assert AliasFile()[1].specs[1] == Named("B", "C");
    IntendedKeepsSpecifiers(Browser, AliasFile(), 1, Named("B", "C"));
  }

  lemma {:induction false} AliasFileRuleAsWritten()
    ensures TracingRule(Browser, AliasFile(), false) == Changed([Import(Browser, [Namespace("Sentry")])])
  {
    AliasFileAsWritten();
    TracingRuleChanged(Browser, AliasFile(), false);
    RewriteCjsRequiresImportsOnly(TracingPackage, Browser, [Import(Browser, [Namespace("Sentry")])]);
  }
}

=== FILE: utilexports.dfy ===
/**
 * The util exports rule: `severityFromString` becomes `severityLevelFromString`,
 * `getGlobalObject()` becomes the `GLOBAL_OBJ` constant, and `timestampWithMs`
 * becomes `timestampInSeconds`.
 */
module UtilExports {
  import opened Ast
  import opened Normaliser
  import opened Paths

  const UtilsPackage := "@sentry/utils"
  const GetGlobalObject := "getGlobalObject"
  const GlobalObj := "GLOBAL_OBJ"
  const TimestampWithMs := "timestampWithMs"
  const TimestampInSeconds := "timestampInSeconds"

  /** The one function renamed at its call sites and imports. */
  const UtilFunctionMap: map<string, string> := map["severityFromString" := "severityLevelFromString"]

  // ---------------------------------------------------------------------------
  // `getGlobalObject()` and `X.getGlobalObject()`

  /** `getGlobalObject(…)`. */
  predicate BareGlobalCall(n: Node) {
    n.Call? && n.callee == Id(GetGlobalObject)
  }

  /** `X.getGlobalObject(…)`, whatever `X` is. */
  predicate MemberGlobalCall(n: Node) {
    n.Call? && n.callee.Member? && n.callee.prop == Id(GetGlobalObject)
  }

  /** One of the two call shapes: the bare one when `member` is false. */
  predicate GlobalCall(member: bool, n: Node) {
    if member then MemberGlobalCall(n) else BareGlobalCall(n)
  }

  function GlobalCallOf(member: bool): Node -> bool {
    n => GlobalCall(member, n)
  }

  function NoGlobalCall(member: bool): Node -> bool {
    n => !GlobalCall(member, n)
  }

  /** Either call becomes the identifier `GLOBAL_OBJ`, its arguments and qualifier dropped. */
  function GlobalAt(member: bool, n: Node): Node {
    if GlobalCall(member, n) then Id(GlobalObj) else n
  }

  function GlobalRule(member: bool): Node -> Node {
    n => GlobalAt(member, n)
  }

  /** The pass for one call shape. */
  function ReplaceGlobal(member: bool, p: Program): Program {
    MapProgram(GlobalRule(member), p)
  }

  /** After its pass no call of that shape is left. */
  lemma {:induction false} ReplaceGlobalComplete(member: bool, p: Program)
    ensures !ExistsIn(GlobalCallOf(member), ReplaceGlobal(member, p))
  {
    var f, q := GlobalRule(member), NoGlobalCall(member);
    assert Establishes(f, q) by {
      forall x: Node | forall i :: 0 <= i < |Children(x)| ==> Every(q, Children(x)[i])
        ensures Every(q, f(x))
      {
        if GlobalCall(member, x) {
          assert Children(f(x)) == [];
        }
      }
    }
    forall i | 0 <= i < |p|
      ensures !Exists(GlobalCallOf(member), ReplaceGlobal(member, p)[i])
    {
      MapEstablishes(f, q, p[i]);
      EveryNotExists(q, GlobalCallOf(member), ReplaceGlobal(member, p)[i]);
    }
  }

  /** A file without such a call goes through the pass unchanged. */
  lemma {:induction false} ReplaceGlobalKeeps(member: bool, p: Program)
    requires !ExistsIn(GlobalCallOf(member), p)
    ensures ReplaceGlobal(member, p) == p
  {
    var f, q := GlobalRule(member), NoGlobalCall(member);
    assert Fixes(f, q);
    forall i | 0 <= i < |p|
      ensures ReplaceGlobal(member, p)[i] == p[i]
    {
      NoneEvery(q, GlobalCallOf(member), p[i]);
      MapKeeps(f, q, p[i]);
    }
  }

  // ---------------------------------------------------------------------------
  // Passes that cannot rebuild a `getGlobalObject` call

  /**
   * `f` never produces the identifier `getGlobalObject` from anything else, and any node
   * it changes becomes a leaf that is not a call or member access, a declarator or property
   * with the same children, or a pattern edit.
   */
  ghost predicate Harmless(f: Node -> Node) {
    && (forall y :: f(y) == Id(GetGlobalObject) ==> y == Id(GetGlobalObject))
    && (forall y ::
          || f(y) == y
          || (Children(f(y)) == [] && !f(y).Call? && !f(y).Member?)
          || ((f(y).Declarator? || f(y).Prop?) && Children(f(y)) == Children(y))
          || IsPatternEdit(y, f(y)))
  }

  lemma {:induction false} MapGlobalIdBack(f: Node -> Node, c: Node)
    requires Harmless(f)
    ensures Map(f, c) == Id(GetGlobalObject) ==> c == Id(GetGlobalObject)
  {
    var cs := Children(c);
    var y := WithChildren(c, seq(|cs|, i requires 0 <= i < |cs| => Map(f, cs[i])));
    assert Map(f, c) == f(y);
    if f(y) == Id(GetGlobalObject) {
      assert y == Id(GetGlobalObject);
      assert KindOf(y) == KindOf(c);
      assert cs == [];
    }
  }

  lemma {:induction false} MapMemberBack(f: Node -> Node, c: Node)
    requires Harmless(f)
    ensures Map(f, c).Member? && Map(f, c).prop == Id(GetGlobalObject) ==> c.Member? && c.prop == Id(GetGlobalObject)
  {
    var cs := Children(c);
    var y := WithChildren(c, seq(|cs|, i requires 0 <= i < |cs| => Map(f, cs[i])));
    assert Map(f, c) == f(y);
    if f(y).Member? && f(y).prop == Id(GetGlobalObject) {
      assert f(y) == y;
      assert KindOf(y) == KindOf(c);
      assert y.prop == Map(f, c.prop);
      MapGlobalIdBack(f, c.prop);
    }
  }

  lemma {:induction false} RebuiltNoGlobal(f: Node -> Node, member: bool, n: Node)
    requires Harmless(f)
    requires !GlobalCall(member, n)
    ensures
      var cs := Children(n);
      !GlobalCall(member, WithChildren(n, seq(|cs|, i requires 0 <= i < |cs| => Map(f, cs[i]))))
  {
    var cs := Children(n);
    var y := WithChildren(n, seq(|cs|, i requires 0 <= i < |cs| => Map(f, cs[i])));
    if y.Call? {
      assert y.callee == Map(f, n.callee);
      MapGlobalIdBack(f, n.callee);
      MapMemberBack(f, n.callee);
    }
  }

  /** A harmless pass over a tree without a call of one shape leaves none. */
  lemma {:induction false} HarmlessKeepsNoGlobal(f: Node -> Node, member: bool, n: Node)
    requires Harmless(f)
    requires !Exists(GlobalCallOf(member), n)
    ensures !Exists(GlobalCallOf(member), Map(f, n))
  {
    var cs := Children(n);
    forall i | 0 <= i < |cs|
      ensures !Exists(GlobalCallOf(member), Map(f, cs[i]))
    {
      HarmlessKeepsNoGlobal(f, member, cs[i]);
    }
    HarmlessStep(f, member, n);
  }

  lemma {:induction false} HarmlessStep(f: Node -> Node, member: bool, n: Node)
    requires Harmless(f)
    requires !GlobalCall(member, n)
    requires forall i :: 0 <= i < |Children(n)| ==> !Exists(GlobalCallOf(member), Map(f, Children(n)[i]))
    ensures !Exists(GlobalCallOf(member), Map(f, n))
  {
    var bad := GlobalCallOf(member);
    var cs := Children(n);
    var ms := seq(|cs|, i requires 0 <= i < |cs| => Map(f, cs[i]));
    var y := WithChildren(n, ms);
    assert Map(f, n) == f(y);
    assert forall i :: 0 <= i < |Children(y)| ==> !Exists(bad, Children(y)[i]);
    var z := f(y);
    if z == y {
      RebuiltNoGlobal(f, member, n);
      CleanRoot(member, y);
    } else if IsPatternEdit(y, z) {
      PatternEditClean(bad, y, z);
      CleanRoot(member, z);
    } else if Children(z) == [] && !z.Call? && !z.Member? {
      CleanRoot(member, z);
    } else {
      assert Children(z) == Children(y) && !z.Call?;
      CleanRoot(member, z);
    }
  }

  /** A node that is not such a call, over children without one, holds none. */
  lemma {:induction false} CleanRoot(member: bool, z: Node)
    requires !GlobalCall(member, z)
    requires forall i :: 0 <= i < |Children(z)| ==> !Exists(GlobalCallOf(member), Children(z)[i])
    ensures !Exists(GlobalCallOf(member), z)
  {
  }

  lemma {:induction false} HarmlessProgram(f: Node -> Node, member: bool, p: Program)
    requires Harmless(f)
    requires !ExistsIn(GlobalCallOf(member), p)
    ensures !ExistsIn(GlobalCallOf(member), MapProgram(f, p))
  {
    forall i | 0 <= i < |p|
      ensures !Exists(GlobalCallOf(member), MapProgram(f, p)[i])
    {
      HarmlessKeepsNoGlobal(f, member, p[i]);
    }
  }

  lemma {:induction false} EditsBindingsHarmless(f: Node -> Node)
    requires EditsBindingsOnly(f)
    ensures Harmless(f)
  {
    forall y
      ensures || f(y) == y
              || (Children(f(y)) == [] && !f(y).Call? && !f(y).Member?)
              || ((f(y).Declarator? || f(y).Prop?) && Children(f(y)) == Children(y))
              || IsPatternEdit(y, f(y))
    {
      if f(y) != y && y.Import? && f(y).Import? {
        assert Children(f(y)) == [];
      }
    }
  }

  /** The import renaming leaves no call of either shape where there was none. */
  lemma {:induction false} ReplaceImportedNoGlobal(src: string, m: map<string, string>, member: bool, p: Program)
    requires !ExistsIn(GlobalCallOf(member), p)
    ensures !ExistsIn(GlobalCallOf(member), ReplaceImported(src, UtilsPackage, m, p).0)
  {
    if HasImportOrRequire(src, UtilsPackage) {
      RenameImportedEditsBindings(UtilsPackage, m);
      EditsBindingsHarmless(RenameImportedRule(UtilsPackage, m));
      HarmlessProgram(RenameImportedRule(UtilsPackage, m), member, p);
      DedupeIdentifiersEditsBindings(UtilsPackage, true);
      EditsBindingsHarmless(DedupeIdentifiersRule(UtilsPackage, true));
      HarmlessProgram(DedupeIdentifiersRule(UtilsPackage, true), member, RenameImported(UtilsPackage, m, p));
    }
  }

  // ---------------------------------------------------------------------------
  // Renaming every identifier `timestampWithMs`

  /** `x` renamed when it is `a`. */
  function Swap(a: string, b: string, x: string): string {
    if x == a then b else x
  }

  function SwapSpec(a: string, b: string, sp: Spec): Spec {
    match sp
    case Named(i, l) => Named(Swap(a, b, i), Swap(a, b, l))
    case Namespace(l) => Namespace(Swap(a, b, l))
    case Default(l) => Default(Swap(a, b, l))
  }

  function SwapPatProp(a: string, b: string, pp: PatProp): PatProp {
    match pp
    case KeyValue(k, v) => KeyValue(Swap(a, b, k), Swap(a, b, v))
    case KeyPattern(k) => KeyPattern(Swap(a, b, k))
    case OtherPatProp => pp
  }

  /** `n` holds the identifier `a` directly: as itself, in a specifier, a pattern or a key. */
  predicate Holds(a: string, n: Node) {
    match n
    case Id(x) => x == a
    case Import(_, specs) => exists i :: 0 <= i < |specs| && (specs[i].local == a || (specs[i].Named? && specs[i].imported == a))
    case Declarator(PId(x), _) => x == a
    case Declarator(PObj(ps), _) => exists i :: 0 <= i < |ps| && Keyed(ps[i]) && (ps[i].key == a || (ps[i].KeyValue? && ps[i].value == a))
    case Prop(IdKey(k), _, _) => k == a
    case _ => false
  }

  function HoldsOf(a: string): Node -> bool {
    n => Holds(a, n)
  }

  function HoldsNot(a: string): Node -> bool {
    n => !Holds(a, n)
  }

  /** Every identifier `a` held directly by `n` becomes `b`; the children are untouched. */
  function SwapAt(a: string, b: string, n: Node): (r: Node)
    ensures Children(r) == Children(n)
    ensures a != b ==> !Holds(a, r)
    ensures !Holds(a, n) ==> r == n
  {
    match n
    case Id(x) => Id(Swap(a, b, x))
    case Import(s, specs) =>
      var r := Import(s, seq(|specs|, i requires 0 <= i < |specs| => SwapSpec(a, b, specs[i])));
      assert !Holds(a, n) ==> r.specs == specs;
      r
    case Declarator(PId(x), init) => Declarator(PId(Swap(a, b, x)), init)
    case Declarator(PObj(ps), init) =>
      var r := Declarator(PObj(seq(|ps|, i requires 0 <= i < |ps| => SwapPatProp(a, b, ps[i]))), init);
      assert !Holds(a, n) ==> r.id.props == ps;
      r
    case Prop(IdKey(k), v, notes) => Prop(IdKey(Swap(a, b, k)), v, notes)
    case _ => n
  }

  function SwapRule(a: string, b: string): Node -> Node {
    n => SwapAt(a, b, n)
  }

  /** `tree.find(j.Identifier, { name: a })` with every match replaced by `b`. */
  function RenameIdentifiers(a: string, b: string, p: Program): Program {
    MapProgram(SwapRule(a, b), p)
  }

  /** No identifier `a` is left once it was renamed to another name. */
  lemma {:induction false} RenameIdentifiersComplete(a: string, b: string, p: Program)
    requires a != b
    ensures !ExistsIn(HoldsOf(a), RenameIdentifiers(a, b, p))
  {
    var f, q := SwapRule(a, b), HoldsNot(a);
    assert Establishes(f, q) by {
      forall x: Node | forall i :: 0 <= i < |Children(x)| ==> Every(q, Children(x)[i])
        ensures Every(q, f(x))
      {
        assert Children(f(x)) == Children(x);
      }
    }
    forall i | 0 <= i < |p|
      ensures !Exists(HoldsOf(a), RenameIdentifiers(a, b, p)[i])
    {
      MapEstablishes(f, q, p[i]);
      EveryNotExists(q, HoldsOf(a), RenameIdentifiers(a, b, p)[i]);
    }
  }

  /** A file without the identifier `a` goes through the renaming unchanged. */
  lemma {:induction false} RenameIdentifiersKeeps(a: string, b: string, p: Program)
    requires !ExistsIn(HoldsOf(a), p)
    ensures RenameIdentifiers(a, b, p) == p
  {
    var f, q := SwapRule(a, b), HoldsNot(a);
    assert Fixes(f, q);
    forall i | 0 <= i < |p|
      ensures RenameIdentifiers(a, b, p)[i] == p[i]
    {
      NoneEvery(q, HoldsOf(a), p[i]);
      MapKeeps(f, q, p[i]);
    }
  }

  /** Renaming `timestampWithMs` never builds a `getGlobalObject` call. */
  lemma {:induction false} TimestampSwapHarmless()
    ensures Harmless(SwapRule(TimestampWithMs, TimestampInSeconds))
  {
    var f := SwapRule(TimestampWithMs, TimestampInSeconds);
    forall y
      ensures || f(y) == y
              || (Children(f(y)) == [] && !f(y).Call? && !f(y).Member?)
              || ((f(y).Declarator? || f(y).Prop?) && Children(f(y)) == Children(y))
              || IsPatternEdit(y, f(y))
    {
    }
  }

  // ---------------------------------------------------------------------------
  // `severityFromString` stays renamed

  /**
   * `f` changes a node only into one that is neither a call nor a member access, keeps its
   * children or has none, and is not an identifier the map still wants renamed.
   */
  ghost predicate KeepsFresh(m: map<string, string>, f: Node -> Node) {
    forall y :: f(y) == y || (
      && !f(y).Call? && !f(y).Member?
      && (Children(f(y)) == Children(y) || Children(f(y)) == [])
      && !(f(y).Id? && Stale(m, f(y).name)))
  }

  /** Such a pass produces a stale identifier only from that identifier itself. */
  lemma {:induction false} MapStaleIdBack(m: map<string, string>, f: Node -> Node, c: Node)
    requires KeepsFresh(m, f)
    ensures Map(f, c).Id? && Stale(m, Map(f, c).name) ==> c == Map(f, c)
  {
    var cs := Children(c);
    var y := WithChildren(c, seq(|cs|, i requires 0 <= i < |cs| => Map(f, cs[i])));
    assert Map(f, c) == f(y);
    if f(y).Id? && Stale(m, f(y).name) {
      assert f(y) == y;
      assert KindOf(y) == KindOf(c);
      assert cs == [];
      RebuildSame(c);
    }
  }

  /** A pass that keeps uses fresh leaves no stale call or member access where there was none. */
  lemma {:induction false} KeepsFreshMap(m: map<string, string>, f: Node -> Node, n: Node)
    requires KeepsFresh(m, f)
    requires !Exists(StaleUseOf(m), n)
    ensures !Exists(StaleUseOf(m), Map(f, n))
  {
    var cs := Children(n);
    forall i | 0 <= i < |cs|
      ensures !Exists(StaleUseOf(m), Map(f, cs[i]))
    {
      KeepsFreshMap(m, f, cs[i]);
    }
    KeepsFreshStep(m, f, n);
  }

  lemma {:induction false} KeepsFreshStep(m: map<string, string>, f: Node -> Node, n: Node)
    requires KeepsFresh(m, f)
    requires !StaleUse(m, n)
    requires forall i :: 0 <= i < |Children(n)| ==> !Exists(StaleUseOf(m), Map(f, Children(n)[i]))
    ensures !Exists(StaleUseOf(m), Map(f, n))
  {
    var bad := StaleUseOf(m);
    var cs := Children(n);
    var y := WithChildren(n, seq(|cs|, i requires 0 <= i < |cs| => Map(f, cs[i])));
    assert Map(f, n) == f(y);
    assert forall i :: 0 <= i < |Children(y)| ==> !Exists(bad, Children(y)[i]);
    if f(y) == y {
      if y.Call? {
        MapStaleIdBack(m, f, cs[0]);
      } else if y.Member? {
        MapStaleIdBack(m, f, cs[1]);
      }
      assert !StaleUse(m, y);
    }
  }

  lemma {:induction false} KeepsFreshProgram(m: map<string, string>, f: Node -> Node, p: Program)
    requires KeepsFresh(m, f)
    requires !ExistsIn(StaleUseOf(m), p)
    ensures !ExistsIn(StaleUseOf(m), MapProgram(f, p))
  {
    forall i | 0 <= i < |p|
      ensures !Exists(StaleUseOf(m), MapProgram(f, p)[i])
    {
      KeepsFreshMap(m, f, p[i]);
    }
  }

  /** Neither `getGlobalObject` pass nor the `timestampWithMs` renaming brings back `severityFromString`. */
  lemma {:induction false} LaterPassesKeepFresh()
    ensures KeepsFresh(UtilFunctionMap, GlobalRule(false))
    ensures KeepsFresh(UtilFunctionMap, GlobalRule(true))
    ensures KeepsFresh(UtilFunctionMap, SwapRule(TimestampWithMs, TimestampInSeconds))
  {
    forall y: Node
      ensures Children(SwapAt(TimestampWithMs, TimestampInSeconds, y)) == Children(y)
    {
    }
  }

  // ---------------------------------------------------------------------------
  // The rule

  /** The import renames to run: one per kind of rewrite that happened. */
  function ImportsToReplace(global: bool, timestamp: bool): (m: map<string, string>)
    ensures GetGlobalObject in m <==> global
    ensures TimestampWithMs in m <==> timestamp
    ensures |m| == 0 <==> !global && !timestamp
  {
    var g := if global then map[GetGlobalObject := GlobalObj] else map[];
    var m := if timestamp then g[TimestampWithMs := TimestampInSeconds] else g;
    assert global ==> GetGlobalObject in m;
    assert timestamp ==> TimestampWithMs in m;
    m
  }

  /** After both `getGlobalObject` passes, the renaming and the import fix-ups, no such call is left. */
  lemma {:induction false} PassesLeaveNoGlobal(src: string, m: map<string, string>, q1: Program)
    ensures var q2 := ReplaceGlobal(false, q1);
      var q3 := ReplaceGlobal(true, q2);
      var q4 := RenameIdentifiers(TimestampWithMs, TimestampInSeconds, q3);
      var q5 := if |m| > 0 then ReplaceImported(src, UtilsPackage, m, q4).0 else q4;
      !ExistsIn(GlobalCallOf(false), q5) && !ExistsIn(GlobalCallOf(true), q5)
  {
    var q2 := ReplaceGlobal(false, q1);
    var q3 := ReplaceGlobal(true, q2);
    var q4 := RenameIdentifiers(TimestampWithMs, TimestampInSeconds, q3);
    ReplaceGlobalComplete(false, q1);
    ReplaceGlobalComplete(true, q2);
    assert Harmless(GlobalRule(true));
    HarmlessProgram(GlobalRule(true), false, q2);
    TimestampSwapHarmless();
    HarmlessProgram(SwapRule(TimestampWithMs, TimestampInSeconds), false, q3);
    HarmlessProgram(SwapRule(TimestampWithMs, TimestampInSeconds), true, q3);
    ReplaceImportedNoGlobal(src, m, false, q4);
    ReplaceImportedNoGlobal(src, m, true, q4);
  }

  /** Without the `@sentry/utils` gate, the two call searches and the name search see the input file. */
  lemma {:induction false} UngatedFindsSame(src: string, p: Program)
    ensures !ReplaceFunctionCalls(src, UtilsPackage, UtilFunctionMap, p).1 ==>
      var q1 := ReplaceFunctionCalls(src, UtilsPackage, UtilFunctionMap, p).0;
      var bare := ExistsIn(GlobalCallOf(false), q1);
      var q2 := ReplaceGlobal(false, q1);
      var member := ExistsIn(GlobalCallOf(true), q2);
      var q3 := ReplaceGlobal(true, q2);
      var timestamp := ExistsIn(HoldsOf(TimestampWithMs), q3);
      !bare && !member && !timestamp <==>
        !ExistsIn(GlobalCallOf(false), p) && !ExistsIn(GlobalCallOf(true), p) && !ExistsIn(HoldsOf(TimestampWithMs), p)
  {
    if !ReplaceFunctionCalls(src, UtilsPackage, UtilFunctionMap, p).1 && !ExistsIn(GlobalCallOf(false), p) {
      ReplaceGlobalKeeps(false, p);
      if !ExistsIn(GlobalCallOf(true), p) {
        ReplaceGlobalKeeps(true, p);
      }
    }
  }

  /**
   * The rule on one script: the gated call renaming, the two `getGlobalObject` passes and
   * the identifier renaming, then the import renames for what they found. The file is
   * unchanged exactly when it does not pass the `@sentry/utils` gate and none of the three
   * names occurs; otherwise no `getGlobalObject` call of either shape is left.
   */
  function UtilExportsRule(src: string, p: Program): (r: Outcome)
    ensures r == Unchanged <==>
      && !HasImportOrRequire(src, UtilsPackage)
      && !ExistsIn(GlobalCallOf(false), p)
      && !ExistsIn(GlobalCallOf(true), p)
      && !ExistsIn(HoldsOf(TimestampWithMs), p)
    ensures r != Unchanged ==> r.Changed?
    ensures r.Changed? ==> !ExistsIn(GlobalCallOf(false), r.prog) && !ExistsIn(GlobalCallOf(true), r.prog)
  {
    var calls := ReplaceFunctionCalls(src, UtilsPackage, UtilFunctionMap, p);
    var q1 := calls.0;
    var bare := ExistsIn(GlobalCallOf(false), q1);
    var q2 := ReplaceGlobal(false, q1);
    var member := ExistsIn(GlobalCallOf(true), q2);
    var q3 := ReplaceGlobal(true, q2);
    var timestamp := ExistsIn(HoldsOf(TimestampWithMs), q3);
    var q4 := RenameIdentifiers(TimestampWithMs, TimestampInSeconds, q3);
    var m := ImportsToReplace(bare || member, timestamp);
    var q5 := if |m| > 0 then ReplaceImported(src, UtilsPackage, m, q4).0 else q4;
    PassesLeaveNoGlobal(src, m, q1);
    UngatedFindsSame(src, p);
    if !calls.1 && |m| == 0 then Unchanged else Changed(q5)
  }

  /**
   * In a file that passes the `@sentry/utils` gate, no call `severityFromString(…)` and no
   * member access `x.severityFromString` is left: the later passes do not bring one back.
   */
  lemma {:induction false} SeverityRenamed(src: string, p: Program)
    requires HasImportOrRequire(src, UtilsPackage)
    ensures UtilExportsRule(src, p).Changed?
    ensures !ExistsIn(StaleUseOf(UtilFunctionMap), UtilExportsRule(src, p).prog)
  {
    var q1 := ReplaceFunctionCalls(src, UtilsPackage, UtilFunctionMap, p).0;
    var q2 := ReplaceGlobal(false, q1);
    var member := ExistsIn(GlobalCallOf(true), q2);
    var q3 := ReplaceGlobal(true, q2);
    var q4 := RenameIdentifiers(TimestampWithMs, TimestampInSeconds, q3);
    var m := ImportsToReplace(ExistsIn(GlobalCallOf(false), q1) || member, ExistsIn(HoldsOf(TimestampWithMs), q3));
    assert NoChains(UtilFunctionMap);
    LaterPassesKeepFresh();
    KeepsFreshProgram(UtilFunctionMap, GlobalRule(false), q1);
    KeepsFreshProgram(UtilFunctionMap, GlobalRule(true), q2);
    KeepsFreshProgram(UtilFunctionMap, SwapRule(TimestampWithMs, TimestampInSeconds), q3);
    if |m| > 0 {
      ReplaceImportedKeepsCalls(src, UtilsPackage, m, UtilFunctionMap, q4);
    }
  }
}

=== FILE: wrappers.dfy ===
/** Optional values, as used for JavaScript `undefined` results. */
module Wrappers {

  datatype Option<+T> = None | Some(value: T) {

    /** The wrapped value, or `default` when there is none. */
    function GetOr(default: T): T {
      match this
      case Some(v) => v
      case None => default
    }
  }
}
